=== FILE: README.md ===
# my-form-react, modelled in Dafny

This project models the state logic of the React form library
`my-form-react`. Rendering is left out. What remains is modelled as pure
transition functions over immutable values:

- **Form store** (`FormStore`). This is the form provider's state: form
  id → field name → `{value, valid, invalidReason}`, the registered field
  properties, and the registered subform prefixes. Every provider
  operation is modelled, from `initialiseForm` to `deleteSubForm`.
- **Utilities** (`Utils`, `DateUtils`). These are `clsx`, `debounce` (as a
  pending-call slot), the structural `isEqual`, the `get` path lookup,
  `padDate`, `dateFormatter`, `toDateOnly` and the five day-level date
  comparators.
- **Scalar input binding** (`GeneralInput`, `Widgets`). This is the
  `useGeneralInput` hook as a record of displayed text, mirrored value and
  pending commit, stepped by `onChange`, the debounce timer, the
  reconciliation effect, registration, default seeding and unmount. It is
  instantiated for the text, password, text-area, colour, time, week,
  month, date and date-time inputs.
- **Selection bindings** (`ComboBox`, `MultiComboBox`, `Selection`). These
  are the generic, simple and column combo boxes, the multi combo box, the
  select, radio, checkbox and file inputs.
- **Date-range picker** (`DateRange`). Clicking, dragging, clearing,
  bounds, month and year navigation, reconciliation and the required
  check.
- **Wrappers** (`Form`, `SubForm`). The `<MyForm>` submit gate and the
  `<MySubForm>` prefix registration.
- **Support modules** (`Base`, `Strings`, `JsValues`, `FieldNames`). The
  JavaScript values the library handles (`undefined`, `null`, booleans,
  integers, `NaN`, strings, arrays, records, Dates). The string built-ins
  it calls (`split`, `replace` of a first occurrence, `join`, `String(n)`,
  `parseInt`, `find`, `findIndex`). The three ways inputs compose a field
  name under a subform.

Each widget is a record stepped by event functions that take and return
the store. The debounced commit is a `Debouncer` whose pending slot is
filled by a call, emptied by `cancel`, and run when the timer fires.

Where the library's documented behaviour and its code disagree, the model follows the code:

- `deleteSubForm` filters out every registration equal to the prefix, not
  only the first one (lib/MyForm/MyFormProvider.tsx:318-322).
- `getFormData` claims keys that start with `prefix + "_"` and strips
  exactly that. A combo box, radio or date range inside subform `addr`
  stores `addr__city`, which therefore comes back as `addr: {_city: …}`.
  `FieldNames.JoinedKeyUnderTag` states this.
- Inputs compose names differently. Each file's joiner is a constant (`GeneralInput.InputJoiner`, `Selection.SelectJoiner` and the like), and an input's slot is `GeneralInput.SlotIn` of that joiner:
  - `"_"`: the general input, select, file and multi combo box;
  - `"__"`: the single combo boxes, radio and date range;
  - the plain name: the checkbox, which therefore never lands in a subform's object.
- The combo boxes compose the name twice. The widget composes its key and hands it to its hook, which composes the subform id into it again. Inside subform `addr`, a choice therefore goes to `addr__addr__city` while the widget reads `addr__city`. The model gives each box two slots (`ComboBox.ComboSlots`). The as-written wiring is stated by `SlotsAsWritten`, the intended single key by `Slots`.
- The combo boxes search a state copy of their options that an effect fills after the first commit. On mount the reconciliation and default effects therefore see no options, and neither reruns when the copy arrives. `ComboBox.MountAsWritten` models this; `ComboBox.Mount` models the intended first commit.
- `getFormValid` is documented (lib/MyForm/MySubForm.tsx:19-30) and typed (lib/MyForm/MyFormContext.ts:61) as grouping subform fields into one object, as `getFormData` does. The code (lib/MyForm/MyFormProvider.tsx:199-205) returns the flat validity map. `FormStore.GetFormValid` models the code; `FormStore.GroupedFormValid` is the documented read.

## Model

| member | source | states |
|---|---|---|
| FormStore.DataToFields | lib/MyForm/MyFormProvider.tsx:7-9 | every data entry becomes a field with that value, marked valid, and no other field exists |
| FormStore.FieldsToData | lib/MyForm/MyFormProvider.tsx:10-12 | the data has exactly the fields' keys, each holding that field's value |
| FormStore.FieldsValidity | lib/MyForm/MyFormProvider.tsx:13-15 | the validity map has exactly the fields' keys, each holding that field's validity |
| FormStore.DataRoundTrip | lib/MyForm/MyFormProvider.tsx:7-12 | converting data to fields and back gives the same data |
| FormStore.InitialiseForm | lib/MyForm/MyFormProvider.tsx:27-33 | an empty id changes nothing; otherwise only that form changes, it reads back as the given data, and every field is valid |
| FormStore.UpdateField | lib/MyForm/MyFormProvider.tsx:35-73 | an empty form id or name changes nothing. Otherwise only that one field changes: an omitted value keeps the old one, and null clears it to undefined except on the skip-render path for an existing field, where null is stored. An omitted validity keeps the old one, and the invalid reason is kept |
| FormStore.UpdateFieldIdempotent | lib/MyForm/MyFormProvider.tsx:35-73 | repeating an ordinary update changes nothing more |
| FormStore.DeleteField | lib/MyForm/MyFormProvider.tsx:75-88 | the field and its properties are removed, every other field, property and form is kept, and an empty id or name changes nothing |
| FormStore.DeleteFieldIdempotent | lib/MyForm/MyFormProvider.tsx:75-88 | deleting a field twice is the same as deleting it once |
| FormStore.UpdateThenDelete | lib/MyForm/MyFormProvider.tsx:35-88 | once the form exists, deleting a field erases any ordinary update made to it before |
| FormStore.ValidateField | lib/MyForm/MyFormProvider.tsx:90-101 | only the field's validity changes, to the given one; the field is created if absent |
| FormStore.ValidateFieldReadsBack | lib/MyForm/MyFormProvider.tsx:90-101 | after validating an existing field, the validity read gives the new validity for it and the old one for every other field, and the data read is unchanged |
| FormStore.ResetForm | lib/MyForm/MyFormProvider.tsx:103-113 | the form then holds exactly the fields whose registered default is neither null nor undefined, each equal to that default and valid; nothing else changes |
| FormStore.ClearForm | lib/MyForm/MyFormProvider.tsx:115-124 | an absent form or an empty id changes nothing; a present form loses all its fields |
| FormStore.ClearFormReadsBack | lib/MyForm/MyFormProvider.tsx:115-124 | a cleared form without subforms reads back as no data and no validity, and a reset afterwards gives the same store as a reset before clearing |
| FormStore.EmptyForm | lib/MyForm/MyFormProvider.tsx:126-143 | without data, every field keeps its name and becomes undefined and valid, and an absent form becomes empty; with data, the form is initialised from it |
| FormStore.EmptyFormReadsBack | lib/MyForm/MyFormProvider.tsx:126-143 | emptied without data, a form without subforms reads back with every former field undefined and valid, and no other field |
| FormStore.DeleteForm | lib/MyForm/MyFormProvider.tsx:145-156 | the form's fields are removed; its properties, its subforms and every other form stay |
| FormStore.DeleteFormReadsBack | lib/MyForm/MyFormProvider.tsx:145-156 | a deleted form reads back as no data and no validity, and a reset afterwards gives the same store as a reset before deleting |
| FormStore.GetFormDataKeys | lib/MyForm/MyFormProvider.tsx:158-175 | one form's data holds every registered prefix and every field that no prefix claims, and nothing else |
| FormStore.GetFormDataTopLevel | lib/MyForm/MyFormProvider.tsx:165-175 | a field that no registered prefix claims appears at the top level with its value |
| FormStore.GetFormDataClaimed | lib/MyForm/MyFormProvider.tsx:165-172 | a field first claimed by the prefix at position i lands in that prefix's group, under its key with `prefix_` removed, when the prefix is registered once and no top-level field shadows it |
| FormStore.ClaimGroup | lib/MyForm/MyFormProvider.tsx:165-171 | in the claiming loop, a prefix's group holds the fields with its tag that no earlier prefix claimed |
| FormStore.InitialiseThenGetFormData | lib/MyForm/MyFormProvider.tsx:27-33 | with no subforms registered, reading a freshly initialised form gives back the data key for key |
| FormStore.GetAllFormData | lib/MyForm/MyFormProvider.tsx:176-194 | the evidently intended all-forms read: one entry per form, each equal to that form's own one-form data |
| FormStore.AllFormsMisfilesGroups | lib/MyForm/MyFormProvider.tsx:176-194 | for any form with a registered prefix, the all-forms read as written has the form's own id as a key of that form's data (a group, unless a field of that name shadows it), and no key for a prefix that differs from the id and that no field shadows, while the intended read has that prefix |
| FormStore.FormObjectsHomeShape | lib/MyForm/MyFormProvider.tsx:180-193 | data built with a home key has exactly that key and the unclaimed fields as keys |
| FormStore.GetFormValid | lib/MyForm/MyFormProvider.tsx:199-205 | one form's validity has exactly its field names, each with the field's validity; the all-forms read has one entry per form, holding exactly that form's field names, each with its validity |
| FormStore.ValidityFields | lib/MyForm/MyFormProvider.tsx:199-205 | the validity read as a field map: the same keys, each holding the field's validity as a boolean, or undefined when unset |
| FormStore.UnclaimedValidity | lib/MyForm/MyFormProvider.tsx:158-175 | the keys no prefix claims are the same for the validity map as for the fields, each holding the field's validity |
| FormStore.FormObjectsShape | lib/MyForm/MyFormProvider.tsx:158-175 | the grouped read has exactly the prefixes and the unclaimed keys; an unclaimed key holds its field's value, and a prefix that is not itself an unclaimed key holds a group |
| FormStore.GroupedValidMirrorsData | lib/MyForm/MySubForm.tsx:19-30 | the documented grouped validity read has exactly the top-level keys of getFormData; a top-level field holds its validity and a prefix holds a group |
| FormStore.ValidityIsFlatAsWritten | lib/MyForm/MyFormProvider.tsx:199-205 | for any form with a registered prefix that no field shadows, the validity read lists each field of that prefix flat and has no entry for the prefix, while the data read has the prefix |
| FormStore.SetInvalidReason | lib/MyForm/MyFormProvider.tsx:207-220 | only that field changes, its reason is set, and the form or field is created if absent |
| FormStore.SetInvalidReasonKeepsValidity | lib/MyForm/MyFormProvider.tsx:207-220 | recording a reason on an existing field records it and leaves both the validity read and the data read as they were |
| FormStore.Check | lib/MyForm/MyFormProvider.tsx:238-266 | a rejecting `required` fails the field. A reason comes only from a validator's string result. The field passes exactly when `required` accepts and the validator returns neither false nor a string |
| FormStore.RequiredShortCircuits | lib/MyForm/MyFormProvider.tsx:242-252 | a rejecting `required` decides the outcome whatever the validator would return |
| FormStore.Record | lib/MyForm/MyFormProvider.tsx:244-266 | a checked field's validity becomes the outcome; only a string result sets the reason, and an earlier reason is never removed |
| FormStore.ValidateForm | lib/MyForm/MyFormProvider.tsx:222-273 | the verdict is true exactly when the id is non-empty, the form has fields, and either no properties are registered or every field with properties passes. Only that form changes, its field names are kept, fields without properties are untouched, and each checked field records its outcome |
| FormStore.ValidateFormKeepsStaleReason | lib/MyForm/MyFormProvider.tsx:266 | a field that passes keeps the reason an earlier failure recorded |
| FormStore.SetFieldProperties | lib/MyForm/MyFormProvider.tsx:275-311 | only the supplied properties are merged (a default only when defined, a validator only when given), every other registration is kept, and an undefined valid field is seeded only when the form exists and lacks the field |
| FormStore.RegisteredDefaultResets | lib/MyForm/MyFormProvider.tsx:103-113 | a registered default other than null or undefined is what a reset puts into the field, valid and without a reason |
| FormStore.SetSubForm | lib/MyForm/MyFormProvider.tsx:313-316 | the prefix is appended to the form's list, duplicates included, and nothing else changes |
| FormStore.Without | lib/MyForm/MyFormProvider.tsx:318-322 | the filtered list lacks the prefix, and every other entry keeps its number of occurrences |
| FormStore.WithoutKeepsOrder | lib/MyForm/MyFormProvider.tsx:318-322 | filtering a joined list filters each part, and a single entry stays exactly when it is not the prefix, so the other entries keep their order and their copies |
| FormStore.DeleteSubForm | lib/MyForm/MyFormProvider.tsx:318-322 | every registration of the prefix is removed and nothing else changes |
| FormStore.SubFormRegisterThenDelete | lib/MyForm/MyFormProvider.tsx:313-322 | registering a new prefix and then deregistering it restores the store |
| GeneralInput.SubFormFieldReadsBack | lib/MyForm/components/hooks/useGeneralInput.ts:46-48 | an input with a `_` or `__` joiner inside a registered subform is read back by `getFormData` in that subform's object, under the name (after `_`) or `_` plus the name (after `__`), with the value its slot holds |
| FieldNames.JoinedKeyUnderTag | lib/MyForm/MyFormProvider.tsx:166-168 | a joined key always starts with `prefix_`, so the subform read collects it; after the tag it is the name for `_` and `_` plus the name for `__` |
| Selection.CheckboxIgnoresSubForm | lib/MyForm/components/MyCheckboxInput.tsx:47-49 | the checkbox uses the same key inside a subform as outside, so its value appears at the top level of the form's data and not in the subform's object |
| Utils.ClsxJoinsTokens | lib/MyForm/utils.ts:6-29 | `clsx` skips falsy arguments, keeps strings and numbers and the keys whose values are true, flattens arrays, and joins the class names with single spaces in argument order |
| Utils.DictKeys | lib/MyForm/utils.ts:19-24 | a key is kept exactly when its value is true |
| Utils.Call | lib/MyForm/utils.ts:34-42 | with a non-positive delay the callback runs at once; otherwise the call replaces the pending one and nothing runs |
| Utils.Cancel | lib/MyForm/utils.ts:45 | the pending call is dropped |
| Utils.Immediate | lib/MyForm/utils.ts:44 | the callback runs now and any pending call stays pending |
| Utils.Elapse | lib/MyForm/utils.ts:41 | when the timer fires, exactly the pending call runs and the slot empties |
| Utils.NonPositiveWaitIsSynchronous | lib/MyForm/utils.ts:35-38 | with a non-positive delay every call runs synchronously and nothing is ever left pending |
| Utils.BurstRunsLastCall | lib/MyForm/utils.ts:40-41 | with a positive delay a burst of calls runs nothing, leaves the last call's arguments pending, and the timer then runs exactly that call |
| Utils.IsEqual | lib/MyForm/utils.ts:50-64 | `Object.is` implies equality, a non-object operand is equal only under `Object.is`, and different constructors are unequal |
| Utils.IsEqualRef | lib/MyForm/utils.ts:51 | one reference passed twice is always equal |
| Utils.IsEqualArrays | lib/MyForm/utils.ts:67-70 | arrays are equal exactly when they have the same length and are pairwise equal |
| Utils.IsEqualDates | lib/MyForm/utils.ts:99 | Dates are equal exactly when their timestamps are; an Invalid Date equals no other Date |
| Utils.IsEqualRecords | lib/MyForm/utils.ts:105-114 | records are equal exactly when they have as many keys, every key of the first is in the second, and the values are pairwise equal |
| Utils.IsEqualReflexive | lib/MyForm/utils.ts:50-115 | a value is equal to a structural copy of itself unless it holds an Invalid Date |
| Utils.IsEqualSymmetric | lib/MyForm/utils.ts:50-115 | structural equality is symmetric |
| Utils.FirstSegment | lib/MyForm/utils.ts:133 | the segment is the text before the first `.`, as `split('.')[0]` gives it |
| Utils.Get | lib/MyForm/utils.ts:121-129 | a nullish object or an empty path gives undefined |
| Utils.WalkStopsAtFalsy | lib/MyForm/utils.ts:132 | the walk stops at a falsy value and returns it |
| Utils.WalkSegment | lib/MyForm/utils.ts:132-138 | a path `seg.rest` reads, of a truthy value, the property `SegmentKey(seg)`: the decimal string of the number radix-less `parseInt` reads from `seg` (hexadecimal after `0x`), or `seg` itself when it reads none; then it follows `rest` from there |
| Utils.SegmentKeyReadsNumbers | lib/MyForm/utils.ts:135-136 | a decimal segment selects itself, and a segment `0x`/`0X` followed by hex digits selects the decimal string of their value |
| Utils.SegmentKeyOfName | lib/MyForm/utils.ts:135-136 | a segment starting with neither white space, a sign nor a digit selects itself |
| Strings.ParseIntSkipsSpace | lib/MyForm/utils.ts:135 | `parseInt` skips leading white space and line terminators, the set section 12.2 and 12.3 of ECMA-262 name |
| Strings.ParseIntReadsHex | lib/MyForm/utils.ts:135 | without a radix, `0x` or `0X` followed by hex digits reads as their hexadecimal value, and with no digit after it as NaN |
| Strings.ParseIntNegates | lib/MyForm/utils.ts:135 | a leading `-` negates what the rest reads, and NaN stays NaN |
| Strings.ParseIntOfIntToString | lib/MyForm/utils.ts:135 | the decimal string of an integer reads back as that integer |
| Utils.HexSegmentReadsIndex | lib/MyForm/utils.ts:121-143 | the path `0x1` reads property `1` of an object that has both `0` and `1` |
| Utils.GetTwoSegments | lib/MyForm/utils.ts:121-139 | a two-segment path reads the first segment's property (named by `SegmentKey`, so numerals select by their value), then the second one unless the first was falsy |
| Utils.FindIndexIsFirstEqual | lib/MyForm/components/MySelectInput.tsx:117 | `findIndex` with `isEqual` finds the first deeply equal option, and gives -1 exactly when there is none |
| DateUtils.PadDateRoundTrip | lib/MyForm/components/utils.ts:4-7 | a non-negative number pads to text that parses back to it, two digits for numbers below 100; a negative one gives text starting `0-`, which parses as 0 |
| DateUtils.PadDateDigits | lib/MyForm/components/utils.ts:4-7 | a non-negative number pads to at least two digits and nothing else |
| DateUtils.DateFormatter | lib/MyForm/components/utils.ts:26-27 | an absent or invalid date formats as the empty string |
| DateUtils.Meridiem | lib/MyForm/components/utils.ts:43-48 | with an `a` in the format, hours above 12 are reduced by 12; without one, the text and hour are untouched |
| DateUtils.FormatIsoDate | lib/MyForm/components/utils.ts:26-41 | the default format gives the full year, then the 1-based month and the day, each padded to two digits |
| DateUtils.DatePartOfIsoPrefix | lib/MyForm/components/utils.ts:31-41 | a format that starts `yyyy-MM-dd` and has no further date tokens gets the ISO calendar date in their place, the rest kept as it was |
| DateUtils.FormatIsoDateTime | lib/MyForm/components/utils.ts:26-56 | `yyyy-MM-ddThh:mm` gives the ISO date, `T`, and the padded 24-hour hour and minute |
| DateUtils.FormatTwelveHour | lib/MyForm/components/utils.ts:43-56 | `hh:mm a` reads PM from noon on and AM before, reduces hours above 12 by 12, and keeps midnight as hour 0 |
| DateUtils.ToDateOnly | lib/MyForm/components/utils.ts:90-93 | the same calendar day at midnight; an invalid date stays invalid |
| DateUtils.IsSameDay | lib/MyForm/components/utils.ts:95-104 | true for one object passed twice; false when either side is absent or invalid and they are not that one object |
| DateUtils.IsSameDayOrAfter | lib/MyForm/components/utils.ts:106-115 | true for one object passed twice; false when either side is absent or invalid otherwise |
| DateUtils.IsDayAfter | lib/MyForm/components/utils.ts:117-126 | one object passed twice counts as after itself; otherwise false when either side is absent or invalid |
| DateUtils.IsSameDayOrBefore | lib/MyForm/components/utils.ts:128-137 | true for one object passed twice; false when either side is absent or invalid otherwise |
| DateUtils.IsDayBefore | lib/MyForm/components/utils.ts:139-148 | one object passed twice counts as before itself; otherwise false when either side is absent or invalid |
| DateUtils.ComparatorsMirror | lib/MyForm/components/utils.ts:117-148 | for distinct arguments, before(a, b) is after(b, a), the non-strict forms mirror each other, and same-day is symmetric |
| DateUtils.ComparatorsTrichotomy | lib/MyForm/components/utils.ts:95-148 | for two valid dates exactly one of before, same day and after holds, and the non-strict comparators are the unions |
| DateUtils.ComparatorsIgnoreTimeOfDay | lib/MyForm/components/utils.ts:90-148 | every comparator answers the same on the dates' midnights |
| DateUtils.SameDayOrBeforeTransitive | lib/MyForm/components/utils.ts:128-137 | same-day-or-before is transitive on valid dates |
| GeneralInput.Wait | lib/MyForm/components/hooks/useGeneralInput.ts:53-56 | a negative delay counts as 0, and a positive one is used as given |
| GeneralInput.Send | lib/MyForm/components/hooks/useGeneralInput.ts:65-66 | an immediate send, or one with a non-positive delay, reaches the store at once; otherwise it becomes the pending commit and the store is untouched |
| GeneralInput.Validate | lib/MyForm/components/hooks/useGeneralInput.ts:62-73 | without `validateImmediately`, a valid field is left alone and any other is committed as valid. With it, validity is whether the validator returns true, and a missing validator counts as valid |
| GeneralInput.ValidateNeverRejects | lib/MyForm/components/hooks/useGeneralInput.ts:62-69 | without `validateImmediately`, validation never leaves the field invalid |
| GeneralInput.OnChange | lib/MyForm/components/hooks/useGeneralInput.ts:75-86 | while disabled nothing changes. A partial parse is written at once as null in place, and the mirror and pending commit are kept. A complete parse becomes the mirror |
| GeneralInput.NonPositiveDelayCommitsAtOnce | lib/MyForm/components/hooks/useGeneralInput.ts:53-56 | with a non-positive delay a complete parse reaches the store during the change and nothing is left pending |
| GeneralInput.PositiveDelayDefers | lib/MyForm/components/hooks/useGeneralInput.ts:78-82 | with a positive delay the store is untouched and the pending commit carries the parsed value |
| GeneralInput.Elapsed | lib/MyForm/components/hooks/useGeneralInput.ts:53-56 | when the timer fires, the pending commit reaches the store |
| GeneralInput.Reconcile | lib/MyForm/components/hooks/useGeneralInput.ts:88-98 | when the converted store value compares equal to the mirror nothing happens. Otherwise the pending commit is cancelled, the element shows the new value, the mirror takes it, and it is validated immediately |
| GeneralInput.ReconcileSettles | lib/MyForm/components/hooks/useGeneralInput.ts:88-98 | for an idempotent conversion, a reconciliation leaves nothing more to reconcile |
| GeneralInput.Register | lib/MyForm/components/hooks/useGeneralInput.ts:100-102 | the default other than undefined, the required flag when given, and the validator when given are registered for the field; a property not given keeps the field's earlier one |
| GeneralInput.RegisterIdempotent | lib/MyForm/components/hooks/useGeneralInput.ts:100-102 | registering twice is the same as registering once, and a registered non-nullish default is what a reset puts in the field |
| GeneralInput.SeedDefault | lib/MyForm/components/hooks/useGeneralInput.ts:104-111 | only an element showing the empty sentinel takes the default, which is committed at once |
| GeneralInput.RegisterChoice | lib/MyForm/components/MySelectInput.tsx:135-137 | the select, radio, checkbox and single combo boxes register the required flag and a default other than undefined; a default and a validator registered before are kept otherwise |
| GeneralInput.Unmount | lib/MyForm/components/hooks/useGeneralInput.ts:113-121 | without `persistOnUnmount`, the pending commit is dropped and the field and its properties are deleted; with it, nothing changes |
| GeneralInput.UnmountField | lib/MyForm/components/hooks/useGeneralComboBox.ts:82-87 | the combo boxes, select, radio, checkbox, file and date-range inputs delete the field and its properties on unmount unless they persist, and every other field of the form stays as it was |
| GeneralInput.Mount | lib/MyForm/components/hooks/useGeneralInput.ts:88-111 | the first render reconciles, registers and seeds, and when the element still showed the sentinel, a default that is neither null nor undefined ends up as the field's value |
| Widgets.StringConfig | lib/MyForm/components/MyTextInput.tsx:53-80 | the text, password and text-area inputs have an empty sentinel `''`, no partial test, and a default of `''` when none is given |
| Widgets.StringRoundTrip | lib/MyForm/components/MyTextInput.tsx:71-72 | parsing then printing gives back the text, and printing then parsing gives back a stored string |
| Widgets.ClearedFieldMatchesEmptyText | lib/MyForm/components/MyTextInput.tsx:73-74 | a cleared field compares equal to empty text, so nothing is reconciled |
| Widgets.StringMountSeedsDefault | lib/MyForm/components/MyPasswordInput.tsx:45-59 | mounting over an absent field commits the default, `''` when none was given |
| Widgets.StringReconcileSettles | lib/MyForm/components/MyTextAreaInput.tsx:65-79 | a stored string reconciles once and then stays put |
| Widgets.ColourConfig | lib/MyForm/components/MyColourInput.tsx:36-60 | the sentinel is `#000000`, so is the default when none is given, the delay defaults to 250, and neither a validator nor `validateImmediately` is forwarded |
| Widgets.AbsentColourShowsBlack | lib/MyForm/components/MyColourInput.tsx:54-55 | an absent colour is shown as black |
| Widgets.ColourMountCommitsDefault | lib/MyForm/components/MyColourInput.tsx:36-50 | mounting an untouched colour input over an absent field commits the default |
| Widgets.PairParser | lib/MyForm/components/MyTimeInput.tsx:55-61 | the text gives null exactly when it does not split on the separator into two parts; otherwise a record whose two members are `parseInt` of the parts. The time input splits on `:` into hour and minute, and the week input (lib/MyForm/components/MyWeekInput.tsx:50-54) splits on `-W` into year and week |
| Widgets.TimeRoundTrip | lib/MyForm/components/MyTimeInput.tsx:55-62 | printing a time and parsing the text gives the time back |
| Widgets.TimeConfigAsWritten | lib/MyForm/components/MyTimeInput.tsx:50-71 | the time input as written: its parser and its partial test |
| Widgets.TimeConfig | lib/MyForm/components/MyTimeInput.tsx:50-71 | the time input with the intended partial test |
| Widgets.TimeIsIncompleteMeans | lib/MyForm/components/MyTimeInput.tsx:55-61 | the intended test rejects exactly text that did not split in two or whose parts are not numbers |
| Widgets.ZeroFieldIsPartialAsWritten | lib/MyForm/components/MyTimeInput.tsx:67 | as written, a whole hour or a time in the first hour after midnight counts as partial; as intended it is complete |
| Widgets.TenOClockIsLostAsWritten | lib/MyForm/components/MyTimeInput.tsx:67 | as written, choosing 10:00 stores null and leaves the mirror alone |
| Widgets.TimeIsTaken | lib/MyForm/components/MyTimeInput.tsx:55-67 | with the intended test, choosing any time makes it the mirror |
| Widgets.WeekConfig | lib/MyForm/components/MyWeekInput.tsx:37-62 | no validator and no `validateImmediately` reach the hook, and the delay defaults to 250 |
| Widgets.WeekRoundTrip | lib/MyForm/components/MyWeekInput.tsx:50-55 | printing a week and parsing the text gives the week back |
| Widgets.WeekReconcileSettles | lib/MyForm/components/MyWeekInput.tsx:55-59 | a stored week reconciles once and then stays put |
| Widgets.PadMonthRoundTrip | lib/MyForm/components/MyMonthInput.tsx:6-9 | a month number pads to two digits that parse back to it |
| Widgets.MonthConfig | lib/MyForm/components/MyMonthInput.tsx:65-94 | the month input counts absent or invalid dates as partial and converts them to null |
| Widgets.DateToInternal | lib/MyForm/components/MyMonthInput.tsx:81-84 | absent or invalid dates become null, and valid ones are kept |
| Widgets.MonthComparisorMeans | lib/MyForm/components/MyMonthInput.tsx:85-87 | two valid dates compare equal exactly when year and month agree, two absent values compare equal, and an invalid or one-sided value never does |
| Widgets.MonthDisplayAgrees | lib/MyForm/components/MyMonthInput.tsx:74-87 | values the comparison cannot tell apart print the same |
| Widgets.MonthToStringOfDate | lib/MyForm/components/MyMonthInput.tsx:74-80 | a valid date prints as its year, `-`, and the 1-based month padded to two digits |
| Widgets.MonthReconcileSettles | lib/MyForm/components/MyMonthInput.tsx:65-94 | a store change reconciles once and then stays put |
| Widgets.DateParser | lib/MyForm/components/MyDateInput.tsx:58-61 | the parse is never null; bad text gives an Invalid Date, which the partial test catches |
| Widgets.DateConfig | lib/MyForm/components/MyDateInput.tsx:53-74 | the date and date-time inputs: partial exactly for absent or invalid dates |
| Widgets.DateToStringOfDate | lib/MyForm/components/MyDateInput.tsx:62 | the date input prints the ISO calendar date |
| Widgets.DateTimeToStringOfDate | lib/MyForm/components/MyDateTimeInput.tsx:70 | the date-time input prints the ISO date, `T` and the 24-hour time |
| Widgets.BadDateTextIsPartial | lib/MyForm/components/MyDateInput.tsx:58-70 | text that does not parse reaches the store as null in place, and the mirror is kept |
| Widgets.DateReconcileSettles | lib/MyForm/components/MyDateTimeInput.tsx:61-82 | a store change reconciles once and then stays put |
| ComboBox.Focus | lib/MyForm/components/hooks/useGeneralComboBox.ts:47-51 | focus cancels a pending hide and shows the options |
| ComboBox.Blur | lib/MyForm/components/hooks/useGeneralComboBox.ts:53-55 | blur only schedules a hide |
| ComboBox.HideElapsed | lib/MyForm/components/hooks/useGeneralComboBox.ts:41-45 | when the timer fires, a scheduled hide closes the options |
| ComboBox.FocusCancelsBlur | lib/MyForm/components/hooks/useGeneralComboBox.ts:41-55 | focus before the timer fires keeps the options open; a blur left alone closes them |
| ComboBox.Toggle | lib/MyForm/components/hooks/useGeneralComboBox.ts:66-68 | only the options' visibility flips |
| ComboBox.Select | lib/MyForm/components/hooks/useGeneralComboBox.ts:57-64 | at the slot it is given (the hook's key, see ComboBox.SlotsAsWritten) the options close, the element shows the label, the value becomes the mirror and is committed with validity untouched; while disabled nothing changes |
| ComboBox.Clear | lib/MyForm/components/hooks/useGeneralComboBox.ts:70-76 | at the slot it is given (the hook's key) the text is emptied, the mirror becomes null, and the field reads undefined with validity untouched; while disabled nothing changes |
| ComboBox.SlotsAsWritten | lib/MyForm/components/MyComboBoxInput.tsx:77-79 | the widget composes `subFormId__name`, and the hook composes the subform id into that name again (lib/MyForm/components/hooks/useGeneralComboBox.ts:28-30) |
| ComboBox.SlotsDiverge | lib/MyForm/components/hooks/useGeneralComboBox.ts:28-30 | outside a subform both halves use one key; inside one the hook's key is `sub__sub__name`, a different field |
| ComboBox.Slots | lib/MyForm/components/MyComboBoxInput.tsx:77-79 | the intended wiring hands the hook the widget's own key, so both halves read and write one field |
| ComboBox.Register | lib/MyForm/components/hooks/useGeneralComboBox.ts:78-80 | registration leaves the field's value alone; at a non-empty slot it registers the required flag and a default other than undefined |
| ComboBox.Unmount | lib/MyForm/components/hooks/useGeneralComboBox.ts:82-87 | with `persistOnUnmount` the store is untouched; otherwise the field and its properties are gone |
| ComboBox.SubFormChoiceMissesWidgetAsWritten | lib/MyForm/components/hooks/useGeneralComboBox.ts:57-64 | in subform `addr`, a choice is committed under `addr__addr__city` and the widget's `addr__city` keeps what it held |
| ComboBox.SubFormChoiceSettles | lib/MyForm/components/hooks/useGeneralComboBox.ts:57-64 | with one key for both halves, a choice in any subform lands in the widget's field and is already reconciled |
| ComboBox.FindFirst | lib/MyForm/components/MyComboBoxInput.tsx:127-128 | the intended lookup finds something exactly when an option matches, and then it finds the first one |
| ComboBox.FindTruthyAgrees | lib/MyForm/components/MyComboBoxInput.tsx:127-128 | the written truthiness test agrees with the intended lookup when it finds something, and always when no option is falsy |
| ComboBox.FindTruthy | lib/MyForm/components/MyComboBoxInput.tsx:127-128 | a found option is truthy and is an option that passes the test; when no option passes, nothing is found |
| ComboBox.FalsyOptionIsMissed | lib/MyForm/components/MyComboBoxInput.tsx:127-128 | the option 0 is missed as written and found as intended |
| ComboBox.TypeWith | lib/MyForm/components/MyComboBoxInput.tsx:124-135 | typing sets the text and cancels a pending hide, and leaves the scroll flag alone. A found option becomes the mirror and is committed as valid; otherwise nothing is committed |
| ComboBox.OnType | lib/MyForm/components/MyComboBoxInput.tsx:124-135 | text equal to no key commits nothing; text equal to a key selects the first such option and marks the field valid |
| ComboBox.OnTypeAsWritten | lib/MyForm/components/MyComboBoxInput.tsx:124-135 | agrees with the intended typing whenever the truthiness test finds an option, and whenever every option is truthy; when it finds none, an enabled box commits nothing and keeps its mirror |
| ComboBox.TypingZeroAsWritten | lib/MyForm/components/MyColumnComboBoxInput.tsx:153-154 | typing `0` among the numbers from 0 commits nothing as written, and selects 0 as intended |
| ComboBox.ReconcileWith | lib/MyForm/components/MyComboBoxInput.tsx:137-161 | a cleared store empties the element unless it is already empty. A value equal to the mirror changes nothing. A known value is shown by its key. An unknown one empties the element and is either cleared as valid or kept as the mirror |
| ComboBox.ReconcileAsWritten | lib/MyForm/components/MyComboBoxInput.tsx:137-161 | agrees with the intended reconciliation when the truthiness test finds the stored value's option, when every option is truthy, and when the store is cleared |
| ComboBox.ReconcileShowsKnownValue | lib/MyForm/components/MyComboBoxInput.tsx:145-157 | a stored value the box knows is shown by the key of the first option that picks it |
| ComboBox.SelectSettles | lib/MyForm/components/MyComboBoxInput.tsx:137-161 | the store change a selection causes is already reconciled |
| ComboBox.ClearSettles | lib/MyForm/components/MyComboBoxInput.tsx:139-143 | the store change clearing causes is already reconciled |
| ComboBox.SeedWith | lib/MyForm/components/MyComboBoxInput.tsx:163-172 | only a truthy default, while nothing is selected, with a matching option, is shown, taken and committed as valid |
| ComboBox.UnknownDefaultIsIgnored | lib/MyForm/components/MyColumnComboBoxInput.tsx:189-198 | a default no option matches is never seeded |
| ComboBox.DefaultNotSeededOnMountAsWritten | lib/MyForm/components/MyComboBoxInput.tsx:82-172 | as written a box mounted on an empty field never takes its default, because its effects search the still-empty option copy; as intended it selects the first option picking the default and commits it as valid |
| ComboBox.MountAsWritten | lib/MyForm/components/MyComboBoxInput.tsx:82-172 | on the first commit nothing is displayed; the mirror is the stored value unless that is nullish or the box clears invalid values, and a box that does not clear leaves the registered store as it is |
| ComboBox.MountAsWrittenClears | lib/MyForm/components/MyComboBoxInput.tsx:137-161 | a clearing box mounted over a stored value shows nothing, takes null and writes undefined to the field |
| ComboBox.Mount | lib/MyForm/components/MyComboBoxInput.tsx:137-172 | the intended first commit registers the properties. On an empty field, a truthy default that an option matches is shown by its key, taken, and committed as valid. A stored value that an option picks is shown by its key and the store is kept |
| ComboBox.StoredValueClearedOnMountAsWritten | lib/MyForm/components/MyComboBoxInput.tsx:137-161 | as written, with `setUndefinedIfManualUpdateIsInvalid`, a value the store holds at mount is cleared even when an option picks it; as intended it is shown by that option's key and kept |
| ComboBox.Filter | lib/MyForm/components/MyComboBoxInput.tsx:196-212 | exactly the options satisfying the test, taken from the list |
| ComboBox.FilterKeepsOrder | lib/MyForm/components/MyComboBoxInput.tsx:203 | filtering a joined list filters each part, and a single option stays exactly when it passes the test, so the kept options keep their order and copies |
| ComboBox.Visible | lib/MyForm/components/MySimpleComboBoxInput.tsx:193-209 | right after a selection, without `filterOnType`, or with empty text, every option is shown; whatever is shown is drawn from the options |
| ComboBox.ScrollIndex | lib/MyForm/components/MyComboBoxInput.tsx:196-216 | without filtering and not right after a selection, the index of the first option the text matches, or -1 for none; otherwise 0 |
| ComboBox.Rendered | lib/MyForm/components/MyComboBoxInput.tsx:218 | the end of a render clears the flag a selection set, and changes nothing else |
| ComboBox.TypingAfterSelectFilters | lib/MyForm/components/MyComboBoxInput.tsx:196-218 | right after a selection every option is shown; after that render, typing non-empty text with `filterOnType` shows exactly the options the text matches, in order, and each shown key contains the text |
| ComboBox.FirstDuplicate | lib/MyForm/components/MyComboBoxInput.tsx:109-122 | no duplicate is reported exactly when all keys are distinct; a reported index holds the first repeated key |
| ComboBox.SimpleCombo | lib/MyForm/components/MySimpleComboBoxInput.tsx:122-159 | the simple box's options are `{label, value}` records, all truthy |
| ComboBox.SimpleOptionParts | lib/MyForm/components/MySimpleComboBoxInput.tsx:125-128 | a labelled option is keyed by its label and picks its value |
| ComboBox.SimpleLookupsAgree | lib/MyForm/components/MySimpleComboBoxInput.tsx:122-159 | in the simple box the written lookups behave as the intended ones |
| ComboBox.Cell | lib/MyForm/components/MyColumnComboBoxInput.tsx:213-219 | a path column shows `get(option, path)`, with the segments named as `Utils.WalkSegment` states, or `''` when that is nullish; a function column shows its result |
| ComboBox.CellOfProperty | lib/MyForm/components/MyColumnComboBoxInput.tsx:213-219 | a one-segment path shows the option's property `SegmentKey(key)` (the key itself, or the decimal string of the number radix-less `parseInt` reads from it), or `''` when that is nullish |
| MultiComboBox.Without | lib/MyForm/components/hooks/useGeneralMultiComboBox.ts:65 | what is left is drawn from the list and holds no member `===` to the found one, and the list shrinks when the found index is in range |
| MultiComboBox.WithoutLone | lib/MyForm/components/hooks/useGeneralMultiComboBox.ts:65 | when nothing else is `===` to it, exactly the found member goes and the rest keep their order |
| MultiComboBox.ToggleAsWritten | lib/MyForm/components/hooks/useGeneralMultiComboBox.ts:61-67 | choosing on an empty selection gives the single choice |
| MultiComboBox.Toggle | lib/MyForm/components/hooks/useGeneralMultiComboBox.ts:61-67 | a value equal to no member is appended; otherwise members are removed and none is added |
| MultiComboBox.ToggleRemovesFirst | lib/MyForm/components/hooks/useGeneralMultiComboBox.ts:63-66 | without `===` twins, exactly the first equal member goes and the others keep their order |
| MultiComboBox.ToggleAgrees | lib/MyForm/components/hooks/useGeneralMultiComboBox.ts:64-65 | the written and intended updates agree when no member is falsy |
| MultiComboBox.ZeroChosenTwiceAsWritten | lib/MyForm/components/hooks/useGeneralMultiComboBox.ts:64-65 | choosing 0 twice leaves it in twice as written, and gives the empty selection as intended |
| MultiComboBox.ToggleTwice | lib/MyForm/components/hooks/useGeneralMultiComboBox.ts:61-67 | choosing a new option twice restores the selection |
| MultiComboBox.SelectAsWritten | lib/MyForm/components/hooks/useGeneralMultiComboBox.ts:57-71 | `onSelect` as written: at the slot it is given the options close, the text clears, and the list `ToggleAsWritten` gives is committed with validity untouched |
| MultiComboBox.Select | lib/MyForm/components/hooks/useGeneralMultiComboBox.ts:57-71 | the intended `onSelect`: at the slot it is given (the hook's key, see MultiComboBox.SlotsAsWritten) the options close, the text clears, and the list `Toggle` gives is committed with validity untouched |
| MultiComboBox.SelectAgrees | lib/MyForm/components/hooks/useGeneralMultiComboBox.ts:57-71 | the handler as written and the intended one agree while no selected member is falsy |
| MultiComboBox.ZeroReselectedAsWritten | lib/MyForm/components/hooks/useGeneralMultiComboBox.ts:57-71 | choosing 0 in a box showing `[0]` commits `[0, 0]` as written and `[]` as intended |
| MultiComboBox.DeleteAt | lib/MyForm/components/hooks/useGeneralMultiComboBox.ts:75 | exactly the member at the index goes and the others keep their order; an index out of range changes nothing |
| MultiComboBox.DeleteUndoesChoice | lib/MyForm/components/hooks/useGeneralMultiComboBox.ts:57-79 | deleting the last choice undoes choosing a new option |
| MultiComboBox.Delete | lib/MyForm/components/hooks/useGeneralMultiComboBox.ts:73-79 | at the slot it is given (the hook's key) the chip goes and the list is committed with validity untouched |
| MultiComboBox.Clear | lib/MyForm/components/hooks/useGeneralMultiComboBox.ts:85-91 | at the slot it is given (the hook's key) the text and the list empty and `[]` is committed with validity untouched |
| MultiComboBox.OnType | lib/MyForm/components/MyMultiComboBoxInput.tsx:122-127 | typing changes the text only, and never the selection or the store |
| MultiComboBox.TypingAfterChoiceFilters | lib/MyForm/components/MyMultiComboBoxInput.tsx:122-127 | right after a choice every option is shown; after that render, typing non-empty text with `filterOnType` shows exactly the options the text matches |
| MultiComboBox.IsSelected | lib/MyForm/components/MyMultiComboBoxInput.tsx:158 | an option shows as selected exactly when a member is deeply equal to it |
| MultiComboBox.ChosenIsSelected | lib/MyForm/components/MyMultiComboBoxInput.tsx:158 | a newly chosen option shows as selected |
| MultiComboBox.Matched | lib/MyForm/components/MyMultiComboBoxInput.tsx:136 | each member is mapped to the first deeply equal one of the list searched |
| MultiComboBox.Defined | lib/MyForm/components/MyMultiComboBoxInput.tsx:138 | the undefined members go and every other member stays |
| MultiComboBox.Pick | lib/MyForm/components/MyMultiComboBoxInput.tsx:146-149 | the options deeply equal to the members, in order; all are found when every member has one |
| MultiComboBox.ReconcileWith | lib/MyForm/components/MyMultiComboBoxInput.tsx:129-143 | a cleared store empties the selection, stored members all known change nothing, and otherwise the picked list is taken |
| MultiComboBox.Reconcile | lib/MyForm/components/MyMultiComboBoxInput.tsx:129-143 | the intended reconciliation looks the stored members up among the options: the selection is drawn from the options, and a stored list whose every member has an equal option is taken member for member |
| MultiComboBox.ReconcileAsWritten | lib/MyForm/components/MyMultiComboBoxInput.tsx:129-143 | agrees with the intended reconciliation when the store is cleared and when the old selection knows every stored member; the selection is drawn from the options and the old selection, and an empty old selection gives an empty one |
| MultiComboBox.NothingMatchedPicksNothing | lib/MyForm/components/MyMultiComboBoxInput.tsx:136-139 | members matched against an empty selection pick no option |
| MultiComboBox.OutsideValueIsDroppedAsWritten | lib/MyForm/components/MyMultiComboBoxInput.tsx:136-139 | a value set from outside is dropped as written and shown as intended |
| MultiComboBox.SelectSettles | lib/MyForm/components/MyMultiComboBoxInput.tsx:129-143 | the commit of a choice, read back, leaves the selection alone |
| MultiComboBox.ClearSettles | lib/MyForm/components/MyMultiComboBoxInput.tsx:132-134 | clearing reads back as the empty selection |
| MultiComboBox.SeedDefault | lib/MyForm/components/MyMultiComboBoxInput.tsx:145-155 | the default is taken only while nothing is selected and some member matches, as the deeply equal options, and is committed as valid |
| MultiComboBox.SeedSettles | lib/MyForm/components/MyMultiComboBoxInput.tsx:129-155 | a seeded selection, read back, is left alone |
| MultiComboBox.OwnCommitSettles | lib/MyForm/components/MyMultiComboBoxInput.tsx:136-137 | a selection reads its own commit back unchanged |
| MultiComboBox.Register | lib/MyForm/components/hooks/useGeneralMultiComboBox.ts:93-95 | at the slot it is given (the hook's key) only the default and the required flag are registered |
| MultiComboBox.Unmount | lib/MyForm/components/hooks/useGeneralMultiComboBox.ts:97-102 | with `persistOnUnmount` the store is untouched; otherwise the field and its properties are gone |
| MultiComboBox.SlotsAsWritten | lib/MyForm/components/MyMultiComboBoxInput.tsx:74-76 | the widget composes `subFormId_name`, and the hook composes the subform id into that name again (lib/MyForm/components/hooks/useGeneralMultiComboBox.ts:28-30) |
| MultiComboBox.Slots | lib/MyForm/components/MyMultiComboBoxInput.tsx:74-76 | the intended wiring hands the hook the widget's own key, so both halves read and write one field |
| MultiComboBox.SubFormChoiceMissesWidgetAsWritten | lib/MyForm/components/hooks/useGeneralMultiComboBox.ts:57-71 | in subform `addr`, a choice is committed under `addr_addr_tags` and the widget's `addr_tags` keeps what it held |
| MultiComboBox.SubFormChoiceSettles | lib/MyForm/components/hooks/useGeneralMultiComboBox.ts:57-71 | with one key for both halves, a choice in any subform lands in the widget's field and reads back without changing the selection |
| MultiComboBox.DefaultNotSeededOnMountAsWritten | lib/MyForm/components/MyMultiComboBoxInput.tsx:79-155 | as written a box mounted on an empty field never takes its default, because its effects search the still-empty option copy; as intended it selects the matching options, member for member, and commits them as valid |
| MultiComboBox.MountAsWritten | lib/MyForm/components/MyMultiComboBoxInput.tsx:79-155 | on the first commit the selection is empty and the store is the registered one |
| MultiComboBox.Mount | lib/MyForm/components/MyMultiComboBoxInput.tsx:129-155 | the intended first commit keeps the registered properties and selects only options. A non-empty stored list whose members all have options is shown as those options, one per member and each deeply equal to it, and the store is kept |
| Selection.Decode | lib/MyForm/components/MySelectInput.tsx:89-95 | the placeholder and non-numeric text give null, and any other value given is the value of some option |
| Selection.DecodeIndex | lib/MyForm/components/MySelectInput.tsx:93-94 | the text of option i gives its value, or null when that is nullish; any other index gives null |
| Selection.SelectChange | lib/MyForm/components/MySelectInput.tsx:87-99 | the decoded value becomes the mirror and is committed with validity untouched; while disabled nothing changes |
| Selection.SelectClear | lib/MyForm/components/MySelectInput.tsx:101-107 | the placeholder is shown, the mirror is null, and the field reads undefined |
| Selection.SelectReconcile | lib/MyForm/components/MySelectInput.tsx:109-133 | a nullish value shows the placeholder. Any other value shows the first deeply equal option whatever the mirror held. An unknown value shows the placeholder and is either cleared as valid or kept as the mirror |
| Selection.SelectChangeSettles | lib/MyForm/components/MySelectInput.tsx:87-133 | choosing an option, read back, leaves the select as it was |
| Selection.SelectNullishOptionShowsPlaceholder | lib/MyForm/components/MySelectInput.tsx:94-115 | choosing an option whose value is nullish reads back as the placeholder |
| Selection.SelectClearSettles | lib/MyForm/components/MySelectInput.tsx:101-115 | clearing, read back, leaves the placeholder alone |
| Selection.SelectClearedUnknownSettles | lib/MyForm/components/MySelectInput.tsx:118-122 | an unknown value cleared as valid stays cleared when read back |
| Selection.SelectSeed | lib/MyForm/components/MySelectInput.tsx:139-148 | the default is taken only while the mirror is nullish, only when truthy and only when an option equals it, and is shown as the first such option |
| Selection.SelectSeedSettles | lib/MyForm/components/MySelectInput.tsx:109-148 | a seeded default, read back, leaves the select as seeded |
| Selection.RadioClick | lib/MyForm/components/MyRadioInput.tsx:65-74 | a click leaving the button checked commits its value with validity untouched; one leaving it unchecked, or while disabled, commits nothing |
| Selection.RadioClickChecksOnlyItself | lib/MyForm/components/MyRadioInput.tsx:65-80 | after a click the button is checked and a button with a different value is not |
| Selection.RadioSeed | lib/MyForm/components/MyRadioInput.tsx:86-92 | the default is committed only while the field is undefined and only by the button whose value it equals |
| Selection.RadioSeedChecks | lib/MyForm/components/MyRadioInput.tsx:76-92 | a seeded default leaves the seeding button checked |
| Selection.CheckboxChange | lib/MyForm/components/MyCheckboxInput.tsx:52-57 | ticking commits the checked value and unticking `uncheckValue ?? null`, validity untouched; while disabled nothing changes |
| Selection.CheckboxReadsBack | lib/MyForm/components/MyCheckboxInput.tsx:52-63 | the box shows what was last done to it, when the two values differ |
| Selection.CheckboxDefaultTick | lib/MyForm/components/MyCheckboxInput.tsx:69-72 | a default equal to the checked value only ticks the box |
| Selection.FilesValue | lib/MyForm/components/MyFileInput.tsx:64-67 | an empty selection is null, and any other is the list of files |
| Selection.FileChange | lib/MyForm/components/MyFileInput.tsx:52-71 | the files are committed, then validated: without `validateImmediately` only a field not valid at the last render becomes valid; with it, validity is the validator's verdict |
| Selection.FileChangeNeverRejects | lib/MyForm/components/MyFileInput.tsx:52-56 | without `validateImmediately` a change never marks the field invalid |
| Selection.FileRegister | lib/MyForm/components/MyFileInput.tsx:73-75 | only the required flag and the validator are registered; an earlier default is kept |
| DateRange.RangeValueReadsBack | lib/MyForm/components/MyDateRangeInput.tsx:185 | a committed range record reads back as the range |
| DateRange.CommitRange | lib/MyForm/components/MyDateRangeInput.tsx:185 | every gesture commits the range, marked valid |
| DateRange.DragStart | lib/MyForm/components/MyDateRangeInput.tsx:188-199 | a press during a drag marks it abandoned; otherwise a drag of the start, of the end or of a new range begins, and the range is untouched |
| DateRange.DragEnter | lib/MyForm/components/MyDateRangeInput.tsx:201-253 | a new range spans the anchor and the day entered. A moved endpoint that crosses the other swaps roles with it. An idle or abandoned drag leaves the range and the drag alone |
| DateRange.DragEnterKeepsOrder | lib/MyForm/components/MyDateRangeInput.tsx:201-253 | a drag keeps the start on or before the end |
| DateRange.MouseUp | lib/MyForm/components/MyDateRangeInput.tsx:255-262 | unless the drag was abandoned, it ends and the range is committed as valid |
| DateRange.Click | lib/MyForm/components/MyDateRangeInput.tsx:169-184 | with a complete range or no start, the clicked day becomes the start and the end is dropped; with only a start, a day on or before it becomes the start and the old start the end, and a later day becomes the end |
| DateRange.TwoClicksMakeRange | lib/MyForm/components/MyDateRangeInput.tsx:169-184 | from no range, two clicks give the two days with the second first exactly when it is on or before the first, so the start is on or before the end; two clicks on the same day make the second click's day the start |
| DateRange.ClickKeepsOrder | lib/MyForm/components/MyDateRangeInput.tsx:169-184 | a click keeps the start on or before the end |
| DateRange.Select | lib/MyForm/components/MyDateRangeInput.tsx:158-186 | after an abandoned drag a click only ends it; otherwise the range follows the click, the texts follow it, and it is committed as valid |
| DateRange.Clear | lib/MyForm/components/MyDateRangeInput.tsx:291-309 | both texts and the range are emptied and the empty range is committed as valid; `clearDate` also closes the calendar |
| DateRange.Reconcile | lib/MyForm/components/MyDateRangeInput.tsx:409-419 | a store value is taken only when start or end differs by calendar day; it is then written back as valid and both texts follow |
| DateRange.CommitReadsBack | lib/MyForm/components/MyDateRangeInput.tsx:185 | a committed range reads back from the store as itself |
| DateRange.CommitSettles | lib/MyForm/components/MyDateRangeInput.tsx:409-419 | a range read back from its own commit changes nothing |
| DateRange.SelectSettles | lib/MyForm/components/MyDateRangeInput.tsx:158-186 | every click, read back, changes nothing more |
| DateRange.ReconcileSettles | lib/MyForm/components/MyDateRangeInput.tsx:409-419 | a store change taken in, read back again, changes nothing more |
| DateRange.RangeRequiredMeansBoth | lib/MyForm/components/MyDateRangeInput.tsx:422 | the required check passes exactly when both endpoints are present |
| DateRange.Register | lib/MyForm/components/MyDateRangeInput.tsx:421-424 | the default's endpoints, the validator when given (the earlier one otherwise), and, when required, a predicate that holds exactly when both endpoints are set (`false` otherwise) are registered |
| DateRange.ApplyDefault | lib/MyForm/components/MyDateRangeInput.tsx:428-446 | the default's endpoints replace the range's, an absent one keeping what was there, and the default is committed as valid |
| DateRange.Seed | lib/MyForm/components/MyDateRangeInput.tsx:426-449 | the first mount takes the default once |
| DateRange.Reset | lib/MyForm/components/MyDateRangeInput.tsx:318-343 | without a default the calendar is cleared and shows today's month; with one the default is applied |
| DateRange.BoundsAsWritten | lib/MyForm/components/MyDateRangeInput.tsx:134-139 | the bounds are kept or both dropped |
| DateRange.Bounds | lib/MyForm/components/MyDateRangeInput.tsx:134-139 | both bounds are dropped exactly when the maximum is a day before the minimum |
| DateRange.OneDayBoundsDroppedAsWritten | lib/MyForm/components/MyDateRangeInput.tsx:134-139 | one Date passed as both bounds drops both as written, and keeps them as intended |
| DateRange.StepBack | lib/MyForm/components/MyDateRangeInput.tsx:384-392 | January steps back to December of the year before, any other month to the one before |
| DateRange.StepForward | lib/MyForm/components/MyDateRangeInput.tsx:398-406 | December steps forward to January of the year after, any other month to the one after |
| DateRange.PrevMonthWith | lib/MyForm/components/MyDateRangeInput.tsx:381-393 | a reached bound keeps the page, otherwise it steps back; the range is untouched |
| DateRange.NextMonthWith | lib/MyForm/components/MyDateRangeInput.tsx:395-407 | a reached bound keeps the page, otherwise it steps forward |
| DateRange.PrevMonth | lib/MyForm/components/MyDateRangeInput.tsx:147 | going back never leaves the minimum's month behind |
| DateRange.NextMonth | lib/MyForm/components/MyDateRangeInput.tsx:148 | going forward never passes the maximum's month |
| DateRange.ReachedMinMonthAsWritten | lib/MyForm/components/MyDateRangeInput.tsx:147 | with the minimum in January the test never holds; in any other month it is the intended test, so it never blocks where that would not |
| DateRange.ReachedMinMonth | lib/MyForm/components/MyDateRangeInput.tsx:147 | for a shown month not before the minimum, the intended test holds exactly when the previous month would be before the minimum's month |
| DateRange.ReachedMaxMonthAsWritten | lib/MyForm/components/MyDateRangeInput.tsx:148 | with the maximum in January the test never holds; in any other month it is the intended test |
| DateRange.ReachedMaxMonth | lib/MyForm/components/MyDateRangeInput.tsx:148 | for a shown month not after the maximum, the intended test holds exactly when the next month would be after the maximum's month |
| DateRange.PrevMonthAsWritten | lib/MyForm/components/MyDateRangeInput.tsx:381-393 | with the minimum in January the page steps back regardless, the range is untouched and a pending hide is cancelled; with any other minimum it is the intended step |
| DateRange.NextMonthAsWritten | lib/MyForm/components/MyDateRangeInput.tsx:395-407 | with the maximum in January the page steps forward regardless; with any other maximum it is the intended step |
| DateRange.MonthTestsAgree | lib/MyForm/components/MyDateRangeInput.tsx:147-148 | the written and intended bound tests differ only on a January bound |
| DateRange.JanuaryBoundIsPassedAsWritten | lib/MyForm/components/MyDateRangeInput.tsx:141-148 | with a January bound, navigation passes it as written and stops at it as intended |
| DateRange.PrevYear | lib/MyForm/components/MyDateRangeInput.tsx:359-368 | blocked once the year before would precede the minimum's year; otherwise one year back, never before the minimum's month |
| DateRange.NextYear | lib/MyForm/components/MyDateRangeInput.tsx:370-379 | the mirror image of going back a year |
| DateRange.SetMonth | lib/MyForm/components/MyDateRangeInput.tsx:282-289 | a month before the minimum's, or after the maximum's, in that year is refused |
| DateRange.OpenCalendar | lib/MyForm/components/MyDateRangeInput.tsx:264-275 | the calendar is toggled. Within consistent bounds the page lies between them. Without bounds it shows the start's month, or today's when there is no range |
| DateRange.Blur | lib/MyForm/components/MyDateRangeInput.tsx:154-156 | blur schedules the hide of the calendar |
| DateRange.RetainFocus | lib/MyForm/components/MyDateRangeInput.tsx:150-152 | a pending hide is dropped |
| DateRange.HideElapsed | lib/MyForm/components/MyDateRangeInput.tsx:120-125 | when the timer fires, a pending hide closes the calendar |
| DateRange.RetainFocusCancelsBlur | lib/MyForm/components/MyDateRangeInput.tsx:150-156 | focus coming back before the delay keeps the calendar; a blur left alone closes it |
| Form.AdmitsMeansNamed | lib/MyForm/MyForm.tsx:56-66 | a button is let through exactly when nothing is restricted or the setting names it; an empty string restricts nothing, and a truthy value of another type names no button |
| Form.Submit | lib/MyForm/MyForm.tsx:52-72 | without a submitter, a string, array or Set setting throws before anything happens. A rejected or missing button prevents the default and nothing else. Otherwise the form is validated and `onSubmit` gets the data exactly when it is valid. The default is prevented exactly without an action, with `disableNativeForm`, or when nothing was submitted |
| Form.MissingSubmitterThrows | lib/MyForm/MyForm.tsx:56-63 | a submit event without a submitter throws under any string, array or Set setting, the empty string included; with no setting it is handled as an ordinary submission |
| Form.NoActionAlwaysPrevents | lib/MyForm/MyForm.tsx:62 | without an action the default is always prevented unless the handler threw, and always when there is a submitter |
| Form.EmptyFormIsNeverSubmitted | lib/MyForm/MyForm.tsx:67-71 | a form with no fields is never submitted: the handler throws, or the default is prevented and `onSubmit` is not called |
| Form.UnsupportedSettingRejectsAll | lib/MyForm/MyForm.tsx:60-66 | a truthy setting of an unsupported type rejects every button and leaves the store alone |
| Form.Unmount | lib/MyForm/MyForm.tsx:74-79 | the form's fields are deleted unless it persists, and every other form stays |
| SubForm.Mount | lib/MyForm/MySubForm.tsx:48-49 | the prefix is registered under the form and given to the children, and nothing else changes |
| SubForm.Unmount | lib/MyForm/MySubForm.tsx:51-53 | the prefix is deregistered from the form and other prefixes stay |
| SubForm.Change | lib/MyForm/MySubForm.tsx:44-54 | a changed form or prefix is deregistered before the new one is registered, and the children see the new prefix |
| SubForm.ChangeKeepsRegistration | lib/MyForm/MySubForm.tsx:48-54 | a mounted subform stays registered across changes, and the prefix it left is gone |
| SubForm.MountThenUnmountRestores | lib/MyForm/MySubForm.tsx:48-54 | mounting and unmounting a new prefix leaves no trace |
| SubForm.TwinUnmountDropsBoth | lib/MyForm/MySubForm.tsx:51-53 | with two siblings sharing a prefix, unmounting one removes the other's registration too |
| SubForm.ChildSubFormId | lib/MyForm/MySubForm.tsx:56 | the children read the innermost provider's prefix, and outside any provider no prefix, under which every joiner leaves a name as it is (lib/MyForm/MySubFormContext.ts:3-6) |
| SubForm.NestedFieldUsesInnermost | lib/MyForm/MySubForm.tsx:33-56 | inside any stack of subforms a field is named as under the innermost one alone: its prefix, the joiner and the name, with no outer prefix |

## Left out

- Rendering, styling and the DOM are left out. This covers JSX, class names, icons, containers, labels, scroll offsets, the calendar grid (`generateCalendar`), `showMonth` and the animations. The text an element shows is kept as a string.
- Timers are modelled only as the `Debouncer` pending slot; there is no time. The 100 ms and 250 ms delays appear only as the waits.
- External callbacks are outside the model: `onChange`, `onClick`, `onClear`, `onFocus`, `onBlur` and `onSubmit` as a call. Where it matters, the submission records the data `onSubmit` receives.
- `console.warn` output is left out. The duplicate-key scan is modelled by `ComboBox.FirstDuplicate` as the index it would warn at.
- React's re-render bookkeeping (`rerender`, `skipRender` as a render switch) is left out, and so is the aliasing of inner objects between provider states. `skipRender` is kept only where it changes the stored value.
- The floating-point inputs (number, positive number, range) rely on `parseFloat` and are not part of this model.
- Date-string parsing, the local time zone and `new Date()` are parameters. A date is a record of calendar fields or an Invalid Date. `today` is passed in.
- `dateOperator` is left out: it has no callers and calls Date methods unbound.
- ComboBox.Matches: the source filters with `new RegExp(text, 'i')`. The model uses a substring test that ignores case for ASCII letters only (`Strings.LowerChar`). It therefore differs from the source on text with regex metacharacters, and on letters outside ASCII, which the regular expression also folds.
- The context and currying wrappers (`useMyInput`, the form, subform and component contexts, the theme) are inlined as the slot `(formId, name)`.
- The `JSON.stringify` short-circuit of the option effects is left out, and so is the column box's `delayedRerender`. After mount, `options` in a box's configuration stands for the copy the effects read. The lag on mount is modelled only by `ComboBox.MountAsWritten` and `MultiComboBox.MountAsWritten`.
- A multi combo field whose store value is neither nullish nor an array is left alone by the model; the source would throw on `.map`.
- ComboBox.Visible: states only that every option is shown when not filtering. With filtering the shown list is `ComboBox.Filter` of the options by `ComboBox.Matches`, whose own contract says which options it keeps.
- MultiComboBox.Without: states what is left and that the list shrinks, not that exactly the `===` members go; `MultiComboBox.WithoutLone` states that for a list without twins.
- Utils.IsEqual: object operands are distinct references, so `Object.is` on two objects is false. The `WeakMap` cycle check and the Map, Set and RegExp branches depend on identity and are left out.
- Utils.Get: its own contract states only the undefined cases. The segment walk is stated by `Utils.WalkSegment` and `Utils.GetTwoSegments` for paths without `.` inside a segment.
- Strings.ParseInt: the result is an exact integer. JavaScript rounds a number above 2^53 to a double, and `String` writes one of 1e21 or more with an exponent, so a segment with that many digits names another key in the source.
- DateUtils.DateFormatter: its own contract states only the empty result. The token replacement is stated for the formats the inputs use: `yyyy-MM-dd` (`DateUtils.FormatIsoDate`), `yyyy-MM-ddThh:mm` (`DateUtils.FormatIsoDateTime`) and `hh:mm a` (`DateUtils.FormatTwelveHour`). It is not stated for arbitrary formats.
- DateUtils.IsSameDay, DateUtils.IsDayBefore, DateUtils.IsDayAfter, DateUtils.IsSameDayOrBefore, DateUtils.IsSameDayOrAfter: whether the two arguments are one object is an explicit flag, not a reference test.
- DateRange.Clear: commits the record with both endpoints undefined. `clearDate`'s external `onBlur` call is left out.
- DateRange.ApplyDefault: commits the range record built from the default's two endpoints, not the default object itself. When the default has neither endpoint, the page is kept instead of being set from undefined.
- DateRange.BoundsAsWritten: the same-object case is an explicit flag.
- DateRange.Select, DateRange.DragStart, DateRange.DragEnter, DateRange.MouseUp: the days the calendar hands in are valid distinct Date objects. The `dragStartDateRef` reset is folded into the `Drag` state.
- Form.Submit: the submit event is reduced to the submitter's id, or its absence. When the handler throws, the browser's own handling of the event is not modelled.
- SubForm.ChildSubFormId: the nested-subform warning is left out; only the id the children read is modelled.
- DateRange.Reconcile: the source makes the stored record itself the mirror (lib/MyForm/components/MyDateRangeInput.tsx:416). A later one-endpoint click (:182) or a reset (:329, :335) then writes into that same object, which the caller may also hold. The model's mirror is a value, so this sharing is not modelled.
- DateRange.CommitRange: commits a record with exactly `start` and `end`. The source spreads the mirror, so keys beyond those two that a stored record carried are committed again there.
- DateRange.Register: registers the record built from the default's two endpoints, not the default object itself. A default with one endpoint therefore gains the other as `undefined`.
- DateRange.AsDate: a stored endpoint that is not a Date reads as absent. The source turns it into a Date, and `dateFormatter` then throws on it (:414-415).
- Widgets.DateParser: the Date parser is a parameter, so only its never-null shape is stated.

## Findings

| source | as written | input that shows it | evidently intended | confidence | as-written member | corrected member |
|---|---|---|---|---|---|---|
| lib/MyForm/components/hooks/useGeneralMultiComboBox.ts:64-65 | `if (found)` tests the found member for truthiness | selection `[0]`, choose `0` again: gives `[0, 0]` | a selected option is removed whatever its value, giving `[]` | high, not executed | MultiComboBox.ToggleAsWritten, MultiComboBox.ZeroChosenTwiceAsWritten, MultiComboBox.SelectAsWritten, MultiComboBox.ZeroReselectedAsWritten | MultiComboBox.Toggle, MultiComboBox.ToggleTwice, MultiComboBox.Select |
| lib/MyForm/components/MyDateRangeInput.tsx:147-148 | `!!minMonth` / `!!maxMonth` are false for January | minimum 15 January 2024 while January 2024 is shown: the previous month shows December 2023 | navigation stops at the bound's month, January included | high, not executed | DateRange.ReachedMinMonthAsWritten, DateRange.PrevMonthAsWritten, DateRange.NextMonthAsWritten, DateRange.JanuaryBoundIsPassedAsWritten | DateRange.ReachedMinMonth, DateRange.PrevMonth, DateRange.NextMonth |
| lib/MyForm/MyFormProvider.tsx:186 | the all-forms read stores each subform group under `formObjs[formId]` | form `f` with `addr_city` and prefix `addr`: the group is at `f.f`, and `f.addr` is missing | each group under its prefix, as the one-form read does | high, not executed | FormStore.AllFormsMisfilesGroups | FormStore.GetAllFormData |
| lib/MyForm/components/MyTimeInput.tsx:67 | `isPartial` is `!v?.hour \|\| !v?.minute`, so 0 counts as missing | choosing 10:00 stores null and keeps the old value | only text that did not parse into two numbers is partial | high, not executed | Widgets.TimeConfigAsWritten, Widgets.ZeroFieldIsPartialAsWritten, Widgets.TenOClockIsLostAsWritten | Widgets.TimeConfig, Widgets.TimeIsIncompleteMeans, Widgets.TimeIsTaken |
| lib/MyForm/components/MyComboBoxInput.tsx:127-128 | `if (foundOption)` tests the found option for truthiness | options `[0]`, type `0`: nothing is selected | the option whose key was typed is selected | medium, not executed | ComboBox.FindTruthy, ComboBox.OnTypeAsWritten, ComboBox.TypingZeroAsWritten, ComboBox.FalsyOptionIsMissed | ComboBox.FindFirst, ComboBox.OnType |
| lib/MyForm/components/MyMultiComboBoxInput.tsx:136-139 | reconciliation maps the old selection's matches to options, so stored members new to the selection are dropped | options `[1]`, empty selection, store set to `[1]`: the selection stays empty | the stored members are looked up among the options | medium, not executed | MultiComboBox.ReconcileAsWritten, MultiComboBox.OutsideValueIsDroppedAsWritten | MultiComboBox.Reconcile, MultiComboBox.SelectSettles |
| lib/MyForm/components/MyDateRangeInput.tsx:134-139 | `isDayBefore(max, min)` is true for one Date object passed as both bounds | `min` and `max` the same Date object: both bounds are dropped | the bounds are dropped only when `max` is a day before `min` | medium, not executed | DateRange.BoundsAsWritten, DateRange.OneDayBoundsDroppedAsWritten | DateRange.Bounds |
| lib/MyForm/components/MyComboBoxInput.tsx:77-79 | the widget passes `subFormId__name` to useGeneralComboBox, which prefixes it again (lib/MyForm/components/hooks/useGeneralComboBox.ts:28-30) | subform `addr`, box `city`: a choice is committed to `addr__addr__city`, and the box's field `addr__city` is unchanged | both halves use `addr__city` | high, not executed | ComboBox.SlotsAsWritten, ComboBox.SlotsDiverge, ComboBox.SubFormChoiceMissesWidgetAsWritten | ComboBox.Slots, ComboBox.SubFormChoiceSettles |
| lib/MyForm/components/MyMultiComboBoxInput.tsx:74-76 | the widget passes `subFormId_name` to useGeneralMultiComboBox, which prefixes it again (lib/MyForm/components/hooks/useGeneralMultiComboBox.ts:28-30) | subform `addr`, box `tags`: a choice is committed to `addr_addr_tags`, and the box's field `addr_tags` is unchanged | both halves use `addr_tags` | high, not executed | MultiComboBox.SlotsAsWritten, MultiComboBox.SubFormChoiceMissesWidgetAsWritten | MultiComboBox.Slots, MultiComboBox.SubFormChoiceSettles |
| lib/MyForm/components/MyComboBoxInput.tsx:163-172 | the default effect searches `internalOptions`, a state copy that starts as `[]` (line 82) and is still empty on the first commit, and reruns only when the default changes | options `[a, b]`, default `b`, empty field: nothing is selected and nothing is committed | the box selects `b` and commits it as valid | medium, not executed | ComboBox.MountAsWritten, ComboBox.DefaultNotSeededOnMountAsWritten, MultiComboBox.MountAsWritten, MultiComboBox.DefaultNotSeededOnMountAsWritten | ComboBox.Mount, MultiComboBox.Mount |
| lib/MyForm/components/MyComboBoxInput.tsx:137-161 | the reconciliation effect on the first commit also searches the empty `internalOptions` | `setUndefinedIfManualUpdateIsInvalid`, options `[a, b]`, stored value `b`: the field is cleared | the box shows `b` and keeps the value | medium, not executed | ComboBox.MountAsWritten, ComboBox.StoredValueClearedOnMountAsWritten | ComboBox.Mount |
| lib/MyForm/MyFormProvider.tsx:199-205 | `getFormValid(formId)` returns the flat validity map, while the documentation (lib/MyForm/MySubForm.tsx:19-30) and the type (lib/MyForm/MyFormContext.ts:61) promise subform fields grouped into one object, as `getFormData` does | form `f` holding only `addr_city`, prefix `addr` registered: the validity read has `addr_city` and no `addr`, while the data read has `addr` | the validity read has the same top-level keys as the data read, a prefix holding its fields' validities as a group | medium, not executed | FormStore.GetFormValid, FormStore.ValidityIsFlatAsWritten | FormStore.GroupedFormValid, FormStore.GroupedValidMirrorsData |

=== FILE: base.dfy ===
/** Small shared vocabulary: an optional value, used wherever the library
    distinguishes "not supplied" (JavaScript `undefined` argument) from a value. */
module Base {

  datatype Option<+T> = None | Some(value: T) {

    /** The value, or `default` when absent. */
    function GetOr(default: T): T {
      match this
      case Some(v) => v
      case None => default
    }
  }
}

=== FILE: combo_box.dfy ===
/** The single-selection combo boxes: the shared hook
    (lib/MyForm/components/hooks/useGeneralComboBox.ts) and the three
    widgets on top of it (MyComboBoxInput, MySimpleComboBoxInput and
    MyColumnComboBoxInput). The generic and column boxes select the option
    itself and show `optionKey(option)`; the simple box's options are
    `{label, value}` records, it selects `value` and shows `label`. A
    `ComboConfig` says which through `key` and `pick`. */
module ComboBox {
  import opened Base
  import opened Strings
  import opened JsValues
  import opened Utils
  import opened FormStore
  import opened GeneralInput
  import opened FieldNames

  /** The binding's own state: the input's text, the selection
      (`internalRef`: one value, or a list for the multi box), whether the
      options are shown, the delayed hide, and the flag that suppresses
      scrolling for one render. */
  datatype Combo<M> = Combo(display: string, mirror: M, showOptions: bool, hide: Debouncer<()>, noScroll: bool)

  /** The state before the first effect. */
  function NewCombo<M>(nothing: M): Combo<M> {
    Combo("", nothing, false, NewDebouncer(100), false)
  }

  datatype ComboConfig = ComboConfig(
    options: seq<Value>,
    key: Value -> string,
    pick: Value -> Value,
    defaultValue: Value,
    required: bool,
    persistOnUnmount: bool,
    clearInvalid: bool,
    filterOnType: bool,
    disabled: bool)

  // ---------------------------------------------------------------------
  // The hook

  /** Focus cancels a pending hide and shows the options. */
  function Focus<M(==)>(cb: Combo<M>): (r: Combo<M>)
    ensures r.showOptions && r.hide.pending.None? && r.hide.wait == cb.hide.wait
    ensures r.display == cb.display && r.mirror == cb.mirror
  {
    cb.(showOptions := true, hide := Cancel(cb.hide))
  }

  /** Blur only schedules a hide. */
  function Blur<M(==)>(cb: Combo<M>): (r: Combo<M>)
    ensures r.display == cb.display && r.mirror == cb.mirror
    ensures cb.hide.wait > 0 ==> r.hide.pending == Some(()) && r.showOptions == cb.showOptions
    ensures cb.hide.wait <= 0 ==> !r.showOptions
  {
    var called := Call(cb.hide, ());
    cb.(hide := called.0, showOptions := cb.showOptions && |called.1| == 0)
  }

  /** The hide timer fires: a scheduled hide closes the options. */
  function HideElapsed<M(==)>(cb: Combo<M>): (r: Combo<M>)
    ensures r.hide.pending.None? && r.display == cb.display && r.mirror == cb.mirror
    ensures r.showOptions == (cb.showOptions && cb.hide.pending.None?)
  {
    var fired := Elapse(cb.hide);
    cb.(hide := fired.0, showOptions := cb.showOptions && |fired.1| == 0)
  }

  /** A blur followed by focus before the timer fires leaves the options
      open; a blur left alone closes them. */
  lemma FocusCancelsBlur<M>(cb: Combo<M>)
    requires cb.hide.wait > 0
    ensures HideElapsed(Focus(Blur(cb))).showOptions
    ensures !HideElapsed(Blur(cb)).showOptions
  {
  }

  function Toggle<M(==)>(cb: Combo<M>): (r: Combo<M>)
    ensures r.showOptions == !cb.showOptions
    ensures r.(showOptions := cb.showOptions) == cb
  {
    cb.(showOptions := !cb.showOptions)
  }

  /** `onSelect(value, label)`: the options close at once, the element
      shows the label, the value is taken and committed without touching
      validity. */
  function Select(c: ComboConfig, cb: Combo<Value>, s: Store, at: Slot, value: Value, shown: string): (r: (Combo<Value>, Store))
    ensures c.disabled ==> r == (cb, s)
    ensures !c.disabled ==>
      r.0 == cb.(display := shown, mirror := value, showOptions := false, noScroll := true) &&
      r.1 == UpdateField(s, at.formId, at.name, value, None, false)
  {
    if c.disabled then (cb, s)
    else
      var hidden := Immediate(cb.hide, ());
      (cb.(hide := hidden.0, showOptions := false, display := shown, mirror := value, noScroll := true),
       UpdateField(s, at.formId, at.name, value, None, false))
  }

  /** `clearComboBox`: the element and the value are emptied and null is
      committed, which the store turns into undefined. */
  function Clear(c: ComboConfig, cb: Combo<Value>, s: Store, at: Slot): (r: (Combo<Value>, Store))
    ensures c.disabled ==> r == (cb, s)
    ensures !c.disabled ==> r.0 == cb.(display := "", mirror := Null)
    ensures !c.disabled && at.formId != "" && at.name != "" ==>
      FieldValue(r.1, at) == Undefined && FieldValid(r.1, at) == FieldValid(s, at)
  {
    if c.disabled then (cb, s)
    else (cb.(display := "", mirror := Null), UpdateField(s, at.formId, at.name, Null, None, false))
  }

  /** Registration records the required flag and a default other than
      undefined, and leaves the field's value alone. */
  function Register(c: ComboConfig, s: Store, at: Slot): (r: Store)
    ensures FieldValue(r, at) == FieldValue(s, at)
    ensures at.formId != "" && at.name != "" ==>
      at.name in PropsOf(r, at.formId) &&
      PropsOf(r, at.formId)[at.name].required == Some(ReqBool(c.required)) &&
      (!c.defaultValue.Undefined? ==> PropsOf(r, at.formId)[at.name].defaultValue == c.defaultValue)
  {
    RegisterChoice(c.defaultValue, c.required, s, at)
  }

  /** Unmounting deletes the field and its properties unless the box
      persists them. */
  function Unmount(c: ComboConfig, s: Store, at: Slot): (r: Store)
    ensures c.persistOnUnmount ==> r == s
    ensures !c.persistOnUnmount && at.formId != "" && at.name != "" ==>
      at.name !in FieldsOf(r, at.formId) && at.name !in PropsOf(r, at.formId)
  {
    UnmountField(c.persistOnUnmount, s, at)
  }

  // ---------------------------------------------------------------------
  // The two keys

  /** The widgets compose their key with two underscores, and so does the
      hook. */
  const ComboJoiner: Joiner := Double

  /** The slots of a box's two halves: the widget's, which typing,
      reconciliation and the default read and write, and the hook's, which
      selection, clearing, registration and unmounting use. */
  datatype ComboSlots = ComboSlots(widget: Slot, hook: Slot)

  /** As written: the widget composes its key and hands it to the hook as
      the name, and the hook composes the subform id in again. */
  function SlotsAsWritten(formId: string, subFormId: string, name: string): (r: ComboSlots)
    ensures r.widget == SlotIn(ComboJoiner, formId, subFormId, name)
    ensures r.hook == SlotIn(ComboJoiner, formId, subFormId, r.widget.name)
  {
    var widget := SlotIn(ComboJoiner, formId, subFormId, name);
    ComboSlots(widget, SlotIn(ComboJoiner, formId, subFormId, widget.name))
  }

  /** The evidently intended wiring: both halves use the widget's key. */
  function Slots(formId: string, subFormId: string, name: string): (r: ComboSlots)
    ensures r.hook == r.widget == SlotIn(ComboJoiner, formId, subFormId, name)
  {
    var widget := SlotIn(ComboJoiner, formId, subFormId, name);
    ComboSlots(widget, widget)
  }

  /** Outside a subform the two wirings agree; inside one the hook's key
      carries the prefix twice, so the halves work on different fields. */
  lemma SlotsDiverge(formId: string, subFormId: string, name: string)
    ensures subFormId == "" ==> SlotsAsWritten(formId, subFormId, name) == Slots(formId, subFormId, name)
    ensures subFormId != "" ==> var sl := SlotsAsWritten(formId, subFormId, name);
      sl.hook.name == subFormId + "__" + (subFormId + "__" + name) && sl.hook != sl.widget
  {
    var sl := SlotsAsWritten(formId, subFormId, name);
    if subFormId != "" {
      assert |sl.hook.name| > |sl.widget.name|;
    }
  }

  /** As written, inside subform `addr` a choice from the list is committed
      under `addr__addr__city`, a key the widget never reads: the widget's
      field keeps what it held. */
  lemma SubFormChoiceMissesWidgetAsWritten(c: ComboConfig, cb: Combo<Value>, s: Store, value: Value, shown: string)
    requires !c.disabled && !IsNullish(value)
    ensures var sl := SlotsAsWritten("f", "addr", "city");
      var r := Select(c, cb, s, sl.hook, value, shown);
      sl.widget.name == "addr__city" && sl.hook.name == "addr__addr__city" &&
      FieldValue(r.1, sl.hook) == value && FieldValue(r.1, sl.widget) == FieldValue(s, sl.widget)
  {
    var sl := SlotsAsWritten("f", "addr", "city");
    assert sl.widget.name == "addr__city";
    assert sl.hook.name == "addr__addr__city";
    assert sl.hook.name != sl.widget.name;
  }

  /** With one key for both halves, a choice inside any subform lands in
      the widget's field and is already reconciled. */
  lemma SubFormChoiceSettles(c: ComboConfig, cb: Combo<Value>, s: Store, formId: string, subFormId: string, name: string,
                             value: Value, shown: string)
    requires !c.disabled && formId != "" && name != ""
    requires !IsNullish(value) && WellFormed(value) && !HasInvalidDate(value)
    ensures var sl := Slots(formId, subFormId, name);
      var r := Select(c, cb, s, sl.hook, value, shown);
      FieldValue(r.1, sl.widget) == value && Reconcile(c, r.0, r.1, sl.widget) == r
  {
    var sl := Slots(formId, subFormId, name);
    assert sl.widget.name != "";
    SelectSettles(c, cb, s, sl.widget, value, shown);
  }

  // ---------------------------------------------------------------------
  // Looking an option up

  /** `const found = options.find(p); if (found) ...` as written: a found
      option that is falsy (0, '', false) counts as not found. */
  function FindTruthy(xs: seq<Value>, p: Value -> bool): (r: Option<Value>)
    ensures r.Some? ==> Truthy(r.value) && exists i :: 0 <= i < |xs| && p(xs[i]) && xs[i] == r.value
    ensures (forall i :: 0 <= i < |xs| ==> !p(xs[i])) ==> r.None?
  {
    var found := Find(xs, p);
    if Truthy(found) then Some(found) else None
  }

  /** The evidently intended lookup: the first option satisfying `p`. */
  function FindFirst(xs: seq<Value>, p: Value -> bool): (r: Option<Value>)
    ensures r.Some? <==> exists i :: 0 <= i < |xs| && p(xs[i])
    ensures r.Some? ==> exists i :: 0 <= i < |xs| && p(xs[i]) && xs[i] == r.value && forall j :: 0 <= j < i ==> !p(xs[j])
  {
    var i := FindIndex(xs, p);
    if i >= 0 then Some(xs[i]) else None
  }

  /** The first member that satisfies the test is the one found. */
  lemma FindFirstAt(xs: seq<Value>, p: Value -> bool, i: int)
    requires 0 <= i < |xs| && p(xs[i]) && forall j :: 0 <= j < i ==> !p(xs[j])
    ensures FindFirst(xs, p) == Some(xs[i])
  {
    var k :| 0 <= k < |xs| && p(xs[k]) && xs[k] == FindFirst(xs, p).value && forall j :: 0 <= j < k ==> !p(xs[j]);
    if k < i {
      assert false;
    } else if k > i {
      assert false;
    }
  }

  /** The two lookups agree whenever the written one finds something, and
      always when no option is falsy. */
  lemma FindTruthyAgrees(xs: seq<Value>, p: Value -> bool)
    ensures FindTruthy(xs, p).Some? ==> FindTruthy(xs, p) == FindFirst(xs, p)
    ensures (forall i :: 0 <= i < |xs| ==> Truthy(xs[i])) ==> FindTruthy(xs, p) == FindFirst(xs, p)
  {
    FindAgreesWithFindIndex(xs, p);
  }

  /** The option 0, keyed by its decimal text, is missed as written. */
  lemma FalsyOptionIsMissed()
    ensures var p := (o: Value) => StringOf(o) == "0";
      FindTruthy([Num(0)], p).None? && FindFirst([Num(0)], p) == Some(Num(0))
  {
    var p := (o: Value) => StringOf(o) == "0";
    assert p(Num(0));
  }

  /** A key function of the kind widgets use: numbers print in decimal. */
  function StringOf(v: Value): string {
    match v
    case Num(n) => IntToString(n)
    case Str(s) => s
    case _ => ""
  }

  /** The option whose key is the typed text. */
  function KeyIs(c: ComboConfig, text: string): Value -> bool {
    (o: Value) => c.key(o) == text
  }

  /** The option whose picked value equals `v`. */
  function PicksEqual(c: ComboConfig, v: Value): Value -> bool {
    (o: Value) => IsEqual(c.pick(o), v)
  }

  // ---------------------------------------------------------------------
  // Typing

  /** `onType` given the option found for the typed text. */
  function TypeWith(c: ComboConfig, cb: Combo<Value>, s: Store, at: Slot, text: string, found: Option<Value>): (r: (Combo<Value>, Store))
    ensures c.disabled ==> r == (cb, s)
    ensures !c.disabled ==> r.0.display == text && r.0.hide.pending.None? && r.0.showOptions == cb.showOptions
    ensures !c.disabled ==> r.0.noScroll == cb.noScroll
    ensures !c.disabled && found.None? ==> r.1 == s && r.0.mirror == cb.mirror
    ensures !c.disabled && found.Some? ==>
      r.0.mirror == c.pick(found.value) &&
      r.1 == UpdateField(s, at.formId, at.name, c.pick(found.value), Some(true), false)
  {
    if c.disabled then (cb, s)
    else
      var cb1 := cb.(display := text, hide := Cancel(cb.hide));
      if found.Some? then
        (cb1.(mirror := c.pick(found.value)), UpdateField(s, at.formId, at.name, c.pick(found.value), Some(true), false))
      else (cb1, s)
  }

  /** `onType` as written: it agrees with the intended `OnType` unless the
      option typed is falsy, which is then ignored. */
  function OnTypeAsWritten(c: ComboConfig, cb: Combo<Value>, s: Store, at: Slot, text: string): (r: (Combo<Value>, Store))
    ensures FindTruthy(c.options, KeyIs(c, text)).Some? ==> r == OnType(c, cb, s, at, text)
    ensures (forall i :: 0 <= i < |c.options| ==> Truthy(c.options[i])) ==> r == OnType(c, cb, s, at, text)
    ensures !c.disabled && FindTruthy(c.options, KeyIs(c, text)).None? ==> r.1 == s && r.0.mirror == cb.mirror
  {
    FindTruthyAgrees(c.options, KeyIs(c, text));
    TypeWith(c, cb, s, at, text, FindTruthy(c.options, KeyIs(c, text)))
  }

  /** Typing the key of an option selects the first such option and marks
      the field valid; any other text commits nothing. */
  function OnType(c: ComboConfig, cb: Combo<Value>, s: Store, at: Slot, text: string): (r: (Combo<Value>, Store))
    ensures !c.disabled && (forall i :: 0 <= i < |c.options| ==> c.key(c.options[i]) != text) ==>
      r.1 == s && r.0.mirror == cb.mirror
    ensures !c.disabled && at.formId != "" && at.name != "" ==>
      forall i :: 0 <= i < |c.options| && c.key(c.options[i]) == text &&
                  (forall j :: 0 <= j < i ==> c.key(c.options[j]) != text) ==>
        r.0.mirror == c.pick(c.options[i]) && FieldValid(r.1, at) == Some(true) &&
        (!IsNullish(c.pick(c.options[i])) ==> FieldValue(r.1, at) == c.pick(c.options[i]))
  {
    TypeWith(c, cb, s, at, text, FindFirst(c.options, KeyIs(c, text)))
  }

  /** Typing "0" into a box whose options are the numbers from 0 commits
      nothing as written, and selects 0 as intended. */
  lemma TypingZeroAsWritten(c: ComboConfig, cb: Combo<Value>, s: Store, at: Slot)
    requires !c.disabled && c.options == [Num(0)]
    requires forall v :: c.key(v) == StringOf(v) && c.pick(v) == v
    requires at.formId != "" && at.name != ""
    ensures OnTypeAsWritten(c, cb, s, at, "0").1 == s
    ensures OnType(c, cb, s, at, "0").0.mirror == Num(0)
    ensures FieldValue(OnType(c, cb, s, at, "0").1, at) == Num(0)
  {
    assert KeyIs(c, "0")(Num(0));
    assert c.pick(Num(0)) == Num(0);
  }

  // ---------------------------------------------------------------------
  // Reconciliation with the store

  /** The effect on a store change, given the option found for the stored
      value. A cleared store empties the element (unless already empty); a
      value equal to the selection changes nothing; an unknown value empties
      the element and is either cleared from the store or kept as the
      selection; a known one is shown by its key. */
  function ReconcileWith(c: ComboConfig, cb: Combo<Value>, s: Store, at: Slot, found: Option<Value>): (r: (Combo<Value>, Store))
    ensures IsNullish(FieldValue(s, at)) ==> r.1 == s
    ensures IsNullish(FieldValue(s, at)) && cb.display == "" ==> r.0 == cb
    ensures IsNullish(FieldValue(s, at)) && cb.display != "" ==> r.0 == cb.(display := "", mirror := Null)
    ensures !IsNullish(FieldValue(s, at)) && IsEqual(cb.mirror, FieldValue(s, at)) ==> r == (cb, s)
    ensures !IsNullish(FieldValue(s, at)) && !IsEqual(cb.mirror, FieldValue(s, at)) && found.Some? ==>
      r == (cb.(display := c.key(found.value), mirror := c.pick(found.value)), s)
    ensures !IsNullish(FieldValue(s, at)) && !IsEqual(cb.mirror, FieldValue(s, at)) && found.None? ==>
      r.0.display == "" &&
      (c.clearInvalid ==> r.0.mirror == Null && r.1 == UpdateField(s, at.formId, at.name, Null, Some(true), false)) &&
      (!c.clearInvalid ==> r.0.mirror == FieldValue(s, at) && r.1 == s)
  {
    var incoming := FieldValue(s, at);
    if IsNullish(incoming) then
      if cb.display == "" then (cb, s) else (cb.(display := "", mirror := Null), s)
    else if IsEqual(cb.mirror, incoming) then (cb, s)
    else if found.None? then
      if c.clearInvalid then (cb.(display := "", mirror := Null), UpdateField(s, at.formId, at.name, Null, Some(true), false))
      else (cb.(display := "", mirror := incoming), s)
    else (cb.(display := c.key(found.value), mirror := c.pick(found.value)), s)
  }

  /** The reconciliation as written: it agrees with the intended
      `Reconcile` unless the option holding the stored value is falsy,
      which is then treated as unknown. */
  function ReconcileAsWritten(c: ComboConfig, cb: Combo<Value>, s: Store, at: Slot): (r: (Combo<Value>, Store))
    ensures FindTruthy(c.options, PicksEqual(c, FieldValue(s, at))).Some? ==> r == Reconcile(c, cb, s, at)
    ensures (forall i :: 0 <= i < |c.options| ==> Truthy(c.options[i])) ==> r == Reconcile(c, cb, s, at)
    ensures IsNullish(FieldValue(s, at)) ==> r == Reconcile(c, cb, s, at)
  {
    FindTruthyAgrees(c.options, PicksEqual(c, FieldValue(s, at)));
    ReconcileWith(c, cb, s, at, FindTruthy(c.options, PicksEqual(c, FieldValue(s, at))))
  }

  function Reconcile(c: ComboConfig, cb: Combo<Value>, s: Store, at: Slot): (Combo<Value>, Store) {
    ReconcileWith(c, cb, s, at, FindFirst(c.options, PicksEqual(c, FieldValue(s, at))))
  }

  /** A value the store holds and the box knows is shown by the key of the
      first option that picks it. */
  lemma ReconcileShowsKnownValue(c: ComboConfig, cb: Combo<Value>, s: Store, at: Slot, i: nat)
    requires !IsNullish(FieldValue(s, at)) && !IsEqual(cb.mirror, FieldValue(s, at))
    requires i < |c.options| && IsEqual(c.pick(c.options[i]), FieldValue(s, at))
    requires forall j :: 0 <= j < i ==> !IsEqual(c.pick(c.options[j]), FieldValue(s, at))
    ensures Reconcile(c, cb, s, at) == (cb.(display := c.key(c.options[i]), mirror := c.pick(c.options[i])), s)
  {
    var p := PicksEqual(c, FieldValue(s, at));
    assert p(c.options[i]);
    assert forall j :: 0 <= j < i ==> !p(c.options[j]);
    FindFirstAt(c.options, p, i);
  }

  /** After a selection of a well-formed value without Invalid Dates, the
      store change it causes is already reconciled. */
  lemma SelectSettles(c: ComboConfig, cb: Combo<Value>, s: Store, at: Slot, value: Value, shown: string)
    requires !c.disabled && at.formId != "" && at.name != ""
    requires !IsNullish(value) && WellFormed(value) && !HasInvalidDate(value)
    ensures var r := Select(c, cb, s, at, value, shown);
      Reconcile(c, r.0, r.1, at) == r
  {
    IsEqualReflexive(value);
  }

  /** After clearing, the store change it causes is already reconciled. */
  lemma ClearSettles(c: ComboConfig, cb: Combo<Value>, s: Store, at: Slot)
    requires !c.disabled && at.formId != "" && at.name != ""
    ensures var r := Clear(c, cb, s, at);
      Reconcile(c, r.0, r.1, at) == r
  {
  }

  // ---------------------------------------------------------------------
  // Default seeding

  /** The default effect, given the option found for the default: it acts
      only for a truthy default while nothing is selected, and only when an
      option matches; the option is then shown, taken and committed as
      valid. */
  function SeedWith(c: ComboConfig, cb: Combo<Value>, s: Store, at: Slot, found: Option<Value>): (r: (Combo<Value>, Store))
    ensures !(Truthy(c.defaultValue) && IsNullish(cb.mirror) && found.Some?) ==> r == (cb, s)
    ensures Truthy(c.defaultValue) && IsNullish(cb.mirror) && found.Some? ==>
      r.0 == cb.(display := c.key(found.value), mirror := c.pick(found.value)) &&
      r.1 == UpdateField(s, at.formId, at.name, c.pick(found.value), Some(true), false)
  {
    if Truthy(c.defaultValue) && IsNullish(cb.mirror) && found.Some? then
      (cb.(display := c.key(found.value), mirror := c.pick(found.value)),
       UpdateField(s, at.formId, at.name, c.pick(found.value), Some(true), false))
    else (cb, s)
  }

  function SeedDefault(c: ComboConfig, cb: Combo<Value>, s: Store, at: Slot): (Combo<Value>, Store) {
    SeedWith(c, cb, s, at, FindFirst(c.options, PicksEqual(c, c.defaultValue)))
  }

  /** A default that no option matches is never seeded. */
  lemma UnknownDefaultIsIgnored(c: ComboConfig, cb: Combo<Value>, s: Store, at: Slot)
    requires forall i :: 0 <= i < |c.options| ==> !IsEqual(c.pick(c.options[i]), c.defaultValue)
    ensures SeedDefault(c, cb, s, at) == (cb, s)
  {
    if FindFirst(c.options, PicksEqual(c, c.defaultValue)).Some? {
      assert false;
    }
  }

  // ---------------------------------------------------------------------
  // Mounting

  /** The first commit as written. The hook registers under its key; then
      the widget's effects run in order while its copy of the options is
      still empty, because the options effect only schedules the copy for
      the next render. Afterwards the reconciliation reruns only when the
      stored value changes and the default effect only when the default
      does, so on mount neither sees an option. */
  function MountAsWritten(c: ComboConfig, s: Store, sl: ComboSlots): (r: (Combo<Value>, Store))
    ensures r.0.display == ""
    ensures var stored := FieldValue(Register(c, s, sl.hook), sl.widget);
      r.0.mirror == (if IsNullish(stored) || c.clearInvalid then Null else stored)
    ensures !c.clearInvalid ==> r.1 == Register(c, s, sl.hook)
  {
    var noOptions := c.(options := []);
    var registered := Register(c, s, sl.hook);
    var reconciled := Reconcile(noOptions, NewCombo(Null), registered, sl.widget);
    SeedDefault(noOptions, reconciled.0, reconciled.1, sl.widget)
  }

  /** The evidently intended first commit: both effects see the options. */
  function Mount(c: ComboConfig, s: Store, sl: ComboSlots): (r: (Combo<Value>, Store))
    ensures r.1.props == Register(c, s, sl.hook).props
    ensures var registered := Register(c, s, sl.hook);
      var found := FindFirst(c.options, PicksEqual(c, c.defaultValue));
      IsNullish(FieldValue(registered, sl.widget)) && Truthy(c.defaultValue) && found.Some? ==>
        r.0.display == c.key(found.value) && r.0.mirror == c.pick(found.value) &&
        r.1 == UpdateField(registered, sl.widget.formId, sl.widget.name, c.pick(found.value), Some(true), false)
    ensures var registered := Register(c, s, sl.hook);
      var known := FindFirst(c.options, PicksEqual(c, FieldValue(registered, sl.widget)));
      !IsNullish(FieldValue(registered, sl.widget)) && known.Some? ==>
        r.0.display == c.key(known.value) && r.0.mirror == c.pick(known.value) && r.1 == registered
  {
    var registered := Register(c, s, sl.hook);
    var reconciled := Reconcile(c, NewCombo(Null), registered, sl.widget);
    SeedDefault(c, reconciled.0, reconciled.1, sl.widget)
  }

  /** Registration leaves the value the widget reads as it was. */
  lemma RegisterKeepsValue(c: ComboConfig, s: Store, at: Slot)
    ensures FieldValue(Register(c, s, at), at) == FieldValue(s, at)
  {
  }

  /** As written, a box mounted on an empty field never takes its default,
      even when an option picks it; as intended, it selects the first such
      option and commits it as valid. */
  lemma DefaultNotSeededOnMountAsWritten(c: ComboConfig, s: Store, formId: string, subFormId: string, name: string, i: nat)
    requires formId != "" && name != "" && Truthy(c.defaultValue)
    requires IsNullish(FieldValue(s, Slots(formId, subFormId, name).widget))
    requires i < |c.options| && IsEqual(c.pick(c.options[i]), c.defaultValue)
    requires forall j :: 0 <= j < i ==> !IsEqual(c.pick(c.options[j]), c.defaultValue)
    ensures var sl := Slots(formId, subFormId, name);
      var w := MountAsWritten(c, s, sl);
      w.0.mirror == Null && w.0.display == "" && FieldValue(w.1, sl.widget) == FieldValue(s, sl.widget)
    ensures var sl := Slots(formId, subFormId, name);
      var m := Mount(c, s, sl);
      m.0.mirror == c.pick(c.options[i]) && m.0.display == c.key(c.options[i]) &&
      FieldValid(m.1, sl.widget) == Some(true) &&
      (!IsNullish(c.pick(c.options[i])) ==> FieldValue(m.1, sl.widget) == c.pick(c.options[i]))
  {
    var sl := Slots(formId, subFormId, name);
    assert sl.widget.name != "";
    var registered := Register(c, s, sl.hook);
    assert FieldValue(registered, sl.widget) == FieldValue(s, sl.widget);
    var p := PicksEqual(c, c.defaultValue);
    assert p(c.options[i]);
    FindFirstAt(c.options, p, i);
    var m := Mount(c, s, sl);
    assert m.1 == UpdateField(registered, sl.widget.formId, sl.widget.name, c.pick(c.options[i]), Some(true), false);
  }

  /** As written, a box that clears values it does not know clears a value
      the store holds at mount even when an option picks it; as intended,
      it shows that option's key and keeps the value. */
  lemma StoredValueClearedOnMountAsWritten(c: ComboConfig, s: Store, formId: string, subFormId: string, name: string, i: nat)
    requires formId != "" && name != "" && c.clearInvalid
    requires !IsNullish(FieldValue(s, Slots(formId, subFormId, name).widget))
    requires i < |c.options| && !IsNullish(c.pick(c.options[i]))
    requires IsEqual(c.pick(c.options[i]), FieldValue(s, Slots(formId, subFormId, name).widget))
    requires forall j :: 0 <= j < i ==> !IsEqual(c.pick(c.options[j]), FieldValue(s, Slots(formId, subFormId, name).widget))
    ensures var sl := Slots(formId, subFormId, name);
      var w := MountAsWritten(c, s, sl);
      w.0.mirror == Null && w.0.display == "" && FieldValue(w.1, sl.widget) == Undefined
    ensures var sl := Slots(formId, subFormId, name);
      var m := Mount(c, s, sl);
      m.0.mirror == c.pick(c.options[i]) && m.0.display == c.key(c.options[i]) &&
      FieldValue(m.1, sl.widget) == FieldValue(s, sl.widget)
  {
    var sl := Slots(formId, subFormId, name);
    assert sl.widget.name != "";
    var registered := Register(c, s, sl.hook);
    var stored := FieldValue(registered, sl.widget);
    assert stored == FieldValue(s, sl.widget);
    MountAsWrittenClears(c, s, sl);
    var p := PicksEqual(c, stored);
    assert p(c.options[i]);
    FindFirstAt(c.options, p, i);
  }

  /** A clearing box mounted on a stored value clears it, as written. */
  lemma MountAsWrittenClears(c: ComboConfig, s: Store, sl: ComboSlots)
    requires sl.widget.formId != "" && sl.widget.name != "" && c.clearInvalid
    requires !IsNullish(FieldValue(Register(c, s, sl.hook), sl.widget))
    ensures var w := MountAsWritten(c, s, sl);
      w.0.mirror == Null && w.0.display == "" && FieldValue(w.1, sl.widget) == Undefined
  {
  }

  // ---------------------------------------------------------------------
  // Filtering and scrolling

  /** The options satisfying `p`, in order. */
  function Filter(xs: seq<Value>, p: Value -> bool): (r: seq<Value>)
    ensures |r| <= |xs|
    ensures forall k :: 0 <= k < |r| ==> p(r[k]) && r[k] in xs
    ensures forall i :: 0 <= i < |xs| && p(xs[i]) ==> xs[i] in r
    decreases |xs|
  {
    if |xs| == 0 then []
    else if p(xs[0]) then [xs[0]] + Filter(xs[1..], p)
    else Filter(xs[1..], p)
  }

  lemma {:induction false} FilterAll(xs: seq<Value>, p: Value -> bool)
    requires forall i :: 0 <= i < |xs| ==> p(xs[i])
    ensures Filter(xs, p) == xs
    decreases |xs|
  {
    if |xs| > 0 {
      FilterAll(xs[1..], p);
    }
  }

  /** When no option passes the test, nothing is kept. */
  lemma {:induction false} FilterNone(xs: seq<Value>, p: Value -> bool)
    requires forall i :: 0 <= i < |xs| ==> !p(xs[i])
    ensures Filter(xs, p) == []
    decreases |xs|
  {
    if |xs| > 0 {
      assert !p(xs[0]);
      FilterNone(xs[1..], p);
    }
  }

  /** Filtering works piece by piece and keeps each option where it was:
      together with the one-option case this fixes both the order and the
      number of copies the source's `filter` keeps. */
  lemma {:induction false} FilterKeepsOrder(a: seq<Value>, b: seq<Value>, p: Value -> bool, y: Value)
    ensures Filter(a + b, p) == Filter(a, p) + Filter(b, p)
    ensures Filter([y], p) == (if p(y) then [y] else [])
  {
    FilterConcat(a, b, p);
    assert [y][1..] == [];
  }

  lemma {:induction false} FilterConcat(a: seq<Value>, b: seq<Value>, p: Value -> bool)
    ensures Filter(a + b, p) == Filter(a, p) + Filter(b, p)
    decreases |a|
  {
    if |a| == 0 {
      assert a + b == b;
    } else {
      assert (a + b)[1..] == a[1..] + b;
      assert (a + b)[0] == a[0];
      FilterConcat(a[1..], b, p);
      var fa := Filter(a[1..], p);
      var fb := Filter(b, p);
      if p(a[0]) {
        assert [a[0]] + (fa + fb) == ([a[0]] + fa) + fb;
      }
    }
  }

  /** The typed text matches an option's key, ignoring case; empty text
      matches everything. */
  function Matches(c: ComboConfig, text: string): Value -> bool {
    (o: Value) => text == "" || ContainsIgnoreCase(c.key(o), text)
  }

  /** The options shown: with `filterOnType`, those the text matches,
      unless the render follows a selection. */
  function Visible<M>(c: ComboConfig, cb: Combo<M>): (r: seq<Value>)
    ensures cb.noScroll || !c.filterOnType || cb.display == "" ==> r == c.options
    ensures forall k :: 0 <= k < |r| ==> r[k] in c.options
  {
    if cb.noScroll || !c.filterOnType then c.options
    else if cb.display == "" then
      FilterAll(c.options, Matches(c, cb.display));
      Filter(c.options, Matches(c, cb.display))
    else Filter(c.options, Matches(c, cb.display))
  }

  /** The end of every render: the flag a selection set has done its work
      and is cleared, whatever was shown. */
  function Rendered<M>(cb: Combo<M>): (r: Combo<M>)
    ensures !r.noScroll
    ensures r.(noScroll := cb.noScroll) == cb
  {
    cb.(noScroll := false)
  }

  /** A selection shows every option for the one render that follows it;
      typing after that render shows only the options the text matches. */
  lemma TypingAfterSelectFilters(c: ComboConfig, cb: Combo<Value>, s: Store, at: Slot, value: Value, shown: string,
                                 text: string, found: Option<Value>)
    requires !c.disabled && c.filterOnType && text != ""
    ensures var selected := Select(c, cb, s, at, value, shown);
      Visible(c, selected.0) == c.options &&
      var typed := TypeWith(c, Rendered(selected.0), selected.1, at, text, found);
      Visible(c, typed.0) == Filter(c.options, Matches(c, text)) &&
      forall k :: 0 <= k < |Visible(c, typed.0)| ==> ContainsIgnoreCase(c.key(Visible(c, typed.0)[k]), text)
  {
  }

  /** The option scrolled to without `filterOnType`: the first one the text
      matches, -1 for none, 0 after a selection or with filtering. */
  function ScrollIndex<M>(c: ComboConfig, cb: Combo<M>): (r: int)
    ensures cb.noScroll || c.filterOnType ==> r == 0
    ensures !cb.noScroll && !c.filterOnType ==>
      -1 <= r < |c.options| &&
      (r >= 0 ==> Matches(c, cb.display)(c.options[r])) &&
      (forall j :: 0 <= j < |c.options| && (r < 0 || j < r) ==> !Matches(c, cb.display)(c.options[j]))
  {
    if cb.noScroll || c.filterOnType then 0 else FindIndex(c.options, Matches(c, cb.display))
  }

  // ---------------------------------------------------------------------
  // Duplicate keys

  predicate Distinct(keys: seq<string>) {
    forall i, j :: 0 <= i < j < |keys| ==> keys[i] != keys[j]
  }

  /** The option keys in order. */
  function KeysOf(c: ComboConfig): (ks: seq<string>)
    ensures |ks| == |c.options| && forall i :: 0 <= i < |ks| ==> ks[i] == c.key(c.options[i])
  {
    seq(|c.options|, i requires 0 <= i < |c.options| => c.key(c.options[i]))
  }

  /** The duplicate check run when the options change: the index at which
      the scan meets a key it has seen (and stops, with a warning), or
      `None` when all keys are distinct. Nothing else depends on it. */
  method FirstDuplicate(keys: seq<string>) returns (r: Option<nat>)
    ensures r.None? <==> Distinct(keys)
    ensures r.Some? ==> r.value < |keys| && keys[r.value] in keys[..r.value] && Distinct(keys[..r.value])
  {
    var seen: set<string> := {};
    var i := 0;
    while i < |keys|
      invariant 0 <= i <= |keys|
      invariant seen == set k | k in keys[..i]
      invariant Distinct(keys[..i])
    {
      if keys[i] in seen {
        return Some(i);
      }
      assert keys[..i + 1] == keys[..i] + [keys[i]];
      seen := seen + {keys[i]};
      i := i + 1;
    }
    assert keys[..i] == keys;
    return None;
  }

  // ---------------------------------------------------------------------
  // The three widgets

  /** The generic and column boxes select the option itself. */
  function KeyedCombo(options: seq<Value>, key: Value -> string, defaultValue: Value, required: bool,
                      persistOnUnmount: bool, clearInvalid: bool, filterOnType: bool, disabled: bool): (c: ComboConfig)
    ensures forall o :: c.pick(o) == o
  {
    ComboConfig(options, key, (o: Value) => o, defaultValue, required, persistOnUnmount, clearInvalid, filterOnType, disabled)
  }

  /** A `{label, value}` option of the simple box. */
  function LabelledOption(text: string, value: Value): Value {
    Obj([Member("label", Str(text)), Member("value", value)])
  }

  /** The simple box: keyed by `label`, selecting `value`. Its options are
      records, so every one is truthy. */
  function SimpleCombo(labels: seq<string>, values: seq<Value>, defaultValue: Value, required: bool,
                       persistOnUnmount: bool, clearInvalid: bool, filterOnType: bool, disabled: bool): (c: ComboConfig)
    requires |labels| == |values|
    ensures |c.options| == |labels|
    ensures forall i :: 0 <= i < |labels| ==>
      c.options[i] == LabelledOption(labels[i], values[i]) && Truthy(c.options[i])
  {
    var options := seq(|labels|, i requires 0 <= i < |labels| => LabelledOption(labels[i], values[i]));
    ComboConfig(options, (o: Value) => StringOf(Prop(o, "label")), (o: Value) => Prop(o, "value"),
      defaultValue, required, persistOnUnmount, clearInvalid, filterOnType, disabled)
  }

  /** A labelled option is keyed by its label and picks its value. */
  lemma SimpleOptionParts(c: ComboConfig, labels: seq<string>, values: seq<Value>, defaultValue: Value, required: bool,
                          persistOnUnmount: bool, clearInvalid: bool, filterOnType: bool, disabled: bool, i: nat)
    requires |labels| == |values| && i < |labels|
    requires c == SimpleCombo(labels, values, defaultValue, required, persistOnUnmount, clearInvalid, filterOnType, disabled)
    ensures c.key(c.options[i]) == labels[i] && c.pick(c.options[i]) == values[i]
  {
    var ms := [Member("label", Str(labels[i])), Member("value", values[i])];
    assert ms[1..] == [Member("value", values[i])];
    assert Lookup(ms[1..], "value") == values[i];
  }

  /** In the simple box the written lookups agree with the intended ones. */
  lemma SimpleLookupsAgree(labels: seq<string>, values: seq<Value>, defaultValue: Value, required: bool,
                           persistOnUnmount: bool, clearInvalid: bool, filterOnType: bool, disabled: bool,
                           cb: Combo<Value>, s: Store, at: Slot, text: string)
    requires |labels| == |values|
    ensures var c := SimpleCombo(labels, values, defaultValue, required, persistOnUnmount, clearInvalid, filterOnType, disabled);
      OnTypeAsWritten(c, cb, s, at, text) == OnType(c, cb, s, at, text) &&
      ReconcileAsWritten(c, cb, s, at) == Reconcile(c, cb, s, at)
  {
    var c := SimpleCombo(labels, values, defaultValue, required, persistOnUnmount, clearInvalid, filterOnType, disabled);
    FindTruthyAgrees(c.options, KeyIs(c, text));
    FindTruthyAgrees(c.options, PicksEqual(c, FieldValue(s, at)));
  }

  /** A column of the column box: a `get` path or a render function. */
  datatype Column = Path(path: string) | Render(fn: Value -> string)

  /** The cell of an option: `get(option, path) ?? ''`, or `fn(option)`. */
  function Cell(option: Value, col: Column): (r: Value)
    ensures col.Path? ==> (r == Str("") <==> IsNullish(Get(option, col.path)) || Get(option, col.path) == Str(""))
    ensures col.Path? && !IsNullish(Get(option, col.path)) ==> r == Get(option, col.path)
    ensures col.Render? ==> r == Str(col.fn(option))
  {
    match col
    case Path(p) => var v := Get(option, p); if IsNullish(v) then Str("") else v
    case Render(f) => Str(f(option))
  }

  /** A one-segment path names a property of a truthy option. */
  lemma CellOfProperty(option: Value, key: string)
    requires Truthy(option) && !IsNullish(option) && key != "" && Lacks(key, '.')
    ensures Cell(option, Path(key)) ==
      (if IsNullish(Prop(option, SegmentKey(key))) then Str("") else Prop(option, SegmentKey(key)))
  {
    WalkSegment(option, key, "");
  }
}

=== FILE: date_range.dfy ===
/** The date-range picker (lib/MyForm/components/MyDateRangeInput.tsx): a
    calendar on which a click or a drag chooses a start and an end day.
    The value in the store is a `{start, end}` record of Dates. Dates
    handed in by the calendar are valid; comparisons are by calendar day
    (the comparators of lib/MyForm/components/utils.ts), between distinct
    objects unless said otherwise. */
module DateRange {
  import opened Base
  import opened JsValues
  import opened DateUtils
  import opened Utils
  import opened FormStore
  import opened GeneralInput
  import opened FieldNames

  /** The picker composes its key inside a subform with two underscores. */
  const RangeJoiner: Joiner := Double

  /** The drag in progress: none, a new range begun on `anchor`, moving
      the start, moving the end, or one abandoned outside the calendar
      (`''`, `'initialise'`, `'start'`, `'end'`, `'leftover'`). */
  datatype Drag = Idle | Initialise(anchor: JsDate) | MoveStart | MoveEnd | Leftover

  /** The calendar page shown: a year and a month counted from 0. */
  datatype Page = Page(year: int, month: int)

  /** `internalRef`: the chosen days, each possibly absent. */
  datatype Range = Range(start: Option<JsDate>, end: Option<JsDate>)

  /** The picker's state: the range, the two date texts, the drag, the
      page, whether the calendar is open and the delayed hide. */
  datatype Picker = Picker(mirror: Range, startText: string, endText: string, drag: Drag, page: Page,
                           showCalendar: bool, hide: Debouncer<()>, initialised: bool)

  datatype RangeConfig = RangeConfig(
    defaultValue: Option<Range>,
    min: Option<JsDate>,
    max: Option<JsDate>,
    required: bool,
    validator: Option<Value -> VResult>,
    persistOnUnmount: bool,
    disabled: bool)

  const NoRange := Range(None, None)

  function DateValue(d: Option<JsDate>): Value {
    if d.Some? then DateObj(d.value) else Undefined
  }

  /** A Date read back from a record member; anything else is absent. */
  function AsDate(v: Value): (d: Option<JsDate>)
    ensures d.Some? <==> v.DateObj?
  {
    if v.DateObj? then Some(v.date) else None
  }

  /** The record committed for a range. */
  function RangeValue(m: Range): Value {
    Obj([Member("start", DateValue(m.start)), Member("end", DateValue(m.end))])
  }

  /** The range a committed record reads back as. */
  lemma RangeValueReadsBack(m: Range)
    ensures AsDate(Prop(RangeValue(m), "start")) == m.start
    ensures AsDate(Prop(RangeValue(m), "end")) == m.end
  {
    PairProps("start", DateValue(m.start), "end", DateValue(m.end));
  }

  /** The text of a date input: `yyyy-MM-dd`, or empty. */
  function Text(d: Option<JsDate>): string {
    DateFormatter(d, Some(IsoDateFormat))
  }

  /** Every present endpoint is a valid date. */
  predicate ValidRange(m: Range) {
    (m.start.Some? ==> m.start.value.DateAt?) && (m.end.Some? ==> m.end.value.DateAt?)
  }

  /** The start is not after the end when both are present. */
  predicate Ordered(m: Range) {
    m.start.Some? && m.end.Some? ==> IsSameDayOrBefore(m.start, m.end, false)
  }

  predicate ValidDrag(d: Drag) {
    d.Initialise? ==> d.anchor.DateAt?
  }

  /** The commit every gesture ends with: the range, as valid. */
  function CommitRange(s: Store, at: Slot, m: Range): (r: Store)
    ensures at.formId != "" && at.name != "" ==>
      FieldValue(r, at) == RangeValue(m) && FieldValid(r, at) == Some(true)
  {
    UpdateField(s, at.formId, at.name, RangeValue(m), Some(true), false)
  }

  // ---------------------------------------------------------------------
  // Clicking and dragging

  /** `onDragStart`: a press while a drag is in progress marks it
      abandoned; otherwise a press on the start or end day moves that
      endpoint and a press elsewhere begins a new range there. */
  function DragStart(c: RangeConfig, p: Picker, value: JsDate): (r: Picker)
    ensures c.disabled ==> r == p
    ensures !c.disabled ==> r.mirror == p.mirror && r.startText == p.startText && r.endText == p.endText
    ensures !c.disabled && !p.drag.Idle? ==> r.drag == Leftover
    ensures !c.disabled && p.drag.Idle? && value.DateAt? ==> ValidDrag(r.drag) && !r.drag.Idle? && !r.drag.Leftover?
  {
    if c.disabled then p
    else
      var p1 := p.(hide := Cancel(p.hide));
      if !p.drag.Idle? then p1.(drag := Leftover)
      else if p.mirror.start.Some? && IsSameDay(Some(value), p.mirror.start, false) then p1.(drag := MoveStart)
      else if p.mirror.end.Some? && IsSameDay(Some(value), p.mirror.end, false) then p1.(drag := MoveEnd)
      else p1.(drag := Initialise(value))
  }

  /** `onDragEnter`: the drag follows the pointer. A new range spans the
      anchor and the day entered, in order; a moved endpoint that
      crosses the other one swaps roles with it. Nothing is committed. */
  function DragEnter(c: RangeConfig, p: Picker, value: JsDate): (r: Picker)
    ensures c.disabled || p.drag.Idle? || p.drag.Leftover? ==> r.mirror == p.mirror && r.drag == p.drag
    ensures !c.disabled && p.drag.Initialise? ==>
      (r.mirror == Range(Some(p.drag.anchor), Some(value)) || r.mirror == Range(Some(value), Some(p.drag.anchor)))
    ensures !c.disabled && p.drag.MoveStart? && p.mirror.end.Some? && !IsSameDayOrBefore(Some(value), p.mirror.end, false) ==>
      r.drag == MoveEnd && r.mirror == Range(p.mirror.end, Some(value))
    ensures !c.disabled && p.drag.MoveEnd? && p.mirror.start.Some? && !IsSameDayOrAfter(Some(value), p.mirror.start, false) ==>
      r.drag == MoveStart && r.mirror == Range(Some(value), p.mirror.start)
  {
    if c.disabled then p
    else
      var p1 := p.(hide := Cancel(p.hide));
      match p.drag
      case Initialise(anchor) =>
        if IsSameDayOrAfter(Some(value), Some(anchor), false) then
          p1.(mirror := Range(Some(anchor), Some(value)), startText := Text(Some(anchor)), endText := Text(Some(value)))
        else
          p1.(mirror := Range(Some(value), Some(anchor)), startText := Text(Some(value)), endText := Text(Some(anchor)))
      case MoveStart =>
        if IsSameDayOrBefore(Some(value), p.mirror.end, false) then
          p1.(mirror := p.mirror.(start := Some(value)), startText := Text(Some(value)))
        else
          p1.(mirror := Range(p.mirror.end, Some(value)), startText := Text(p.mirror.end), endText := Text(Some(value)),
              drag := MoveEnd)
      case MoveEnd =>
        if IsSameDayOrAfter(Some(value), p.mirror.start, false) then
          p1.(mirror := p.mirror.(end := Some(value)), endText := Text(Some(value)))
        else
          p1.(mirror := Range(Some(value), p.mirror.start), endText := Text(p.mirror.start), startText := Text(Some(value)),
              drag := MoveStart)
      case _ => p1
  }

  /** A drag keeps the start on or before the end. */
  lemma DragEnterKeepsOrder(c: RangeConfig, p: Picker, value: JsDate)
    requires value.DateAt? && ValidRange(p.mirror) && Ordered(p.mirror) && ValidDrag(p.drag)
    ensures ValidRange(DragEnter(c, p, value).mirror) && Ordered(DragEnter(c, p, value).mirror)
    ensures ValidDrag(DragEnter(c, p, value).drag)
  {
    if !c.disabled {
      match p.drag
      case Initialise(anchor) =>
        ComparatorsTrichotomy(value, anchor);
        ComparatorsMirror(Some(value), Some(anchor));
      case MoveStart =>
        if p.mirror.end.Some? {
          ComparatorsTrichotomy(value, p.mirror.end.value);
          ComparatorsMirror(Some(value), p.mirror.end);
        }
      case MoveEnd =>
        if p.mirror.start.Some? {
          ComparatorsTrichotomy(value, p.mirror.start.value);
          ComparatorsMirror(Some(value), p.mirror.start);
        }
      case _ =>
    }
  }

  /** `onMouseUp`: unless the drag was abandoned, it ends and the range is
      committed as valid. */
  function MouseUp(c: RangeConfig, p: Picker, s: Store, at: Slot): (r: (Picker, Store))
    ensures c.disabled ==> r == (p, s)
    ensures !c.disabled ==> r.0.mirror == p.mirror
    ensures !c.disabled && p.drag.Leftover? ==> r.1 == s && r.0.drag == Leftover
    ensures !c.disabled && !p.drag.Leftover? ==> r.0.drag == Idle && r.1 == CommitRange(s, at, p.mirror)
  {
    if c.disabled then (p, s)
    else
      var p1 := p.(hide := Cancel(p.hide));
      if p.drag.Leftover? then (p1, s)
      else (p1.(drag := Idle), CommitRange(s, at, p.mirror))
  }

  /** The range a click makes of `m`: a complete range is dropped first;
      then the click sets a missing start, or becomes the start (the old
      start becoming the end) when on or before it, or becomes the end. */
  function Click(m: Range, value: JsDate): (r: Range)
    ensures m.start.Some? && m.end.Some? ==> r == Range(Some(value), None)
    ensures m.start.None? ==> r == Range(Some(value), None)
    ensures m.start.Some? && m.end.None? ==>
      r == (if IsSameDayOrBefore(Some(value), m.start, false) then Range(Some(value), m.start) else Range(m.start, Some(value)))
    ensures r.start == Some(value) || r.end == Some(value)
  {
    var m1 := if m.start.Some? && m.end.Some? then NoRange else m;
    if m1.start.None? then Range(Some(value), None)
    else if IsSameDayOrBefore(Some(value), m1.start, false) then Range(Some(value), m1.start)
    else Range(m1.start, Some(value))
  }

  /** A click keeps the start on or before the end. */
  lemma ClickKeepsOrder(m: Range, value: JsDate)
    requires value.DateAt? && ValidRange(m)
    ensures ValidRange(Click(m, value)) && Ordered(Click(m, value))
  {
    if !(m.start.Some? && m.end.Some?) && m.start.Some? {
      ComparatorsTrichotomy(value, m.start.value);
      ComparatorsMirror(Some(value), m.start);
    }
  }

  /** Two clicks on an empty calendar make the range of the two days, the
      earlier one first; a second click on the first day makes a one-day
      range. */
  lemma TwoClicksMakeRange(a: JsDate, b: JsDate)
    requires a.DateAt? && b.DateAt?
    ensures var r := Click(Click(NoRange, a), b);
      r.start.Some? && r.end.Some? && {r.start.value, r.end.value} == {a, b} &&
      IsSameDayOrBefore(r.start, r.end, false)
    ensures Click(Click(NoRange, a), b) ==
      if IsSameDayOrBefore(Some(b), Some(a), false) then Range(Some(b), Some(a)) else Range(Some(a), Some(b))
    ensures IsSameDay(Some(a), Some(b), false) ==> Click(Click(NoRange, a), b) == Range(Some(b), Some(a))
  {
  }

  /** `onSelect`: a click after an abandoned drag only ends it (and
      commits); any other click updates the range as `Click` says, sets
      the texts to match and commits the range as valid. */
  function Select(c: RangeConfig, p: Picker, s: Store, at: Slot, value: JsDate): (r: (Picker, Store))
    ensures c.disabled ==> r == (p, s)
    ensures !c.disabled && p.drag.Leftover? ==>
      r.0.mirror == p.mirror && r.0.drag == Idle && r.1 == CommitRange(s, at, p.mirror)
    ensures !c.disabled && !p.drag.Leftover? ==>
      r.0.mirror == Click(p.mirror, value) && r.0.drag == p.drag && r.1 == CommitRange(s, at, r.0.mirror)
    ensures !c.disabled && !p.drag.Leftover? && p.mirror.start.Some? && p.mirror.end.Some? ==>
      r.0.startText == Text(Some(value)) && r.0.endText == ""
  {
    if c.disabled then (p, s)
    else
      var p1 := p.(hide := Cancel(p.hide));
      if p.drag.Leftover? then MouseUp(c, DragEnter(c, p1.(drag := Idle), value), s, at)
      else
        var m := Click(p.mirror, value);
        var whole := p.mirror.start.Some? && p.mirror.end.Some?;
        var p2 :=
          if whole || p.mirror.start.None? then p1.(startText := Text(Some(value)), endText := "")
          else if IsSameDayOrBefore(Some(value), p.mirror.start, false) then p1.(endText := p.startText, startText := Text(Some(value)))
          else p1.(endText := Text(Some(value)));
        (p2.(mirror := m), CommitRange(s, at, m))
  }

  /** `clearDate` (which also closes the calendar) and `clearCalendar`:
      both texts and the range are emptied and the empty range is
      committed as valid. */
  function Clear(c: RangeConfig, p: Picker, s: Store, at: Slot, closeNow: bool): (r: (Picker, Store))
    ensures c.disabled ==> r == (p, s)
    ensures !c.disabled ==>
      r.0.mirror == NoRange && r.0.startText == "" && r.0.endText == "" && r.1 == CommitRange(s, at, NoRange)
    ensures !c.disabled && closeNow ==> !r.0.showCalendar
  {
    if c.disabled then (p, s)
    else
      var p1 := if closeNow then p.(showCalendar := false) else p.(hide := Cancel(p.hide));
      (p1.(mirror := NoRange, startText := "", endText := ""), CommitRange(s, at, NoRange))
  }

  // ---------------------------------------------------------------------
  // Following the store

  /** The store's value as a range: a nullish value reads as `{}`. */
  function StoredRecord(s: Store, at: Slot): Value {
    var stored := FieldValue(s, at);
    if IsNullish(stored) then Obj([]) else stored
  }

  function StoredRange(s: Store, at: Slot): Range {
    var data := StoredRecord(s, at);
    Range(AsDate(Prop(data, "start")), AsDate(Prop(data, "end")))
  }

  /** A store change is taken only when the start or the end differs
      from the range by calendar day; it is then written back as valid
      and both texts follow it. */
  function Reconcile(c: RangeConfig, p: Picker, s: Store, at: Slot): (r: (Picker, Store))
    ensures var nr := StoredRange(s, at);
      IsSameDay(p.mirror.start, nr.start, false) && IsSameDay(p.mirror.end, nr.end, false) ==> r == (p, s)
    ensures var nr := StoredRange(s, at);
      !(IsSameDay(p.mirror.start, nr.start, false) && IsSameDay(p.mirror.end, nr.end, false)) ==>
        r.0 == p.(mirror := nr, startText := Text(nr.start), endText := Text(nr.end)) &&
        r.1 == UpdateField(s, at.formId, at.name, StoredRecord(s, at), Some(true), false)
  {
    var nr := StoredRange(s, at);
    if !IsSameDay(p.mirror.start, nr.start, false) || !IsSameDay(p.mirror.end, nr.end, false) then
      (p.(mirror := nr, startText := Text(nr.start), endText := Text(nr.end)),
       UpdateField(s, at.formId, at.name, StoredRecord(s, at), Some(true), false))
    else (p, s)
  }

  /** A committed range reads back from the store as itself. */
  lemma CommitReadsBack(s: Store, at: Slot, m: Range)
    requires at.formId != "" && at.name != ""
    ensures StoredRange(CommitRange(s, at, m), at) == m
  {
    var s1 := CommitRange(s, at, m);
    assert StoredRecord(s1, at) == RangeValue(m);
    RangeValueReadsBack(m);
  }

  /** A valid range read back from its own commit changes nothing. */
  lemma CommitSettles(c: RangeConfig, p: Picker, s: Store, at: Slot)
    requires at.formId != "" && at.name != "" && ValidRange(p.mirror)
    ensures Reconcile(c, p, CommitRange(s, at, p.mirror), at) == (p, CommitRange(s, at, p.mirror))
  {
    CommitReadsBack(s, at, p.mirror);
    var m := p.mirror;
    assert IsSameDay(m.start, m.start, false) && IsSameDay(m.end, m.end, false);
  }

  /** Every click, read back, changes nothing more. */
  lemma SelectSettles(c: RangeConfig, p: Picker, s: Store, at: Slot, value: JsDate)
    requires at.formId != "" && at.name != "" && !c.disabled
    requires value.DateAt? && ValidRange(p.mirror)
    ensures var r := Select(c, p, s, at, value); Reconcile(c, r.0, r.1, at) == r
  {
    ClickKeepsOrder(p.mirror, value);
    var r := Select(c, p, s, at, value);
    CommitSettles(c, r.0, s, at);
  }

  /** Writing the stored record back leaves it readable as before. */
  lemma WriteBackKeepsRecord(s: Store, at: Slot)
    requires at.formId != "" && at.name != ""
    ensures StoredRecord(UpdateField(s, at.formId, at.name, StoredRecord(s, at), Some(true), false), at) == StoredRecord(s, at)
  {
    var rec := StoredRecord(s, at);
    var s1 := UpdateField(s, at.formId, at.name, rec, Some(true), false);
    assert !IsNullish(rec);
    assert FieldValue(s1, at) == s1.forms[at.formId][at.name].value == rec;
  }

  /** A store change taken in, read back again, changes nothing more. */
  lemma ReconcileSettles(c: RangeConfig, p: Picker, s: Store, at: Slot)
    requires at.formId != "" && at.name != "" && ValidRange(StoredRange(s, at))
    ensures var r := Reconcile(c, p, s, at); Reconcile(c, r.0, r.1, at) == r
  {
    WriteBackKeepsRecord(s, at);
  }

  // ---------------------------------------------------------------------
  // Required check and registration

  /** `!!value?.start && !!value?.end`. */
  predicate RangeRequired(v: Value) {
    Truthy(Prop(v, "start")) && Truthy(Prop(v, "end"))
  }

  /** A committed range passes the required check exactly when both
      endpoints are present. */
  lemma RangeRequiredMeansBoth(m: Range)
    ensures RangeRequired(RangeValue(m)) <==> m.start.Some? && m.end.Some?
  {
    RangeValueReadsBack(m);
    PairProps("start", DateValue(m.start), "end", DateValue(m.end));
  }

  /** The default, the required check (a predicate when required, `false`
      otherwise) and the validator are registered. */
  function Register(c: RangeConfig, s: Store, at: Slot): (r: Store)
    ensures at.formId != "" && at.name != "" ==>
      at.formId in r.props && at.name in r.props[at.formId] &&
      var req := r.props[at.formId][at.name].required;
      req.Some? && (c.required <==> req.value.ReqPred?) &&
      (c.required ==> forall v :: req.value.pred(v) == RangeRequired(v)) &&
      (!c.required ==> req.value == ReqBool(false))
    ensures at.formId != "" && at.name != "" && c.defaultValue.Some? ==>
      r.props[at.formId][at.name].defaultValue == RangeValue(c.defaultValue.value)
    ensures at.formId != "" && at.name != "" ==>
      var prior := if at.name in PropsOf(s, at.formId) then PropsOf(s, at.formId)[at.name] else NoProps;
      r.props[at.formId][at.name].validator == (if c.validator.Some? then c.validator else prior.validator) &&
      (c.defaultValue.None? ==> r.props[at.formId][at.name].defaultValue == prior.defaultValue)
  {
    var dv := if c.defaultValue.Some? then RangeValue(c.defaultValue.value) else Undefined;
    var req := if c.required then ReqPred((v: Value) => RangeRequired(v)) else ReqBool(false);
    SetFieldProperties(s, at.formId, at.name, dv, Some(req), c.validator)
  }

  /** The default's endpoints replace the range's (an absent one keeps
      what was there), the page moves to the default's first endpoint and
      the default is committed as valid. Shared by the first mount and
      `resetCalendar`. */
  function ApplyDefault(p: Picker, s: Store, at: Slot, d: Range): (r: (Picker, Store))
    ensures r.0.mirror.start == (if d.start.Some? then d.start else p.mirror.start)
    ensures r.0.mirror.end == (if d.end.Some? then d.end else p.mirror.end)
    ensures r.1 == CommitRange(s, at, d)
  {
    var p1 := if d.start.Some? then p.(mirror := p.mirror.(start := d.start), startText := Text(d.start)) else p;
    var p2 := if d.end.Some? then p1.(mirror := p1.mirror.(end := d.end), endText := Text(d.end)) else p1;
    var first := if d.start.Some? then d.start else d.end;
    var p3 := if first.Some? && first.value.DateAt? then p2.(page := Page(first.value.year, first.value.month)) else p2;
    (p3, CommitRange(s, at, d))
  }

  /** The first mount takes the default once. */
  function Seed(c: RangeConfig, p: Picker, s: Store, at: Slot): (r: (Picker, Store))
    ensures p.initialised ==> r == (p, s)
    ensures !p.initialised ==> r.0.initialised
    ensures !p.initialised && c.defaultValue.None? ==> r == (p.(initialised := true), s)
    ensures !p.initialised && c.defaultValue.Some? ==> r.1 == CommitRange(s, at, c.defaultValue.value)
  {
    if p.initialised then (p, s)
    else if c.defaultValue.Some? then
      var r := ApplyDefault(p, s, at, c.defaultValue.value);
      (r.0.(initialised := true), r.1)
    else (p.(initialised := true), s)
  }

  /** `resetCalendar`: without a default, the calendar is cleared and
      shows today's month; with one, the default is applied. */
  function Reset(c: RangeConfig, p: Picker, s: Store, at: Slot, today: JsDate): (r: (Picker, Store))
    requires today.DateAt?
    ensures c.defaultValue.None? && !c.disabled ==>
      r.0.mirror == NoRange && r.0.page == Page(today.year, today.month) && r.1 == CommitRange(s, at, NoRange)
    ensures c.defaultValue.None? && c.disabled ==> r == (p.(hide := Cancel(p.hide), page := Page(today.year, today.month)), s)
    ensures c.defaultValue.Some? ==> r.1 == CommitRange(s, at, c.defaultValue.value)
  {
    var p1 := p.(hide := Cancel(p.hide));
    if c.defaultValue.None? then
      var cleared := Clear(c, p1, s, at, false);
      (cleared.0.(page := Page(today.year, today.month)), cleared.1)
    else ApplyDefault(p1, s, at, c.defaultValue.value)
  }

  function Unmount(c: RangeConfig, s: Store, at: Slot): Store {
    UnmountField(c.persistOnUnmount, s, at)
  }

  // ---------------------------------------------------------------------
  // Bounds and month navigation

  /** The bounds in force: both are dropped when `max` is before `min`.
      `sameObject` says `min` and `max` are one Date object, which
      `isDayBefore` counts as before itself. */
  function BoundsAsWritten(lo: Option<JsDate>, hi: Option<JsDate>, sameObject: bool): (r: (Option<JsDate>, Option<JsDate>))
    requires sameObject ==> lo == hi
    ensures r == (lo, hi) || r == (None, None)
  {
    if lo.Some? && hi.Some? && IsDayBefore(hi, lo, sameObject) then (None, None) else (lo, hi)
  }

  /** The evidently intended bounds: dropped only when `max` is a day
      strictly before `min`, however the two were passed. */
  function Bounds(lo: Option<JsDate>, hi: Option<JsDate>): (r: (Option<JsDate>, Option<JsDate>))
    ensures Valid(lo) && Valid(hi) ==> (r == (None, None) <==> DayLess(hi.value, lo.value))
    ensures r == (lo, hi) || r == (None, None)
  {
    BoundsAsWritten(lo, hi, false)
  }

  /** One Date object passed as both bounds (a single allowed day) drops
      both as written, and is kept as intended. */
  lemma OneDayBoundsDroppedAsWritten(d: JsDate)
    requires d.DateAt?
    ensures BoundsAsWritten(Some(d), Some(d), true) == (None, None)
    ensures Bounds(Some(d), Some(d)) == (Some(d), Some(d))
  {
  }

  function YearOf(d: Option<JsDate>): Option<int> {
    if Valid(d) then Some(d.value.year) else None
  }

  function MonthOf(d: Option<JsDate>): Option<int> {
    if Valid(d) then Some(d.value.month) else None
  }

  /** `!!minYear`: a present, non-zero year. */
  predicate TruthyYear(y: Option<int>) {
    y.Some? && y.value != 0
  }

  /** The page is not before the month of `lo`. */
  predicate NotBefore(pg: Page, lo: JsDate)
    requires lo.DateAt?
  {
    pg.year > lo.year || (pg.year == lo.year && pg.month >= lo.month)
  }

  /** The page is not after the month of `hi`. */
  predicate NotAfter(pg: Page, hi: JsDate)
    requires hi.DateAt?
  {
    pg.year < hi.year || (pg.year == hi.year && pg.month <= hi.month)
  }

  predicate MonthInRange(pg: Page) {
    0 <= pg.month <= 11
  }

  /** A valid date whose month is one a `Date` can report. */
  predicate CalendarDate(d: Option<JsDate>) {
    Valid(d) && 0 <= d.value.month <= 11
  }

  function StepBack(pg: Page): (r: Page)
    ensures MonthInRange(pg) && pg.month == 0 ==> r == Page(pg.year - 1, 11)
    ensures MonthInRange(pg) && pg.month > 0 ==> r == Page(pg.year, pg.month - 1)
    ensures MonthInRange(pg) ==> MonthInRange(r)
  {
    if pg.month - 1 < 0 then Page(pg.year - 1, 11) else Page(pg.year, pg.month - 1)
  }

  function StepForward(pg: Page): (r: Page)
    ensures MonthInRange(pg) && pg.month == 11 ==> r == Page(pg.year + 1, 0)
    ensures MonthInRange(pg) && pg.month < 11 ==> r == Page(pg.year, pg.month + 1)
    ensures MonthInRange(pg) ==> MonthInRange(r)
  {
    if pg.month + 1 > 11 then Page(pg.year + 1, 0) else Page(pg.year, pg.month + 1)
  }

  /** `reachedMinMonth` as written: `!!minMonth` is false for January, so
      a January bound never blocks. */
  function ReachedMinMonthAsWritten(lo: Option<JsDate>, pg: Page): (r: bool)
    ensures r ==> ReachedMinMonth(lo, pg)
    ensures MonthOf(lo) == Some(0) ==> !r
    ensures MonthOf(lo) != Some(0) ==> r == ReachedMinMonth(lo, pg)
  {
    YearOf(lo) == Some(pg.year) && MonthOf(lo).Some? && MonthOf(lo).value != 0 && MonthOf(lo).value >= pg.month
  }

  /** The evidently intended test: the page is at (or before) the bound's
      month. */
  function ReachedMinMonth(lo: Option<JsDate>, pg: Page): (r: bool)
    ensures CalendarDate(lo) && MonthInRange(pg) && NotBefore(pg, lo.value) ==>
      (r <==> !NotBefore(StepBack(pg), lo.value))
  {
    YearOf(lo) == Some(pg.year) && MonthOf(lo).Some? && MonthOf(lo).value >= pg.month
  }

  function ReachedMaxMonthAsWritten(hi: Option<JsDate>, pg: Page): (r: bool)
    ensures r ==> ReachedMaxMonth(hi, pg)
    ensures MonthOf(hi) == Some(0) ==> !r
    ensures MonthOf(hi) != Some(0) ==> r == ReachedMaxMonth(hi, pg)
  {
    YearOf(hi) == Some(pg.year) && MonthOf(hi).Some? && MonthOf(hi).value != 0 && MonthOf(hi).value <= pg.month
  }

  function ReachedMaxMonth(hi: Option<JsDate>, pg: Page): (r: bool)
    ensures CalendarDate(hi) && MonthInRange(pg) && NotAfter(pg, hi.value) ==>
      (r <==> !NotAfter(StepForward(pg), hi.value))
  {
    YearOf(hi) == Some(pg.year) && MonthOf(hi).Some? && MonthOf(hi).value <= pg.month
  }

  /** `prevMonth` given whether the bound is reached. */
  function PrevMonthWith(p: Picker, reached: bool): (r: Picker)
    ensures reached ==> r.page == p.page
    ensures !reached ==> r.page == StepBack(p.page)
    ensures r.mirror == p.mirror && r.hide.pending.None?
  {
    var p1 := p.(hide := Cancel(p.hide));
    if reached then p1 else p1.(page := StepBack(p.page))
  }

  function NextMonthWith(p: Picker, reached: bool): (r: Picker)
    ensures reached ==> r.page == p.page
    ensures !reached ==> r.page == StepForward(p.page)
    ensures r.mirror == p.mirror && r.hide.pending.None?
  {
    var p1 := p.(hide := Cancel(p.hide));
    if reached then p1 else p1.(page := StepForward(p.page))
  }

  function PrevMonthAsWritten(lo: Option<JsDate>, p: Picker): (r: Picker)
    ensures r.mirror == p.mirror && r.hide.pending.None?
    ensures MonthOf(lo) == Some(0) ==> r.page == StepBack(p.page)
    ensures MonthOf(lo) != Some(0) ==> r == PrevMonth(lo, p)
  {
    PrevMonthWith(p, ReachedMinMonthAsWritten(lo, p.page))
  }

  function NextMonthAsWritten(hi: Option<JsDate>, p: Picker): (r: Picker)
    ensures r.mirror == p.mirror && r.hide.pending.None?
    ensures MonthOf(hi) == Some(0) ==> r.page == StepForward(p.page)
    ensures MonthOf(hi) != Some(0) ==> r == NextMonth(hi, p)
  {
    NextMonthWith(p, ReachedMaxMonthAsWritten(hi, p.page))
  }

  /** `prevMonth` with the intended test: it never leaves the minimum's
      month behind. */
  function PrevMonth(lo: Option<JsDate>, p: Picker): (r: Picker)
    ensures MonthInRange(p.page) ==> MonthInRange(r.page)
    ensures CalendarDate(lo) && MonthInRange(p.page) && NotBefore(p.page, lo.value) ==> NotBefore(r.page, lo.value)
    ensures lo.None? && MonthInRange(p.page) && p.page.month == 0 ==> r.page == Page(p.page.year - 1, 11)
  {
    PrevMonthWith(p, ReachedMinMonth(lo, p.page))
  }

  /** `nextMonth` with the intended test: it never passes the maximum's
      month. */
  function NextMonth(hi: Option<JsDate>, p: Picker): (r: Picker)
    ensures MonthInRange(p.page) ==> MonthInRange(r.page)
    ensures CalendarDate(hi) && MonthInRange(p.page) && NotAfter(p.page, hi.value) ==> NotAfter(r.page, hi.value)
    ensures hi.None? && MonthInRange(p.page) && p.page.month == 11 ==> r.page == Page(p.page.year + 1, 0)
  {
    NextMonthWith(p, ReachedMaxMonth(hi, p.page))
  }

  /** The two tests differ only on a January bound. */
  lemma MonthTestsAgree(lo: Option<JsDate>, hi: Option<JsDate>, pg: Page)
    requires MonthOf(lo) != Some(0) && MonthOf(hi) != Some(0)
    ensures ReachedMinMonthAsWritten(lo, pg) == ReachedMinMonth(lo, pg)
    ensures ReachedMaxMonthAsWritten(hi, pg) == ReachedMaxMonth(hi, pg)
  {
  }

  /** With a minimum in January 2024, going back from January 2024 shows
      December 2023 as written; as intended it stays. Likewise a maximum
      in January is passed going forward. */
  lemma JanuaryBoundIsPassedAsWritten(p: Picker)
    requires p.page == Page(2024, 0)
    ensures var lo := DateAt(2024, 0, 15, 0, 0, 0, 0);
      PrevMonthAsWritten(Some(lo), p).page == Page(2023, 11) && !NotBefore(Page(2023, 11), lo) &&
      PrevMonth(Some(lo), p).page == Page(2024, 0)
    ensures var hi := DateAt(2024, 0, 15, 0, 0, 0, 0);
      NextMonthAsWritten(Some(hi), p).page == Page(2024, 1) && !NotAfter(Page(2024, 1), hi) &&
      NextMonth(Some(hi), p).page == Page(2024, 0)
  {
  }

  /** `prevYear`: blocked once the year before would be before the
      minimum's year; otherwise one year back, and the month moves up to
      the minimum's month when that year is the minimum's. */
  function PrevYear(lo: Option<JsDate>, p: Picker): (r: Picker)
    ensures TruthyYear(YearOf(lo)) && p.page.year - 1 < YearOf(lo).value ==> r.page == p.page
    ensures Valid(lo) && lo.value.year != 0 && NotBefore(p.page, lo.value) ==> NotBefore(r.page, lo.value)
    ensures lo.None? ==> r.page == Page(p.page.year - 1, p.page.month)
  {
    var p1 := p.(hide := Cancel(p.hide));
    var minYear := YearOf(lo);
    if TruthyYear(minYear) && p.page.year - 1 < minYear.value then p1
    else
      var month :=
        if TruthyYear(minYear) && p.page.year - 1 <= minYear.value && p.page.month < MonthOf(lo).value
        then MonthOf(lo).value else p.page.month;
      p1.(page := Page(p.page.year - 1, month))
  }

  /** `nextYear`, the mirror image of `prevYear`. */
  function NextYear(hi: Option<JsDate>, p: Picker): (r: Picker)
    ensures TruthyYear(YearOf(hi)) && p.page.year + 1 > YearOf(hi).value ==> r.page == p.page
    ensures Valid(hi) && hi.value.year != 0 && NotAfter(p.page, hi.value) ==> NotAfter(r.page, hi.value)
    ensures hi.None? ==> r.page == Page(p.page.year + 1, p.page.month)
  {
    var p1 := p.(hide := Cancel(p.hide));
    var maxYear := YearOf(hi);
    if TruthyYear(maxYear) && p.page.year + 1 > maxYear.value then p1
    else
      var month :=
        if TruthyYear(maxYear) && p.page.year + 1 >= maxYear.value && p.page.month > MonthOf(hi).value
        then MonthOf(hi).value else p.page.month;
      p1.(page := Page(p.page.year + 1, month))
  }

  /** `setMonth`: in the minimum's (maximum's) year a month before (after)
      the bound's is refused. */
  function SetMonth(lo: Option<JsDate>, hi: Option<JsDate>, p: Picker, month: int): (r: Picker)
    ensures r.page == p.page || r.page == Page(p.page.year, month)
    ensures Valid(lo) && lo.value.year != 0 && NotBefore(p.page, lo.value) ==> NotBefore(r.page, lo.value)
    ensures Valid(hi) && hi.value.year != 0 && NotAfter(p.page, hi.value) ==> NotAfter(r.page, hi.value)
    ensures lo.None? && hi.None? ==> r.page == Page(p.page.year, month)
  {
    var p1 := p.(hide := Cancel(p.hide));
    var minYear := YearOf(lo);
    var maxYear := YearOf(hi);
    if TruthyYear(minYear) && p.page.year - 1 < minYear.value && month < MonthOf(lo).value then p1
    else if TruthyYear(maxYear) && p.page.year + 1 > maxYear.value && month > MonthOf(hi).value then p1
    else p1.(page := Page(p.page.year, month))
  }

  /** `toggleDropdown`: the calendar opens (or closes) on the page of the
      start, else the end, else today, moved into the bounds. */
  function OpenCalendar(lo: Option<JsDate>, hi: Option<JsDate>, p: Picker, today: JsDate): (r: Picker)
    requires today.DateAt?
    ensures r.showCalendar == !p.showCalendar && r.mirror == p.mirror
    ensures ValidRange(p.mirror) && Valid(lo) && Valid(hi) && !DayLess(hi.value, lo.value) ==>
      NotBefore(r.page, lo.value) && NotAfter(r.page, hi.value)
    ensures ValidRange(p.mirror) && lo.None? && hi.None? && p.mirror.start.Some? ==>
      r.page == Page(p.mirror.start.value.year, p.mirror.start.value.month)
    ensures p.mirror == NoRange && lo.None? && hi.None? ==> r.page == Page(today.year, today.month)
  {
    var d := if p.mirror.start.Some? then p.mirror.start.value else if p.mirror.end.Some? then p.mirror.end.value else today;
    var shown :=
      if lo.Some? && IsDayBefore(Some(d), lo, false) then lo.value
      else if hi.Some? && IsDayAfter(Some(d), hi, false) then hi.value
      else d;
    var p1 := p.(showCalendar := !p.showCalendar);
    if shown.DateAt? then p1.(page := Page(shown.year, shown.month)) else p1
  }

  // ---------------------------------------------------------------------
  // Focus

  /** A fresh picker showing the month of `today`. */
  function NewPicker(today: JsDate): (p: Picker)
    requires today.DateAt?
    ensures p.mirror == NoRange && p.drag.Idle? && !p.showCalendar && !p.initialised
  {
    Picker(NoRange, "", "", Idle, Page(today.year, today.month), false, NewDebouncer(100), false)
  }

  /** `onBlur`: the calendar is hidden once the 100 ms delay passes. */
  function Blur(p: Picker): (r: Picker)
    ensures r.mirror == p.mirror
    ensures p.hide.wait > 0 ==> r.hide.pending == Some(()) && r.showCalendar == p.showCalendar
    ensures p.hide.wait <= 0 ==> !r.showCalendar
  {
    var called := Call(p.hide, ());
    p.(hide := called.0, showCalendar := p.showCalendar && |called.1| == 0)
  }

  /** `retainFocus`: a pending hide is dropped. */
  function RetainFocus(p: Picker): (r: Picker)
    ensures r.hide.pending.None? && r.hide.wait == p.hide.wait && r.showCalendar == p.showCalendar
  {
    p.(hide := Cancel(p.hide))
  }

  /** The delay passes: a pending hide closes the calendar. */
  function HideElapsed(p: Picker): (r: Picker)
    ensures r.mirror == p.mirror && r.hide.pending.None?
    ensures r.showCalendar == (p.showCalendar && p.hide.pending.None?)
  {
    var fired := Elapse(p.hide);
    p.(hide := fired.0, showCalendar := p.showCalendar && |fired.1| == 0)
  }

  /** Focus coming back before the delay keeps the calendar as it was; a
      blur left alone closes it. */
  lemma RetainFocusCancelsBlur(p: Picker)
    requires p.hide.wait > 0
    ensures HideElapsed(RetainFocus(Blur(p))).showCalendar == p.showCalendar
    ensures !HideElapsed(Blur(p)).showCalendar
  {
  }
}

=== FILE: date_utils.dfy ===
/** Date helpers of the input components (lib/MyForm/components/utils.ts):
    two-digit padding, the token-replacing date formatter, and the five
    calendar-day comparators. A date argument is `None` for `undefined`. */
module DateUtils {
  import opened Base
  import opened Strings
  import opened JsValues

  /** `padDate(n)`: a leading zero below ten. */
  function PadDate(n: int): (r: string)
    ensures n < 10 ==> r == "0" + IntToString(n)
    ensures n >= 10 ==> r == IntToString(n)
  {
    if n < 10 then "0" + IntToString(n) else IntToString(n)
  }

  /** A non-negative number pads to at least two digits and nothing else. */
  lemma PadDateDigits(n: int)
    requires n >= 0
    ensures AllDigits(PadDate(n)) && |PadDate(n)| >= 2
  {
    if n >= 10 {
      assert NatToString(n) == NatToString(n / 10) + [DigitChar(n % 10)];
    }
  }

  /** `parseInt` undoes the padding of every non-negative number, and a
      number below a hundred pads to exactly two digits. A negative number
      gets its zero in front of the sign, so it reads back as 0. */
  lemma PadDateRoundTrip(n: int)
    ensures n >= 0 ==> ParseInt(PadDate(n)) == Some(n)
    ensures 0 <= n < 100 ==> |PadDate(n)| == 2 && AllDigits(PadDate(n))
    ensures n < 0 ==> PadDate(n)[..2] == "0-" && ParseInt(PadDate(n)) == Some(0)
  {
    if n >= 10 {
      ParseIntOfNatToString(n);
      if n < 100 {
        assert NatToString(n) == NatToString(n / 10) + [DigitChar(n % 10)];
      }
    } else if n >= 0 {
      PadDateOneDigit(n);
    } else {
      PadDateNegative(n);
    }
  }

  lemma PadDateOneDigit(n: int)
    requires 0 <= n < 10
    ensures ParseInt(PadDate(n)) == Some(n) && |PadDate(n)| == 2 && AllDigits(PadDate(n))
  {
    var r := PadDate(n);
    assert r == ['0', DigitChar(n)];
    assert TrimStart(r) == r;
    LeadingDigitsOfDigits(r);
    assert r[..1] == "0";
    assert DigitsValue(r) == DigitsValue("0") * 10 + n;
  }

  lemma PadDateNegative(n: int)
    requires n < 0
    ensures PadDate(n)[..2] == "0-" && ParseInt(PadDate(n)) == Some(0)
  {
    var r := PadDate(n);
    assert r == "0" + ("-" + NatToString(-n));
    assert TrimStart(r) == r;
    assert r[1] == '-';
    assert LeadingDigits(r[1..]) == "";
    assert LeadingDigits(r) == "0";
    assert DigitsValue("0") == DigitsValue("") * 10 + 0;
  }

  /** `s.substring(k)` for `k >= 0`. */
  function Substring(s: string, k: nat): string {
    if k <= |s| then s[k..] else ""
  }

  const IsoDateFormat: string := "yyyy-MM-dd"
  const IsoDateTimeFormat: string := "yyyy-MM-ddThh:mm"

  /** `dateFormatter(value, format)`; `format` is `None` when left out. */
  function DateFormatter(value: Option<JsDate>, format: Option<string>): (r: string)
    ensures value.None? || value.value.InvalidDate? ==> r == ""
  {
    if value.None? || value.value.InvalidDate? then ""
    else FormatFields(format.GetOr(IsoDateFormat), value.value)
  }

  /** The replacement chain of `dateFormatter` on a valid date: each token
      replaces only its first occurrence, in the order
      yyyy, y, MM, M, dd, d, a, hh, h, mm, m, ss, s. */
  function FormatFields(f: string, d: JsDate): string
    requires d.DateAt?
  {
    var m := Meridiem(DatePart(f, d), d.hour);
    TimePart(m.0, m.1, d)
  }

  /** Replaces the first occurrence of a long token, then of its short form. */
  function ReplacePair(s: string, long: string, repLong: string, short: string, repShort: string): string {
    ReplaceFirst(ReplaceFirst(s, long, repLong), short, repShort)
  }

  /** Year, month and day tokens. */
  function DatePart(f: string, d: JsDate): string
    requires d.DateAt?
  {
    var year := IntToString(d.year);
    var month := d.month + 1;
    var s2 := ReplacePair(f, "yyyy", year, "y", Substring(year, 2));
    var s4 := ReplacePair(s2, "MM", PadDate(month), "M", IntToString(month));
    ReplacePair(s4, "dd", PadDate(d.day), "d", IntToString(d.day))
  }

  /** The `a` token: if the text still contains an `a`, its first occurrence
      becomes PM from noon on and AM before, and hours past 12 count from 1
      again; the text and the hour to print are returned. */
  function Meridiem(s: string, hour: int): (r: (string, int))
    ensures !Contains(s, "a") ==> r == (s, hour)
    ensures Contains(s, "a") ==> r.1 == (if hour > 12 then hour - 12 else hour)
  {
    if Contains(s, "a") then
      (ReplaceFirst(s, "a", if hour >= 12 then "PM" else "AM"), if hour > 12 then hour - 12 else hour)
    else (s, hour)
  }

  /** Hour, minute and second tokens. */
  function TimePart(s: string, hour: int, d: JsDate): string
    requires d.DateAt?
  {
    var s9 := ReplacePair(s, "hh", PadDate(hour), "h", IntToString(hour));
    var s11 := ReplacePair(s9, "mm", PadDate(d.minute), "m", IntToString(d.minute));
    ReplacePair(s11, "ss", PadDate(d.second), "s", IntToString(d.second))
  }

  // ---------------------------------------------------------------------
  // Facts about the replacement chain

  /** The first characters of the formatter's tokens. */
  const TokenChars: set<char> := {'y', 'M', 'd', 'a', 'h', 'm', 's'}

  /** Text no token can match. */
  predicate Inert(s: string) {
    forall i :: 0 <= i < |s| ==> s[i] !in TokenChars
  }

  lemma InertDigits(s: string)
    requires AllDigits(s)
    ensures Inert(s)
  {
  }

  lemma InertConcat(a: string, b: string)
    requires Inert(a) && Inert(b)
    ensures Inert(a + b)
  {
    forall i | 0 <= i < |a + b|
      ensures (a + b)[i] !in TokenChars
    {
      if i < |a| { assert (a + b)[i] == a[i]; } else { assert (a + b)[i] == b[i - |a|]; }
    }
  }

  /** A token is not found in inert text, which its replacement leaves alone. */
  lemma SkipToken(s: string, tok: string, rep: string)
    requires Inert(s) && |tok| > 0 && tok[0] in TokenChars
    ensures ReplaceFirst(s, tok, rep) == s
    ensures !Contains(s, tok)
  {
    AbsentPattern(s, tok);
  }

  lemma SkipPair(s: string, long: string, repLong: string, short: string, repShort: string)
    requires Inert(s) && |long| > 0 && long[0] in TokenChars && |short| > 0 && short[0] in TokenChars
    ensures ReplacePair(s, long, repLong, short, repShort) == s
  {
    SkipToken(s, long, repLong);
    SkipToken(s, short, repShort);
  }

  /** A long token right after inert text is replaced; its short form then
      finds nothing when the rest of the text lacks it too. */
  lemma FillPair(pre: string, long: string, post: string, repLong: string, short: string, repShort: string)
    requires Inert(pre) && Inert(repLong) && |long| > 0 && long[0] in TokenChars
    requires |short| > 0 && short[0] in TokenChars && Lacks(post, short[0])
    ensures ReplacePair(pre + long + post, long, repLong, short, repShort) == pre + repLong + post
  {
    FoundAfterPrefix(pre, long, post);
    InertConcat(pre, repLong);
    LacksConcat(pre + repLong, post, short[0]);
    AbsentPattern(pre + repLong + post, short);
  }

  /** The calendar date as the ISO formats print it. */
  function IsoDate(d: JsDate): string
    requires d.DateAt?
  {
    IntToString(d.year) + "-" + PadDate(d.month + 1) + "-" + PadDate(d.day)
  }

  lemma IsoDateInert(d: JsDate)
    requires d.DateAt? && d.year >= 0 && d.month >= 0 && d.day >= 0
    ensures Inert(IsoDate(d))
  {
    var y := IntToString(d.year);
    var m := PadDate(d.month + 1);
    var dd := PadDate(d.day);
    InertDigits(y);
    PadDateDigits(d.month + 1);
    PadDateDigits(d.day);
    InertConcat(y, "-");
    InertConcat(y + "-", m);
    InertConcat(y + "-" + m, "-");
    InertConcat(y + "-" + m + "-", dd);
  }

  /** A long token at the very start is replaced. */
  lemma FillPairFront(long: string, post: string, repLong: string, short: string, repShort: string)
    requires Inert(repLong) && |long| > 0 && long[0] in TokenChars
    requires |short| > 0 && short[0] in TokenChars && Lacks(post, short[0])
    ensures ReplacePair(long + post, long, repLong, short, repShort) == repLong + post
  {
    FoundAtStart(long, post);
    var t := ReplaceFirst(long + post, long, repLong);
    assert t == repLong + post;
    assert Lacks(repLong, short[0]);
    LacksConcat(repLong, post, short[0]);
    AbsentPattern(t, short);
  }

  lemma YearStep(y: string, rest: string, short: string)
    requires Inert(y) && Lacks(rest, 'y')
    ensures ReplacePair("yyyy-MM-dd" + rest, "yyyy", y, "y", short) == y + "-MM-dd" + rest
  {
    var post := "-MM-dd" + rest;
    assert "yyyy-MM-dd" + rest == "yyyy" + post;
    assert Lacks("-MM-dd", 'y');
    LacksConcat("-MM-dd", rest, 'y');
    FillPairFront("yyyy", post, y, "y", short);
  }

  lemma MonthStep(y: string, m: string, rep: string, rest: string)
    requires Inert(y) && Inert(m) && Lacks(rest, 'M')
    ensures ReplacePair(y + "-MM-dd" + rest, "MM", m, "M", rep) == y + "-" + m + "-dd" + rest
  {
    assert y + "-MM-dd" + rest == (y + "-") + "MM" + ("-dd" + rest);
    InertConcat(y, "-");
    assert Lacks("-dd", 'M');
    LacksConcat("-dd", rest, 'M');
    FillPair(y + "-", "MM", "-dd" + rest, m, "M", rep);
    assert (y + "-") + m + ("-dd" + rest) == y + "-" + m + "-dd" + rest;
  }

  lemma DayStep(y: string, m: string, dd: string, rep: string, rest: string)
    requires Inert(y) && Inert(m) && Inert(dd) && Lacks(rest, 'd')
    ensures ReplacePair(y + "-" + m + "-dd" + rest, "dd", dd, "d", rep) == y + "-" + m + "-" + dd + rest
  {
    assert y + "-" + m + "-dd" + rest == (y + "-" + m + "-") + "dd" + rest;
    InertConcat(y, "-");
    InertConcat(y + "-", m);
    InertConcat(y + "-" + m, "-");
    FillPair(y + "-" + m + "-", "dd", rest, dd, "d", rep);
  }

  /** The date tokens of a format that starts `yyyy-MM-dd` and has no
      further date tokens are filled in by the calendar date. */
  lemma {:induction false} DatePartOfIsoPrefix(d: JsDate, rest: string)
    requires d.DateAt? && d.year >= 0 && d.month >= 0 && d.day >= 0
    requires Lacks(rest, 'y') && Lacks(rest, 'M') && Lacks(rest, 'd')
    ensures DatePart("yyyy-MM-dd" + rest, d) == IsoDate(d) + rest
  {
    var y := IntToString(d.year);
    var m := PadDate(d.month + 1);
    var dd := PadDate(d.day);
    IsoFieldsInert(d);
    YearStep(y, rest, Substring(y, 2));
    MonthStep(y, m, IntToString(d.month + 1), rest);
    DayStep(y, m, dd, IntToString(d.day), rest);
    DatePartOf("yyyy-MM-dd" + rest, d, y + "-MM-dd" + rest, y + "-" + m + "-dd" + rest, IsoDate(d) + rest);
  }

  lemma IsoFieldsInert(d: JsDate)
    requires d.DateAt? && d.year >= 0 && d.month >= 0 && d.day >= 0
    ensures Inert(IntToString(d.year)) && Inert(PadDate(d.month + 1)) && Inert(PadDate(d.day))
  {
    InertDigits(IntToString(d.year));
    PadDateDigits(d.month + 1);
    PadDateDigits(d.day);
    InertDigits(PadDate(d.month + 1));
    InertDigits(PadDate(d.day));
  }

  /** The three date stages composed. */
  lemma DatePartOf(f: string, d: JsDate, s2: string, s4: string, out: string)
    requires d.DateAt?
    requires s2 == ReplacePair(f, "yyyy", IntToString(d.year), "y", Substring(IntToString(d.year), 2))
    requires s4 == ReplacePair(s2, "MM", PadDate(d.month + 1), "M", IntToString(d.month + 1))
    requires out == ReplacePair(s4, "dd", PadDate(d.day), "d", IntToString(d.day))
    ensures DatePart(f, d) == out
  {
  }

  /** The default format gives the full year, then the 1-based month and the
      day, each padded to two digits. */
  lemma {:induction false} FormatIsoDate(d: JsDate)
    requires d.DateAt? && d.year >= 0 && d.month >= 0 && d.day >= 0
    ensures DateFormatter(Some(d), None) == IsoDate(d)
  {
    assert IsoDateFormat == "yyyy-MM-dd" + "";
    DatePartOfIsoPrefix(d, "");
    IsoDateInert(d);
    assert IsoDate(d) + "" == IsoDate(d);
    SkipToken(IsoDate(d), "a", "");
    TimeSkipped(IsoDate(d), d.hour, d);
  }

  /** Text without time tokens leaves the time part unchanged. */
  lemma TimeSkipped(s: string, hour: int, d: JsDate)
    requires Inert(s) && d.DateAt?
    ensures TimePart(s, hour, d) == s
  {
    SkipPair(s, "hh", PadDate(hour), "h", IntToString(hour));
    SkipPair(s, "mm", PadDate(d.minute), "m", IntToString(d.minute));
    SkipPair(s, "ss", PadDate(d.second), "s", IntToString(d.second));
  }

  /** `hh` and `mm` after inert text are filled with the padded hour and
      minute, when the text after them holds no time token. */
  lemma {:induction false} TimePartHourMinute(s: string, pre: string, post: string, hour: int, d: JsDate)
    requires s == pre + "hh:mm" + post
    requires Inert(pre) && d.DateAt? && hour >= 0 && d.minute >= 0
    requires Lacks(post, 'h') && Lacks(post, 'm') && Lacks(post, 's')
    ensures TimePart(s, hour, d) == pre + PadDate(hour) + ":" + PadDate(d.minute) + post
  {
    var hh := PadDate(hour);
    var mi := PadDate(d.minute);
    PadDateDigits(hour);
    PadDateDigits(d.minute);
    InertDigits(hh);
    InertDigits(mi);
    var s9 := pre + hh + ":mm" + post;
    HourStep(pre, hh, IntToString(hour), post);
    var all := pre + hh + ":" + mi + post;
    MinuteStep(pre + hh + ":", mi, IntToString(d.minute), post) by {
      InertConcat(pre, hh);
      InertConcat(pre + hh, ":");
    }
    assert s9 == (pre + hh + ":") + "mm" + post;
    assert (pre + hh + ":") + mi + post == all;
    assert Lacks(all, 's') by {
      InertConcat(pre + hh + ":", mi);
      LacksConcat(pre + hh + ":" + mi, post, 's');
    }
    AbsentPattern(all, "ss");
    AbsentPattern(all, "s");
  }

  lemma HourStep(pre: string, hh: string, rep: string, post: string)
    requires Inert(pre) && Inert(hh) && Lacks(post, 'h')
    ensures ReplacePair(pre + "hh:mm" + post, "hh", hh, "h", rep) == pre + hh + ":mm" + post
  {
    assert pre + "hh:mm" + post == pre + "hh" + (":mm" + post);
    assert Lacks(":mm", 'h');
    LacksConcat(":mm", post, 'h');
    FillPair(pre, "hh", ":mm" + post, hh, "h", rep);
    assert pre + hh + (":mm" + post) == pre + hh + ":mm" + post;
  }

  lemma MinuteStep(pre: string, mi: string, rep: string, post: string)
    requires Inert(pre) && Inert(mi) && Lacks(post, 'm')
    ensures ReplacePair(pre + "mm" + post, "mm", mi, "m", rep) == pre + mi + post
  {
    FillPair(pre, "mm", post, mi, "m", rep);
  }

  /** The date-time format gives the date as above, a `T`, then the hour of
      the 24-hour clock and the minute, padded; there is no `a` to switch to
      the 12-hour clock. */
  lemma {:induction false} FormatIsoDateTime(d: JsDate)
    requires d.DateAt? && d.year >= 0 && d.month >= 0 && d.day >= 0 && d.hour >= 0 && d.minute >= 0
    ensures DateFormatter(Some(d), Some(IsoDateTimeFormat)) ==
      IsoDate(d) + "T" + PadDate(d.hour) + ":" + PadDate(d.minute)
  {
    var date := IsoDate(d);
    IsoDateTimeDatePart(d);
    IsoDateInert(d);
    DateTimeHasNoMeridiem(date, d.hour);
    DateTimeTimePart(date, d);
    FormatFieldsOf(IsoDateTimeFormat, d, date + "Thh:mm", (date + "T") + "hh:mm", d.hour,
      date + "T" + PadDate(d.hour) + ":" + PadDate(d.minute));
  }

  /** The time tokens of the date-time format after an inert date. */
  lemma DateTimeTimePart(date: string, d: JsDate)
    requires Inert(date) && d.DateAt? && d.hour >= 0 && d.minute >= 0
    ensures TimePart((date + "T") + "hh:mm", d.hour, d) == date + "T" + PadDate(d.hour) + ":" + PadDate(d.minute)
  {
    var pre := date + "T";
    var out := pre + PadDate(d.hour) + ":" + PadDate(d.minute);
    InertThenT(date);
    assert pre + "hh:mm" == pre + "hh:mm" + "";
    TimePartHourMinute(pre + "hh:mm", pre, "", d.hour, d);
    assert out + "" == out;
  }

  lemma InertThenT(s: string)
    requires Inert(s)
    ensures Inert(s + "T")
  {
    forall i | 0 <= i < |s + "T"|
      ensures (s + "T")[i] !in TokenChars
    {
      if i < |s| { assert (s + "T")[i] == s[i]; }
    }
  }

  /** The date tokens of the date-time format. */
  lemma IsoDateTimeDatePart(d: JsDate)
    requires d.DateAt? && d.year >= 0 && d.month >= 0 && d.day >= 0
    ensures DatePart(IsoDateTimeFormat, d) == IsoDate(d) + "Thh:mm"
  {
    assert IsoDateTimeFormat == "yyyy-MM-dd" + "Thh:mm";
    assert Lacks("Thh:mm", 'y') && Lacks("Thh:mm", 'M') && Lacks("Thh:mm", 'd');
    DatePartOfIsoPrefix(d, "Thh:mm");
  }

  /** The formatter's three stages composed. */
  lemma FormatFieldsOf(f: string, d: JsDate, dates: string, marked: string, hour: int, out: string)
    requires d.DateAt? && DatePart(f, d) == dates && Meridiem(dates, d.hour) == (marked, hour)
    requires TimePart(marked, hour, d) == out
    ensures DateFormatter(Some(d), Some(f)) == out
  {
  }

  lemma DateTimeHasNoMeridiem(date: string, hour: int)
    requires Inert(date)
    ensures Meridiem(date + "Thh:mm", hour) == ((date + "T") + "hh:mm", hour)
  {
    assert Lacks("Thh:mm", 'a');
    LacksConcat(date, "Thh:mm", 'a');
    AbsentPattern(date + "Thh:mm", "a");
    assert date + "Thh:mm" == (date + "T") + "hh:mm";
  }

  /** With `hh:mm a`, hours from noon on read PM and hours past 12 are
      reduced by 12; midnight stays hour 0 and reads AM. */
  lemma {:induction false} FormatTwelveHour(d: JsDate)
    requires d.DateAt? && 0 <= d.hour && d.minute >= 0
    ensures DateFormatter(Some(d), Some("hh:mm a")) ==
      PadDate(if d.hour > 12 then d.hour - 12 else d.hour) + ":" + PadDate(d.minute) + " " +
      (if d.hour >= 12 then "PM" else "AM")
  {
    TwelveHourFields("hh:mm a", d);
  }

  lemma TwelveHourFields(f: string, d: JsDate)
    requires f == "hh:mm a"
    requires d.DateAt? && 0 <= d.hour && d.minute >= 0
    ensures FormatFields(f, d) ==
      PadDate(if d.hour > 12 then d.hour - 12 else d.hour) + ":" + PadDate(d.minute) + " " +
      (if d.hour >= 12 then "PM" else "AM")
  {
    var ap := if d.hour >= 12 then "PM" else "AM";
    var h := if d.hour > 12 then d.hour - 12 else d.hour;
    TwelveHourHasNoDateTokens(f);
    NoDateTokens(f, d);
    MeridiemOfTwelveHour(f, d.hour);
    ApLacksTimeTokens(ap);
    TwelveHourTime("hh:mm " + ap, ap, h, d);
  }

  lemma TwelveHourHasNoDateTokens(f: string)
    requires f == "hh:mm a"
    ensures Lacks(f, 'y') && Lacks(f, 'M') && Lacks(f, 'd')
  {
  }

  lemma ApLacksTimeTokens(ap: string)
    requires ap == "AM" || ap == "PM"
    ensures Lacks(ap, 'h') && Lacks(ap, 'm') && Lacks(ap, 's')
  {
  }

  lemma TwelveHourTime(s: string, ap: string, h: int, d: JsDate)
    requires s == "hh:mm " + ap
    requires Lacks(ap, 'h') && Lacks(ap, 'm') && Lacks(ap, 's')
    requires d.DateAt? && h >= 0 && d.minute >= 0
    ensures TimePart(s, h, d) == PadDate(h) + ":" + PadDate(d.minute) + " " + ap
  {
    var post := " " + ap;
    var pre: string := [];
    assert s == pre + "hh:mm" + post;
    assert Lacks(" ", 'h') && Lacks(" ", 'm') && Lacks(" ", 's');
    LacksConcat(" ", ap, 'h');
    LacksConcat(" ", ap, 'm');
    LacksConcat(" ", ap, 's');
    TimePartHourMinute(s, pre, post, h, d);
    assert pre + PadDate(h) == PadDate(h);
  }

  lemma NoDateTokens(f: string, d: JsDate)
    requires d.DateAt? && Lacks(f, 'y') && Lacks(f, 'M') && Lacks(f, 'd')
    ensures DatePart(f, d) == f
  {
    AbsentPattern(f, "yyyy");
    AbsentPattern(f, "y");
    AbsentPattern(f, "MM");
    AbsentPattern(f, "M");
    AbsentPattern(f, "dd");
    AbsentPattern(f, "d");
  }

  lemma MeridiemOfTwelveHour(f: string, hour: int)
    requires f == "hh:mm a"
    ensures Meridiem(f, hour) ==
      ("hh:mm " + (if hour >= 12 then "PM" else "AM"), if hour > 12 then hour - 12 else hour)
  {
    var ap := if hour >= 12 then "PM" else "AM";
    assert Lacks("hh:mm ", 'a');
    FoundAfterPrefix("hh:mm ", "a", "");
    assert "hh:mm " + "a" + "" == f;
    assert "hh:mm " + ap + "" == "hh:mm " + ap;
  }

  // ---------------------------------------------------------------------
  // Calendar-day comparators

  /** A present, valid date. */
  predicate Valid(a: Option<JsDate>) {
    a.Some? && a.value.DateAt?
  }

  /** `toDateOnly`: the same date at midnight. */
  function ToDateOnly(d: JsDate): (r: JsDate)
    ensures d.InvalidDate? <==> r.InvalidDate?
    ensures r.DateAt? ==> (r.year == d.year && r.month == d.month && r.day == d.day &&
                           r.hour == 0 && r.minute == 0 && r.second == 0 && r.ms == 0)
  {
    match d
    case InvalidDate => InvalidDate
    case DateAt(y, m, dd, _, _, _, _) => DateAt(y, m, dd, 0, 0, 0, 0)
  }

  /** Strict order of the midnights of two valid dates. */
  predicate DayLess(a: JsDate, b: JsDate)
    requires a.DateAt? && b.DateAt?
  {
    a.year < b.year ||
    (a.year == b.year && (a.month < b.month || (a.month == b.month && a.day < b.day)))
  }

  predicate SameCalendarDay(a: JsDate, b: JsDate)
    requires a.DateAt? && b.DateAt?
  {
    a.year == b.year && a.month == b.month && a.day == b.day
  }

  /** `date1 === date2`: two `undefined`s, or one Date passed twice. */
  predicate Identical(a: Option<JsDate>, b: Option<JsDate>, sameRef: bool) {
    (a.None? && b.None?) || (sameRef && a.Some?)
  }

  /** `isSameDay(a, b)`; `sameRef` says the two arguments are one object. */
  function IsSameDay(a: Option<JsDate>, b: Option<JsDate>, sameRef: bool): (r: bool)
    requires sameRef ==> a == b
    ensures Identical(a, b, sameRef) ==> r
    ensures !Identical(a, b, sameRef) && !(Valid(a) && Valid(b)) ==> !r
  {
    if Identical(a, b, sameRef) then true
    else if !(Valid(a) && Valid(b)) then false
    else SameCalendarDay(a.value, b.value)
  }

  /** `isSameDayOrAfter(a, b)`. */
  function IsSameDayOrAfter(a: Option<JsDate>, b: Option<JsDate>, sameRef: bool): (r: bool)
    requires sameRef ==> a == b
    ensures Identical(a, b, sameRef) ==> r
    ensures !Identical(a, b, sameRef) && !(Valid(a) && Valid(b)) ==> !r
  {
    if Identical(a, b, sameRef) then true
    else if !(Valid(a) && Valid(b)) then false
    else !DayLess(a.value, b.value)
  }

  /** `isDayAfter(a, b)`: strict, except that one object is "after" itself. */
  function IsDayAfter(a: Option<JsDate>, b: Option<JsDate>, sameRef: bool): (r: bool)
    requires sameRef ==> a == b
    ensures Identical(a, b, sameRef) ==> r
    ensures !Identical(a, b, sameRef) && !(Valid(a) && Valid(b)) ==> !r
  {
    if Identical(a, b, sameRef) then true
    else if !(Valid(a) && Valid(b)) then false
    else DayLess(b.value, a.value)
  }

  /** `isSameDayOrBefore(a, b)`. */
  function IsSameDayOrBefore(a: Option<JsDate>, b: Option<JsDate>, sameRef: bool): (r: bool)
    requires sameRef ==> a == b
    ensures Identical(a, b, sameRef) ==> r
    ensures !Identical(a, b, sameRef) && !(Valid(a) && Valid(b)) ==> !r
  {
    if Identical(a, b, sameRef) then true
    else if !(Valid(a) && Valid(b)) then false
    else !DayLess(b.value, a.value)
  }

  /** `isDayBefore(a, b)`: strict, except that one object is "before" itself. */
  function IsDayBefore(a: Option<JsDate>, b: Option<JsDate>, sameRef: bool): (r: bool)
    requires sameRef ==> a == b
    ensures Identical(a, b, sameRef) ==> r
    ensures !Identical(a, b, sameRef) && !(Valid(a) && Valid(b)) ==> !r
  {
    if Identical(a, b, sameRef) then true
    else if !(Valid(a) && Valid(b)) then false
    else DayLess(a.value, b.value)
  }

  /** For two distinct arguments, "before" and "after" are mirror images,
      and so are their non-strict forms. */
  lemma ComparatorsMirror(a: Option<JsDate>, b: Option<JsDate>)
    ensures IsDayBefore(a, b, false) == IsDayAfter(b, a, false)
    ensures IsSameDayOrBefore(a, b, false) == IsSameDayOrAfter(b, a, false)
    ensures IsSameDay(a, b, false) == IsSameDay(b, a, false)
  {
  }

  /** For two distinct valid dates, exactly one of before, same day and
      after holds, and the non-strict comparators are the unions. */
  lemma ComparatorsTrichotomy(a: JsDate, b: JsDate)
    requires a.DateAt? && b.DateAt?
    ensures IsDayBefore(Some(a), Some(b), false) || IsSameDay(Some(a), Some(b), false) || IsDayAfter(Some(a), Some(b), false)
    ensures !(IsDayBefore(Some(a), Some(b), false) && IsSameDay(Some(a), Some(b), false))
    ensures !(IsDayBefore(Some(a), Some(b), false) && IsDayAfter(Some(a), Some(b), false))
    ensures !(IsSameDay(Some(a), Some(b), false) && IsDayAfter(Some(a), Some(b), false))
    ensures IsSameDayOrBefore(Some(a), Some(b), false) <==>
      IsDayBefore(Some(a), Some(b), false) || IsSameDay(Some(a), Some(b), false)
    ensures IsSameDayOrAfter(Some(a), Some(b), false) <==>
      IsDayAfter(Some(a), Some(b), false) || IsSameDay(Some(a), Some(b), false)
  {
  }

  /** Only the calendar day matters: the comparators give the same answers
      on the dates' midnights. */
  lemma ComparatorsIgnoreTimeOfDay(a: JsDate, b: JsDate)
    requires a.DateAt? && b.DateAt?
    ensures IsSameDay(Some(a), Some(b), false) == IsSameDay(Some(ToDateOnly(a)), Some(ToDateOnly(b)), false)
    ensures IsDayBefore(Some(a), Some(b), false) == IsDayBefore(Some(ToDateOnly(a)), Some(ToDateOnly(b)), false)
    ensures IsDayAfter(Some(a), Some(b), false) == IsDayAfter(Some(ToDateOnly(a)), Some(ToDateOnly(b)), false)
    ensures IsSameDayOrBefore(Some(a), Some(b), false) == IsSameDayOrBefore(Some(ToDateOnly(a)), Some(ToDateOnly(b)), false)
    ensures IsSameDayOrAfter(Some(a), Some(b), false) == IsSameDayOrAfter(Some(ToDateOnly(a)), Some(ToDateOnly(b)), false)
  {
  }

  /** Same-day-or-before is transitive on valid dates. */
  lemma SameDayOrBeforeTransitive(a: JsDate, b: JsDate, c: JsDate)
    requires a.DateAt? && b.DateAt? && c.DateAt?
    requires IsSameDayOrBefore(Some(a), Some(b), false) && IsSameDayOrBefore(Some(b), Some(c), false)
    ensures IsSameDayOrBefore(Some(a), Some(c), false)
  {
  }
}

=== FILE: field_names.dfy ===
/** How the inputs turn their `name` into the key they use in the store.
    Inside a subform, most inputs join the subform's prefix and the name
    with one underscore, the combo boxes, radios and the date range with
    two, and the checkbox does not use the prefix at all. */
module FieldNames {
  import opened Strings
  import FormStore

  datatype Joiner = Single | Double | Raw

  function JoinerText(j: Joiner): string {
    match j
    case Single => "_"
    case Double => "__"
    case Raw => ""
  }

  /** The store key of an input named `name` under subform id `subFormId`
      (empty outside a subform). */
  function FieldName(j: Joiner, subFormId: string, name: string): (key: string)
    ensures subFormId == "" || j == Raw ==> key == name
    ensures subFormId != "" && j != Raw ==> key == subFormId + JoinerText(j) + name
  {
    if subFormId == "" || j.Raw? then name else subFormId + JoinerText(j) + name
  }

  /** Every joined key starts with the prefix's subform tag, so the
      subform's data collects it; what is left after the tag is the name
      for a single underscore, and the name behind one more underscore for
      two. */
  lemma {:induction false} JoinedKeyUnderTag(j: Joiner, subFormId: string, name: string)
    requires subFormId != "" && j != Raw
    ensures var key := FieldName(j, subFormId, name);
      var tag := FormStore.Tag(subFormId);
      StartsWith(key, tag) &&
      key[|tag|..] == (if j == Single then name else "_" + name)
  {
    var key := FieldName(j, subFormId, name);
    var tag := FormStore.Tag(subFormId);
    if j == Single {
      assert key == tag + name;
    } else {
      assert key == tag + ("_" + name);
    }
    assert key[..|tag|] == tag;
  }
}

=== FILE: form.dfy ===
/** The `<MyForm>` wrapper (lib/MyForm/MyForm.tsx): its submit handler,
    which decides whether the clicked button may submit, validates the
    form and hands its data on, and its unmount, which deletes the form.
    The submit event is reduced to the id of the button that sent it, or
    `None` when the event has no submitter (`requestSubmit()` without a
    button, or implicit submission in a form without a submit button);
    the result says whether the handler threw, whether the browser's
    default action is prevented and what `onSubmit` is called with. */
module Form {
  import opened Base
  import opened FormStore

  /** `submitButtonId`: left out, a string, an array, a Set, or a value of
      another type (only its truthiness matters). */
  datatype SubmitButtons =
    | AnyButton
    | ButtonId(id: string)
    | ButtonList(ids: seq<string>)
    | ButtonSet(idSet: set<string>)
    | OtherButtons(truthy: bool)

  datatype FormConfig = FormConfig(
    formId: string,
    action: string,   // "" when left out
    disableNativeForm: bool,
    submitButtonId: SubmitButtons,
    persistOnUnmount: bool)

  /** What one submit event leads to: whether default is prevented,
      whether the form was validated, and the data `onSubmit` receives
      when it is called; or the handler threw before any of that. */
  datatype Submission =
    | Submission(prevented: bool, validated: bool, submitted: Option<FormData>)
    | Thrown

  /** The submitter test: string equality, `includes` or `has`; a value of
      another type matches no button. */
  predicate IsSubmitter(b: SubmitButtons, submitter: string) {
    match b
    case ButtonId(id) => submitter == id
    case ButtonList(ids) => submitter in ids
    case ButtonSet(idSet) => submitter in idSet
    case _ => false
  }

  /** `!!submitButtonId`: whether the setting restricts submission at all. */
  predicate Restricts(b: SubmitButtons) {
    match b
    case AnyButton => false
    case ButtonId(id) => id != ""
    case ButtonList(_) => true
    case ButtonSet(_) => true
    case OtherButtons(truthy) => truthy
  }

  /** The ids a setting names. */
  function Named(b: SubmitButtons): set<string> {
    match b
    case ButtonId(id) => {id}
    case ButtonList(ids) => set i | i in ids
    case ButtonSet(idSet) => idSet
    case _ => {}
  }

  /** The settings whose test reads `submitter.id`: a string (the empty
      one included, since the test is on the type), an array or a Set. */
  predicate ReadsId(b: SubmitButtons) {
    b.ButtonId? || b.ButtonList? || b.ButtonSet?
  }

  /** Whether the button may go on to validation. */
  predicate Admits(b: SubmitButtons, submitter: string) {
    !Restricts(b) || IsSubmitter(b, submitter)
  }

  /** A button is let through exactly when nothing is restricted or the
      setting names it: an empty string or a falsy value of another type
      restricts nothing, and a truthy one names no button. */
  lemma AdmitsMeansNamed(b: SubmitButtons, submitter: string)
    ensures Admits(b, submitter) <==> !Restricts(b) || submitter in Named(b)
    ensures b.OtherButtons? ==> (Admits(b, submitter) <==> !b.truthy)
    ensures b == ButtonId("") ==> Admits(b, submitter)
  {
  }

  /** The submit handler. Without a submitter, a setting whose test reads
      the submitter's id throws before anything else happens, so nothing is
      prevented. Otherwise a button that is not let through prevents the
      default and nothing else, and a missing submitter is let through
      only by a setting that restricts nothing. A button let through has
      the form validated and, when it is valid, `onSubmit` gets the data
      read after validation. The default is also prevented without an
      action or with `disableNativeForm`. */
  function Submit(c: FormConfig, s: Store, submitter: Option<string>): (r: (Submission, Store))
    ensures submitter.None? && ReadsId(c.submitButtonId) ==> r == (Thrown, s)
    ensures submitter.None? && !ReadsId(c.submitButtonId) && Restricts(c.submitButtonId) ==>
      r == (Submission(true, false, None), s)
    ensures submitter.Some? && !Admits(c.submitButtonId, submitter.value) ==> r == (Submission(true, false, None), s)
    ensures (submitter.Some? && Admits(c.submitButtonId, submitter.value)) || (submitter.None? && !ReadsId(c.submitButtonId) && !Restricts(c.submitButtonId)) ==>
      r.0.Submission? && r.0.validated && r.1 == ValidateForm(s, c.formId).1 &&
      (r.0.submitted.Some? <==> ValidateForm(s, c.formId).0) &&
      (r.0.submitted.Some? ==> r.0.submitted.value == GetFormData(r.1, c.formId))
    ensures r.0.Submission? ==> (r.0.prevented <==> c.action == "" || c.disableNativeForm || r.0.submitted.None?)
  {
    var native := c.action == "" || c.disableNativeForm;
    if submitter.None? && ReadsId(c.submitButtonId) then (Thrown, s)
    else if Restricts(c.submitButtonId) && (submitter.None? || !IsSubmitter(c.submitButtonId, submitter.value)) then
      (Submission(true, false, None), s)
    else
      var checked := ValidateForm(s, c.formId);
      if checked.0 then (Submission(native, true, Some(GetFormData(checked.1, c.formId))), checked.1)
      else (Submission(true, true, None), checked.1)
  }

  /** A submit event without a submitter throws under a string, array or
      Set setting, even the empty string that restricts nothing, and then
      prevents nothing: a form with an action is submitted natively
      without validation. Under no setting it is validated as usual. */
  lemma MissingSubmitterThrows(c: FormConfig, s: Store)
    ensures ReadsId(c.submitButtonId) ==> Submit(c, s, None).0 == Thrown
    ensures c.submitButtonId == ButtonId("") ==> Admits(c.submitButtonId, "") && Submit(c, s, None).0 == Thrown
    ensures c.submitButtonId == AnyButton ==> Submit(c, s, None) == Submit(c, s, Some(""))
  {
  }

  /** Without an action the browser never submits natively, unless the
      handler threw. */
  lemma NoActionAlwaysPrevents(c: FormConfig, s: Store, submitter: Option<string>)
    requires c.action == ""
    ensures Submit(c, s, submitter).0.Thrown? || Submit(c, s, submitter).0.prevented
    ensures submitter.Some? ==> Submit(c, s, submitter).0.prevented
  {
  }

  /** A form with no fields is never submitted, whichever button is used. */
  lemma EmptyFormIsNeverSubmitted(c: FormConfig, s: Store, submitter: Option<string>)
    requires |FieldsOf(s, c.formId)| == 0
    ensures Submit(c, s, submitter).0.Thrown? ||
      (Submit(c, s, submitter).0.submitted.None? && Submit(c, s, submitter).0.prevented)
  {
  }

  /** A setting of an unsupported type that is truthy rejects every
      button, and a missing one, leaving the store alone. */
  lemma UnsupportedSettingRejectsAll(c: FormConfig, s: Store, submitter: Option<string>)
    requires c.submitButtonId == OtherButtons(true)
    ensures Submit(c, s, submitter) == (Submission(true, false, None), s)
  {
  }

  /** Unmounting deletes the form's fields unless it persists. */
  function Unmount(c: FormConfig, s: Store): (r: Store)
    ensures c.persistOnUnmount ==> r == s
    ensures !c.persistOnUnmount && c.formId != "" ==> c.formId !in r.forms
    ensures forall f :: f != c.formId && f in s.forms ==> f in r.forms && r.forms[f] == s.forms[f]
    ensures r.props == s.props && r.subforms == s.subforms
  {
    if c.persistOnUnmount then s else DeleteForm(s, c.formId)
  }
}

=== FILE: form_store.dfy ===
/** The form store of the provider (lib/MyForm/MyFormProvider.tsx): field
    values and validity per form, the properties inputs register, and the
    subform prefixes. Every operation is a pure function from store to
    store, or from store to what it reports.

    A form id or field name is "falsy" exactly when it is the empty
    string. A value parameter that the caller leaves out is `Undefined`. */
module FormStore {
  import opened Base
  import opened Strings
  import opened JsValues

  /** One field of a form. `valid` is `None` when the field was created by
      an update that did not mention validity. */
  datatype Field = Field(value: Value, valid: Option<bool>, invalidReason: Option<string>)

  /** The empty object a merge starts from when the field is new. */
  const NoField: Field := Field(Undefined, None, None)

  /** A registered `required`: a flag, or a predicate on the value whose
      result is read as a JavaScript truth value. */
  datatype Required = ReqBool(flag: bool) | ReqPred(pred: Value -> bool)

  /** What a validator can return, as far as the library tells results
      apart: `true`, `false`, a string, `null` or `undefined`, or anything
      else. */
  datatype VResult = VTrue | VFalse | VReason(reason: string) | VNullish | VOther

  /** Registered properties of one field; `Undefined`/`None` for a
      property never set. */
  datatype Props = Props(defaultValue: Value, required: Option<Required>, validator: Option<Value -> VResult>)

  const NoProps: Props := Props(Undefined, None, None)

  type Fields = map<string, Field>

  datatype Store = Store(
    forms: map<string, Fields>,
    props: map<string, map<string, Props>>,
    subforms: map<string, seq<string>>)

  const EmptyStore: Store := Store(map[], map[], map[])

  /** `state[formId] ?? {}`. */
  function FieldsOf(s: Store, formId: string): Fields {
    if formId in s.forms then s.forms[formId] else map[]
  }

  function PropsOf(s: Store, formId: string): map<string, Props> {
    if formId in s.props then s.props[formId] else map[]
  }

  function SubformsOf(s: Store, formId: string): seq<string> {
    if formId in s.subforms then s.subforms[formId] else []
  }

  function FieldOr(fs: Fields, name: string): Field {
    if name in fs then fs[name] else NoField
  }

  // ---------------------------------------------------------------------
  // Conversions between plain data and fields

  /** `dataToFormData`: every entry becomes a valid field. */
  function DataToFields(data: map<string, Value>): (fs: Fields)
    ensures fs.Keys == data.Keys
    ensures forall k :: k in fs ==> fs[k].value == data[k] && fs[k].valid == Some(true)
  {
    map k | k in data :: Field(data[k], Some(true), None)
  }

  /** `formDataToData`. */
  function FieldsToData(fs: Fields): (data: map<string, Value>)
    ensures data.Keys == fs.Keys
    ensures forall k :: k in data ==> data[k] == fs[k].value
  {
    map k | k in fs :: fs[k].value
  }

  /** `formDataValidity`. */
  function FieldsValidity(fs: Fields): (v: map<string, Option<bool>>)
    ensures v.Keys == fs.Keys
    ensures forall k :: k in v ==> v[k] == fs[k].valid
  {
    map k | k in fs :: fs[k].valid
  }

  /** Plain data survives the round trip through fields. */
  lemma DataRoundTrip(data: map<string, Value>)
    ensures FieldsToData(DataToFields(data)) == data
  {
  }

  // ---------------------------------------------------------------------
  // Operations on one form

  /** Only form `formId` may differ between `s` and `r`; properties and
      subforms are the same. */
  ghost predicate OnlyFormChanged(s: Store, r: Store, formId: string) {
    r.props == s.props && r.subforms == s.subforms &&
    (forall f :: f in s.forms && f != formId ==> f in r.forms && r.forms[f] == s.forms[f]) &&
    (forall f :: f in r.forms && f != formId ==> f in s.forms)
  }

  /** Only field `name` of form `formId` may differ, and it is present
      afterwards; the form is created if it was absent. */
  ghost predicate OnlyFieldChanged(s: Store, r: Store, formId: string, name: string) {
    OnlyFormChanged(s, r, formId) && formId in r.forms &&
    r.forms[formId].Keys == FieldsOf(s, formId).Keys + {name} &&
    forall n :: n in FieldsOf(s, formId) && n != name ==> r.forms[formId][n] == FieldsOf(s, formId)[n]
  }

  /** `initialiseForm`: replaces the whole form by the given data, each
      entry valid. */
  function InitialiseForm(s: Store, formId: string, data: map<string, Value>): (r: Store)
    ensures formId == "" ==> r == s
    ensures formId != "" ==> OnlyFormChanged(s, r, formId) && formId in r.forms
    ensures formId != "" ==> FieldsToData(r.forms[formId]) == data
    ensures formId != "" ==> forall k :: k in r.forms[formId] ==> r.forms[formId][k].valid == Some(true)
  {
    if formId == "" then s
    else s.(forms := s.forms[formId := DataToFields(data)])
  }

  /** Whether `updateField` takes its in-place path: `skipRender` is set and
      the field already exists. */
  predicate InPlace(s: Store, formId: string, name: string, skipRender: bool) {
    skipRender && formId in s.forms && name in s.forms[formId]
  }

  /** `updateField`. `value` is `Undefined` when left out; `valid` is
      `None` when left out. */
  function UpdateField(s: Store, formId: string, name: string, value: Value, valid: Option<bool>, skipRender: bool): (r: Store)
    ensures formId == "" || name == "" ==> r == s
    ensures r.props == s.props && r.subforms == s.subforms
    ensures formId != "" && name != "" ==>
      OnlyFieldChanged(s, r, formId, name) &&
      var prior := FieldOr(FieldsOf(s, formId), name);
      var upd := r.forms[formId][name];
      // the value: left out keeps it, null clears it unless written in place
      (value.Undefined? ==> upd.value == prior.value) &&
      (value.Null? && !InPlace(s, formId, name, skipRender) ==> upd.value == Undefined) &&
      (value.Null? && InPlace(s, formId, name, skipRender) ==> upd.value == Null) &&
      (!IsNullish(value) ==> upd.value == value) &&
      // validity: left out keeps it
      (valid.Some? ==> upd.valid == valid) &&
      (valid.None? ==> upd.valid == prior.valid) &&
      upd.invalidReason == prior.invalidReason
  {
    if formId == "" || name == "" then s
    else
      var fs := FieldsOf(s, formId);
      var prior := FieldOr(fs, name);
      var v :=
        if InPlace(s, formId, name, skipRender) then (if value.Undefined? then prior.value else value)
        else if value.Null? then Undefined
        else if value.Undefined? then prior.value
        else value;
      var upd := prior.(value := v, valid := if valid.Some? then valid else prior.valid);
      s.(forms := s.forms[formId := fs[name := upd]])
  }

  /** Repeating the same ordinary update changes nothing more. */
  lemma UpdateFieldIdempotent(s: Store, formId: string, name: string, value: Value, valid: Option<bool>)
    ensures var once := UpdateField(s, formId, name, value, valid, false);
      UpdateField(once, formId, name, value, valid, false) == once
  {
    if formId != "" && name != "" {
      var once := UpdateField(s, formId, name, value, valid, false);
      var fs := once.forms[formId];
      assert fs[name := fs[name]] == fs;
    }
  }

  /** `deleteField`: drops the field and its registered properties. */
  function DeleteField(s: Store, formId: string, name: string): (r: Store)
    ensures formId == "" || name == "" ==> r == s
    ensures formId != "" && name != "" ==>
      r.subforms == s.subforms && r.forms.Keys == s.forms.Keys && r.props.Keys == s.props.Keys &&
      name !in FieldsOf(r, formId) && name !in PropsOf(r, formId) &&
      FieldsOf(r, formId).Keys == FieldsOf(s, formId).Keys - {name} &&
      PropsOf(r, formId).Keys == PropsOf(s, formId).Keys - {name} &&
      (forall n :: n in FieldsOf(r, formId) ==> FieldsOf(r, formId)[n] == FieldsOf(s, formId)[n]) &&
      (forall n :: n in PropsOf(r, formId) ==> PropsOf(r, formId)[n] == PropsOf(s, formId)[n]) &&
      (forall f :: f in s.forms && f != formId ==> r.forms[f] == s.forms[f]) &&
      (forall f :: f in s.props && f != formId ==> r.props[f] == s.props[f])
  {
    if formId == "" || name == "" then s
    else
      var forms := if formId in s.forms && name in s.forms[formId]
        then s.forms[formId := s.forms[formId] - {name}] else s.forms;
      var props := if formId in s.props && name in s.props[formId]
        then s.props[formId := s.props[formId] - {name}] else s.props;
      s.(forms := forms, props := props)
  }

  /** Deleting a field twice is the same as deleting it once. */
  lemma DeleteFieldIdempotent(s: Store, formId: string, name: string)
    ensures DeleteField(DeleteField(s, formId, name), formId, name) == DeleteField(s, formId, name)
  {
  }

  /** After an ordinary update, deleting the field leaves the forms as
      deleting it beforehand would, once the form exists. */
  lemma UpdateThenDelete(s: Store, formId: string, name: string, value: Value, valid: Option<bool>)
    requires formId in s.forms
    ensures DeleteField(UpdateField(s, formId, name, value, valid, false), formId, name).forms ==
      DeleteField(s, formId, name).forms
  {
    if formId != "" && name != "" {
      var fs := s.forms[formId];
      var s1 := UpdateField(s, formId, name, value, valid, false);
      var u := s1.forms[formId];
      assert s1.forms == s.forms[formId := u];
      assert u - {name} == fs - {name};
      assert DeleteField(s1, formId, name).forms == s.forms[formId := fs - {name}];
      if name !in fs {
        assert fs - {name} == fs;
        assert s.forms[formId := fs] == s.forms;
      }
    }
  }

  /** `validateField(formId, name, valid)`: an update that only sets
      validity. */
  function ValidateField(s: Store, formId: string, name: string, valid: bool): (r: Store)
    ensures formId == "" || name == "" ==> r == s
    ensures formId != "" && name != "" ==>
      OnlyFieldChanged(s, r, formId, name) &&
      r.forms[formId][name] == FieldOr(FieldsOf(s, formId), name).(valid := Some(valid))
  {
    if formId == "" || name == "" then s
    else UpdateField(s, formId, name, Undefined, Some(valid), false)
  }

  /** `resetForm`: the form is rebuilt from the registered defaults. There
      is no check on the id here. */
  function ResetForm(s: Store, formId: string): (r: Store)
    ensures OnlyFormChanged(s, r, formId) && formId in r.forms
    ensures forall n :: n in r.forms[formId] <==> n in PropsOf(s, formId) && !IsNullish(PropsOf(s, formId)[n].defaultValue)
    ensures forall n :: n in r.forms[formId] ==>
      r.forms[formId][n] == Field(PropsOf(s, formId)[n].defaultValue, Some(true), None)
  {
    var ps := PropsOf(s, formId);
    s.(forms := s.forms[formId := map n | n in ps && !IsNullish(ps[n].defaultValue) :: Field(ps[n].defaultValue, Some(true), None)])
  }

  /** `clearForm`: an existing form loses all its fields. */
  function ClearForm(s: Store, formId: string): (r: Store)
    ensures formId == "" || formId !in s.forms ==> r == s
    ensures formId != "" && formId in s.forms ==>
      OnlyFormChanged(s, r, formId) && formId in r.forms && r.forms[formId] == map[]
  {
    if formId == "" || formId !in s.forms then s
    else s.(forms := s.forms[formId := map[]])
  }

  /** `emptyForm`: with no data, every field keeps its name and becomes an
      undefined, valid value (an absent form becomes an empty one); with
      data, the form is initialised from it. */
  function EmptyForm(s: Store, formId: string, data: Option<map<string, Value>>): (r: Store)
    ensures formId == "" ==> r == s
    ensures formId != "" ==> OnlyFormChanged(s, r, formId) && formId in r.forms
    ensures formId != "" && data.None? ==>
      r.forms[formId].Keys == FieldsOf(s, formId).Keys &&
      forall n :: n in r.forms[formId] ==> r.forms[formId][n] == Field(Undefined, Some(true), None)
    ensures formId != "" && data.Some? ==> r == InitialiseForm(s, formId, data.value)
  {
    if formId == "" then s
    else
      var fs := FieldsOf(s, formId);
      var cleared := if data.None? then map n | n in fs :: Field(Undefined, Some(true), None) else DataToFields(data.value);
      s.(forms := s.forms[formId := cleared])
  }

  /** `deleteForm`: the form's fields go; its properties and subforms stay. */
  function DeleteForm(s: Store, formId: string): (r: Store)
    ensures formId == "" ==> r == s
    ensures formId != "" ==> formId !in r.forms && r.forms == s.forms - {formId}
    ensures r.props == s.props && r.subforms == s.subforms
  {
    if formId == "" || formId !in s.forms then s
    else s.(forms := s.forms - {formId})
  }

  /** `setInvalidReason`: records a reason on the field, creating the form
      or the field when absent. */
  function SetInvalidReason(s: Store, formId: string, name: string, reason: string): (r: Store)
    ensures formId == "" || name == "" ==> r == s
    ensures formId != "" && name != "" ==>
      OnlyFieldChanged(s, r, formId, name) &&
      r.forms[formId][name] == FieldOr(FieldsOf(s, formId), name).(invalidReason := Some(reason))
  {
    if formId == "" || name == "" then s
    else
      var fs := FieldsOf(s, formId);
      s.(forms := s.forms[formId := fs[name := FieldOr(fs, name).(invalidReason := Some(reason))]])
  }

  // ---------------------------------------------------------------------
  // Validation of a whole form

  /** What validating one field decides. */
  datatype Outcome = Pass | Fail | FailWith(reason: string)

  /** The registered `required` rejects the value: a set flag rejects null
      and undefined, a predicate rejects what it maps to false. */
  predicate RequiredRejects(req: Required, data: Value) {
    match req
    case ReqBool(flag) => flag && IsNullish(data)
    case ReqPred(pred) => !pred(data)
  }

  /** One field's check in `validateForm`: `required` first, and only then
      the validator. */
  function Check(p: Props, data: Value): (o: Outcome)
    ensures p.required.Some? && RequiredRejects(p.required.value, data) ==> o == Fail
    ensures o.FailWith? ==> p.validator.Some? && p.validator.value(data) == VReason(o.reason)
    ensures o == Pass <==>
      ((p.required.None? || !RequiredRejects(p.required.value, data)) &&
       (p.validator.None? || (p.validator.value(data) != VFalse && !p.validator.value(data).VReason?)))
  {
    if p.required.Some? && RequiredRejects(p.required.value, data) then Fail
    else if p.validator.Some? then
      match p.validator.value(data)
      case VFalse => Fail
      case VReason(why) => FailWith(why)
      case _ => Pass
    else Pass
  }

  /** A rejecting `required` decides the outcome whatever the validator
      would say. */
  lemma RequiredShortCircuits(p: Props, data: Value, other: Option<Value -> VResult>)
    requires p.required.Some? && RequiredRejects(p.required.value, data)
    ensures Check(p, data) == Check(p.(validator := other), data) == Fail
  {
  }

  /** The field after its outcome is recorded: validity is set, a reason is
      stored only for a string result, and an earlier reason is never
      removed. */
  function Record(f: Field, o: Outcome): (g: Field)
    ensures g.value == f.value && g.valid == Some(o == Pass)
    ensures g.invalidReason == (if o.FailWith? then Some(o.reason) else f.invalidReason)
  {
    match o
    case Pass => f.(valid := Some(true))
    case Fail => f.(valid := Some(false))
    case FailWith(why) => f.(valid := Some(false), invalidReason := Some(why))
  }

  /** Every field of the form that has properties passes its check. */
  predicate AllPass(fs: Fields, ps: map<string, Props>) {
    forall n :: n in fs && n in ps ==> Check(ps[n], fs[n].value) == Pass
  }

  /** `validateForm`: the verdict, and the store with each checked field's
      outcome recorded. */
  function ValidateForm(s: Store, formId: string): (r: (bool, Store))
    ensures r.0 <==> (formId != "" && |FieldsOf(s, formId)| > 0 &&
      (|PropsOf(s, formId)| == 0 || AllPass(FieldsOf(s, formId), PropsOf(s, formId))))
    ensures OnlyFormChanged(s, r.1, formId)
    ensures formId !in s.forms ==> r.1 == s
    ensures formId in s.forms ==> formId in r.1.forms && r.1.forms[formId].Keys == s.forms[formId].Keys
    ensures formId in s.forms ==> forall n :: n in s.forms[formId] && n !in PropsOf(s, formId) ==>
      r.1.forms[formId][n] == s.forms[formId][n]
    ensures formId != "" && formId in s.forms ==> forall n :: n in s.forms[formId] && n in PropsOf(s, formId) ==>
      r.1.forms[formId][n] == Record(s.forms[formId][n], Check(PropsOf(s, formId)[n], s.forms[formId][n].value))
  {
    var fs := FieldsOf(s, formId);
    var ps := PropsOf(s, formId);
    if formId == "" || |fs| == 0 then (false, s)
    else if |ps| == 0 then (true, s)
    else
      var checked := map n | n in fs :: if n in ps then Record(fs[n], Check(ps[n], fs[n].value)) else fs[n];
      (AllPass(fs, ps), s.(forms := s.forms[formId := checked]))
  }

  /** A field that passes validation keeps the reason an earlier failure
      recorded. */
  lemma ValidateFormKeepsStaleReason(s: Store, formId: string, name: string)
    requires formId != "" && formId in s.forms && name in s.forms[formId] && name in PropsOf(s, formId)
    requires Check(PropsOf(s, formId)[name], s.forms[formId][name].value) == Pass
    ensures var r := ValidateForm(s, formId).1;
      r.forms[formId][name].valid == Some(true) &&
      r.forms[formId][name].invalidReason == s.forms[formId][name].invalidReason
  {
  }

  // ---------------------------------------------------------------------
  // Registration of properties and subforms

  /** `setFieldProperties`: merges the supplied properties over the
      registered ones (a default only when defined, a validator only when
      given), and seeds an undefined valid field when the form exists but
      lacks the field. */
  function SetFieldProperties(s: Store, formId: string, name: string, defaultValue: Value,
                              required: Option<Required>, validator: Option<Value -> VResult>): (r: Store)
    ensures formId == "" || name == "" ==> r == s
    ensures formId != "" && name != "" ==>
      r.subforms == s.subforms &&
      formId in r.props && r.props[formId].Keys == PropsOf(s, formId).Keys + {name} &&
      (forall n :: n in PropsOf(s, formId) && n != name ==> r.props[formId][n] == PropsOf(s, formId)[n]) &&
      (forall f :: f in s.props && f != formId ==> f in r.props && r.props[f] == s.props[f])
    ensures formId != "" && name != "" ==>
      var prior := if name in PropsOf(s, formId) then PropsOf(s, formId)[name] else NoProps;
      var upd := r.props[formId][name];
      upd.defaultValue == (if defaultValue.Undefined? then prior.defaultValue else defaultValue) &&
      upd.required == (if required.None? then prior.required else required) &&
      upd.validator == (if validator.None? then prior.validator else validator)
    ensures formId != "" && name != "" && formId in s.forms && name !in s.forms[formId] ==>
      r.forms == s.forms[formId := s.forms[formId][name := Field(Undefined, Some(true), None)]]
    ensures formId != "" && name != "" && (formId !in s.forms || name in s.forms[formId]) ==>
      r.forms == s.forms
  {
    if formId == "" || name == "" then s
    else
      var ps := PropsOf(s, formId);
      var prior := if name in ps then ps[name] else NoProps;
      var upd := Props(
        if defaultValue.Undefined? then prior.defaultValue else defaultValue,
        if required.None? then prior.required else required,
        if validator.None? then prior.validator else validator);
      var forms := if formId in s.forms && name !in s.forms[formId]
        then s.forms[formId := s.forms[formId][name := Field(Undefined, Some(true), None)]]
        else s.forms;
      s.(forms := forms, props := s.props[formId := ps[name := upd]])
  }

  /** `setSubForm`: the prefix is appended, duplicates included. */
  function SetSubForm(s: Store, formId: string, prefix: string): (r: Store)
    ensures r.forms == s.forms && r.props == s.props
    ensures r.subforms == s.subforms[formId := SubformsOf(s, formId) + [prefix]]
  {
    s.(subforms := s.subforms[formId := SubformsOf(s, formId) + [prefix]])
  }

  /** `xs.filter(p => p !== x)`. */
  function Without(xs: seq<string>, x: string): (r: seq<string>)
    ensures x !in r
    ensures forall y :: y in r <==> y in xs && y != x
    ensures forall y :: y != x ==> multiset(r)[y] == multiset(xs)[y]
    ensures |r| == |xs| - multiset(xs)[x]
  {
    if |xs| == 0 then []
    else
      assert xs == [xs[0]] + xs[1..];
      if xs[0] == x then Without(xs[1..], x) else [xs[0]] + Without(xs[1..], x)
  }

  /** `deleteSubForm`: removes every registration of the prefix. */
  function DeleteSubForm(s: Store, formId: string, prefix: string): (r: Store)
    ensures r.forms == s.forms && r.props == s.props
    ensures formId !in s.subforms ==> r == s
    ensures formId in s.subforms ==> r.subforms == s.subforms[formId := Without(s.subforms[formId], prefix)]
  {
    if formId in s.subforms then s.(subforms := s.subforms[formId := Without(s.subforms[formId], prefix)])
    else s
  }

  /** Registering a new prefix and deregistering it restores the registry,
      once the form has a list. */
  lemma {:induction false} SubFormRegisterThenDelete(s: Store, formId: string, prefix: string)
    requires formId in s.subforms && prefix !in s.subforms[formId]
    ensures DeleteSubForm(SetSubForm(s, formId, prefix), formId, prefix) == s
  {
    WithoutAppend(s.subforms[formId], prefix);
  }

  lemma {:induction false} WithoutAppend(xs: seq<string>, x: string)
    requires x !in xs
    ensures Without(xs + [x], x) == xs
  {
    if |xs| > 0 {
      assert (xs + [x])[1..] == xs[1..] + [x];
      WithoutAppend(xs[1..], x);
      assert xs == [xs[0]] + xs[1..];
    } else {
      assert xs + [x] == [x];
    }
  }

  /** The filter keeps what it keeps in order: filtering a concatenation
      filters each part, and a single member stays exactly when it is not
      `x`. Together these fix the result of `Without` on every list. */
  lemma {:induction false} WithoutKeepsOrder(a: seq<string>, b: seq<string>, x: string, y: string)
    ensures Without(a + b, x) == Without(a, x) + Without(b, x)
    ensures Without([y], x) == (if y == x then [] else [y])
  {
    WithoutConcat(a, b, x);
    assert [y][1..] == [];
  }

  lemma {:induction false} WithoutConcat(a: seq<string>, b: seq<string>, x: string)
    ensures Without(a + b, x) == Without(a, x) + Without(b, x)
    decreases |a|
  {
    if |a| == 0 {
      assert a + b == b;
    } else {
      var ab := a + b;
      assert ab[1..] == a[1..] + b;
      WithoutConcat(a[1..], b, x);
      var wa := Without(a[1..], x);
      var wb := Without(b, x);
      assert Without(ab[1..], x) == wa + wb;
      if a[0] != x {
        assert [a[0]] + (wa + wb) == ([a[0]] + wa) + wb;
      }
    }
  }

  // ---------------------------------------------------------------------
  // Reading a form back

  /** An entry of the data `getFormData` returns: a top-level value, or the
      object gathered for a subform prefix. */
  datatype Datum = Plain(value: Value) | Nested(group: map<string, Value>)

  /** The key `prefix + "_"` that marks a field of a subform. */
  function Tag(prefix: string): string {
    prefix + "_"
  }

  /** No prefix of `prefixes` claims key `k`. */
  predicate Free(k: string, prefixes: seq<string>)
    decreases |prefixes|
  {
    |prefixes| == 0 || (!StartsWith(k, Tag(prefixes[0])) && Free(k, prefixes[1..]))
  }

  lemma {:induction false} FreeMeans(k: string, prefixes: seq<string>)
    ensures Free(k, prefixes) <==> forall j :: 0 <= j < |prefixes| ==> !StartsWith(k, Tag(prefixes[j]))
    decreases |prefixes|
  {
    if |prefixes| > 0 {
      FreeMeans(k, prefixes[1..]);
      assert forall j :: 1 <= j < |prefixes| ==> prefixes[j] == prefixes[1..][j - 1];
    }
  }

  /** The fields no prefix of `prefixes` claims. */
  function Unclaimed(fs: Fields, prefixes: seq<string>): (r: Fields)
    ensures forall k :: k in r <==> k in fs && Free(k, prefixes)
    ensures forall k :: k in r ==> r[k] == fs[k]
  {
    map k | k in fs && Free(k, prefixes) :: fs[k]
  }

  /** The keys of `fs` that start with `tag`, with the tag removed as
      `key.replace(tag, '')` removes it. */
  function Stripped(fs: Fields, tag: string): (ks: set<string>)
    ensures forall r :: r in ks ==> tag + r in fs
    ensures forall k :: k in fs && StartsWith(k, tag) ==> ReplaceFirst(k, tag, "") in ks
  {
    var ks := set k | k in fs && StartsWith(k, tag) :: ReplaceFirst(k, tag, "");
    StripIsSuffix(fs, tag);
    ks
  }

  lemma StripIsSuffix(fs: Fields, tag: string)
    ensures forall k :: k in fs && StartsWith(k, tag) ==>
      ReplaceFirst(k, tag, "") == k[|tag|..] && tag + k[|tag|..] == k
  {
    forall k | k in fs && StartsWith(k, tag)
      ensures ReplaceFirst(k, tag, "") == k[|tag|..] && tag + k[|tag|..] == k
    {
      assert k == tag + k[|tag|..];
      FoundAtStart(tag, k[|tag|..]);
    }
  }

  /** The object gathered for a prefix: the values of the claimed fields
      under their stripped keys. */
  function Group(fs: Fields, tag: string): map<string, Value> {
    var ks := Stripped(fs, tag);
    map r | r in ks :: fs[tag + r].value
  }

  /** The group holds exactly the keys that follow the tag. */
  lemma GroupMeans(fs: Fields, tag: string)
    ensures forall r :: r in Group(fs, tag) <==> tag + r in fs
    ensures forall r :: r in Group(fs, tag) ==> Group(fs, tag)[r] == fs[tag + r].value
  {
    var ks := Stripped(fs, tag);
    forall r | tag + r in fs
      ensures r in ks
    {
      assert StartsWith(tag + r, tag);
      assert (tag + r)[|tag|..] == r;
      StripIsSuffix(fs, tag);
    }
  }

  /** The fields that do not start with `tag`. */
  function Drop(fs: Fields, tag: string): (r: Fields)
    ensures forall k :: k in r <==> k in fs && !StartsWith(k, tag)
    ensures forall k :: k in r ==> r[k] == fs[k]
  {
    map k | k in fs && !StartsWith(k, tag) :: fs[k]
  }

  /** The subform loop of `getFormData`: each prefix, in registration order,
      takes the fields still unclaimed that start with its tag. Groups go
      under the key `home` names, or under the prefix itself when `home`
      is `None`. */
  function Claim(fs: Fields, prefixes: seq<string>, home: Option<string>, acc: map<string, Datum>): (r: (Fields, map<string, Datum>))
    decreases |prefixes|
  {
    if |prefixes| == 0 then (fs, acc)
    else
      var p := prefixes[0];
      var key := if home.Some? then home.value else p;
      Claim(Drop(fs, Tag(p)), prefixes[1..], home, acc[key := Nested(Group(fs, Tag(p)))])
  }

  /** The data object of one form: subform groups, then the unclaimed
      top-level fields written over them. */
  function FormObjects(fs: Fields, prefixes: seq<string>, home: Option<string>): map<string, Datum> {
    var claimed := Claim(fs, prefixes, home, map[]);
    claimed.1 + map k | k in claimed.0 :: Plain(claimed.0[k].value)
  }

  /** What `getFormData` returns: one form's data for a non-empty id, or
      every form's data for the empty id. */
  datatype FormData = OneForm(data: map<string, Datum>) | AllForms(all: map<string, map<string, Datum>>)

  /** `getFormData`, as written: in the all-forms branch every subform
      group is stored under the form's own id. */
  function GetFormData(s: Store, formId: string): FormData {
    if formId != "" then
      OneForm(if formId in s.forms then FormObjects(s.forms[formId], SubformsOf(s, formId), None) else map[])
    else
      AllForms(map f | f in s.forms :: FormObjects(s.forms[f], SubformsOf(s, f), Some(f)))
  }

  /** The all-forms branch as evidently intended: each form's data as the
      one-form branch returns it. */
  function GetAllFormData(s: Store): (r: map<string, map<string, Datum>>)
    ensures forall f :: f in r <==> f in s.forms
    ensures forall f :: f != "" && f in r ==> GetFormData(s, f) == OneForm(r[f])
  {
    map f | f in s.forms :: FormObjects(s.forms[f], SubformsOf(s, f), None)
  }

  // Facts about the subform loop

  lemma {:induction false} ClaimRemaining(fs: Fields, prefixes: seq<string>, home: Option<string>, acc: map<string, Datum>)
    ensures Claim(fs, prefixes, home, acc).0 == Unclaimed(fs, prefixes)
    decreases |prefixes|
  {
    if |prefixes| > 0 {
      var p := prefixes[0];
      var key := if home.Some? then home.value else p;
      ClaimRemaining(Drop(fs, Tag(p)), prefixes[1..], home, acc[key := Nested(Group(fs, Tag(p)))]);
      UnclaimedStep(fs, prefixes);
    } else {
      assert Unclaimed(fs, prefixes) == fs;
    }
  }

  lemma {:induction false} ClaimKeys(fs: Fields, prefixes: seq<string>, acc: map<string, Datum>)
    ensures Claim(fs, prefixes, None, acc).1.Keys == acc.Keys + (set x | x in prefixes)
    decreases |prefixes|
  {
    if |prefixes| > 0 {
      var p := prefixes[0];
      var acc' := acc[p := Nested(Group(fs, Tag(p)))];
      ClaimKeys(Drop(fs, Tag(p)), prefixes[1..], acc');
      assert prefixes == [p] + prefixes[1..];
      assert (set x | x in prefixes) == {p} + (set x | x in prefixes[1..]);
    } else {
      assert (set x | x in prefixes) == {};
    }
  }

  /** The group of the prefix registered at position `i` holds, under their
      stripped keys, the fields that start with its tag and that no earlier
      prefix claimed, when that prefix is not registered again later. */
  lemma {:induction false} ClaimGroup(fs: Fields, prefixes: seq<string>, acc: map<string, Datum>, i: nat)
    requires i < |prefixes| && prefixes[i] !in prefixes[i + 1..]
    ensures prefixes[i] in Claim(fs, prefixes, None, acc).1
    ensures Claim(fs, prefixes, None, acc).1[prefixes[i]] == Nested(Group(Unclaimed(fs, prefixes[..i]), Tag(prefixes[i])))
    decreases |prefixes|
  {
    if i == 0 {
      ClaimGroupFirst(fs, prefixes, acc);
      UnclaimedByNone(fs, prefixes[..0]);
    } else {
      var p := prefixes[0];
      var rest := prefixes[1..];
      var acc' := acc[p := Nested(Group(fs, Tag(p)))];
      var dropped := Drop(fs, Tag(p));
      assert rest[i - 1] == prefixes[i];
      assert rest[i..] == prefixes[i + 1..];
      assert Claim(fs, prefixes, None, acc) == Claim(dropped, rest, None, acc');
      ClaimGroup(dropped, rest, acc', i - 1);
      assert rest[..i - 1] == prefixes[1..i];
      UnclaimedPrefixStep(fs, prefixes, i);
    }
  }

  /** With no prefixes every field is unclaimed. */
  lemma UnclaimedByNone(fs: Fields, prefixes: seq<string>)
    requires |prefixes| == 0
    ensures Unclaimed(fs, prefixes) == fs
  {
    assert Unclaimed(fs, prefixes).Keys == fs.Keys;
  }

  /** `UnclaimedStep` on the first `i` prefixes. */
  lemma UnclaimedPrefixStep(fs: Fields, prefixes: seq<string>, i: nat)
    requires 0 < i <= |prefixes|
    ensures Unclaimed(Drop(fs, Tag(prefixes[0])), prefixes[1..i]) == Unclaimed(fs, prefixes[..i])
  {
    UnclaimedStep(fs, prefixes[..i]);
    assert prefixes[..i][0] == prefixes[0];
    assert prefixes[..i][1..] == prefixes[1..i];
  }

  /** The first prefix's group is every field with its tag. */
  lemma ClaimGroupFirst(fs: Fields, prefixes: seq<string>, acc: map<string, Datum>)
    requires |prefixes| > 0 && prefixes[0] !in prefixes[1..]
    ensures prefixes[0] in Claim(fs, prefixes, None, acc).1
    ensures Claim(fs, prefixes, None, acc).1[prefixes[0]] == Nested(Group(fs, Tag(prefixes[0])))
  {
    var p := prefixes[0];
    var acc' := acc[p := Nested(Group(fs, Tag(p)))];
    ClaimKeeps(Drop(fs, Tag(p)), prefixes[1..], acc', p);
  }

  /** An entry no later prefix overwrites survives the loop. */
  lemma {:induction false} ClaimKeeps(fs: Fields, prefixes: seq<string>, acc: map<string, Datum>, k: string)
    requires k in acc && k !in prefixes
    ensures k in Claim(fs, prefixes, None, acc).1 && Claim(fs, prefixes, None, acc).1[k] == acc[k]
    decreases |prefixes|
  {
    if |prefixes| > 0 {
      var p := prefixes[0];
      assert k != p && k !in prefixes[1..];
      ClaimKeeps(Drop(fs, Tag(p)), prefixes[1..], acc[p := Nested(Group(fs, Tag(p)))], k);
    }
  }

  /** Dropping the first prefix's fields first and then the rest's is the
      same as dropping all at once. */
  lemma UnclaimedStep(fs: Fields, prefixes: seq<string>)
    requires |prefixes| > 0
    ensures Unclaimed(Drop(fs, Tag(prefixes[0])), prefixes[1..]) == Unclaimed(fs, prefixes)
  {
    var a := Unclaimed(Drop(fs, Tag(prefixes[0])), prefixes[1..]);
    var b := Unclaimed(fs, prefixes);
    assert a.Keys == b.Keys;
  }

  /** `initialiseForm` then `getFormData` with no subforms gives the data
      back, key for key. */
  lemma InitialiseThenGetFormData(s: Store, formId: string, data: map<string, Value>)
    requires formId != "" && SubformsOf(s, formId) == []
    ensures GetFormData(InitialiseForm(s, formId, data), formId) == OneForm(map k | k in data :: Plain(data[k]))
  {
  }

  /** A field no registered prefix claims appears at the top level with its
      value. */
  lemma GetFormDataTopLevel(s: Store, formId: string, k: string)
    requires formId != "" && formId in s.forms && k in s.forms[formId]
    requires forall j :: 0 <= j < |SubformsOf(s, formId)| ==> !StartsWith(k, Tag(SubformsOf(s, formId)[j]))
    ensures k in GetFormData(s, formId).data && GetFormData(s, formId).data[k] == Plain(s.forms[formId][k].value)
  {
    ClaimRemaining(s.forms[formId], SubformsOf(s, formId), None, map[]);
    FreeMeans(k, SubformsOf(s, formId));
  }

  /** A field that the prefix at position `i` claims first appears in that
      prefix's group under its key with the tag removed, when the prefix is
      registered once and no unclaimed top-level field has its name. */
  lemma GetFormDataClaimed(s: Store, formId: string, k: string, i: nat)
    requires formId != "" && formId in s.forms && k in s.forms[formId]
    requires i < |SubformsOf(s, formId)| && StartsWith(k, Tag(SubformsOf(s, formId)[i]))
    requires forall j :: 0 <= j < i ==> !StartsWith(k, Tag(SubformsOf(s, formId)[j]))
    requires forall j :: 0 <= j < |SubformsOf(s, formId)| && j != i ==> SubformsOf(s, formId)[j] != SubformsOf(s, formId)[i]
    requires SubformsOf(s, formId)[i] !in Unclaimed(s.forms[formId], SubformsOf(s, formId))
    ensures SubformsOf(s, formId)[i] in GetFormData(s, formId).data
    ensures GetFormData(s, formId).data[SubformsOf(s, formId)[i]] ==
      Nested(Group(Unclaimed(s.forms[formId], SubformsOf(s, formId)[..i]), Tag(SubformsOf(s, formId)[i])))
    ensures k in Unclaimed(s.forms[formId], SubformsOf(s, formId)[..i])
    ensures var tag := Tag(SubformsOf(s, formId)[i]);
      var g := GetFormData(s, formId).data[SubformsOf(s, formId)[i]].group;
      k[|tag|..] in g && g[k[|tag|..]] == s.forms[formId][k].value
  {
    var fs := s.forms[formId];
    var ps := SubformsOf(s, formId);
    ClaimedField(fs, ps, k, i);
    assert GetFormData(s, formId).data == FormObjects(fs, ps, None);
  }

  /** `GetFormDataClaimed` on one form's fields and prefixes. */
  lemma ClaimedField(fs: Fields, ps: seq<string>, k: string, i: nat)
    requires k in fs && i < |ps| && StartsWith(k, Tag(ps[i]))
    requires forall j :: 0 <= j < i ==> !StartsWith(k, Tag(ps[j]))
    requires forall j :: 0 <= j < |ps| && j != i ==> ps[j] != ps[i]
    requires ps[i] !in Unclaimed(fs, ps)
    ensures ps[i] in FormObjects(fs, ps, None)
    ensures FormObjects(fs, ps, None)[ps[i]] == Nested(Group(Unclaimed(fs, ps[..i]), Tag(ps[i])))
    ensures k in Unclaimed(fs, ps[..i])
    ensures var g := FormObjects(fs, ps, None)[ps[i]].group;
      k[|Tag(ps[i])|..] in g && g[k[|Tag(ps[i])|..]] == fs[k].value
  {
    NotLater(ps, i);
    FormObjectsClaimed(fs, ps, i);
    FreeBefore(k, ps, i);
    var u := Unclaimed(fs, ps[..i]);
    assert k in u && u[k] == fs[k];
    GroupHolds(u, Tag(ps[i]), k);
  }

  lemma NotLater(ps: seq<string>, i: nat)
    requires i < |ps| && forall j :: 0 <= j < |ps| && j != i ==> ps[j] != ps[i]
    ensures ps[i] !in ps[i + 1..]
  {
    var later := ps[i + 1..];
    forall j | 0 <= j < |later| ensures later[j] != ps[i] {
      assert later[j] == ps[i + 1 + j];
    }
  }

  lemma FreeBefore(k: string, ps: seq<string>, i: nat)
    requires i <= |ps| && forall j :: 0 <= j < i ==> !StartsWith(k, Tag(ps[j]))
    ensures Free(k, ps[..i])
  {
    FreeMeans(k, ps[..i]);
    forall j | 0 <= j < |ps[..i]| ensures !StartsWith(k, Tag(ps[..i][j])) {
      assert ps[..i][j] == ps[j];
    }
  }

  /** A field starting with the tag lands in the group under the rest of
      its key. */
  lemma GroupHolds(fs: Fields, tag: string, k: string)
    requires k in fs && StartsWith(k, tag)
    ensures k[|tag|..] in Group(fs, tag) && Group(fs, tag)[k[|tag|..]] == fs[k].value
  {
    GroupMeans(fs, tag);
    assert tag + k[|tag|..] == k;
  }

  lemma FormObjectsClaimed(fs: Fields, ps: seq<string>, i: nat)
    requires i < |ps| && ps[i] !in ps[i + 1..] && ps[i] !in Unclaimed(fs, ps)
    ensures ps[i] in FormObjects(fs, ps, None)
    ensures FormObjects(fs, ps, None)[ps[i]] == Nested(Group(Unclaimed(fs, ps[..i]), Tag(ps[i])))
  {
    ClaimRemaining(fs, ps, None, map[]);
    ClaimGroup(fs, ps, map[], i);
    FormObjectsGroupKey(fs, ps, ps[i]);
  }

  /** A group no unclaimed field shadows keeps its place in the data. */
  lemma FormObjectsGroupKey(fs: Fields, ps: seq<string>, x: string)
    requires x in Claim(fs, ps, None, map[]).1 && x !in Claim(fs, ps, None, map[]).0
    ensures x in FormObjects(fs, ps, None) && FormObjects(fs, ps, None)[x] == Claim(fs, ps, None, map[]).1[x]
  {
  }

  /** The keys of one form's data: every registered prefix, and every field
      no prefix claims. */
  lemma GetFormDataKeys(s: Store, formId: string)
    requires formId != "" && formId in s.forms
    ensures GetFormData(s, formId).data.Keys ==
      (set x | x in SubformsOf(s, formId)) + Unclaimed(s.forms[formId], SubformsOf(s, formId)).Keys
  {
    ClaimRemaining(s.forms[formId], SubformsOf(s, formId), None, map[]);
    ClaimKeys(s.forms[formId], SubformsOf(s, formId), map[]);
  }

  /** `getFormValid`: validity per field of one form (an absent form gives
      none), or per form for the empty id. */
  datatype Validity = OneValidity(valid: map<string, Option<bool>>) | AllValidity(all: map<string, map<string, Option<bool>>>)

  function GetFormValid(s: Store, formId: string): (r: Validity)
    ensures formId != "" ==> r.OneValidity? && r.valid.Keys == FieldsOf(s, formId).Keys
    ensures formId != "" ==> forall n :: n in r.valid ==> r.valid[n] == FieldsOf(s, formId)[n].valid
    ensures formId == "" ==> r.AllValidity? && r.all.Keys == s.forms.Keys
    ensures formId == "" ==> forall f, n :: f in r.all && n in r.all[f] ==>
      n in s.forms[f] && r.all[f][n] == s.forms[f][n].valid
    ensures formId == "" ==> forall f :: f in r.all ==> r.all[f].Keys == s.forms[f].Keys
  {
    if formId != "" then OneValidity(FieldsValidity(FieldsOf(s, formId)))
    else AllValidity(map f | f in s.forms :: FieldsValidity(s.forms[f]))
  }

  /** A field's validity as the value a grouped read holds: `true`,
      `false`, or `undefined` when it was never set. */
  function ValidAsValue(v: Option<bool>): Value {
    if v.Some? then Bool(v.value) else Undefined
  }

  /** The fields with each value replaced by the field's validity. */
  function ValidityFields(fs: Fields): (r: Fields)
    ensures r.Keys == fs.Keys
    ensures forall k :: k in r ==> r[k].value == ValidAsValue(fs[k].valid)
  {
    map k | k in fs :: Field(ValidAsValue(fs[k].valid), fs[k].valid, None)
  }

  /** The one-form `getFormValid` as its documentation describes it: the
      fields of a subform grouped into one object, as `getFormData` groups
      their values. */
  function GroupedFormValid(s: Store, formId: string): map<string, Datum> {
    if formId in s.forms then FormObjects(ValidityFields(s.forms[formId]), SubformsOf(s, formId), None) else map[]
  }

  /** The unclaimed fields of the validity copy are the unclaimed fields
      of the form, each with its validity as value. */
  lemma UnclaimedValidity(fs: Fields, ps: seq<string>)
    ensures Unclaimed(ValidityFields(fs), ps).Keys == Unclaimed(fs, ps).Keys
    ensures forall k :: k in Unclaimed(ValidityFields(fs), ps) ==>
      Unclaimed(ValidityFields(fs), ps)[k].value == ValidAsValue(fs[k].valid)
  {
    var vs := ValidityFields(fs);
    forall k ensures k in Unclaimed(vs, ps) <==> k in Unclaimed(fs, ps) {
    }
  }

  /** The data object of one form has, under every unclaimed field, that
      field's value, and a group under each prefix no field shadows. */
  lemma FormObjectsShape(fs: Fields, ps: seq<string>)
    ensures FormObjects(fs, ps, None).Keys == (set x | x in ps) + Unclaimed(fs, ps).Keys
    ensures forall k :: k in Unclaimed(fs, ps) ==> FormObjects(fs, ps, None)[k] == Plain(fs[k].value)
    ensures forall p :: p in ps && p !in Unclaimed(fs, ps) ==> FormObjects(fs, ps, None)[p].Nested?
  {
    var claimed := Claim(fs, ps, None, map[]);
    var free := Unclaimed(fs, ps);
    var top := map k | k in free :: Plain(free[k].value);
    FormObjectsSplit(fs, ps, None);
    ClaimKeys(fs, ps, map[]);
    ClaimNested(fs, ps, None, map[]);
    UnionShape(claimed.1, top, fs, (set x | x in ps), free.Keys);
  }

  lemma FormObjectsSplit(fs: Fields, ps: seq<string>, home: Option<string>)
    ensures var free := Unclaimed(fs, ps);
      FormObjects(fs, ps, home) == Claim(fs, ps, home, map[]).1 + map k | k in free :: Plain(free[k].value)
  {
    ClaimRemaining(fs, ps, home, map[]);
  }

  /** Fields written over groups: what `FormObjects` builds, for any
      groups and fields. */
  lemma UnionShape(groups: map<string, Datum>, top: map<string, Datum>, fs: Fields, gk: set<string>, tk: set<string>)
    requires groups.Keys == gk && top.Keys == tk
    requires forall k :: k in groups ==> groups[k].Nested?
    requires forall k :: k in top ==> k in fs && top[k] == Plain(fs[k].value)
    ensures (groups + top).Keys == gk + tk
    ensures forall k :: k in tk ==> (groups + top)[k] == Plain(fs[k].value)
    ensures forall p :: p in gk && p !in tk ==> (groups + top)[p].Nested?
  {
  }

  /** The grouped validity has the shape of the data: the same keys, a
      subform prefix holds a group, and a top-level field's entry is its
      validity. */
  lemma GroupedValidMirrorsData(s: Store, formId: string)
    requires formId != "" && formId in s.forms
    ensures GroupedFormValid(s, formId).Keys == GetFormData(s, formId).data.Keys
    ensures GroupedFormValid(s, formId).Keys ==
      (set x | x in SubformsOf(s, formId)) + Unclaimed(s.forms[formId], SubformsOf(s, formId)).Keys
    ensures forall k :: k in Unclaimed(s.forms[formId], SubformsOf(s, formId)) ==>
      GroupedFormValid(s, formId)[k] == Plain(ValidAsValue(s.forms[formId][k].valid))
    ensures forall p :: p in SubformsOf(s, formId) && p !in Unclaimed(s.forms[formId], SubformsOf(s, formId)) ==>
      GroupedFormValid(s, formId)[p].Nested?
  {
    var fs := s.forms[formId];
    var ps := SubformsOf(s, formId);
    GetFormDataKeys(s, formId);
    FormObjectsShape(ValidityFields(fs), ps);
    UnclaimedValidity(fs, ps);
  }

  /** Every entry the subform loop adds is a group. */
  lemma {:induction false} ClaimNested(fs: Fields, prefixes: seq<string>, home: Option<string>, acc: map<string, Datum>)
    requires forall k :: k in acc ==> acc[k].Nested?
    ensures forall k :: k in Claim(fs, prefixes, home, acc).1 ==> Claim(fs, prefixes, home, acc).1[k].Nested?
    decreases |prefixes|
  {
    if |prefixes| > 0 {
      var p := prefixes[0];
      var key := if home.Some? then home.value else p;
      ClaimNested(Drop(fs, Tag(p)), prefixes[1..], home, acc[key := Nested(Group(fs, Tag(p)))]);
    }
  }

  /** With a home key, every prefix's group goes to that one key. */
  lemma {:induction false} ClaimKeysHome(fs: Fields, prefixes: seq<string>, h: string, acc: map<string, Datum>)
    ensures Claim(fs, prefixes, Some(h), acc).1.Keys == acc.Keys + (if |prefixes| > 0 then {h} else {})
    decreases |prefixes|
  {
    if |prefixes| > 0 {
      var p := prefixes[0];
      ClaimKeysHome(Drop(fs, Tag(p)), prefixes[1..], h, acc[h := Nested(Group(fs, Tag(p)))]);
    }
  }

  /** The data object built with a home key: that key, holding a group
      unless a field of the same name shadows it, and every unclaimed
      field; no prefix gets a key of its own. */
  lemma FormObjectsHomeShape(fs: Fields, ps: seq<string>, h: string)
    requires |ps| > 0
    ensures FormObjects(fs, ps, Some(h)).Keys == {h} + Unclaimed(fs, ps).Keys
    ensures h !in Unclaimed(fs, ps) ==> FormObjects(fs, ps, Some(h))[h].Nested?
  {
    var claimed := Claim(fs, ps, Some(h), map[]);
    var free := Unclaimed(fs, ps);
    var top := map k | k in free :: Plain(free[k].value);
    FormObjectsSplit(fs, ps, Some(h));
    ClaimKeysHome(fs, ps, h, map[]);
    ClaimNested(fs, ps, Some(h), map[]);
    UnionShape(claimed.1, top, fs, {h}, free.Keys);
  }

  /** As written, `getFormValid` of a form with a registered prefix that no
      field shadows lists each field of that prefix flat and has no entry
      for the prefix, while `getFormData` groups the fields under it. */
  lemma ValidityIsFlatAsWritten(s: Store, f: string, p: string, k: string)
    requires f != "" && f in s.forms && p in SubformsOf(s, f) && p !in s.forms[f]
    requires k in s.forms[f] && StartsWith(k, Tag(p))
    ensures k in GetFormValid(s, f).valid
    ensures p !in GetFormValid(s, f).valid
    ensures p in GetFormData(s, f).data
  {
    GetFormDataKeys(s, f);
  }

  // Reading back what the single-form operations did

  /** `validateField` is read back by `getFormValid`: the field has the
      given validity, every other field keeps its own, and the data is
      unchanged. */
  lemma ValidateFieldReadsBack(s: Store, formId: string, name: string, valid: bool)
    requires formId != "" && name != "" && name in FieldsOf(s, formId)
    ensures var r := ValidateField(s, formId, name, valid);
      GetFormValid(r, formId).valid == GetFormValid(s, formId).valid[name := Some(valid)] &&
      FieldsToData(FieldsOf(r, formId)) == FieldsToData(FieldsOf(s, formId))
  {
    var r := ValidateField(s, formId, name, valid);
    assert FieldsOf(r, formId).Keys == FieldsOf(s, formId).Keys;
  }

  /** A reason is not a validity: recording one on an existing field
      leaves both `getFormValid` and the data as they were. */
  lemma SetInvalidReasonKeepsValidity(s: Store, formId: string, name: string, reason: string)
    requires formId != "" && name != "" && name in FieldsOf(s, formId)
    ensures var r := SetInvalidReason(s, formId, name, reason);
      GetFormValid(r, formId) == GetFormValid(s, formId) &&
      FieldsToData(FieldsOf(r, formId)) == FieldsToData(FieldsOf(s, formId)) &&
      FieldsOf(r, formId)[name].invalidReason == Some(reason)
  {
    var r := SetInvalidReason(s, formId, name, reason);
    assert FieldsOf(r, formId).Keys == FieldsOf(s, formId).Keys;
  }

  /** After `clearForm` the form reads back as no data and no validity,
      and a reset still rebuilds it from the registered defaults, which
      clearing keeps. */
  lemma ClearFormReadsBack(s: Store, formId: string)
    requires formId != "" && formId in s.forms && SubformsOf(s, formId) == []
    ensures GetFormData(ClearForm(s, formId), formId) == OneForm(map[])
    ensures GetFormValid(ClearForm(s, formId), formId) == OneValidity(map[])
    ensures ResetForm(ClearForm(s, formId), formId) == ResetForm(s, formId)
  {
    var r := ClearForm(s, formId);
    assert r.forms == s.forms[formId := map[]];
  }

  /** After `deleteForm` the form reads back as no data and no validity,
      and a reset rebuilds it from the defaults, which survive. */
  lemma DeleteFormReadsBack(s: Store, formId: string)
    requires formId != ""
    ensures GetFormData(DeleteForm(s, formId), formId) == OneForm(map[])
    ensures GetFormValid(DeleteForm(s, formId), formId) == OneValidity(map[])
    ensures ResetForm(DeleteForm(s, formId), formId) == ResetForm(s, formId)
  {
    var r := DeleteForm(s, formId);
    assert r.forms == s.forms - {formId};
    assert (s.forms - {formId})[formId := ResetForm(s, formId).forms[formId]] == ResetForm(s, formId).forms;
  }

  /** After `emptyForm` without data every field reads back as undefined
      and valid, under the names it had. */
  lemma EmptyFormReadsBack(s: Store, formId: string)
    requires formId != "" && SubformsOf(s, formId) == []
    ensures GetFormData(EmptyForm(s, formId, None), formId) ==
      OneForm(map n | n in FieldsOf(s, formId) :: Plain(Undefined))
    ensures GetFormValid(EmptyForm(s, formId, None), formId) ==
      OneValidity(map n | n in FieldsOf(s, formId) :: Some(true))
  {
    var r := EmptyForm(s, formId, None);
    var fs := r.forms[formId];
    assert Claim(fs, [], None, map[]) == (fs, map[]);
  }

  /** A registered default that is not null or undefined is what a reset
      puts into the field. */
  lemma RegisteredDefaultResets(s: Store, formId: string, name: string, defaultValue: Value,
                                required: Option<Required>, validator: Option<Value -> VResult>)
    requires formId != "" && name != "" && !IsNullish(defaultValue)
    ensures var r := ResetForm(SetFieldProperties(s, formId, name, defaultValue, required, validator), formId);
      name in r.forms[formId] && r.forms[formId][name] == Field(defaultValue, Some(true), None)
  {
  }

  /** The all-forms branch of `getFormData` files every subform group of a
      form under the form's own id: that id is a key of the form's data,
      and a prefix that no field shadows and that differs from the id has
      no key there, while the intended read has it. */
  lemma AllFormsMisfilesGroups(s: Store, f: string)
    requires f in s.forms && |SubformsOf(s, f)| > 0
    ensures f in GetFormData(s, "").all[f]
    ensures f !in Unclaimed(s.forms[f], SubformsOf(s, f)) ==> GetFormData(s, "").all[f][f].Nested?
    ensures forall p :: p in SubformsOf(s, f) && p != f && p !in Unclaimed(s.forms[f], SubformsOf(s, f)) ==>
      p !in GetFormData(s, "").all[f] && p in GetAllFormData(s)[f]
  {
    var fs := s.forms[f];
    var ps := SubformsOf(s, f);
    assert GetFormData(s, "").all[f] == FormObjects(fs, ps, Some(f));
    assert GetAllFormData(s)[f] == FormObjects(fs, ps, None);
    FormObjectsHomeShape(fs, ps, f);
    FormObjectsShape(fs, ps);
  }
}

=== FILE: general_input.dfy ===
/** The binding every single-value input uses
    (lib/MyForm/components/hooks/useGeneralInput.ts): the text shown in the
    input element, the value the binding last took in (`internalRef`), and
    a debounced commit to the store. A widget supplies the parser, the
    printer, the store-to-internal conversion, the comparison and the
    partial-input test through a `Config`. Each React effect or event
    handler is a function from (binding, store) to (binding, store). */
module GeneralInput {
  import opened Base
  import opened Strings
  import opened JsValues
  import opened Utils
  import opened FormStore
  import opened FieldNames

  /** An `updateField` call the binding makes on its own field. */
  datatype Commit = Commit(value: Value, valid: Option<bool>, skipRender: bool)

  /** Where a binding writes: the form id and the composed field name. */
  datatype Slot = Slot(formId: string, name: string)

  /** The slot of an input named `name` in form `formId`, inside the
      subform `subFormId` (empty outside any), when the input's file
      composes keys with `j`. */
  function SlotIn(j: Joiner, formId: string, subFormId: string, name: string): Slot {
    Slot(formId, FieldName(j, subFormId, name))
  }

  /** The inputs built on this binding compose with one underscore. */
  const InputJoiner: Joiner := Single

  function InputSlot(formId: string, subFormId: string, name: string): Slot {
    SlotIn(InputJoiner, formId, subFormId, name)
  }

  /** The key a field has in its subform's data object: the name after
      one underscore, and the name behind a leftover underscore after
      two. */
  function GroupKey(j: Joiner, name: string): (k: string)
    ensures j == Single ==> k == name
    ensures j != Single ==> |k| == |name| + 1 && k[0] == '_' && k[1..] == name
  {
    if j == Single then name else "_" + name
  }

  /** An input inside a registered subform is read back by `getFormData`
      inside that subform's object, under `GroupKey(j, name)` and with the
      value the input's slot holds, when the subform is registered once,
      no earlier prefix claims the key, and no unclaimed top-level field
      has the subform's name. */
  lemma SubFormFieldReadsBack(s: Store, j: Joiner, formId: string, subFormId: string, name: string, i: nat)
    requires j != Raw && formId != "" && subFormId != "" && formId in s.forms
    requires SlotIn(j, formId, subFormId, name).name in s.forms[formId]
    requires i < |SubformsOf(s, formId)| && SubformsOf(s, formId)[i] == subFormId
    requires forall k :: 0 <= k < |SubformsOf(s, formId)| && k != i ==> SubformsOf(s, formId)[k] != subFormId
    requires forall k :: 0 <= k < i ==> !StartsWith(FieldName(j, subFormId, name), Tag(SubformsOf(s, formId)[k]))
    requires subFormId !in Unclaimed(s.forms[formId], SubformsOf(s, formId))
    ensures subFormId in GetFormData(s, formId).data && GetFormData(s, formId).data[subFormId].Nested?
    ensures var g := GetFormData(s, formId).data[subFormId].group;
      GroupKey(j, name) in g && g[GroupKey(j, name)] == FieldValue(s, SlotIn(j, formId, subFormId, name))
  {
    var key := FieldName(j, subFormId, name);
    JoinedKeyUnderTag(j, subFormId, name);
    GetFormDataClaimed(s, formId, key, i);
  }

  function Apply(s: Store, at: Slot, c: Commit): Store {
    UpdateField(s, at.formId, at.name, c.value, c.valid, c.skipRender)
  }

  /** Applies the commits a debounced call ran, in order. */
  function ApplyAll(s: Store, at: Slot, cs: seq<Commit>): Store
    decreases |cs|
  {
    if |cs| == 0 then s else ApplyAll(Apply(s, at, cs[0]), at, cs[1..])
  }

  /** The field's value and validity as the binding reads them from the
      store: undefined when absent. */
  function FieldValue(s: Store, at: Slot): Value {
    FieldOr(FieldsOf(s, at.formId), at.name).value
  }

  function FieldValid(s: Store, at: Slot): Option<bool> {
    FieldOr(FieldsOf(s, at.formId), at.name).valid
  }

  /** What a widget hands to the binding. `required` is `None` when left
      out, and so are `validator` and `isPartial`. */
  datatype Config = Config(
    emptyValue: string,
    defaultValue: Value,
    required: Option<bool>,
    persistOnUnmount: bool,
    parser: string -> Value,
    toString: Value -> string,
    toInternal: Value -> Value,
    comparisor: (Value, Value) -> bool,
    validator: Option<Value -> VResult>,
    isPartial: Option<Value -> bool>,
    validateImmediately: bool,
    inputDelay: int,
    disabled: bool)

  /** The binding's own state. */
  datatype Binding = Binding(display: string, mirror: Value, delayed: Debouncer<Commit>)

  /** The delay of the debounced commit: a negative `inputDelay` counts as 0. */
  function Wait(c: Config): (w: int)
    ensures w >= 0 && (c.inputDelay > 0 ==> w == c.inputDelay)
  {
    if c.inputDelay > 0 then c.inputDelay else 0
  }

  /** A binding before its first effect: the element shows `display` and
      `internalRef` holds null. */
  function Fresh(c: Config, display: string): Binding {
    Binding(display, Null, NewDebouncer(Wait(c)))
  }

  /** Sends a commit, either through `immediate` or through the debounced
      call (which runs at once when the delay is not positive). */
  function Send(b: Binding, s: Store, at: Slot, c: Commit, immediate: bool): (r: (Binding, Store))
    ensures r.0.display == b.display && r.0.mirror == b.mirror && r.0.delayed.wait == b.delayed.wait
    ensures immediate ==> r == (b, Apply(s, at, c))
    ensures !immediate && b.delayed.wait <= 0 ==> r == (b, Apply(s, at, c))
    ensures !immediate && b.delayed.wait > 0 ==> r.1 == s && r.0.delayed.pending == Some(c)
  {
    if immediate then (b, Apply(s, at, c))
    else
      var called := Call(b.delayed, c);
      assert b.delayed.wait <= 0 ==> ApplyAll(s, at, called.1) == Apply(s, at, c) by {
        if b.delayed.wait <= 0 {
          assert called.1[1..] == [];
        }
      }
      (b.(delayed := called.0), ApplyAll(s, at, called.1))
  }

  /** `validator?.(input) ?? true` is `true`: a missing validator, or one
      that returns `true`, `null` or `undefined`. */
  predicate Accepts(validator: Option<Value -> VResult>, input: Value) {
    validator.None? || validator.value(input) == VTrue || validator.value(input) == VNullish
  }

  /** `validate(input, immediate)`, given the validity the binding last saw
      in the store. Without `validateImmediately` it only restores validity
      and never marks the field invalid. */
  function Validate(c: Config, b: Binding, s: Store, at: Slot, seen: Option<bool>, input: Value, immediate: bool): (r: (Binding, Store))
    ensures r.0.display == b.display && r.0.mirror == b.mirror && r.0.delayed.wait == b.delayed.wait
    ensures !c.validateImmediately && seen == Some(true) ==> r == (b, s)
    ensures !c.validateImmediately && seen != Some(true) ==>
      r == Send(b, s, at, Commit(input, Some(true), false), immediate)
    ensures c.validateImmediately ==>
      r == Send(b, s, at, Commit(input, Some(Accepts(c.validator, input)), false), immediate)
  {
    if !c.validateImmediately then
      if seen != Some(true) then Send(b, s, at, Commit(input, Some(true), false), immediate)
      else (b, s)
    else Send(b, s, at, Commit(input, Some(Accepts(c.validator, input)), false), immediate)
  }

  /** Without `validateImmediately`, validation never leaves the field
      invalid: its validity is unchanged or becomes true, and a pending
      commit it leaves says valid. */
  lemma ValidateNeverRejects(c: Config, b: Binding, s: Store, at: Slot, input: Value, immediate: bool)
    requires !c.validateImmediately && at.formId != "" && at.name != ""
    ensures var r := Validate(c, b, s, at, FieldValid(s, at), input, immediate);
      (FieldValid(r.1, at) == FieldValid(s, at) || FieldValid(r.1, at) == Some(true)) &&
      (r.0.delayed.pending != b.delayed.pending ==> r.0.delayed.pending == Some(Commit(input, Some(true), false)))
  {
  }

  /** `onChange` on the text `text`. A complete parse is committed through
      the debounce, taken as the binding's value, and validated; a partial
      one is written at once as null in place, and nothing else happens. */
  function OnChange(c: Config, b: Binding, s: Store, at: Slot, text: string): (r: (Binding, Store))
    ensures c.disabled ==> r == (b, s)
    ensures !c.disabled ==> r.0.display == text && r.0.delayed.wait == b.delayed.wait
    ensures !c.disabled && c.isPartial.Some? && c.isPartial.value(c.parser(text)) ==>
      r.0.mirror == b.mirror && r.0.delayed == b.delayed &&
      r.1 == UpdateField(s, at.formId, at.name, Null, None, true)
    ensures !c.disabled && !(c.isPartial.Some? && c.isPartial.value(c.parser(text))) ==>
      r.0.mirror == c.parser(text)
  {
    if c.disabled then (b, s)
    else
      var value := c.parser(text);
      var seen := FieldValid(s, at);
      var b1 := b.(display := text);
      if !(c.isPartial.Some? && c.isPartial.value(value)) then
        var sent := Send(b1, s, at, Commit(value, None, false), false);
        Validate(c, sent.0.(mirror := value), sent.1, at, seen, value, false)
      else Send(b1, s, at, Commit(Null, None, true), true)
  }

  /** With a delay that is not positive, a complete parse reaches the
      store at once: no commit is left pending, and a non-null value is
      the field's value afterwards. */
  lemma NonPositiveDelayCommitsAtOnce(c: Config, b: Binding, s: Store, at: Slot, text: string)
    requires c.inputDelay <= 0 && b.delayed.wait == Wait(c) && b.delayed.pending.None?
    requires !c.disabled && at.formId != "" && at.name != ""
    requires !(c.isPartial.Some? && c.isPartial.value(c.parser(text)))
    ensures var r := OnChange(c, b, s, at, text);
      r.0.delayed.pending.None? &&
      (!IsNullish(c.parser(text)) ==> FieldValue(r.1, at) == c.parser(text))
  {
  }

  /** With a positive delay nothing reaches the store during `onChange` of a
      complete parse; the pending commit carries the parsed value. */
  lemma PositiveDelayDefers(c: Config, b: Binding, s: Store, at: Slot, text: string)
    requires b.delayed.wait > 0 && !c.disabled
    requires !(c.isPartial.Some? && c.isPartial.value(c.parser(text)))
    ensures var r := OnChange(c, b, s, at, text);
      r.1 == s && r.0.delayed.pending.Some? && r.0.delayed.pending.value.value == c.parser(text) &&
      !r.0.delayed.pending.value.skipRender
  {
  }

  /** The debounce timer fires: the pending commit reaches the store. */
  function Elapsed(b: Binding, s: Store, at: Slot): (r: (Binding, Store))
    ensures r.0.delayed.pending.None? && r.0.display == b.display && r.0.mirror == b.mirror
    ensures b.delayed.pending.None? ==> r.1 == s
    ensures b.delayed.pending.Some? ==> r.1 == Apply(s, at, b.delayed.pending.value)
  {
    var fired := Elapse(b.delayed);
    assert b.delayed.pending.Some? ==> ApplyAll(s, at, fired.1) == Apply(s, at, b.delayed.pending.value) by {
      if b.delayed.pending.Some? { assert fired.1[1..] == []; }
    }
    (b.(delayed := fired.0), ApplyAll(s, at, fired.1))
  }

  /** The effect that runs when the store's field changes: unless the
      store's value, converted, compares equal to the binding's value, the
      pending commit is dropped, the element shows the new value, the
      binding takes it, and it is validated at once. */
  function Reconcile(c: Config, b: Binding, s: Store, at: Slot): (r: (Binding, Store))
    ensures var incoming := c.toInternal(FieldValue(s, at));
      (c.comparisor(incoming, b.mirror) ==> r == (b, s)) &&
      (!c.comparisor(incoming, b.mirror) ==>
        r.0.display == c.toString(incoming) && r.0.mirror == incoming &&
        r.0.delayed == Cancel(b.delayed) &&
        r.1 == Validate(c, r.0, s, at, FieldValid(s, at), incoming, true).1)
  {
    var incoming := c.toInternal(FieldValue(s, at));
    if c.comparisor(incoming, b.mirror) then (b, s)
    else
      var b1 := Binding(c.toString(incoming), incoming, Cancel(b.delayed));
      Validate(c, b1, s, at, FieldValid(s, at), incoming, true)
  }

  /** A reconciliation leaves nothing to reconcile, when the widget's
      conversion is idempotent, reads null like undefined, and its
      comparison holds between a converted value and itself. */
  lemma ReconcileSettles(c: Config, b: Binding, s: Store, at: Slot)
    requires at.formId != "" && at.name != ""
    requires forall v :: c.toInternal(c.toInternal(v)) == c.toInternal(v)
    requires c.toInternal(Null) == c.toInternal(Undefined)
    requires c.comparisor(c.toInternal(FieldValue(s, at)), c.toInternal(FieldValue(s, at)))
    ensures var r := Reconcile(c, b, s, at);
      Reconcile(c, r.0, r.1, at) == r
  {
    var incoming := c.toInternal(FieldValue(s, at));
    var r := Reconcile(c, b, s, at);
    if !c.comparisor(incoming, b.mirror) {
      assert c.toInternal(FieldValue(r.1, at)) == incoming by {
        var v := FieldValue(s, at);
        if IsNullish(incoming) {
          assert c.toInternal(Null) == c.toInternal(Undefined);
        }
      }
    }
  }

  /** The registration effect: default, required flag and validator go to
      the field's properties. */
  function Register(c: Config, s: Store, at: Slot): (r: Store)
    ensures at.formId != "" && at.name != "" ==>
      at.formId in r.props && at.name in r.props[at.formId] &&
      (!c.defaultValue.Undefined? ==> r.props[at.formId][at.name].defaultValue == c.defaultValue) &&
      (c.required.Some? ==> r.props[at.formId][at.name].required == Some(ReqBool(c.required.value)))
    ensures at.formId != "" && at.name != "" ==>
      var prior := if at.name in PropsOf(s, at.formId) then PropsOf(s, at.formId)[at.name] else NoProps;
      r.props[at.formId][at.name].validator == (if c.validator.Some? then c.validator else prior.validator) &&
      (c.defaultValue.Undefined? ==> r.props[at.formId][at.name].defaultValue == prior.defaultValue) &&
      (c.required.None? ==> r.props[at.formId][at.name].required == prior.required)
  {
    SetFieldProperties(s, at.formId, at.name, c.defaultValue,
      if c.required.Some? then Some(ReqBool(c.required.value)) else None, c.validator)
  }

  /** The registration effect reruns whenever its inputs change; running
      it again with the same configuration changes nothing, and a reset
      afterwards puts a registered default other than null or undefined
      into the field, valid. */
  lemma RegisterIdempotent(c: Config, s: Store, at: Slot)
    requires at.formId != "" && at.name != ""
    ensures Register(c, Register(c, s, at), at) == Register(c, s, at)
    ensures !IsNullish(c.defaultValue) ==>
      var r := ResetForm(Register(c, s, at), at.formId);
      at.name in r.forms[at.formId] && r.forms[at.formId][at.name] == Field(c.defaultValue, Some(true), None)
  {
    var r1 := Register(c, s, at);
    var r2 := Register(c, r1, at);
    assert r2.forms == r1.forms;
    assert r2.props[at.formId] == r1.props[at.formId];
    assert r2.props == r1.props;
    if !IsNullish(c.defaultValue) {
      RegisteredDefaultResets(s, at.formId, at.name, c.defaultValue,
        if c.required.Some? then Some(ReqBool(c.required.value)) else None, c.validator);
    }
  }

  /** The default-seeding effect: only an element still showing the empty
      sentinel takes the default, which is committed at once. */
  function SeedDefault(c: Config, b: Binding, s: Store, at: Slot): (r: (Binding, Store))
    ensures b.display != c.emptyValue ==> r == (b, s)
    ensures b.display == c.emptyValue ==>
      r.0 == Binding(c.toString(c.defaultValue), c.defaultValue, b.delayed) &&
      r.1 == UpdateField(s, at.formId, at.name, c.defaultValue, None, false)
  {
    if b.display == c.emptyValue then
      (Binding(c.toString(c.defaultValue), c.defaultValue, b.delayed), Apply(s, at, Commit(c.defaultValue, None, false)))
    else (b, s)
  }

  /** The cleanup on unmount: without `persistOnUnmount` the pending commit
      is dropped and the field and its properties are deleted; with it,
      nothing changes. */
  function Unmount(c: Config, b: Binding, s: Store, at: Slot): (r: (Binding, Store))
    ensures c.persistOnUnmount ==> r == (b, s)
    ensures !c.persistOnUnmount ==> r.0.delayed.pending.None? && r.1 == DeleteField(s, at.formId, at.name)
    ensures !c.persistOnUnmount && at.formId != "" && at.name != "" ==>
      at.name !in FieldsOf(r.1, at.formId) && at.name !in PropsOf(r.1, at.formId)
  {
    if c.persistOnUnmount then (b, s)
    else (b.(delayed := Cancel(b.delayed)), DeleteField(s, at.formId, at.name))
  }

  /** The registration effect of the choice inputs (select, radio,
      checkbox and the single combo boxes): a default other than undefined
      and the required flag are registered, and a validator registered
      before is kept. */
  function RegisterChoice(defaultValue: Value, required: bool, s: Store, at: Slot): (r: Store)
    ensures at.formId != "" && at.name != "" ==>
      var prior := if at.name in PropsOf(s, at.formId) then PropsOf(s, at.formId)[at.name] else NoProps;
      at.formId in r.props && at.name in r.props[at.formId] &&
      r.props[at.formId][at.name].required == Some(ReqBool(required)) &&
      r.props[at.formId][at.name].defaultValue == (if defaultValue.Undefined? then prior.defaultValue else defaultValue) &&
      r.props[at.formId][at.name].validator == prior.validator
  {
    SetFieldProperties(s, at.formId, at.name, defaultValue, Some(ReqBool(required)), None)
  }

  /** The cleanup on unmount of the inputs that keep no pending commit:
      unless told to keep it, the field and its properties are deleted,
      and every other field of the form stays as it was. */
  function UnmountField(persistOnUnmount: bool, s: Store, at: Slot): (r: Store)
    ensures persistOnUnmount ==> r == s
    ensures !persistOnUnmount && at.formId != "" && at.name != "" ==>
      at.name !in FieldsOf(r, at.formId) && at.name !in PropsOf(r, at.formId) &&
      forall n :: n in FieldsOf(s, at.formId) && n != at.name ==>
        n in FieldsOf(r, at.formId) && FieldsOf(r, at.formId)[n] == FieldsOf(s, at.formId)[n]
  {
    if persistOnUnmount then s else DeleteField(s, at.formId, at.name)
  }

  /** The effects of the first render, in the order the hook declares them:
      reconciliation, registration, default seeding. The default is seeded
      exactly when reconciliation left the element showing the empty
      sentinel, and a default that is neither null nor undefined is then
      the field's value. */
  function Mount(c: Config, b: Binding, s: Store, at: Slot): (r: (Binding, Store))
    ensures var r1 := Reconcile(c, b, s, at);
      r1.0.display != c.emptyValue ==> r == (r1.0, Register(c, r1.1, at))
    ensures var r1 := Reconcile(c, b, s, at);
      r1.0.display == c.emptyValue ==>
        r.0.display == c.toString(c.defaultValue) && r.0.mirror == c.defaultValue
    ensures var r1 := Reconcile(c, b, s, at);
      r1.0.display == c.emptyValue && !IsNullish(c.defaultValue) && at.formId != "" && at.name != "" ==>
        FieldValue(r.1, at) == c.defaultValue
  {
    var r1 := Reconcile(c, b, s, at);
    var s2 := Register(c, r1.1, at);
    SeedDefault(c, r1.0, s2, at)
  }
}

=== FILE: js_values.dfy ===
/** The JavaScript values that flow through a form: the tagged universe the
    store holds, with the handful of language rules the library depends on
    (truthiness, `Object.is`, `===`, property access, `Array.prototype.find`).

    Numbers are modelled as mathematical integers plus NaN; `-0` and
    fractions are not represented. Every object operand (array, record,
    Date) is treated as its own reference: `Object.is` and `===` hold
    between two objects only where a caller says they are the same
    reference. */
module JsValues {
  import opened Base
  import opened Strings

  /** A `Date` in local calendar fields (month 0-based, as `getMonth`
      returns it), or an Invalid Date whose timestamp is NaN. Two valid
      dates have the same timestamp exactly when all their fields agree. */
  datatype JsDate =
    | InvalidDate
    | DateAt(year: int, month: int, day: int, hour: int, minute: int, second: int, ms: int)

  datatype Value =
    | Undefined
    | Null
    | Bool(b: bool)
    | Num(n: int)
    | NaN
    | Str(s: string)
    | Arr(elems: seq<Value>)
    | Obj(members: seq<Member>)
    | DateObj(date: JsDate)

  /** One own property of a plain record. */
  datatype Member = Member(key: string, val: Value)

  /** The constructors `_isEqual` tells apart. */
  datatype Ctor = ArrayCtor | ObjectCtor | DateCtor | PrimitiveCtor

  /** JavaScript truthiness. */
  predicate Truthy(v: Value) {
    match v
    case Undefined => false
    case Null => false
    case Bool(b) => b
    case Num(n) => n != 0
    case NaN => false
    case Str(s) => s != ""
    case _ => true
  }

  /** `v === null || v === undefined`. */
  predicate IsNullish(v: Value) {
    v.Undefined? || v.Null?
  }

  /** `typeof v === 'object' && v !== null`. */
  predicate IsObject(v: Value) {
    v.Arr? || v.Obj? || v.DateObj?
  }

  function CtorOf(v: Value): Ctor {
    match v
    case Arr(_) => ArrayCtor
    case Obj(_) => ObjectCtor
    case DateObj(_) => DateCtor
    case _ => PrimitiveCtor
  }

  /** `Object.is(a, b)` for operands that are distinct references when
      they are objects. Unlike `===`, NaN is the same as NaN. */
  predicate ObjectIs(a: Value, b: Value) {
    !IsObject(a) && !IsObject(b) && a == b
  }

  /** `a === b` for operands that are distinct references when they are
      objects. NaN is not strictly equal to anything. */
  predicate StrictEquals(a: Value, b: Value) {
    !IsObject(a) && !IsObject(b) && a == b && !a.NaN?
  }

  /** The two equalities differ only on NaN. */
  lemma StrictEqualsVersusObjectIs(a: Value, b: Value)
    ensures StrictEquals(a, b) <==> ObjectIs(a, b) && !a.NaN?
  {
  }

  /** The value of the first member named `key`, or undefined. */
  function Lookup(ms: seq<Member>, key: string): (r: Value)
    ensures r != Undefined ==> exists i :: 0 <= i < |ms| && ms[i].key == key && ms[i].val == r
    ensures (forall i :: 0 <= i < |ms| ==> ms[i].key != key) ==> r == Undefined
  {
    if |ms| == 0 then Undefined
    else if ms[0].key == key then ms[0].val
    else Lookup(ms[1..], key)
  }

  predicate HasKey(ms: seq<Member>, key: string) {
    exists i :: 0 <= i < |ms| && ms[i].key == key
  }

  /** The keys of a record, in order. */
  function Keys(ms: seq<Member>): (ks: seq<string>)
    ensures |ks| == |ms| && forall i :: 0 <= i < |ms| ==> ks[i] == ms[i].key
  {
    if |ms| == 0 then [] else [ms[0].key] + Keys(ms[1..])
  }

  /** A real record never repeats a key. */
  predicate DistinctKeys(ms: seq<Member>) {
    forall i, j :: 0 <= i < j < |ms| ==> ms[i].key != ms[j].key
  }

  /** Property read `v[key]` with a string key (a number key is first turned
      into its decimal string, as JavaScript does). Methods and prototype
      properties are not modelled: such reads give undefined. */
  function Prop(v: Value, key: string): Value {
    match v
    case Obj(ms) => Lookup(ms, key)
    case Arr(xs) =>
      if key == "length" then Num(|xs|)
      else (match CanonicalIndex(key)
            case Some(i) => if i < |xs| then xs[i] else Undefined
            case None => Undefined)
    case Str(s) =>
      if key == "length" then Num(|s|)
      else (match CanonicalIndex(key)
            case Some(i) => if i < |s| then Str([s[i]]) else Undefined
            case None => Undefined)
    case _ => Undefined
  }

  /** The two properties of a two-member record read back. */
  lemma PairProps(k1: string, v1: Value, k2: string, v2: Value)
    requires k1 != k2
    ensures Prop(Obj([Member(k1, v1), Member(k2, v2)]), k1) == v1
    ensures Prop(Obj([Member(k1, v1), Member(k2, v2)]), k2) == v2
  {
    var ms := [Member(k1, v1), Member(k2, v2)];
    assert ms[1..] == [Member(k2, v2)];
    assert Lookup(ms[1..], k2) == v2;
  }

  /** Reading index `i` of an array gives its `i`-th element. */
  lemma PropIndex(xs: seq<Value>, i: nat)
    requires i < |xs|
    ensures Prop(Arr(xs), NatToString(i)) == xs[i]
  {
    CanonicalIndexOfNatToString(i);
  }

  /** `Array.prototype.find`: the first element satisfying `p`, or
      undefined when there is none. */
  function Find(xs: seq<Value>, p: Value -> bool): (r: Value)
    ensures r != Undefined ==> exists i :: 0 <= i < |xs| && p(xs[i]) && xs[i] == r
    ensures (forall i :: 0 <= i < |xs| ==> !p(xs[i])) ==> r == Undefined
  {
    if |xs| == 0 then Undefined
    else if p(xs[0]) then xs[0]
    else Find(xs[1..], p)
  }

  /** Index of the first element satisfying `p` (`findIndex`), or -1. */
  function FindIndex(xs: seq<Value>, p: Value -> bool): (r: int)
    ensures -1 <= r < |xs|
    ensures r >= 0 ==> p(xs[r]) && forall j :: 0 <= j < r ==> !p(xs[j])
    ensures r == -1 ==> forall j :: 0 <= j < |xs| ==> !p(xs[j])
  {
    if |xs| == 0 then -1
    else if p(xs[0]) then 0
    else
      var k := FindIndex(xs[1..], p);
      if k < 0 then -1 else k + 1
  }

  /** `find` returns the element at the index `findIndex` reports. */
  lemma {:induction false} FindAgreesWithFindIndex(xs: seq<Value>, p: Value -> bool)
    ensures FindIndex(xs, p) >= 0 ==> Find(xs, p) == xs[FindIndex(xs, p)]
    ensures FindIndex(xs, p) < 0 ==> Find(xs, p) == Undefined
  {
    if |xs| > 0 && !p(xs[0]) {
      FindAgreesWithFindIndex(xs[1..], p);
    }
  }
}

=== FILE: multi_combo.dfy ===
/** The multiple-selection combo box: the hook
    (lib/MyForm/components/hooks/useGeneralMultiComboBox.ts) and the widget
    on top of it (MyMultiComboBoxInput). The selection is a list of
    options; choosing an option adds it, or removes it when it is already
    selected. Focus, blur, the dropdown toggle, filtering and the
    duplicate-key check are the single combo box's, on a `Combo` whose
    mirror is a list. */
module MultiComboBox {
  import opened Base
  import opened JsValues
  import opened Utils
  import opened FormStore
  import opened GeneralInput
  import opened ComboBox
  import opened FieldNames

  datatype MultiConfig = MultiConfig(
    options: seq<Value>,
    key: Value -> string,
    defaultValue: Option<seq<Value>>,
    required: bool,
    persistOnUnmount: bool,
    filterOnType: bool,
    disabled: bool)

  type Multi = Combo<seq<Value>>

  /** The default as the store sees it: the list, or undefined. */
  function DefaultOf(c: MultiConfig): Value {
    if c.defaultValue.Some? then Arr(c.defaultValue.value) else Undefined
  }

  /** The same options seen by the single box's filtering and duplicate
      check, which only read the options, the key and `filterOnType`. */
  function AsCombo(c: MultiConfig): ComboConfig {
    ComboConfig(c.options, c.key, (v: Value) => v, DefaultOf(c), c.required, c.persistOnUnmount,
                false, c.filterOnType, c.disabled)
  }

  // ---------------------------------------------------------------------
  // Choosing an option

  /** No two members are `===`: what `v !== found` cannot tell apart. */
  predicate NoTwins(xs: seq<Value>) {
    forall a, b :: 0 <= a < b < |xs| ==> !StrictEquals(xs[a], xs[b])
  }

  /** `xs.filter(v => v !== found)` where `found` is the member at index
      `i`: that member goes (it is the same reference) and so does every
      primitive `===` to it. Members that are objects are distinct
      references, so only the one at `i` goes. */
  function Without(xs: seq<Value>, i: int, found: Value): (r: seq<Value>)
    ensures |r| <= |xs| && (0 <= i < |xs| ==> |r| < |xs|)
    ensures forall k :: 0 <= k < |r| ==> r[k] in xs && !StrictEquals(r[k], found)
    decreases |xs|
  {
    if |xs| == 0 then []
    else
      var rest := Without(xs[1..], i - 1, found);
      if i == 0 || StrictEquals(xs[0], found) then rest
      else [xs[0]] + rest
  }

  /** With no member `===` to `found` and no index to drop, nothing goes. */
  lemma {:induction false} WithoutKeepsAll(xs: seq<Value>, i: int, found: Value)
    requires i < 0 && forall j :: 0 <= j < |xs| ==> !StrictEquals(xs[j], found)
    ensures Without(xs, i, found) == xs
    decreases |xs|
  {
    if |xs| > 0 {
      var tail := xs[1..];
      forall j | 0 <= j < |tail|
        ensures !StrictEquals(tail[j], found)
      {
        assert tail[j] == xs[j + 1];
      }
      WithoutKeepsAll(tail, i - 1, found);
      assert !StrictEquals(xs[0], found);
      assert Without(xs, i, found) == [xs[0]] + Without(tail, i - 1, found);
      assert [xs[0]] + tail == xs;
    }
  }

  /** When nothing else is `===` to `found`, exactly the member at `i`
      goes and the rest keep their order. */
  lemma {:induction false} WithoutLone(xs: seq<Value>, i: int, found: Value)
    requires 0 <= i < |xs| && Lone(xs, i, found)
    ensures Without(xs, i, found) == xs[..i] + xs[i + 1..]
    decreases |xs|
  {
    var tail := xs[1..];
    if i == 0 {
      forall j | 0 <= j < |tail|
        ensures !StrictEquals(tail[j], found)
      {
        assert tail[j] == xs[j + 1];
      }
      WithoutKeepsAll(tail, -1, found);
      assert xs[..0] + xs[1..] == tail;
    } else {
      assert !StrictEquals(xs[0], found);
      forall j | 0 <= j < |tail| && j != i - 1
        ensures !StrictEquals(tail[j], found)
      {
        assert tail[j] == xs[j + 1];
      }
      WithoutLone(tail, i - 1, found);
      SpliceAfterHead(xs, i);
    }
  }

  /** Dropping index `i > 0` keeps the head in front of the tail with its
      index `i - 1` dropped. */
  lemma SpliceAfterHead(xs: seq<Value>, i: int)
    requires 0 < i < |xs|
    ensures [xs[0]] + (xs[1..][..i - 1] + xs[1..][i..]) == xs[..i] + xs[i + 1..]
  {
    var tail := xs[1..];
    var left, right := tail[..i - 1], tail[i..];
    assert left == xs[1..i];
    assert right == xs[i + 1..];
    assert xs[..i] == [xs[0]] + left;
  }

  /** Only the member at `i` (if any) is `===` to `found`. */
  predicate Lone(xs: seq<Value>, i: int, found: Value) {
    forall j :: 0 <= j < |xs| && j != i ==> !StrictEquals(xs[j], found)
  }

  /** `onSelect`'s list update as written: `if (found)` tests the found
      member for truthiness, so a selected 0, '' or false is added again
      instead of removed. */
  function ToggleAsWritten(xs: seq<Value>, v: Value): (r: seq<Value>)
    ensures |xs| == 0 ==> r == [v]
  {
    if |xs| == 0 then [v]
    else
      var found := Find(xs, EqualTo(v));
      if Truthy(found) then Without(xs, FindIndex(xs, EqualTo(v)), found)
      else xs + [v]
  }

  /** The evidently intended update: remove the first member deeply
      equal to `v` (with its `===` twins), otherwise append `v`. */
  function Toggle(xs: seq<Value>, v: Value): (r: seq<Value>)
    ensures (forall j :: 0 <= j < |xs| ==> !IsEqual(xs[j], v)) ==> r == xs + [v]
    ensures (exists j :: 0 <= j < |xs| && IsEqual(xs[j], v)) ==>
      |r| < |xs| && forall k :: 0 <= k < |r| ==> r[k] in xs
  {
    var i := FindIndex(xs, EqualTo(v));
    FindIndexIsFirstEqual(xs, v);
    if |xs| == 0 then [v]
    else if i >= 0 then
      Without(xs, i, xs[i])
    else xs + [v]
  }

  /** Without `===` twins, choosing a selected option removes exactly the
      first member deeply equal to it and keeps the others in order. */
  lemma ToggleRemovesFirst(xs: seq<Value>, v: Value, i: int)
    requires FirstEqual(xs, v, i) && NoTwins(xs)
    ensures Toggle(xs, v) == xs[..i] + xs[i + 1..]
  {
    FindIndexIsFirstEqual(xs, v);
    assert FindIndex(xs, EqualTo(v)) == i;
    forall j | 0 <= j < |xs| && j != i ensures !StrictEquals(xs[j], xs[i]) {
      if j < i {
        assert !StrictEquals(xs[j], xs[i]);
      } else {
        assert !StrictEquals(xs[i], xs[j]);
      }
    }
    WithoutLone(xs, i, xs[i]);
  }

  /** The two agree when no member is falsy. */
  lemma ToggleAgrees(xs: seq<Value>, v: Value)
    requires forall j :: 0 <= j < |xs| ==> Truthy(xs[j])
    ensures ToggleAsWritten(xs, v) == Toggle(xs, v)
  {
    FindAgreesWithFindIndex(xs, EqualTo(v));
  }

  /** Choosing 0 twice: as written the list holds 0 twice; intended, it is
      empty again. */
  lemma ZeroChosenTwiceAsWritten()
    ensures ToggleAsWritten([Num(0)], Num(0)) == [Num(0), Num(0)]
    ensures Toggle([Num(0)], Num(0)) == []
  {
    assert EqualTo(Num(0))(Num(0));
    assert Find([Num(0)], EqualTo(Num(0))) == Num(0);
  }

  /** Choosing an option twice restores the selection. */
  lemma ToggleTwice(xs: seq<Value>, v: Value)
    requires WellFormed(v) && !HasInvalidDate(v)
    requires forall j :: 0 <= j < |xs| ==> !IsEqual(xs[j], v)
    ensures Toggle(xs, v) == xs + [v]
    ensures Toggle(Toggle(xs, v), v) == xs
  {
    var ys := xs + [v];
    IsEqualReflexive(v);
    assert forall j :: 0 <= j < |xs| ==> ys[j] == xs[j];
    assert forall j :: 0 <= j < |xs| ==> !StrictEquals(ys[j], v);
    var i := FindIndex(ys, EqualTo(v));
    assert EqualTo(v)(ys[|xs|]);
    assert i == |xs|;
    assert forall j :: 0 <= j < |ys| && j != i ==> !StrictEquals(ys[j], ys[i]);
    WithoutLone(ys, i, ys[i]);
    assert ys[..i] + ys[i + 1..] == xs;
  }

  /** `onSelect` given the list update it applies: the options close at
      once, the text is cleared and the new list is committed without
      touching validity. */
  function SelectWith(c: MultiConfig, cb: Multi, s: Store, at: Slot, chosen: seq<Value>): (r: (Multi, Store))
    ensures c.disabled ==> r == (cb, s)
    ensures !c.disabled ==>
      r.0 == cb.(display := "", mirror := chosen, noScroll := true, showOptions := false) &&
      r.1 == UpdateField(s, at.formId, at.name, Arr(chosen), None, false)
    ensures !c.disabled && at.formId != "" && at.name != "" ==>
      FieldValue(r.1, at) == Arr(chosen) && FieldValid(r.1, at) == FieldValid(s, at)
  {
    if c.disabled then (cb, s)
    else
      var hidden := Immediate(cb.hide, ());
      (cb.(hide := hidden.0, showOptions := false, display := "", mirror := chosen, noScroll := true),
       UpdateField(s, at.formId, at.name, Arr(chosen), None, false))
  }

  /** `onSelect(value)` as written (useGeneralMultiComboBox.ts:57-71): the
      list update is `ToggleAsWritten`. */
  function SelectAsWritten(c: MultiConfig, cb: Multi, s: Store, at: Slot, v: Value): (r: (Multi, Store))
    ensures c.disabled ==> r == (cb, s)
    ensures !c.disabled ==> r.0.mirror == ToggleAsWritten(cb.mirror, v) && r.0.display == "" && !r.0.showOptions
    ensures !c.disabled && at.formId != "" && at.name != "" ==>
      FieldValue(r.1, at) == Arr(ToggleAsWritten(cb.mirror, v)) && FieldValid(r.1, at) == FieldValid(s, at)
  {
    SelectWith(c, cb, s, at, ToggleAsWritten(cb.mirror, v))
  }

  /** The intended `onSelect(value)`: the same handler with the corrected
      list update `Toggle`. */
  function Select(c: MultiConfig, cb: Multi, s: Store, at: Slot, v: Value): (r: (Multi, Store))
    ensures c.disabled ==> r == (cb, s)
    ensures !c.disabled ==>
      r.0 == cb.(display := "", mirror := Toggle(cb.mirror, v), noScroll := true, showOptions := false) &&
      r.1 == UpdateField(s, at.formId, at.name, Arr(r.0.mirror), None, false)
    ensures !c.disabled && at.formId != "" && at.name != "" ==>
      FieldValue(r.1, at) == Arr(r.0.mirror) && FieldValid(r.1, at) == FieldValid(s, at)
  {
    SelectWith(c, cb, s, at, Toggle(cb.mirror, v))
  }

  /** The handler as written and the intended one do the same while no
      selected member is falsy. */
  lemma SelectAgrees(c: MultiConfig, cb: Multi, s: Store, at: Slot, v: Value)
    requires forall j :: 0 <= j < |cb.mirror| ==> Truthy(cb.mirror[j])
    ensures SelectAsWritten(c, cb, s, at, v) == Select(c, cb, s, at, v)
  {
    ToggleAgrees(cb.mirror, v);
  }

  /** Choosing 0 again in a box showing `[0]`: as written the field holds
      `[0, 0]`; as intended it holds `[]`. */
  lemma ZeroReselectedAsWritten(c: MultiConfig, cb: Multi, s: Store, at: Slot)
    requires !c.disabled && at.formId != "" && at.name != "" && cb.mirror == [Num(0)]
    ensures FieldValue(SelectAsWritten(c, cb, s, at, Num(0)).1, at) == Arr([Num(0), Num(0)])
    ensures FieldValue(Select(c, cb, s, at, Num(0)).1, at) == Arr([])
  {
    ZeroChosenTwiceAsWritten();
  }

  /** `filter((_, i) => i !== index)`. */
  function DeleteAt(xs: seq<Value>, index: int): (r: seq<Value>)
    ensures !(0 <= index < |xs|) ==> r == xs
    ensures 0 <= index < |xs| ==>
      |r| == |xs| - 1 &&
      (forall k :: 0 <= k < index ==> r[k] == xs[k]) &&
      (forall k :: index <= k < |r| ==> r[k] == xs[k + 1])
  {
    if 0 <= index < |xs| then xs[..index] + xs[index + 1..] else xs
  }

  /** Deleting the last choice undoes choosing a new option. */
  lemma DeleteUndoesChoice(xs: seq<Value>, v: Value)
    requires WellFormed(v) && !HasInvalidDate(v)
    requires forall j :: 0 <= j < |xs| ==> !IsEqual(xs[j], v)
    ensures DeleteAt(Toggle(xs, v), |xs|) == xs
  {
    ToggleTwice(xs, v);
    assert (xs + [v])[..|xs|] == xs;
  }

  /** `onDelete(index)`: the chip at `index` goes and the list is
      committed without touching validity. */
  function Delete(c: MultiConfig, cb: Multi, s: Store, at: Slot, index: int): (r: (Multi, Store))
    ensures c.disabled ==> r == (cb, s)
    ensures !c.disabled ==>
      r.0 == cb.(mirror := DeleteAt(cb.mirror, index), noScroll := true, showOptions := false) &&
      r.1 == UpdateField(s, at.formId, at.name, Arr(r.0.mirror), None, false)
  {
    if c.disabled then (cb, s)
    else
      var hidden := Immediate(cb.hide, ());
      var chosen := DeleteAt(cb.mirror, index);
      (cb.(hide := hidden.0, showOptions := false, mirror := chosen, noScroll := true),
       UpdateField(s, at.formId, at.name, Arr(chosen), None, false))
  }

  /** `clearComboBox`: the text and the list are emptied and the empty
      list is committed. */
  function Clear(c: MultiConfig, cb: Multi, s: Store, at: Slot): (r: (Multi, Store))
    ensures c.disabled ==> r == (cb, s)
    ensures !c.disabled ==> r.0 == cb.(display := "", mirror := [])
    ensures !c.disabled && at.formId != "" && at.name != "" ==>
      FieldValue(r.1, at) == Arr([]) && FieldValid(r.1, at) == FieldValid(s, at)
  {
    if c.disabled then (cb, s)
    else (cb.(display := "", mirror := []), UpdateField(s, at.formId, at.name, Arr([]), None, false))
  }

  /** `onType`: the text changes and a pending hide is cancelled; the
      selection and the store are untouched. */
  function OnType(c: MultiConfig, cb: Multi, text: string): (r: Multi)
    ensures c.disabled ==> r == cb
    ensures !c.disabled ==>
      r.display == text && r.hide.pending.None? && r.mirror == cb.mirror && r.showOptions == cb.showOptions &&
      r.noScroll == cb.noScroll
  {
    if c.disabled then cb else cb.(display := text, hide := Cancel(cb.hide))
  }

  /** A choice shows every option for the one render that follows it;
      typing after that render shows only the options the text matches. */
  lemma TypingAfterChoiceFilters(c: MultiConfig, cb: Multi, s: Store, at: Slot, v: Value, text: string)
    requires !c.disabled && c.filterOnType && text != ""
    ensures var chosen := Select(c, cb, s, at, v);
      Visible(AsCombo(c), chosen.0) == c.options &&
      Visible(AsCombo(c), OnType(c, Rendered(chosen.0), text)) == Filter(c.options, Matches(AsCombo(c), text))
  {
  }

  /** Whether an option is shown as selected: a selected member is deeply
      equal to it (and is not itself undefined). */
  function IsSelected(xs: seq<Value>, option: Value): (r: bool)
    ensures r ==> exists i :: 0 <= i < |xs| && IsEqual(xs[i], option)
    ensures (forall i :: 0 <= i < |xs| ==> !xs[i].Undefined?) ==>
      (r <==> exists i :: 0 <= i < |xs| && IsEqual(xs[i], option))
  {
    FindAgreesWithFindIndex(xs, EqualTo(option));
    Find(xs, EqualTo(option)) != Undefined
  }

  /** A newly chosen option shows as selected. */
  lemma ChosenIsSelected(xs: seq<Value>, v: Value)
    requires WellFormed(v) && !HasInvalidDate(v) && !v.Undefined?
    requires forall j :: 0 <= j < |xs| ==> !IsEqual(xs[j], v) && !xs[j].Undefined?
    ensures IsSelected(Toggle(xs, v), v)
  {
    ToggleTwice(xs, v);
    IsEqualReflexive(v);
    var ys := xs + [v];
    assert forall j :: 0 <= j < |ys| ==> !ys[j].Undefined? by {
      forall j | 0 <= j < |ys| ensures !ys[j].Undefined? {
        if j < |xs| { assert ys[j] == xs[j]; }
      }
    }
    assert IsEqual(ys[|xs|], v);
  }

  // ---------------------------------------------------------------------
  // Following the store

  /** `ys.map(y => xs.find(x => isEqual(y, x)))`. */
  function Matched(ys: seq<Value>, xs: seq<Value>): (r: seq<Value>)
    ensures |r| == |ys|
    ensures forall i :: 0 <= i < |ys| ==> r[i] == Find(xs, EqualFrom(ys[i]))
    decreases |ys|
  {
    if |ys| == 0 then []
    else [Find(xs, EqualFrom(ys[0]))] + Matched(ys[1..], xs)
  }

  /** `.filter(v => v !== undefined)`. */
  function Defined(xs: seq<Value>): (r: seq<Value>)
    ensures forall k :: 0 <= k < |r| ==> !r[k].Undefined? && r[k] in xs
    ensures forall i :: 0 <= i < |xs| && !xs[i].Undefined? ==> xs[i] in r
    ensures (forall i :: 0 <= i < |xs| ==> !xs[i].Undefined?) ==> r == xs
    ensures (forall i :: 0 <= i < |xs| ==> xs[i].Undefined?) ==> r == []
  {
    var p := (v: Value) => !v.Undefined?;
    if forall i :: 0 <= i < |xs| ==> p(xs[i]) then
      FilterAll(xs, p);
      Filter(xs, p)
    else if forall i :: 0 <= i < |xs| ==> !p(xs[i]) then
      FilterNone(xs, p);
      Filter(xs, p)
    else Filter(xs, p)
  }

  /** The options deeply equal to the members of `ys`, in order; a member
      no option equals is left out. */
  function Pick(ys: seq<Value>, options: seq<Value>): (r: seq<Value>)
    ensures forall k :: 0 <= k < |r| ==> r[k] in options
    ensures (forall i :: 0 <= i < |ys| ==> Find(options, EqualFrom(ys[i])) != Undefined) ==>
      |r| == |ys| && forall i :: 0 <= i < |ys| ==> IsEqual(ys[i], r[i])
    ensures |options| == 0 ==> r == []
  {
    PickFromOptions(ys, options);
    PickMatches(ys, options);
    Defined(Matched(ys, options))
  }

  lemma PickFromOptions(ys: seq<Value>, options: seq<Value>)
    ensures var r := Defined(Matched(ys, options)); forall k :: 0 <= k < |r| ==> r[k] in options
  {
    var found := Matched(ys, options);
    var r := Defined(found);
    forall k | 0 <= k < |r| ensures r[k] in options {
      assert r[k] in found;
      var i :| 0 <= i < |found| && found[i] == r[k];
      assert Find(options, EqualFrom(ys[i])) != Undefined;
    }
  }

  lemma PickMatches(ys: seq<Value>, options: seq<Value>)
    ensures var found := Matched(ys, options);
      (forall i :: 0 <= i < |ys| ==> Find(options, EqualFrom(ys[i])) != Undefined) ==>
      Defined(found) == found && forall i :: 0 <= i < |ys| ==> IsEqual(ys[i], found[i])
  {
    var found := Matched(ys, options);
    if forall i :: 0 <= i < |ys| ==> Find(options, EqualFrom(ys[i])) != Undefined {
      forall i | 0 <= i < |found| ensures IsEqual(ys[i], found[i]) {
        assert EqualFrom(ys[i])(found[i]);
      }
    }
  }

  /** Every stored member has a deeply equal member in the selection. */
  predicate AllKnown(stored: seq<Value>, xs: seq<Value>) {
    forall i :: 0 <= i < |stored| ==> Find(xs, EqualFrom(stored[i])) != Undefined
  }

  /** The reconciliation with the list the widget picks when the stored
      list has members it does not know. */
  function ReconcileWith(cb: Multi, stored: Value, picked: seq<Value>): (r: Multi)
    ensures IsNullish(stored) ==> r == cb.(mirror := [])
    ensures stored.Arr? && AllKnown(stored.elems, cb.mirror) ==> r == cb
    ensures stored.Arr? && !AllKnown(stored.elems, cb.mirror) ==> r == cb.(mirror := picked)
    ensures !IsNullish(stored) && !stored.Arr? ==> r == cb
  {
    if IsNullish(stored) then
      if |cb.mirror| == 0 then cb else cb.(mirror := [])
    else if stored.Arr? then
      if AllKnown(stored.elems, cb.mirror) then cb else cb.(mirror := picked)
    else cb
  }

  /** As written: the members of the selection that matched are looked up
      among the options, so a stored member the selection does not hold
      already is dropped rather than shown. */
  function ReconcileAsWritten(c: MultiConfig, cb: Multi, stored: Value): (r: Multi)
    ensures IsNullish(stored) ==> r == Reconcile(c, cb, stored)
    ensures stored.Arr? && AllKnown(stored.elems, cb.mirror) ==> r == Reconcile(c, cb, stored)
    ensures forall k :: 0 <= k < |r.mirror| ==> r.mirror[k] in c.options || r.mirror[k] in cb.mirror
    ensures |cb.mirror| == 0 ==> r.mirror == []
  {
    NothingMatchedPicksNothing(if stored.Arr? then stored.elems else [], c.options);
    var picked := if stored.Arr? then Pick(Matched(stored.elems, cb.mirror), c.options) else [];
    ReconcileWith(cb, stored, picked)
  }

  /** Against an empty selection nothing matches, and looking the
      unmatched members up among the options picks nothing. */
  lemma NothingMatchedPicksNothing(ys: seq<Value>, options: seq<Value>)
    ensures Pick(Matched(ys, []), options) == []
  {
    var none := Matched(ys, []);
    assert forall i :: 0 <= i < |none| ==> none[i] == Undefined;
    var found := Matched(none, options);
    forall i | 0 <= i < |found|
      ensures found[i].Undefined?
    {
      assert found[i] == Find(options, EqualFrom(Undefined));
    }
  }

  /** The evidently intended reconciliation: the stored members are looked
      up among the options. */
  function Reconcile(c: MultiConfig, cb: Multi, stored: Value): (r: Multi)
    ensures IsNullish(stored) ==> r == cb.(mirror := [])
    ensures !stored.Arr? ==> r.display == cb.display
    ensures stored.Arr? && AllKnown(stored.elems, cb.mirror) ==> r == cb
    ensures stored.Arr? && !AllKnown(stored.elems, cb.mirror) ==>
      r.display == cb.display && forall k :: 0 <= k < |r.mirror| ==> r.mirror[k] in c.options
    ensures (stored.Arr? && !AllKnown(stored.elems, cb.mirror) &&
      forall i :: 0 <= i < |stored.elems| ==> Find(c.options, EqualFrom(stored.elems[i])) != Undefined) ==>
      |r.mirror| == |stored.elems| &&
      forall i :: 0 <= i < |stored.elems| ==> IsEqual(stored.elems[i], r.mirror[i])
  {
    var picked := if stored.Arr? then Pick(stored.elems, c.options) else [];
    ReconcileWith(cb, stored, picked)
  }

  /** A value that reaches the store from elsewhere (a remount that kept
      it, a value set from outside) is dropped as written and shown as
      intended. */
  lemma OutsideValueIsDroppedAsWritten()
    ensures var c := MultiConfig([Num(1)], (v: Value) => "", None, false, false, false, false);
      var cb := NewCombo([]);
      ReconcileAsWritten(c, cb, Arr([Num(1)])).mirror == [] &&
      Reconcile(c, cb, Arr([Num(1)])).mirror == [Num(1)]
  {
    var c := MultiConfig([Num(1)], (v: Value) => "", None, false, false, false, false);
    var cb: Multi := NewCombo([]);
    assert Find([], EqualFrom(Num(1))) == Undefined;
    assert Matched([Num(1)], []) == [Undefined];
    assert !AllKnown([Num(1)], []);
    assert !EqualFrom(Undefined)(Num(1));
    assert Matched([Undefined], [Num(1)]) == [Undefined];
    assert Defined([Undefined]) == [];
    assert EqualFrom(Num(1))(Num(1));
    assert Matched([Num(1)], [Num(1)]) == [Num(1)];
  }

  /** Every member deeply equal to itself and none undefined: what a
      selection of well-formed options is. */
  predicate Settled(xs: seq<Value>) {
    forall j :: 0 <= j < |xs| ==> WellFormed(xs[j]) && !HasInvalidDate(xs[j]) && !xs[j].Undefined?
  }

  /** A selection knows itself. */
  lemma SettledIsKnown(xs: seq<Value>)
    requires Settled(xs)
    ensures AllKnown(xs, xs)
  {
    forall i | 0 <= i < |xs| ensures Find(xs, EqualFrom(xs[i])) != Undefined {
      IsEqualReflexive(xs[i]);
      assert EqualFrom(xs[i])(xs[i]);
      FoundDefined(xs, EqualFrom(xs[i]), i);
    }
  }

  /** The commit of a choice, read back, leaves the selection alone. */
  lemma SelectSettles(c: MultiConfig, cb: Multi, s: Store, at: Slot, v: Value)
    requires !c.disabled && at.formId != "" && at.name != ""
    requires Settled(cb.mirror) && Settled([v])
    ensures var r := Select(c, cb, s, at, v); Reconcile(c, r.0, FieldValue(r.1, at)) == r.0
  {
    var chosen := Toggle(cb.mirror, v);
    assert Settled(chosen) by {
      forall k | 0 <= k < |chosen| ensures WellFormed(chosen[k]) && !HasInvalidDate(chosen[k]) && !chosen[k].Undefined? {
        if forall j :: 0 <= j < |cb.mirror| ==> !IsEqual(cb.mirror[j], v) {
          assert chosen == cb.mirror + [v];
          if k == |cb.mirror| { assert chosen[k] == [v][0]; }
        } else {
          assert chosen[k] in cb.mirror;
        }
      }
    }
    SettledIsKnown(chosen);
  }

  /** Clearing reads back as the empty selection. */
  lemma ClearSettles(c: MultiConfig, cb: Multi, s: Store, at: Slot)
    requires !c.disabled && at.formId != "" && at.name != ""
    ensures var r := Clear(c, cb, s, at); Reconcile(c, r.0, FieldValue(r.1, at)) == r.0
  {
  }

  // ---------------------------------------------------------------------
  // The default, registration and unmounting

  /** The default is taken, as the options deeply equal to its members,
      only while nothing is selected and only when some member matches;
      it is committed as valid. */
  function SeedDefault(c: MultiConfig, cb: Multi, s: Store, at: Slot): (r: (Multi, Store))
    ensures c.defaultValue.None? || |cb.mirror| > 0 ==> r == (cb, s)
    ensures r.0 == cb || r.0 == cb.(mirror := r.0.mirror)
    ensures r.0 != cb ==>
      |r.0.mirror| > 0 && c.defaultValue.Some? &&
      (forall k :: 0 <= k < |r.0.mirror| ==> r.0.mirror[k] in c.options) &&
      r.1 == UpdateField(s, at.formId, at.name, Arr(r.0.mirror), Some(true), false)
    ensures (c.defaultValue.Some? && |cb.mirror| == 0 &&
      forall i :: 0 <= i < |c.defaultValue.value| ==> Find(c.options, EqualFrom(c.defaultValue.value[i])) != Undefined) ==>
      |r.0.mirror| == |c.defaultValue.value| &&
      forall i :: 0 <= i < |c.defaultValue.value| ==> IsEqual(c.defaultValue.value[i], r.0.mirror[i])
  {
    if c.defaultValue.Some? && |cb.mirror| == 0 then
      var picked := Pick(c.defaultValue.value, c.options);
      if |picked| == 0 then (cb, s)
      else (cb.(mirror := picked), UpdateField(s, at.formId, at.name, Arr(picked), Some(true), false))
    else (cb, s)
  }

  /** The seeded selection, read back, is left alone when the options are
      well formed. */
  lemma SeedSettles(c: MultiConfig, cb: Multi, s: Store, at: Slot)
    requires at.formId != "" && at.name != ""
    requires Settled(c.options)
    ensures var r := SeedDefault(c, cb, s, at); r.0 != cb ==> Reconcile(c, r.0, FieldValue(r.1, at)) == r.0
  {
    var r := SeedDefault(c, cb, s, at);
    if r.0 != cb {
      SettledFromOptions(r.0.mirror, c.options);
      assert FieldValue(r.1, at) == Arr(r.0.mirror);
      OwnCommitSettles(c, r.0);
    }
  }

  /** Members drawn from well-formed options are settled. */
  lemma SettledFromOptions(xs: seq<Value>, options: seq<Value>)
    requires Settled(options) && forall k :: 0 <= k < |xs| ==> xs[k] in options
    ensures Settled(xs)
  {
    forall k | 0 <= k < |xs|
      ensures WellFormed(xs[k]) && !HasInvalidDate(xs[k]) && !xs[k].Undefined?
    {
      var j :| 0 <= j < |options| && options[j] == xs[k];
    }
  }

  /** A settled selection reads its own commit back unchanged. */
  lemma OwnCommitSettles(c: MultiConfig, cb: Multi)
    requires Settled(cb.mirror)
    ensures Reconcile(c, cb, Arr(cb.mirror)) == cb
  {
    SettledIsKnown(cb.mirror);
  }

  /** Only the default and the required flag are registered. */
  function Register(c: MultiConfig, s: Store, at: Slot): (r: Store)
    ensures at.formId != "" && at.name != "" ==>
      at.formId in r.props && at.name in r.props[at.formId] &&
      r.props[at.formId][at.name].required == Some(ReqBool(c.required)) &&
      (c.defaultValue.Some? ==> r.props[at.formId][at.name].defaultValue == Arr(c.defaultValue.value))
  {
    RegisterChoice(DefaultOf(c), c.required, s, at)
  }

  /** Unmounting deletes the field and its properties unless the box
      persists them. */
  function Unmount(c: MultiConfig, s: Store, at: Slot): (r: Store)
    ensures c.persistOnUnmount ==> r == s
    ensures !c.persistOnUnmount && at.formId != "" && at.name != "" ==>
      at.name !in FieldsOf(r, at.formId) && at.name !in PropsOf(r, at.formId)
  {
    UnmountField(c.persistOnUnmount, s, at)
  }

  // ---------------------------------------------------------------------
  // The two keys

  /** The widget composes its key with one underscore, and so does the
      hook. */
  const MultiJoiner: Joiner := Single

  /** As written: the widget composes its key and hands it to the hook as
      the name, and the hook composes the subform id in again. */
  function SlotsAsWritten(formId: string, subFormId: string, name: string): (r: ComboSlots)
    ensures r.widget == SlotIn(MultiJoiner, formId, subFormId, name)
    ensures r.hook == SlotIn(MultiJoiner, formId, subFormId, r.widget.name)
  {
    var widget := SlotIn(MultiJoiner, formId, subFormId, name);
    ComboSlots(widget, SlotIn(MultiJoiner, formId, subFormId, widget.name))
  }

  /** The evidently intended wiring: both halves use the widget's key. */
  function Slots(formId: string, subFormId: string, name: string): (r: ComboSlots)
    ensures r.hook == r.widget == SlotIn(MultiJoiner, formId, subFormId, name)
  {
    var widget := SlotIn(MultiJoiner, formId, subFormId, name);
    ComboSlots(widget, widget)
  }

  /** As written, inside subform `addr` a choice is committed under
      `addr_addr_tags`, which the widget never reads (the subform's data
      shows it as `addr_tags`): the widget's field keeps what it held. */
  lemma SubFormChoiceMissesWidgetAsWritten(c: MultiConfig, cb: Multi, s: Store, v: Value)
    requires !c.disabled
    ensures var sl := SlotsAsWritten("f", "addr", "tags");
      var r := SelectAsWritten(c, cb, s, sl.hook, v);
      sl.widget.name == "addr_tags" && sl.hook.name == "addr_addr_tags" &&
      FieldValue(r.1, sl.hook) == Arr(r.0.mirror) && FieldValue(r.1, sl.widget) == FieldValue(s, sl.widget)
  {
    var sl := SlotsAsWritten("f", "addr", "tags");
    assert sl.widget.name == "addr_tags";
    assert sl.hook.name == "addr_addr_tags";
    assert sl.hook.name != sl.widget.name;
  }

  /** With one key for both halves, a choice inside any subform lands in
      the widget's field and reads back without changing the selection. */
  lemma SubFormChoiceSettles(c: MultiConfig, cb: Multi, s: Store, formId: string, subFormId: string, name: string, v: Value)
    requires !c.disabled && formId != "" && name != ""
    requires Settled(cb.mirror) && Settled([v])
    ensures var sl := Slots(formId, subFormId, name);
      var r := Select(c, cb, s, sl.hook, v);
      FieldValue(r.1, sl.widget) == Arr(r.0.mirror) && Reconcile(c, r.0, FieldValue(r.1, sl.widget)) == r.0
  {
    var sl := Slots(formId, subFormId, name);
    assert sl.widget.name != "";
    SelectSettles(c, cb, s, sl.widget, v);
  }

  // ---------------------------------------------------------------------
  // Mounting

  /** The first commit as written: the hook registers under its key, then
      the widget's effects run while its copy of the options is still
      empty; neither reruns when the copy arrives. */
  function MountAsWritten(c: MultiConfig, s: Store, sl: ComboSlots): (r: (Multi, Store))
    ensures r.0.mirror == [] && r.1 == Register(c, s, sl.hook)
  {
    var noOptions := c.(options := []);
    var registered := Register(c, s, sl.hook);
    var reconciled := ReconcileAsWritten(noOptions, NewCombo([]), FieldValue(registered, sl.widget));
    SeedDefault(noOptions, reconciled, registered, sl.widget)
  }

  /** The evidently intended first commit: both effects see the options. */
  function Mount(c: MultiConfig, s: Store, sl: ComboSlots): (r: (Multi, Store))
    ensures r.1.props == Register(c, s, sl.hook).props
    ensures forall k :: 0 <= k < |r.0.mirror| ==> r.0.mirror[k] in c.options
    ensures var stored := FieldValue(Register(c, s, sl.hook), sl.widget);
      stored.Arr? && |stored.elems| > 0 && AllKnown(stored.elems, c.options) ==>
        |r.0.mirror| == |stored.elems| && r.1 == Register(c, s, sl.hook) &&
        forall i :: 0 <= i < |stored.elems| ==> IsEqual(stored.elems[i], r.0.mirror[i])
  {
    var registered := Register(c, s, sl.hook);
    var reconciled := Reconcile(c, NewCombo([]), FieldValue(registered, sl.widget));
    SeedDefault(c, reconciled, registered, sl.widget)
  }

  /** As written, a box mounted on an empty field never takes its default,
      even when every member of it is an option; as intended, it selects
      those options and commits them as valid. */
  lemma DefaultNotSeededOnMountAsWritten(c: MultiConfig, s: Store, formId: string, subFormId: string, name: string)
    requires formId != "" && name != "" && c.defaultValue.Some? && |c.defaultValue.value| > 0
    requires IsNullish(FieldValue(s, Slots(formId, subFormId, name).widget))
    requires forall i :: 0 <= i < |c.defaultValue.value| ==> Find(c.options, EqualFrom(c.defaultValue.value[i])) != Undefined
    ensures var sl := Slots(formId, subFormId, name);
      var w := MountAsWritten(c, s, sl);
      w.0.mirror == [] && FieldValue(w.1, sl.widget) == FieldValue(s, sl.widget)
    ensures var sl := Slots(formId, subFormId, name);
      var m := Mount(c, s, sl);
      |m.0.mirror| == |c.defaultValue.value| &&
      (forall i :: 0 <= i < |c.defaultValue.value| ==> IsEqual(c.defaultValue.value[i], m.0.mirror[i])) &&
      FieldValue(m.1, sl.widget) == Arr(m.0.mirror) && FieldValid(m.1, sl.widget) == Some(true)
  {
    var sl := Slots(formId, subFormId, name);
    MountAsWrittenSeedsNothing(c, s, sl);
    MountSeedsDefault(c, s, sl);
  }

  lemma MountAsWrittenSeedsNothing(c: MultiConfig, s: Store, sl: ComboSlots)
    requires c.defaultValue.Some? && IsNullish(FieldValue(s, sl.widget))
    ensures var w := MountAsWritten(c, s, sl);
      w.0.mirror == [] && FieldValue(w.1, sl.widget) == FieldValue(s, sl.widget)
  {
    RegisterKeepsValue(c, s, sl.hook);
    var noOptions := c.(options := []);
    var registered := Register(c, s, sl.hook);
    var reconciled := ReconcileAsWritten(noOptions, NewCombo([]), FieldValue(registered, sl.widget));
    assert reconciled.mirror == [];
    assert Pick(c.defaultValue.value, noOptions.options) == [];
  }

  lemma MountSeedsDefault(c: MultiConfig, s: Store, sl: ComboSlots)
    requires sl.widget.formId != "" && sl.widget.name != "" && c.defaultValue.Some? && |c.defaultValue.value| > 0
    requires IsNullish(FieldValue(s, sl.widget))
    requires forall i :: 0 <= i < |c.defaultValue.value| ==> Find(c.options, EqualFrom(c.defaultValue.value[i])) != Undefined
    ensures var m := Mount(c, s, sl);
      |m.0.mirror| == |c.defaultValue.value| &&
      (forall i :: 0 <= i < |c.defaultValue.value| ==> IsEqual(c.defaultValue.value[i], m.0.mirror[i])) &&
      FieldValue(m.1, sl.widget) == Arr(m.0.mirror) && FieldValid(m.1, sl.widget) == Some(true)
  {
    RegisterKeepsValue(c, s, sl.hook);
    var registered := Register(c, s, sl.hook);
    var stored := FieldValue(registered, sl.widget);
    assert IsNullish(stored);
    var reconciled := Reconcile(c, NewCombo([]), stored);
    assert reconciled.mirror == [];
    SeedOnEmptySelection(c, reconciled, registered, sl.widget);
    assert Mount(c, s, sl) == SeedDefault(c, reconciled, registered, sl.widget);
  }

  lemma SeedOnEmptySelection(c: MultiConfig, cb: Multi, s: Store, at: Slot)
    requires at.formId != "" && at.name != "" && c.defaultValue.Some? && |c.defaultValue.value| > 0
    requires |cb.mirror| == 0
    requires forall i :: 0 <= i < |c.defaultValue.value| ==> Find(c.options, EqualFrom(c.defaultValue.value[i])) != Undefined
    ensures var r := SeedDefault(c, cb, s, at);
      |r.0.mirror| == |c.defaultValue.value| &&
      (forall i :: 0 <= i < |c.defaultValue.value| ==> IsEqual(c.defaultValue.value[i], r.0.mirror[i])) &&
      FieldValue(r.1, at) == Arr(r.0.mirror) && FieldValid(r.1, at) == Some(true)
  {
    var r := SeedDefault(c, cb, s, at);
    assert r.0 != cb;
    assert r.1 == UpdateField(s, at.formId, at.name, Arr(r.0.mirror), Some(true), false);
  }

  /** Registration leaves the value the widget reads as it was. */
  lemma RegisterKeepsValue(c: MultiConfig, s: Store, at: Slot)
    ensures FieldValue(Register(c, s, at), at) == FieldValue(s, at)
  {
  }
}

=== FILE: selection.dfy ===
/** The inputs that choose among fixed values: the select
    (lib/MyForm/components/MySelectInput.tsx), the radio
    (MyRadioInput.tsx), the checkbox (MyCheckboxInput.tsx) and the file
    picker (MyFileInput.tsx). None of them goes through the general
    binding; each talks to the store directly. */
module Selection {
  import opened Base
  import opened Strings
  import opened JsValues
  import opened Utils
  import opened FormStore
  import opened GeneralInput
  import opened FieldNames

  /** How each input composes its key inside a subform: the select and the
      file picker with one underscore, the radio with two, and the
      checkbox not at all. */
  const SelectJoiner: Joiner := Single
  const RadioJoiner: Joiner := Double
  const CheckboxJoiner: Joiner := Raw
  const FileJoiner: Joiner := Single

  /** A checkbox keeps its plain name inside any subform, so the subform's
      data never collects it: when no registered prefix claims the name it
      appears at the top level of the form's data. */
  lemma CheckboxIgnoresSubForm(s: Store, formId: string, subFormId: string, name: string)
    requires formId != "" && formId in s.forms && name in s.forms[formId]
    requires forall j :: 0 <= j < |SubformsOf(s, formId)| ==> !StartsWith(name, Tag(SubformsOf(s, formId)[j]))
    ensures SlotIn(CheckboxJoiner, formId, subFormId, name) == SlotIn(CheckboxJoiner, formId, "", name)
    ensures name in GetFormData(s, formId).data &&
      GetFormData(s, formId).data[name] == Plain(FieldValue(s, SlotIn(CheckboxJoiner, formId, subFormId, name)))
  {
    GetFormDataTopLevel(s, formId, name);
  }

  // =====================================================================
  // Select

  datatype SelectOption = SelectOption(text: string, value: Value)

  /** `clearUnknown` is `setUndefinedIfManualUpdateIsInvalid`. */
  datatype SelectConfig = SelectConfig(
    options: seq<SelectOption>,
    defaultValue: Value,
    required: bool,
    persistOnUnmount: bool,
    clearUnknown: bool,
    disabled: bool)

  /** The `<select>`'s value (`''` for the placeholder, otherwise an
      option's index in decimal) and the value it stands for
      (`internalRef`, undefined before anything happened). */
  datatype SelectBox = SelectBox(display: string, mirror: Value)

  function NewSelect(): SelectBox {
    SelectBox("", Undefined)
  }

  /** The option values, in order. */
  function ValuesOf(c: SelectConfig): (vs: seq<Value>)
    ensures |vs| == |c.options| && forall i :: 0 <= i < |vs| ==> vs[i] == c.options[i].value
  {
    seq(|c.options|, i requires 0 <= i < |c.options| => c.options[i].value)
  }

  /** The option labels, in order: what the duplicate check scans. */
  function LabelsOf(c: SelectConfig): (ls: seq<string>)
    ensures |ls| == |c.options| && forall i :: 0 <= i < |ls| ==> ls[i] == c.options[i].text
  {
    seq(|c.options|, i requires 0 <= i < |c.options| => c.options[i].text)
  }

  /** The value the `<select>`'s text stands for: null for the
      placeholder; otherwise the text is read as an index (`parseInt`),
      and an index with no option, or an option whose value is nullish,
      gives null. */
  function Decode(c: SelectConfig, text: string): (v: Value)
    ensures text == "" || ParseInt(text).None? ==> v == Null
    ensures !IsNullish(v) ==> exists i :: 0 <= i < |c.options| && c.options[i].value == v
  {
    if text == "" then Null
    else
      match ParseInt(text)
      case None => Null
      case Some(i) =>
        if 0 <= i < |c.options| && !IsNullish(c.options[i].value) then c.options[i].value else Null
  }

  /** The text of option `i` decodes to its value, or to null when that
      is nullish; any other index decodes to null. */
  lemma DecodeIndex(c: SelectConfig, i: int)
    ensures 0 <= i < |c.options| && !IsNullish(c.options[i].value) ==>
      Decode(c, IntToString(i)) == c.options[i].value
    ensures !(0 <= i < |c.options|) || IsNullish(c.options[i].value) ==> Decode(c, IntToString(i)) == Null
  {
    ParseIntOfIntToString(i);
  }

  /** `onChange`: the decoded value is committed without touching
      validity and becomes the mirror. */
  function SelectChange(c: SelectConfig, sb: SelectBox, s: Store, at: Slot, text: string): (r: (SelectBox, Store))
    ensures c.disabled ==> r == (sb, s)
    ensures !c.disabled ==> r.0 == SelectBox(text, Decode(c, text))
    ensures !c.disabled && at.formId != "" && at.name != "" ==>
      FieldValid(r.1, at) == FieldValid(s, at) &&
      FieldValue(r.1, at) == (if IsNullish(r.0.mirror) then Undefined else r.0.mirror)
  {
    if c.disabled then (sb, s)
    else
      var v := Decode(c, text);
      (SelectBox(text, v), UpdateField(s, at.formId, at.name, v, None, false))
  }

  /** `clearSelect`: the placeholder is shown and null is committed. */
  function SelectClear(c: SelectConfig, sb: SelectBox, s: Store, at: Slot): (r: (SelectBox, Store))
    ensures c.disabled ==> r == (sb, s)
    ensures !c.disabled ==> r.0 == SelectBox("", Null)
    ensures !c.disabled && at.formId != "" && at.name != "" ==>
      FieldValue(r.1, at) == Undefined && FieldValid(r.1, at) == FieldValid(s, at)
  {
    if c.disabled then (sb, s)
    else (SelectBox("", Null), UpdateField(s, at.formId, at.name, Null, None, false))
  }

  /** Following the store. A nullish value shows the placeholder. Any
      other value shows the first option deeply equal to it, whatever the
      mirror held; a value no option equals shows the placeholder and is
      either cleared as valid (`clearUnknown`) or kept as the mirror. */
  function SelectReconcile(c: SelectConfig, sb: SelectBox, s: Store, at: Slot): (r: (SelectBox, Store))
    ensures var stored := FieldValue(s, at);
      IsNullish(stored) ==>
        r.1 == s && r.0.display == "" && (sb.display == "" ==> r.0 == sb) && (sb.display != "" ==> r.0.mirror == Null)
    ensures var stored := FieldValue(s, at);
      forall i :: !IsNullish(stored) && FirstEqual(ValuesOf(c), stored, i) ==>
        r == (SelectBox(IntToString(i), stored), s)
    ensures var stored := FieldValue(s, at);
      !IsNullish(stored) && (forall i :: 0 <= i < |c.options| ==> !IsEqual(c.options[i].value, stored)) ==>
        r.0.display == "" &&
        (!c.clearUnknown ==> r == (SelectBox("", stored), s)) &&
        (c.clearUnknown ==> r.0.mirror == Null && r.1 == UpdateField(s, at.formId, at.name, Null, Some(true), false))
  {
    var stored := FieldValue(s, at);
    FindIndexIsFirstEqual(ValuesOf(c), stored);
    if IsNullish(stored) then
      if sb.display == "" then (sb, s) else (SelectBox("", Null), s)
    else
      var i := FindIndex(ValuesOf(c), EqualTo(stored));
      if i == -1 then
        if c.clearUnknown then (SelectBox("", Null), UpdateField(s, at.formId, at.name, Null, Some(true), false))
        else (SelectBox("", stored), s)
      else (SelectBox(IntToString(i), stored), s)
  }

  /** Choosing an option whose value no earlier option equals, read back
      from the store, leaves the select as it was. */
  lemma SelectChangeSettles(c: SelectConfig, sb: SelectBox, s: Store, at: Slot, i: int)
    requires !c.disabled && at.formId != "" && at.name != ""
    requires 0 <= i < |c.options| && !IsNullish(c.options[i].value)
    requires WellFormed(c.options[i].value) && !HasInvalidDate(c.options[i].value)
    requires forall j :: 0 <= j < i ==> !IsEqual(c.options[j].value, c.options[i].value)
    ensures var r := SelectChange(c, sb, s, at, IntToString(i));
      SelectReconcile(c, r.0, r.1, at) == r
  {
    DecodeIndex(c, i);
    IsEqualReflexive(c.options[i].value);
    assert FirstEqual(ValuesOf(c), c.options[i].value, i);
  }

  /** Choosing an option whose value is nullish commits nothing the store
      keeps, and reading back shows the placeholder. */
  lemma SelectNullishOptionShowsPlaceholder(c: SelectConfig, sb: SelectBox, s: Store, at: Slot, i: int)
    requires !c.disabled && at.formId != "" && at.name != ""
    requires 0 <= i < |c.options| && IsNullish(c.options[i].value)
    ensures var r := SelectChange(c, sb, s, at, IntToString(i));
      SelectReconcile(c, r.0, r.1, at).0 == SelectBox("", Null)
  {
    DecodeIndex(c, i);
    assert IntToString(i) != "" by {
      assert |IntToString(i)| > 0;
    }
  }

  /** Clearing, read back, leaves the placeholder alone. */
  lemma SelectClearSettles(c: SelectConfig, sb: SelectBox, s: Store, at: Slot)
    requires !c.disabled && at.formId != "" && at.name != ""
    ensures var r := SelectClear(c, sb, s, at); SelectReconcile(c, r.0, r.1, at) == r
  {
  }

  /** An unknown value cleared as valid stays cleared when read back. */
  lemma SelectClearedUnknownSettles(c: SelectConfig, sb: SelectBox, s: Store, at: Slot)
    requires at.formId != "" && at.name != "" && c.clearUnknown
    requires !IsNullish(FieldValue(s, at))
    requires forall i :: 0 <= i < |c.options| ==> !IsEqual(c.options[i].value, FieldValue(s, at))
    ensures var r := SelectReconcile(c, sb, s, at);
      FieldValue(r.1, at) == Undefined && FieldValid(r.1, at) == Some(true) &&
      SelectReconcile(c, r.0, r.1, at) == r
  {
  }

  /** The default is taken only while the mirror is nullish, only when it
      is truthy and only when an option equals it; it is shown as the
      first such option and committed without touching validity. */
  function SelectSeed(c: SelectConfig, sb: SelectBox, s: Store, at: Slot): (r: (SelectBox, Store))
    ensures !Truthy(c.defaultValue) || !IsNullish(sb.mirror) ==> r == (sb, s)
    ensures (forall i :: 0 <= i < |c.options| ==> !IsEqual(c.options[i].value, c.defaultValue)) ==> r == (sb, s)
    ensures forall i :: Truthy(c.defaultValue) && IsNullish(sb.mirror) && FirstEqual(ValuesOf(c), c.defaultValue, i) ==>
      r == (SelectBox(IntToString(i), c.defaultValue), UpdateField(s, at.formId, at.name, c.defaultValue, None, false))
  {
    FindIndexIsFirstEqual(ValuesOf(c), c.defaultValue);
    if Truthy(c.defaultValue) && IsNullish(sb.mirror) then
      var i := FindIndex(ValuesOf(c), EqualTo(c.defaultValue));
      if i == -1 then (sb, s)
      else (SelectBox(IntToString(i), c.defaultValue), UpdateField(s, at.formId, at.name, c.defaultValue, None, false))
    else (sb, s)
  }

  /** A seeded default, read back, leaves the select as seeded. */
  lemma SelectSeedSettles(c: SelectConfig, sb: SelectBox, s: Store, at: Slot)
    requires at.formId != "" && at.name != ""
    ensures var r := SelectSeed(c, sb, s, at); r.0 != sb ==> SelectReconcile(c, r.0, r.1, at) == r
  {
    FindIndexIsFirstEqual(ValuesOf(c), c.defaultValue);
  }

  /** Registration is `RegisterChoice`, as for the radio and the checkbox. */
  function SelectRegister(c: SelectConfig, s: Store, at: Slot): Store
  {
    RegisterChoice(c.defaultValue, c.required, s, at)
  }

  // =====================================================================
  // Radio

  /** One radio button of a group; the group shares the store field. */
  datatype RadioConfig = RadioConfig(value: Value, defaultValue: Value, required: bool, persistOnUnmount: bool, disabled: bool)

  /** The button is checked exactly when the store holds a value deeply
      equal to its own. */
  predicate RadioChecked(c: RadioConfig, stored: Value) {
    IsEqual(stored, c.value)
  }

  /** A click that leaves the button checked commits its value without
      touching validity; one that leaves it unchecked commits nothing. */
  function RadioClick(c: RadioConfig, s: Store, at: Slot, checked: bool): (r: Store)
    ensures c.disabled || !checked ==> r == s
    ensures !c.disabled && checked ==> r == UpdateField(s, at.formId, at.name, c.value, None, false)
  {
    if c.disabled || !checked then s else UpdateField(s, at.formId, at.name, c.value, None, false)
  }

  /** After a click the clicked button is checked and every button of the
      group with a value not deeply equal to it is not. */
  lemma RadioClickChecksOnlyItself(c: RadioConfig, other: RadioConfig, s: Store, at: Slot)
    requires !c.disabled && at.formId != "" && at.name != ""
    requires !IsNullish(c.value) && WellFormed(c.value) && !HasInvalidDate(c.value)
    requires !IsEqual(c.value, other.value)
    ensures RadioChecked(c, FieldValue(RadioClick(c, s, at, true), at))
    ensures !RadioChecked(other, FieldValue(RadioClick(c, s, at, true), at))
  {
    IsEqualReflexive(c.value);
  }

  /** The default is committed only while the field is undefined and only
      by the button whose value it equals. */
  function RadioSeed(c: RadioConfig, s: Store, at: Slot): (r: Store)
    ensures !FieldValue(s, at).Undefined? || !IsEqual(c.defaultValue, c.value) ==> r == s
    ensures FieldValue(s, at).Undefined? && IsEqual(c.defaultValue, c.value) ==>
      r == UpdateField(s, at.formId, at.name, c.value, None, false)
  {
    if FieldValue(s, at).Undefined? && IsEqual(c.defaultValue, c.value) then
      UpdateField(s, at.formId, at.name, c.value, None, false)
    else s
  }

  /** A seeded default leaves the seeding button checked. */
  lemma RadioSeedChecks(c: RadioConfig, s: Store, at: Slot)
    requires at.formId != "" && at.name != ""
    requires FieldValue(s, at).Undefined? && IsEqual(c.defaultValue, c.value)
    requires !IsNullish(c.value) && WellFormed(c.value) && !HasInvalidDate(c.value)
    ensures RadioChecked(c, FieldValue(RadioSeed(c, s, at), at))
  {
    IsEqualReflexive(c.value);
  }

  function RadioRegister(c: RadioConfig, s: Store, at: Slot): Store
  {
    RegisterChoice(c.defaultValue, c.required, s, at)
  }

  // =====================================================================
  // Checkbox

  /** `uncheckValue` defaults to null. */
  datatype CheckboxConfig = CheckboxConfig(
    checkedValue: Value,
    uncheckValue: Value,
    defaultValue: Value,
    required: bool,
    persistOnUnmount: bool,
    disabled: bool)

  /** The box is ticked exactly when the store holds a value deeply equal
      to `checkedValue`. */
  predicate CheckboxChecked(c: CheckboxConfig, stored: Value) {
    IsEqual(stored, c.checkedValue)
  }

  /** `onChange`: ticking commits `checkedValue`, unticking
      `uncheckValue ?? null`; validity is untouched. */
  function CheckboxChange(c: CheckboxConfig, s: Store, at: Slot, checked: bool): (r: Store)
    ensures c.disabled ==> r == s
    ensures !c.disabled && checked ==> r == UpdateField(s, at.formId, at.name, c.checkedValue, None, false)
    ensures !c.disabled && !checked && IsNullish(c.uncheckValue) ==>
      r == UpdateField(s, at.formId, at.name, Null, None, false)
    ensures !c.disabled && !checked && !IsNullish(c.uncheckValue) ==>
      r == UpdateField(s, at.formId, at.name, c.uncheckValue, None, false)
  {
    if c.disabled then s
    else
      var v := if checked then c.checkedValue else if IsNullish(c.uncheckValue) then Null else c.uncheckValue;
      UpdateField(s, at.formId, at.name, v, None, false)
  }

  /** The box shows what was last done to it, as long as the two values
      differ: ticking reads back as ticked, unticking as unticked (an
      unticked box with the default `uncheckValue` clears the field). */
  lemma CheckboxReadsBack(c: CheckboxConfig, s: Store, at: Slot, checked: bool)
    requires !c.disabled && at.formId != "" && at.name != ""
    requires !IsNullish(c.checkedValue) && WellFormed(c.checkedValue) && !HasInvalidDate(c.checkedValue)
    requires !IsEqual(c.uncheckValue, c.checkedValue)
    ensures CheckboxChecked(c, FieldValue(CheckboxChange(c, s, at, checked), at)) == checked
  {
    IsEqualReflexive(c.checkedValue);
    if !checked && IsNullish(c.uncheckValue) {
      assert FieldValue(CheckboxChange(c, s, at, checked), at) == Undefined;
    }
  }

  /** The default only ticks the box, when it equals `checkedValue`; the
      store is not written. */
  function CheckboxDefaultTick(c: CheckboxConfig, ticked: bool): (r: bool)
    ensures r <==> ticked || IsEqual(c.defaultValue, c.checkedValue)
  {
    if !ticked && IsEqual(c.defaultValue, c.checkedValue) then true else ticked
  }

  function CheckboxRegister(c: CheckboxConfig, s: Store, at: Slot): Store
  {
    RegisterChoice(c.defaultValue, c.required, s, at)
  }

  // =====================================================================
  // File

  datatype FileConfig = FileConfig(
    validator: Option<Value -> VResult>,
    validateImmediately: bool,
    required: bool,
    persistOnUnmount: bool,
    disabled: bool)

  /** The value of a file selection: null when empty, else the list. */
  function FilesValue(files: seq<Value>): (v: Value)
    ensures |files| == 0 <==> v == Null
    ensures |files| > 0 ==> v == Arr(files)
  {
    if |files| == 0 then Null else Arr(files)
  }

  /** `onChange`: the selection is committed, then validated. Without
      `validateImmediately`, validation only marks a field valid that was
      not valid when the input last rendered (`seen`); with it, the
      validity is the validator's verdict. */
  function FileChange(c: FileConfig, s: Store, at: Slot, seen: Option<bool>, files: seq<Value>): (r: Store)
    ensures c.disabled ==> r == s
    ensures !c.disabled && at.formId != "" && at.name != "" ==>
      FieldValue(r, at) == (if |files| == 0 then Undefined else Arr(files))
    ensures !c.disabled && at.formId != "" && at.name != "" && c.validateImmediately ==>
      FieldValid(r, at) == Some(Accepts(c.validator, FilesValue(files)))
    ensures !c.disabled && at.formId != "" && at.name != "" && !c.validateImmediately ==>
      FieldValid(r, at) == (if seen == Some(true) then FieldValid(s, at) else Some(true))
  {
    if c.disabled then s
    else
      var v := FilesValue(files);
      var s1 := UpdateField(s, at.formId, at.name, v, None, false);
      if !c.validateImmediately then
        if seen != Some(true) then UpdateField(s1, at.formId, at.name, v, Some(true), false) else s1
      else UpdateField(s1, at.formId, at.name, v, Some(Accepts(c.validator, v)), false)
  }

  /** Without `validateImmediately` a file field that was valid stays
      valid, and one that was not becomes valid: a change never marks it
      invalid. */
  lemma FileChangeNeverRejects(c: FileConfig, s: Store, at: Slot, files: seq<Value>)
    requires !c.disabled && !c.validateImmediately && at.formId != "" && at.name != ""
    ensures FieldValid(s, at) == Some(true) ==> FieldValid(FileChange(c, s, at, FieldValid(s, at), files), at) == Some(true)
    ensures FieldValid(s, at) != Some(true) ==> FieldValid(FileChange(c, s, at, FieldValid(s, at), files), at) == Some(true)
  {
  }

  /** Only the required flag and the validator are registered; a default
      registered before is kept. */
  function FileRegister(c: FileConfig, s: Store, at: Slot): (r: Store)
    ensures at.formId != "" && at.name != "" ==>
      var prior := if at.name in PropsOf(s, at.formId) then PropsOf(s, at.formId)[at.name] else NoProps;
      at.formId in r.props && at.name in r.props[at.formId] &&
      r.props[at.formId][at.name].required == Some(ReqBool(c.required)) &&
      r.props[at.formId][at.name].defaultValue == prior.defaultValue &&
      (c.validator.Some? ==> r.props[at.formId][at.name].validator == c.validator)
  {
    SetFieldProperties(s, at.formId, at.name, Undefined, Some(ReqBool(c.required)), c.validator)
  }

  // =====================================================================
  // Unmounting: the select, radio, checkbox and file inputs all run
  // `UnmountField` with their `persistOnUnmount`.
}

=== FILE: strings.dfy ===
/** The handful of JavaScript string operations the library relies on:
    `indexOf`, `replace` with a string pattern (first occurrence only),
    `split` with a string separator, `join`, number-to-string conversion,
    `parseInt` in base 10 and ASCII lower-casing. */
module Strings {
  import opened Base

  /** `pat` occurs in `s` starting at index `i`. */
  predicate OccursAt(s: string, pat: string, i: int) {
    0 <= i && i + |pat| <= |s| && s[i..i + |pat|] == pat
  }

  predicate StartsWith(s: string, pre: string) {
    |pre| <= |s| && s[..|pre|] == pre
  }

  /** First index at or after `k` where `pat` occurs, or -1. */
  function IndexFrom(s: string, pat: string, k: nat): (r: int)
    ensures r == -1 || k <= r <= |s| - |pat|
    decreases |s| + 1 - k
  {
    if k + |pat| > |s| then -1
    else if s[k..k + |pat|] == pat then k
    else IndexFrom(s, pat, k + 1)
  }

  /** `IndexFrom` finds the first occurrence at or after `k`. */
  lemma {:induction false} IndexFromSpec(s: string, pat: string, k: nat)
    ensures IndexFrom(s, pat, k) != -1 ==> OccursAt(s, pat, IndexFrom(s, pat, k))
    ensures IndexFrom(s, pat, k) == -1 ==> forall j :: k <= j ==> !OccursAt(s, pat, j)
    ensures forall j :: k <= j < IndexFrom(s, pat, k) ==> !OccursAt(s, pat, j)
    decreases |s| + 1 - k
  {
    if k + |pat| <= |s| && s[k..k + |pat|] != pat {
      IndexFromSpec(s, pat, k + 1);
    }
  }

  /** `String.prototype.indexOf`. */
  function IndexOf(s: string, pat: string): int {
    IndexFrom(s, pat, 0)
  }

  /** `String.prototype.includes`. */
  predicate Contains(s: string, pat: string) {
    IndexOf(s, pat) >= 0
  }

  /** `String.prototype.replace` with a string pattern: only the first
      occurrence is replaced. */
  function ReplaceFirst(s: string, pat: string, rep: string): string {
    var i := IndexOf(s, pat);
    if i < 0 then s else s[..i] + rep + s[i + |pat|..]
  }

  /** `String.prototype.split` with a non-empty string separator. */
  function Split(s: string, sep: string): (parts: seq<string>)
    requires |sep| > 0
    ensures |parts| >= 1
    decreases |s|
  {
    var i := IndexOf(s, sep);
    if i < 0 then [s] else [s[..i]] + Split(s[i + |sep|..], sep)
  }

  /** `Array.prototype.join`. */
  function Join(parts: seq<string>, sep: string): string
    decreases |parts|
  {
    if |parts| == 0 then ""
    else if |parts| == 1 then parts[0]
    else parts[0] + sep + Join(parts[1..], sep)
  }

  /** No character of `s` is `c`. */
  predicate Lacks(s: string, c: char) {
    forall i :: 0 <= i < |s| ==> s[i] != c
  }

  lemma LacksConcat(a: string, b: string, c: char)
    requires Lacks(a, c) && Lacks(b, c)
    ensures Lacks(a + b, c)
  {
    forall i | 0 <= i < |a + b|
      ensures (a + b)[i] != c
    {
      if i < |a| { assert (a + b)[i] == a[i]; } else { assert (a + b)[i] == b[i - |a|]; }
    }
  }

  /** A pattern whose first character never appears in `s` is not found. */
  lemma {:induction false} AbsentPattern(s: string, pat: string)
    requires |pat| > 0 && Lacks(s, pat[0])
    ensures IndexOf(s, pat) == -1
    ensures ReplaceFirst(s, pat, "") == s
    ensures forall rep :: ReplaceFirst(s, pat, rep) == s
  {
    IndexFromSpec(s, pat, 0);
    forall j | 0 <= j && j + |pat| <= |s|
      ensures !OccursAt(s, pat, j)
    {
      assert s[j..j + |pat|][0] == s[j];
    }
  }

  /** When the first character of `pat` does not appear in `a`, the first
      occurrence of `pat` in `a + pat + b` is right after `a`. */
  lemma {:induction false} FoundAfterPrefix(a: string, pat: string, b: string)
    requires |pat| > 0 && Lacks(a, pat[0])
    ensures IndexOf(a + pat + b, pat) == |a|
    ensures forall rep :: ReplaceFirst(a + pat + b, pat, rep) == a + rep + b
  {
    var s := a + pat + b;
    IndexFromSpec(s, pat, 0);
    assert s[|a|..|a| + |pat|] == pat;
    assert OccursAt(s, pat, |a|);
    forall j | 0 <= j < |a|
      ensures !OccursAt(s, pat, j)
    {
      assert s[j] == a[j];
      if j + |pat| <= |s| { assert s[j..j + |pat|][0] == s[j]; }
    }
    forall rep
      ensures ReplaceFirst(s, pat, rep) == a + rep + b
    {
      assert s[..|a|] == a;
      assert s[|a| + |pat|..] == b;
    }
  }

  /** A pattern at the very start is the first occurrence. */
  lemma FoundAtStart(pat: string, b: string)
    ensures IndexOf(pat + b, pat) == 0
    ensures forall rep :: ReplaceFirst(pat + b, pat, rep) == rep + b
  {
    var s := pat + b;
    assert s[0..|pat|] == pat;
    assert s[..0] == [] && s[|pat|..] == b;
  }

  /** Splitting `a + sep + b` gives back `[a, b]` when neither part contains
      the first character of the separator. */
  lemma {:induction false} SplitTwo(a: string, sep: string, b: string)
    requires |sep| > 0 && Lacks(a, sep[0]) && Lacks(b, sep[0])
    ensures Split(a + sep + b, sep) == [a, b]
  {
    var s := a + sep + b;
    FoundAfterPrefix(a, sep, b);
    assert s[..|a|] == a;
    assert s[|a| + |sep|..] == b;
    AbsentPattern(b, sep);
  }

  // ---------------------------------------------------------------------
  // Decimal numbers

  predicate IsDigit(c: char) {
    '0' <= c <= '9'
  }

  predicate AllDigits(s: string) {
    forall i :: 0 <= i < |s| ==> IsDigit(s[i])
  }

  function DigitChar(d: nat): (c: char)
    requires d < 10
    ensures IsDigit(c)
  {
    ('0' as int + d) as char
  }

  function DigitValue(c: char): (d: nat)
    requires IsDigit(c)
    ensures d < 10
  {
    c as int - '0' as int
  }

  /** Decimal rendering of a natural number, as `String(n)` produces it. */
  function NatToString(n: nat): (s: string)
    ensures |s| >= 1 && AllDigits(s)
    ensures s[0] == '0' ==> n == 0 && |s| == 1
  {
    if n < 10 then [DigitChar(n)] else NatToString(n / 10) + [DigitChar(n % 10)]
  }

  /** `String(i)` for an integer. */
  function IntToString(i: int): string {
    if i < 0 then "-" + NatToString(-i) else NatToString(i)
  }

  /** Value of a run of decimal digits. */
  function DigitsValue(ds: string): nat
    requires AllDigits(ds)
  {
    if |ds| == 0 then 0 else DigitsValue(ds[..|ds| - 1]) * 10 + DigitValue(ds[|ds| - 1])
  }

  lemma {:induction false} DigitsValueOfNatToString(n: nat)
    ensures DigitsValue(NatToString(n)) == n
  {
    var s := NatToString(n);
    if n >= 10 {
      DigitsValueOfNatToString(n / 10);
      assert s[..|s| - 1] == NatToString(n / 10);
    }
  }

  /** Longest prefix of `s` made of decimal digits. */
  function LeadingDigits(s: string): (ds: string)
    ensures AllDigits(ds) && |ds| <= |s| && ds == s[..|ds|]
  {
    if |s| == 0 || !IsDigit(s[0]) then "" else [s[0]] + LeadingDigits(s[1..])
  }

  lemma {:induction false} LeadingDigitsOfDigits(s: string)
    requires AllDigits(s)
    ensures LeadingDigits(s) == s
  {
    if |s| > 0 {
      LeadingDigitsOfDigits(s[1..]);
    }
  }

  /** The characters `parseInt` skips before the number: the white space
      and line terminators of section 12.2 and 12.3 of ECMA-262, that is
      tab, vertical tab, form feed, the byte order mark, the Unicode space
      separators, line feed, carriage return and the two Unicode line and
      paragraph separators. */
  predicate IsSpace(c: char) {
    c == ' ' || c == '\t' || c == '\n' || c == '\r' ||
    c == '\U{000B}' || c == '\U{000C}' || c == '\U{00A0}' || c == '\U{1680}' ||
    ('\U{2000}' <= c <= '\U{200A}') || c == '\U{2028}' || c == '\U{2029}' ||
    c == '\U{202F}' || c == '\U{205F}' || c == '\U{3000}' || c == '\U{FEFF}'
  }

  function TrimStart(s: string): string {
    if |s| > 0 && IsSpace(s[0]) then TrimStart(s[1..]) else s
  }

  predicate IsHexDigit(c: char) {
    IsDigit(c) || 'a' <= c <= 'f' || 'A' <= c <= 'F'
  }

  predicate AllHexDigits(s: string) {
    forall i :: 0 <= i < |s| ==> IsHexDigit(s[i])
  }

  function HexDigitValue(c: char): (d: nat)
    requires IsHexDigit(c)
    ensures d < 16
  {
    if IsDigit(c) then DigitValue(c)
    else if 'a' <= c <= 'f' then c as int - 'a' as int + 10
    else c as int - 'A' as int + 10
  }

  /** Value of a run of hexadecimal digits. */
  function HexValue(hs: string): nat
    requires AllHexDigits(hs)
  {
    if |hs| == 0 then 0 else HexValue(hs[..|hs| - 1]) * 16 + HexDigitValue(hs[|hs| - 1])
  }

  /** Longest prefix of `s` made of hexadecimal digits. */
  function LeadingHexDigits(s: string): (hs: string)
    ensures AllHexDigits(hs) && |hs| <= |s| && hs == s[..|hs|]
  {
    if |s| == 0 || !IsHexDigit(s[0]) then "" else [s[0]] + LeadingHexDigits(s[1..])
  }

  lemma {:induction false} LeadingHexDigitsOfHexDigits(s: string)
    requires AllHexDigits(s)
    ensures LeadingHexDigits(s) == s
  {
    if |s| > 0 {
      LeadingHexDigitsOfHexDigits(s[1..]);
    }
  }

  /** The text after the sign starts with `0x` or `0X`. */
  predicate HexPrefixed(u: string) {
    |u| >= 2 && u[0] == '0' && (u[1] == 'x' || u[1] == 'X')
  }

  /** The number after the sign: after a `0x` or `0X` prefix the longest
      run of hexadecimal digits, otherwise the longest run of decimal
      digits; `None` when that run is empty. */
  function ParseMagnitude(u: string): Option<nat> {
    if HexPrefixed(u) then
      var hs := LeadingHexDigits(u[2..]);
      if |hs| == 0 then None else Some(HexValue(hs))
    else
      var ds := LeadingDigits(u);
      if |ds| == 0 then None else Some(DigitsValue(ds))
  }

  /** `parseInt(s)` with no radix, as section 19.2.5 of ECMA-262 defines
      it: leading white space is skipped, an optional sign is read, and
      the number is hexadecimal after a `0x` or `0X` prefix and decimal
      otherwise. `None` stands for NaN. */
  function ParseInt(s: string): Option<int> {
    var t := TrimStart(s);
    var signed := |t| > 0 && (t[0] == '-' || t[0] == '+');
    var u := if signed then t[1..] else t;
    match ParseMagnitude(u)
    case None => None
    case Some(v) => if signed && t[0] == '-' then Some(-(v as int)) else Some(v as int)
  }

  /** White space before the number changes nothing. */
  lemma ParseIntSkipsSpace(c: char, s: string)
    requires IsSpace(c)
    ensures ParseInt([c] + s) == ParseInt(s)
  {
    assert ([c] + s)[1..] == s;
  }

  /** Text that starts with neither white space nor a sign is read as
      its magnitude. */
  lemma ParseIntUnsigned(u: string)
    requires |u| > 0 && !IsSpace(u[0]) && u[0] != '-' && u[0] != '+'
    ensures ParseInt(u) == if ParseMagnitude(u).Some? then Some(ParseMagnitude(u).value as int) else None
  {
    assert TrimStart(u) == u;
  }

  /** Text that starts with a minus sign is read as its negated
      magnitude. */
  lemma ParseIntMinus(v: string)
    requires |v| > 0 && v[0] == '-'
    ensures ParseInt(v) == if ParseMagnitude(v[1..]).Some? then Some(0 - ParseMagnitude(v[1..]).value) else None
  {
    assert TrimStart(v) == v;
  }

  /** Hexadecimal digits after `0x` or `0X` give their value; a prefix
      with no digit after it gives NaN. */
  lemma ParseIntReadsHex(x: char, hs: string)
    requires x == 'x' || x == 'X'
    requires AllHexDigits(hs)
    ensures |hs| > 0 ==> ParseInt(['0', x] + hs) == Some(HexValue(hs))
    ensures |hs| == 0 ==> ParseInt(['0', x] + hs).None?
  {
    var u := ['0', x] + hs;
    ParseIntUnsigned(u);
    assert ParseMagnitude(u) == if |hs| == 0 then None else Some(HexValue(hs)) by {
      assert u[2..] == hs && HexPrefixed(u);
      LeadingHexDigitsOfHexDigits(hs);
    }
  }

  /** A minus sign in front of unsigned text negates what the text
      reads as, hexadecimal or decimal, and NaN stays NaN. */
  lemma ParseIntNegates(u: string)
    requires |u| > 0 && !IsSpace(u[0]) && u[0] != '-' && u[0] != '+'
    ensures ParseInt(['-'] + u) == if ParseInt(u).Some? then Some(0 - ParseInt(u).value) else None
  {
    var v := ['-'] + u;
    assert v[1..] == u;
    ParseIntUnsigned(u);
    ParseIntMinus(v);
  }

  /** `parseInt` reads back what `String(n)` wrote. */
  lemma ParseIntOfNatToString(n: nat)
    ensures ParseInt(NatToString(n)) == Some(n)
  {
    var s := NatToString(n);
    assert !IsSpace(s[0]) && s[0] != '-' && s[0] != '+';
    assert !HexPrefixed(s) by {
      if |s| >= 2 { assert IsDigit(s[1]); }
    }
    LeadingDigitsOfDigits(s);
    DigitsValueOfNatToString(n);
  }

  /** A minus sign followed by digits parses as the negated digits' value. */
  lemma ParseIntNegative(s: string)
    requires |s| > 1 && s[0] == '-' && AllDigits(s[1..])
    ensures ParseInt(s) == Some(0 - DigitsValue(s[1..]))
  {
    assert TrimStart(s) == s;
    assert !HexPrefixed(s[1..]) by {
      if |s| >= 3 { assert IsDigit(s[1..][1]); }
    }
    LeadingDigitsOfDigits(s[1..]);
  }

  /** `parseInt` reads back what `String(i)` wrote, negative numbers included. */
  lemma ParseIntOfIntToString(i: int)
    ensures ParseInt(IntToString(i)) == Some(i)
  {
    if i < 0 {
      ParseIntOfMinusNatToString(-i);
    } else {
      ParseIntOfNatToString(i);
    }
  }

  lemma ParseIntOfMinusNatToString(n: nat)
    ensures ParseInt("-" + NatToString(n)) == Some(-(n as int))
  {
    var digits := NatToString(n);
    var s := "-" + digits;
    assert s[1..] == digits;
    ParseIntNegative(s);
    DigitsValueOfNatToString(n);
  }

  /** The index a property key denotes on an array: a canonical decimal
      numeral without leading zeros. */
  function CanonicalIndex(key: string): Option<nat> {
    if |key| > 0 && AllDigits(key) && (|key| == 1 || key[0] != '0') then Some(DigitsValue(key)) else None
  }

  lemma CanonicalIndexOfNatToString(n: nat)
    ensures CanonicalIndex(NatToString(n)) == Some(n)
  {
    DigitsValueOfNatToString(n);
  }

  // ---------------------------------------------------------------------
  // Case-insensitive matching (ASCII letters)

  function LowerChar(c: char): char {
    if 'A' <= c <= 'Z' then (c as int + 32) as char else c
  }

  function ToLower(s: string): (r: string)
    ensures |r| == |s| && forall i :: 0 <= i < |s| ==> r[i] == LowerChar(s[i])
  {
    if |s| == 0 then "" else [LowerChar(s[0])] + ToLower(s[1..])
  }

  /** A case-insensitive search for `pat` inside `s`. */
  predicate ContainsIgnoreCase(s: string, pat: string) {
    Contains(ToLower(s), ToLower(pat))
  }
}

=== FILE: sub_form.dfy ===
/** The `<MySubForm>` wrapper (lib/MyForm/MySubForm.tsx): while mounted it
    registers its prefix under the enclosing form, and it gives its
    children that prefix as their subform id. A subform nested in another
    only warns; the children see the innermost prefix. */
module SubForm {
  import opened Base
  import opened FormStore
  import opened FieldNames

  /** A prefix registered under a form. */
  datatype Registration = Registration(formId: string, prefix: string)

  /** The wrapper's state: the id it gives its children and the
      registration its effect made. */
  datatype SubFormBox = SubFormBox(shown: string, registered: Registration)

  /** The registration is in the store. */
  predicate Registered(box: SubFormBox, s: Store) {
    box.registered.prefix in SubformsOf(s, box.registered.formId)
  }

  /** Mounting registers the prefix under the form. */
  function Mount(s: Store, formId: string, prefix: string): (r: (SubFormBox, Store))
    ensures r.0.shown == prefix && r.0.registered == Registration(formId, prefix)
    ensures Registered(r.0, r.1)
    ensures SubformsOf(r.1, formId) == SubformsOf(s, formId) + [prefix]
    ensures r.1.forms == s.forms && r.1.props == s.props
    ensures forall f :: f != formId ==> SubformsOf(r.1, f) == SubformsOf(s, f)
  {
    (SubFormBox(prefix, Registration(formId, prefix)), SetSubForm(s, formId, prefix))
  }

  /** Unmounting deregisters the prefix: every registration of it under
      the form goes. */
  function Unmount(box: SubFormBox, s: Store): (r: Store)
    ensures !Registered(box, r)
    ensures r.forms == s.forms && r.props == s.props
    ensures forall p :: p != box.registered.prefix ==>
      (p in SubformsOf(r, box.registered.formId) <==> p in SubformsOf(s, box.registered.formId))
  {
    DeleteSubForm(s, box.registered.formId, box.registered.prefix)
  }

  /** A change of form or prefix: the old registration is removed before
      the new one is made, and the children are given the new prefix. The
      same form and prefix change nothing. */
  function Change(box: SubFormBox, s: Store, formId: string, prefix: string): (r: (SubFormBox, Store))
    ensures box.registered == Registration(formId, prefix) ==> r == (box.(shown := prefix), s)
    ensures box.registered != Registration(formId, prefix) ==> r == Mount(Unmount(box, s), formId, prefix)
    ensures r.0.shown == prefix && r.0.registered == Registration(formId, prefix)
  {
    if box.registered == Registration(formId, prefix) then (box.(shown := prefix), s)
    else Mount(Unmount(box, s), formId, prefix)
  }

  /** Once mounted, a subform stays registered across changes, and a
      prefix it moved away from is no longer registered under that form. */
  lemma ChangeKeepsRegistration(box: SubFormBox, s: Store, formId: string, prefix: string)
    requires Registered(box, s)
    ensures Registered(Change(box, s, formId, prefix).0, Change(box, s, formId, prefix).1)
    ensures box.registered.formId == formId && box.registered.prefix != prefix ==>
      box.registered.prefix !in SubformsOf(Change(box, s, formId, prefix).1, formId)
  {
  }

  /** A prefix new to a form is registered and deregistered without a
      trace. */
  lemma MountThenUnmountRestores(s: Store, formId: string, prefix: string)
    requires formId in s.subforms && prefix !in s.subforms[formId]
    ensures Unmount(Mount(s, formId, prefix).0, Mount(s, formId, prefix).1) == s
  {
    SubFormRegisterThenDelete(s, formId, prefix);
  }

  /** Two sibling subforms with one prefix: unmounting either removes the
      other's registration too. */
  lemma TwinUnmountDropsBoth(s: Store, formId: string, prefix: string)
    ensures var first := Mount(s, formId, prefix);
      var second := Mount(first.1, formId, prefix);
      !Registered(first.0, Unmount(second.0, second.1))
  {
  }

  /** The subform id an input reads: the value of the innermost enclosing
      wrapper, or the context's default `undefined` outside every wrapper,
      written here as the empty id because every input tests it for
      truthiness only. `stack` lists the enclosing wrappers from the
      outermost in. Outside any wrapper, and inside one whose prefix is
      empty, every input keeps its plain name. */
  function ChildSubFormId(stack: seq<SubFormBox>): (id: string)
    ensures |stack| == 0 ==> id == ""
    ensures |stack| > 0 ==> id == stack[|stack| - 1].shown
    ensures id == "" ==> forall j: Joiner, name: string :: FieldName(j, id, name) == name
  {
    if |stack| == 0 then "" else stack[|stack| - 1].shown
  }

  /** Inside nested subforms a field is named under the innermost prefix
      only: whatever wrappers enclose the innermost one play no part. */
  lemma NestedFieldUsesInnermost(outer: seq<SubFormBox>, box: SubFormBox, j: Joiner, name: string)
    ensures FieldName(j, ChildSubFormId(outer + [box]), name) == FieldName(j, ChildSubFormId([box]), name)
    ensures box.shown != "" && j != Raw ==>
      FieldName(j, ChildSubFormId(outer + [box]), name) == box.shown + JoinerText(j) + name
  {
    assert (outer + [box])[|outer + [box]| - 1] == box;
  }
}

=== FILE: utils.dfy ===
/** The library's general helpers (lib/MyForm/utils.ts): class-name joining,
    the debounce wrapper, structural equality and dotted-path lookup. */
module Utils {
  import opened Base
  import opened Strings
  import opened JsValues

  // =====================================================================
  // clsx

  /** An argument of `clsx`. Record values are `true`, `false`, `null` or
      `undefined`; `None` stands for the last two. */
  datatype ClassArg =
    | CStr(s: string)
    | CNum(n: int)
    | CBool(b: bool)
    | CNull
    | CUndefined
    | CDict(entries: seq<(string, Option<bool>)>)
    | CArr(items: seq<ClassArg>)

  predicate ArgTruthy(a: ClassArg) {
    match a
    case CStr(s) => s != ""
    case CNum(n) => n != 0
    case CBool(b) => b
    case CNull => false
    case CUndefined => false
    case _ => true
  }

  /** Keys of a class record whose value is `true`, in order. */
  function DictKeys(entries: seq<(string, Option<bool>)>): (ks: seq<string>)
    ensures forall k :: k in ks <==> exists i :: 0 <= i < |entries| && entries[i].0 == k && entries[i].1 == Some(true)
  {
    if |entries| == 0 then []
    else (if entries[0].1 == Some(true) then [entries[0].0] else []) + DictKeys(entries[1..])
  }

  /** The pieces `clsx` pushes for its arguments, in order. */
  function Pieces(args: seq<ClassArg>): seq<string>
    decreases args
  {
    if |args| == 0 then []
    else
      var a := args[0];
      var here :=
        if !ArgTruthy(a) then []
        else match a
          case CStr(s) => [s]
          case CNum(n) => [IntToString(n)]
          case CArr(xs) => var inner := Join(Pieces(xs), " "); if inner != "" then [inner] else []
          case CDict(es) => DictKeys(es)
          case _ => [];
      here + Pieces(args[1..])
  }

  /** `clsx(...args)`. */
  function Clsx(args: seq<ClassArg>): string {
    Join(Pieces(args), " ")
  }

  /** Every class name a (possibly nested) argument list mentions, flattened
      in argument order: the reference reading of `clsx`. */
  function Tokens(args: seq<ClassArg>): seq<string>
    decreases args
  {
    if |args| == 0 then []
    else
      var a := args[0];
      var here :=
        if !ArgTruthy(a) then []
        else match a
          case CStr(s) => [s]
          case CNum(n) => [IntToString(n)]
          case CArr(xs) => Tokens(xs)
          case CDict(es) => DictKeys(es)
          case _ => [];
      here + Tokens(args[1..])
  }

  /** Record keys that would be pushed are non-empty, throughout. */
  predicate NoEmptyKeys(args: seq<ClassArg>)
    decreases args
  {
    |args| == 0 ||
    ((match args[0]
      case CDict(es) => forall i :: 0 <= i < |es| ==> es[i].0 != ""
      case CArr(xs) => NoEmptyKeys(xs)
      case _ => true)
     && NoEmptyKeys(args[1..]))
  }

  /** Two class strings joined as `join(' ')` would join their pieces. */
  function Combine(x: string, y: string): string {
    if x == "" then y else if y == "" then x else x + " " + y
  }

  predicate NonEmptyStrings(a: seq<string>) {
    forall i :: 0 <= i < |a| ==> a[i] != ""
  }

  lemma {:induction false} JoinNonEmpty(a: seq<string>)
    requires NonEmptyStrings(a)
    ensures Join(a, " ") == "" <==> |a| == 0
  {
    if |a| > 1 {
      assert |Join(a, " ")| >= |a[0]| > 0;
    }
  }

  /** Joining a concatenation joins the two joins, unless one is empty. */
  lemma {:induction false} JoinConcat(a: seq<string>, b: seq<string>)
    requires NonEmptyStrings(a) && NonEmptyStrings(b)
    ensures Join(a + b, " ") == Combine(Join(a, " "), Join(b, " "))
  {
    JoinNonEmpty(a);
    JoinNonEmpty(b);
    if |a| == 0 {
      assert a + b == b;
    } else if |b| == 0 {
      assert a + b == a;
    } else if |a| == 1 {
      assert (a + b)[1..] == b;
    } else {
      assert (a + b)[1..] == a[1..] + b;
      JoinConcat(a[1..], b);
      JoinNonEmpty(a[1..]);
    }
  }

  lemma IntToStringNonEmpty(n: int)
    ensures IntToString(n) != ""
  {
  }

  lemma NonEmptyConcat(a: seq<string>, b: seq<string>)
    requires NonEmptyStrings(a) && NonEmptyStrings(b)
    ensures NonEmptyStrings(a + b)
  {
    forall i | 0 <= i < |a + b|
      ensures (a + b)[i] != ""
    {
      if i < |a| { assert (a + b)[i] == a[i]; } else { assert (a + b)[i] == b[i - |a|]; }
    }
  }

  lemma DictKeysNonEmpty(es: seq<(string, Option<bool>)>)
    requires forall i :: 0 <= i < |es| ==> es[i].0 != ""
    ensures NonEmptyStrings(DictKeys(es))
  {
    var ks := DictKeys(es);
    forall i | 0 <= i < |ks|
      ensures ks[i] != ""
    {
      assert ks[i] in ks;
    }
  }

  /** The pieces and the tokens of a well-formed argument list are all
      non-empty strings. */
  lemma {:induction false} PiecesNonEmpty(args: seq<ClassArg>)
    requires NoEmptyKeys(args)
    ensures NonEmptyStrings(Pieces(args)) && NonEmptyStrings(Tokens(args))
    decreases args
  {
    if |args| > 0 {
      var a := args[0];
      PiecesNonEmpty(args[1..]);
      var hereT: seq<string> :=
        if !ArgTruthy(a) then []
        else match a
          case CStr(s) => [s]
          case CNum(n) => [IntToString(n)]
          case CArr(xs) => Tokens(xs)
          case CDict(es) => DictKeys(es)
          case _ => [];
      var hereP: seq<string> :=
        if !ArgTruthy(a) then []
        else match a
          case CStr(s) => [s]
          case CNum(n) => [IntToString(n)]
          case CArr(xs) => var inner := Join(Pieces(xs), " "); if inner != "" then [inner] else []
          case CDict(es) => DictKeys(es)
          case _ => [];
      assert Pieces(args) == hereP + Pieces(args[1..]);
      assert Tokens(args) == hereT + Tokens(args[1..]);
      assert NonEmptyStrings(hereP) && NonEmptyStrings(hereT) by {
        if ArgTruthy(a) {
          match a
          case CArr(xs) => PiecesNonEmpty(xs);
          case CNum(n) => IntToStringNonEmpty(n);
          case CDict(es) => DictKeysNonEmpty(es);
          case _ =>
        }
      }
      NonEmptyConcat(hereP, Pieces(args[1..]));
      NonEmptyConcat(hereT, Tokens(args[1..]));
    }
  }

  /** `clsx` skips falsy arguments, keeps strings and numbers and the record
      keys whose values are true, flattens arrays, and separates the class
      names with single spaces in argument order. */
  lemma {:induction false} ClsxJoinsTokens(args: seq<ClassArg>)
    requires NoEmptyKeys(args)
    ensures Clsx(args) == Join(Tokens(args), " ")
    decreases args
  {
    if |args| > 0 {
      var a := args[0];
      ClsxJoinsTokens(args[1..]);
      PiecesNonEmpty(args);
      PiecesNonEmpty(args[1..]);
      var hereT: seq<string> :=
        if !ArgTruthy(a) then []
        else match a
          case CStr(s) => [s]
          case CNum(n) => [IntToString(n)]
          case CArr(xs) => Tokens(xs)
          case CDict(es) => DictKeys(es)
          case _ => [];
      var hereP: seq<string> :=
        if !ArgTruthy(a) then []
        else match a
          case CStr(s) => [s]
          case CNum(n) => [IntToString(n)]
          case CArr(xs) => var inner := Join(Pieces(xs), " "); if inner != "" then [inner] else []
          case CDict(es) => DictKeys(es)
          case _ => [];
      assert Pieces(args) == hereP + Pieces(args[1..]);
      assert Tokens(args) == hereT + Tokens(args[1..]);
      assert NonEmptyStrings(hereP) && NonEmptyStrings(hereT) by {
        assert forall i :: 0 <= i < |hereP| ==> hereP[i] == Pieces(args)[i];
        assert forall i :: 0 <= i < |hereT| ==> hereT[i] == Tokens(args)[i];
      }
      assert Join(hereP, " ") == Join(hereT, " ") by {
        if ArgTruthy(a) && a.CArr? {
          ClsxJoinsTokens(a.items);
        }
      }
      JoinConcat(hereP, Pieces(args[1..]));
      JoinConcat(hereT, Tokens(args[1..]));
    }
  }

  // =====================================================================
  // debounce

  /** A debounced callback: the delay it was built with and the arguments
      of the call its timer would run, if one is pending. */
  datatype Debouncer<A> = Debouncer(wait: int, pending: Option<A>)

  function NewDebouncer<A>(wait: int): Debouncer<A> {
    Debouncer(wait, None)
  }

  /** Calling the debounced function: with a non-positive delay the callback
      runs at once (the returned sequence lists the callback invocations);
      otherwise the pending call is replaced by this one. */
  function Call<A>(d: Debouncer<A>, args: A): (r: (Debouncer<A>, seq<A>))
    ensures d.wait <= 0 ==> r.0 == d && r.1 == [args]
    ensures d.wait > 0 ==> r.0 == Debouncer(d.wait, Some(args)) && r.1 == []
  {
    if d.wait <= 0 then (d, [args]) else (Debouncer(d.wait, Some(args)), [])
  }

  /** `cancel`: the pending call, if any, is dropped. */
  function Cancel<A>(d: Debouncer<A>): (r: Debouncer<A>)
    ensures r.pending.None? && r.wait == d.wait
  {
    Debouncer(d.wait, None)
  }

  /** `immediate`: the callback runs now; a pending call stays pending. */
  function Immediate<A>(d: Debouncer<A>, args: A): (r: (Debouncer<A>, seq<A>))
    ensures r.0 == d && r.1 == [args]
  {
    (d, [args])
  }

  /** The timer fires: the pending call runs and the slot empties. */
  function Elapse<A>(d: Debouncer<A>): (r: (Debouncer<A>, seq<A>))
    ensures r.0.pending.None? && r.0.wait == d.wait
    ensures r.1 == (if d.pending.Some? then [d.pending.value] else [])
  {
    match d.pending
    case Some(a) => (Debouncer(d.wait, None), [a])
    case None => (d, [])
  }

  /** Things that can happen to a debounced function. */
  datatype DebounceEvent<A> = CallEv(args: A) | CancelEv | ImmediateEv(args: A) | ElapseEv

  /** One event, and the callback invocations it causes. */
  function Step<A>(d: Debouncer<A>, ev: DebounceEvent<A>): (Debouncer<A>, seq<A>) {
    match ev
    case CallEv(a) => Call(d, a)
    case CancelEv => (Cancel(d), [])
    case ImmediateEv(a) => Immediate(d, a)
    case ElapseEv => Elapse(d)
  }

  /** Runs a sequence of events, collecting the callback invocations. */
  function Run<A>(d: Debouncer<A>, evs: seq<DebounceEvent<A>>): (Debouncer<A>, seq<A>)
    decreases |evs|
  {
    if |evs| == 0 then (d, [])
    else
      var step := Step(d, evs[0]);
      var rest := Run(step.0, evs[1..]);
      (rest.0, step.1 + rest.1)
  }

  /** The arguments of every call and immediate invocation, in order. */
  function Invoked<A>(evs: seq<DebounceEvent<A>>): seq<A> {
    if |evs| == 0 then []
    else (match evs[0]
          case CallEv(a) => [a]
          case ImmediateEv(a) => [a]
          case _ => []) + Invoked(evs[1..])
  }

  /** With a non-positive delay the callback runs synchronously on every call,
      and no call is ever left pending. */
  lemma {:induction false} NonPositiveWaitIsSynchronous<A>(d: Debouncer<A>, evs: seq<DebounceEvent<A>>)
    requires d.wait <= 0 && d.pending.None?
    ensures Run(d, evs).0.pending.None?
    ensures Run(d, evs).1 == Invoked(evs)
    decreases |evs|
  {
    if |evs| > 0 {
      NonPositiveWaitIsSynchronous(d, evs[1..]);
    }
  }

  /** Only the calls, no timer yet. */
  predicate OnlyCalls<A>(evs: seq<DebounceEvent<A>>) {
    forall i :: 0 <= i < |evs| ==> evs[i].CallEv?
  }

  /** With a positive delay, a burst of calls invokes nothing and leaves the
      last call's arguments pending; when the timer then fires, exactly that
      one call runs. */
  lemma {:induction false} BurstRunsLastCall<A>(d: Debouncer<A>, evs: seq<DebounceEvent<A>>)
    requires d.wait > 0 && |evs| > 0 && OnlyCalls(evs)
    ensures Run(d, evs).1 == []
    ensures Run(d, evs).0 == Debouncer(d.wait, Some(evs[|evs| - 1].args))
    ensures Run(d, evs + [ElapseEv]) == (Debouncer(d.wait, None), [evs[|evs| - 1].args])
    decreases |evs|
  {
    var d1 := Debouncer(d.wait, Some(evs[0].args));
    var e := evs + [ElapseEv];
    assert e[1..] == evs[1..] + [ElapseEv];
    assert e[0] == evs[0];
    assert Step(d, evs[0]) == (d1, []);
    if |evs| > 1 {
      assert evs[1..][|evs| - 2] == evs[|evs| - 1];
      assert OnlyCalls(evs[1..]);
      BurstRunsLastCall(d1, evs[1..]);
      var tail := Run(d1, e[1..]);
      assert [] + tail.1 == tail.1;
    } else {
      var last: seq<DebounceEvent<A>> := [ElapseEv];
      assert e[1..] == last;
      assert last[1..] == [];
      assert Step(d1, ElapseEv) == (Debouncer(d.wait, None), [evs[0].args]);
      assert Run(Debouncer(d.wait, None), last[1..]) == (Debouncer(d.wait, None), []);
      assert [evs[0].args] + [] == [evs[0].args];
      assert Run(d1, last) == (Debouncer(d.wait, None), [evs[0].args]);
      assert Run(d, e) == (Run(d1, e[1..]).0, [] + Run(d1, e[1..]).1);
      assert [] + [evs[0].args] == [evs[0].args];
    }
  }

  // =====================================================================
  // isEqual

  /** `isEqual(a, b)` on acyclic values whose object operands are all
      distinct references. */
  function IsEqual(a: Value, b: Value): (r: bool)
    ensures ObjectIs(a, b) ==> r
    ensures !IsObject(a) || !IsObject(b) ==> (r <==> ObjectIs(a, b))
    ensures CtorOf(a) != CtorOf(b) ==> !r
    decreases a
  {
    if ObjectIs(a, b) then true
    else if !IsObject(a) || !IsObject(b) then false
    else if CtorOf(a) != CtorOf(b) then false
    else match a
      case Arr(xs) =>
        |xs| == |b.elems| && forall i :: 0 <= i < |xs| ==> IsEqual(xs[i], b.elems[i])
      case DateObj(d) =>
        d.DateAt? && b.date.DateAt? && d == b.date
      case Obj(ms) =>
        |ms| == |b.members| &&
        forall i :: 0 <= i < |ms| ==> HasKey(b.members, ms[i].key) && IsEqual(ms[i].val, Lookup(b.members, ms[i].key))
      case _ => false
  }

  /** `isEqual(a, b)` where the caller knows whether `a` and `b` are the same
      reference: the first `Object.is` test succeeds for one reference. */
  function IsEqualRef(a: Value, b: Value, sameRef: bool): (r: bool)
    requires sameRef ==> a == b
    ensures sameRef ==> r
    ensures !sameRef ==> r == IsEqual(a, b)
  {
    sameRef || IsEqual(a, b)
  }

  /** Arrays are equal iff they have the same length and are pairwise equal. */
  lemma IsEqualArrays(xs: seq<Value>, ys: seq<Value>)
    ensures IsEqual(Arr(xs), Arr(ys)) <==> |xs| == |ys| && forall i :: 0 <= i < |xs| ==> IsEqual(xs[i], ys[i])
  {
  }

  /** Dates are equal iff their timestamps are equal; an Invalid Date (NaN)
      equals nothing, not even another Invalid Date. */
  lemma IsEqualDates(d1: JsDate, d2: JsDate)
    ensures IsEqual(DateObj(d1), DateObj(d2)) <==> d1.DateAt? && d1 == d2
  {
  }

  /** Records are equal iff they have as many keys, every key of the first is
      a key of the second, and the values under each key are equal. */
  lemma IsEqualRecords(ma: seq<Member>, mb: seq<Member>)
    requires DistinctKeys(ma)
    ensures IsEqual(Obj(ma), Obj(mb)) <==>
      |ma| == |mb| && forall i :: 0 <= i < |ma| ==>
        HasKey(mb, ma[i].key) && IsEqual(Prop(Obj(ma), ma[i].key), Prop(Obj(mb), ma[i].key))
  {
    forall i | 0 <= i < |ma|
      ensures Prop(Obj(ma), ma[i].key) == ma[i].val
    {
      LookupDistinct(ma, i);
    }
  }

  /** Whether a value contains an Invalid Date anywhere. */
  predicate HasInvalidDate(v: Value)
    decreases v
  {
    match v
    case DateObj(d) => d.InvalidDate?
    case Arr(xs) => exists i :: 0 <= i < |xs| && HasInvalidDate(xs[i])
    case Obj(ms) => exists i :: 0 <= i < |ms| && HasInvalidDate(ms[i].val)
    case _ => false
  }

  /** Records with distinct keys, throughout. */
  predicate WellFormed(v: Value)
    decreases v
  {
    match v
    case Arr(xs) => forall i :: 0 <= i < |xs| ==> WellFormed(xs[i])
    case Obj(ms) => DistinctKeys(ms) && forall i :: 0 <= i < |ms| ==> WellFormed(ms[i].val)
    case _ => true
  }

  lemma {:induction false} LookupDistinct(ms: seq<Member>, i: int)
    requires DistinctKeys(ms) && 0 <= i < |ms|
    ensures Lookup(ms, ms[i].key) == ms[i].val
    ensures HasKey(ms, ms[i].key)
  {
    if i > 0 {
      assert ms[0].key != ms[i].key;
      LookupDistinct(ms[1..], i - 1);
    }
  }

  /** A value is equal to a structural copy of itself, as long as it holds
      no Invalid Date (whose NaN timestamp differs from every timestamp). */
  lemma {:induction false} IsEqualReflexive(a: Value)
    requires WellFormed(a) && !HasInvalidDate(a)
    ensures IsEqual(a, a)
    decreases a
  {
    match a
    case Arr(xs) =>
      forall i | 0 <= i < |xs|
        ensures IsEqual(xs[i], xs[i])
      {
        IsEqualReflexive(xs[i]);
      }
    case Obj(ms) =>
      forall i | 0 <= i < |ms|
        ensures HasKey(ms, ms[i].key) && IsEqual(ms[i].val, Lookup(ms, ms[i].key))
      {
        LookupDistinct(ms, i);
        IsEqualReflexive(ms[i].val);
      }
    case _ =>
  }

  function KeySet(ms: seq<Member>): (ks: set<string>)
    ensures forall k :: k in ks <==> HasKey(ms, k)
  {
    if |ms| == 0 then {}
    else
      var rest := KeySet(ms[1..]);
      assert forall k :: HasKey(ms, k) <==> k == ms[0].key || HasKey(ms[1..], k) by {
        forall k | HasKey(ms, k)
          ensures k == ms[0].key || HasKey(ms[1..], k)
        {
          var i :| 0 <= i < |ms| && ms[i].key == k;
          if i > 0 { assert ms[1..][i - 1].key == k; }
        }
        forall k | HasKey(ms[1..], k)
          ensures HasKey(ms, k)
        {
          var i :| 0 <= i < |ms[1..]| && ms[1..][i].key == k;
          assert ms[i + 1].key == k;
        }
      }
      {ms[0].key} + rest
  }

  lemma {:induction false} KeySetSize(ms: seq<Member>)
    requires DistinctKeys(ms)
    ensures |KeySet(ms)| == |ms|
  {
    if |ms| > 0 {
      KeySetSize(ms[1..]);
      assert ms[0].key !in KeySet(ms[1..]) by {
        assert forall i :: 0 <= i < |ms[1..]| ==> ms[1..][i].key == ms[i + 1].key != ms[0].key;
      }
    }
  }

  lemma {:induction false} SubsetSize<T>(a: set<T>, b: set<T>)
    requires a <= b
    ensures |a| <= |b|
    decreases a
  {
    if a != {} {
      var x :| x in a;
      SubsetSize(a - {x}, b - {x});
    }
  }

  lemma SubsetSameSize<T>(a: set<T>, b: set<T>)
    requires a <= b && |a| == |b|
    ensures a == b
  {
    if a != b {
      var x :| x in b && x !in a;
      SubsetSize(a, b - {x});
      assert false;
    }
  }

  /** Structural equality is symmetric on well-formed values. */
  lemma {:induction false} IsEqualSymmetric(a: Value, b: Value)
    requires WellFormed(a) && WellFormed(b) && IsEqual(a, b)
    ensures IsEqual(b, a)
    decreases a, 1
  {
    if ObjectIs(a, b) {
    } else {
      match a
      case Arr(_) => ArraysSymmetric(a, b);
      case DateObj(_) =>
      case Obj(_) => RecordsSymmetric(a, b);
    }
  }

  lemma {:induction false} ArraysSymmetric(a: Value, b: Value)
    requires a.Arr? && WellFormed(a) && WellFormed(b) && IsEqual(a, b) && !ObjectIs(a, b)
    ensures IsEqual(b, a)
    decreases a, 0
  {
    var xs := a.elems;
    var ys := b.elems;
    forall i | 0 <= i < |ys|
      ensures IsEqual(ys[i], xs[i])
    {
      IsEqualSymmetric(xs[i], ys[i]);
    }
  }

  lemma {:induction false} RecordsSymmetric(a: Value, b: Value)
    requires a.Obj? && WellFormed(a) && WellFormed(b) && IsEqual(a, b) && !ObjectIs(a, b)
    ensures IsEqual(b, a)
    decreases a, 0
  {
    var ma := a.members;
    var mb := b.members;
    KeySetSize(ma);
    KeySetSize(mb);
    assert KeySet(ma) <= KeySet(mb) by {
      forall k | k in KeySet(ma) ensures k in KeySet(mb) {
        var i :| 0 <= i < |ma| && ma[i].key == k;
      }
    }
    SubsetSameSize(KeySet(ma), KeySet(mb));
    forall j | 0 <= j < |mb|
      ensures HasKey(ma, mb[j].key) && IsEqual(mb[j].val, Lookup(ma, mb[j].key))
    {
      var k := mb[j].key;
      assert k in KeySet(mb);
      var i :| 0 <= i < |ma| && ma[i].key == k;
      LookupDistinct(ma, i);
      LookupDistinct(mb, j);
      assert IsEqual(ma[i].val, Lookup(mb, ma[i].key));
      IsEqualSymmetric(ma[i].val, mb[j].val);
    }
  }

  // =====================================================================
  // get

  /** The text before the first `.` of a path. */
  function FirstSegment(path: string): (seg: string)
    ensures |seg| <= |path| && seg == path[..|seg|]
    ensures seg == Split(path, ".")[0]
  {
    var i := IndexOf(path, ".");
    if i < 0 then path else path[..i]
  }

  /** The property key a path segment selects: when `parseInt` without a
      radix reads a number from the segment (decimal, or hexadecimal after
      `0x` or `0X`), the key is that number's decimal string; otherwise it
      is the segment itself. */
  function SegmentKey(seg: string): string {
    match ParseInt(seg)
    case Some(n) => IntToString(n)
    case None => seg
  }

  /** A decimal numeral names itself, and a `0x` or `0X` numeral names
      the decimal string of its value, because `parseInt` without a radix
      reads it as hexadecimal. */
  lemma SegmentKeyReadsNumbers(n: nat, x: char, hs: string)
    requires x == 'x' || x == 'X'
    requires AllHexDigits(hs) && |hs| > 0
    ensures SegmentKey(NatToString(n)) == NatToString(n)
    ensures SegmentKey(['0', x] + hs) == NatToString(HexValue(hs))
  {
    ParseIntOfNatToString(n);
    ParseIntReadsHex(x, hs);
  }

  /** A segment that starts with neither white space, a sign nor a digit
      is used as the key unchanged. */
  lemma SegmentKeyOfName(seg: string)
    requires |seg| > 0 && !IsSpace(seg[0]) && !IsDigit(seg[0]) && seg[0] != '-' && seg[0] != '+'
    ensures SegmentKey(seg) == seg
  {
    ParseIntUnsigned(seg);
  }

  /** The loop of `get`: follow segments while the current value is truthy
      and the path is not used up. */
  function Walk(obj: Value, path: string): Value
    decreases |path|
  {
    if !Truthy(obj) || path == "" then obj
    else
      var seg := FirstSegment(path);
      var rest := if |seg| + 1 <= |path| then path[|seg| + 1..] else "";
      Walk(Prop(obj, SegmentKey(seg)), rest)
  }

  /** `get(obj, path)`. */
  function Get(obj: Value, path: string): (r: Value)
    ensures IsNullish(obj) || path == "" ==> r == Undefined
  {
    if IsNullish(obj) || path == "" then Undefined else Walk(obj, path)
  }

  /** Lookup stops at the first falsy value and returns it. */
  lemma WalkStopsAtFalsy(v: Value, path: string)
    requires !Truthy(v)
    ensures Walk(v, path) == v
  {
  }

  lemma DotAbsent(seg: string)
    requires Lacks(seg, '.')
    ensures FirstSegment(seg) == seg
  {
    AbsentPattern(seg, ".");
  }

  /** A path `seg.rest` reads property `seg` of a truthy value, then follows
      `rest` from there; a single segment reads just that property. */
  lemma WalkSegment(obj: Value, seg: string, rest: string)
    requires Truthy(obj) && Lacks(seg, '.')
    ensures Walk(obj, seg + "." + rest) == Walk(Prop(obj, SegmentKey(seg)), rest)
    ensures seg != "" ==> Walk(obj, seg) == Prop(obj, SegmentKey(seg))
  {
    var path := seg + "." + rest;
    FoundAfterPrefix(seg, ".", rest);
    assert FirstSegment(path) == seg by {
      assert path[..|seg|] == seg;
    }
    assert path[|seg| + 1..] == rest;
    if seg != "" {
      DotAbsent(seg);
      assert seg[|seg|..] == "";
    }
  }

  /** On the record `{"0": "b", "1": "a"}`, the path `0x1` reads the
      member `1`, so `get` gives "a". */
  lemma HexSegmentReadsIndex()
    ensures Get(Obj([Member("0", Str("b")), Member("1", Str("a"))]), "0x1") == Str("a")
  {
    var obj := Obj([Member("0", Str("b")), Member("1", Str("a"))]);
    assert "0x1" == ['0', 'x'] + "1";
    SegmentKeyReadsNumbers(0, 'x', "1");
    assert HexValue("1") == 1;
    assert NatToString(1) == "1";
    assert Lacks("0x1", '.');
    WalkSegment(obj, "0x1", "");
  }

  /** `get` on a two-segment path: the first property, then the second one
      unless the first was falsy. */
  lemma GetTwoSegments(obj: Value, s1: string, s2: string)
    requires !IsNullish(obj) && Lacks(s1, '.') && Lacks(s2, '.') && s2 != ""
    ensures Get(obj, s1 + "." + s2) ==
      (if !Truthy(obj) then obj
       else
         var v := Prop(obj, SegmentKey(s1));
         if Truthy(v) then Prop(v, SegmentKey(s2)) else v)
  {
    if Truthy(obj) {
      WalkSegment(obj, s1, s2);
      var v := Prop(obj, SegmentKey(s1));
      if Truthy(v) {
        WalkSegment(v, s2, "");
      }
    }
  }

  // =====================================================================
  // Looking members up by deep equality

  /** `o => isEqual(o, v)`: the members deeply equal to `v`. */
  function EqualTo(v: Value): Value -> bool {
    (o: Value) => IsEqual(o, v)
  }

  /** `o => isEqual(v, o)`, the argument order the reconciliation uses. */
  function EqualFrom(v: Value): Value -> bool {
    (o: Value) => IsEqual(v, o)
  }

  /** The first member satisfying `p` is not undefined when a member
      satisfies it and none is undefined. */
  lemma {:induction false} FoundDefined(xs: seq<Value>, p: Value -> bool, i: int)
    requires 0 <= i < |xs| && p(xs[i])
    requires forall j :: 0 <= j < |xs| ==> !xs[j].Undefined?
    ensures Find(xs, p) != Undefined && Find(xs, p) in xs
  {
    FindAgreesWithFindIndex(xs, p);
  }

  /** `i` is the first index whose member is deeply equal to `v`. */
  predicate FirstEqual(xs: seq<Value>, v: Value, i: int) {
    0 <= i < |xs| && IsEqual(xs[i], v) && forall j :: 0 <= j < i ==> !IsEqual(xs[j], v)
  }

  /** `findIndex(o => isEqual(o, v))` finds the first deeply equal member,
      and -1 exactly when there is none. */
  lemma FindIndexIsFirstEqual(xs: seq<Value>, v: Value)
    ensures var i := FindIndex(xs, EqualTo(v));
      (i >= 0 ==> FirstEqual(xs, v, i)) &&
      (i < 0 <==> forall j :: 0 <= j < |xs| ==> !IsEqual(xs[j], v)) &&
      forall i' :: FirstEqual(xs, v, i') ==> i' == i
  {
    var i := FindIndex(xs, EqualTo(v));
    assert forall j :: 0 <= j < |xs| ==> (EqualTo(v)(xs[j]) <==> IsEqual(xs[j], v));
    forall i' | FirstEqual(xs, v, i') ensures i' == i {
      assert EqualTo(v)(xs[i']);
      if 0 <= i < i' {
        assert false;
      }
    }
  }
}

=== FILE: widgets.dfy ===
/** The single-value widgets built on the general input binding
    (lib/MyForm/components/My*Input.tsx): the parser, printer, conversion,
    comparison and partial-input test each one hands to the binding, and
    the defaults it fills in. */
module Widgets {
  import opened Base
  import opened Strings
  import opened JsValues
  import opened DateUtils
  import opened FormStore
  import opened GeneralInput

  /** The props every widget forwards to the binding. `defaultValue` is
      undefined and `inputDelay` is `None` when left out. */
  datatype Common = Common(
    defaultValue: Value,
    required: bool,
    persistOnUnmount: bool,
    validator: Option<Value -> VResult>,
    validateImmediately: bool,
    inputDelay: Option<int>,
    disabled: bool)

  /** What the binding receives before a widget fills in its own pieces:
      the hook's own defaults (empty sentinel `''`, delay 0). */
  function FromCommon(p: Common): Config {
    Config("", p.defaultValue, Some(p.required), p.persistOnUnmount,
      (t: string) => Str(t), (v: Value) => Text(v), (v: Value) => v, StrictEquals,
      p.validator, None, p.validateImmediately, p.inputDelay.GetOr(0), p.disabled)
  }

  /** `${v}` for the primitive values a widget interpolates. */
  function Text(v: Value): string {
    match v
    case Undefined => "undefined"
    case Null => "null"
    case Bool(b) => if b then "true" else "false"
    case Num(n) => IntToString(n)
    case NaN => "NaN"
    case Str(s) => s
    case _ => "[object Object]"
  }

  /** `parseInt` as a value: NaN when nothing parses. */
  function ParseNum(t: string): Value {
    match ParseInt(t)
    case Some(n) => Num(n)
    case None => NaN
  }

  lemma ParseNumOfIntToString(n: int)
    ensures ParseNum(IntToString(n)) == Num(n)
  {
    ParseIntOfIntToString(n);
  }

  /** The decimal text of an integer has no character other than digits
      and a leading minus. */
  lemma IntToStringLacks(n: int, c: char)
    requires !IsDigit(c) && (c != '-' || n >= 0)
    ensures Lacks(IntToString(n), c)
  {
    if n < 0 {
      var s := IntToString(n);
      assert s == "-" + NatToString(-n);
      forall i | 0 <= i < |s| ensures s[i] != c {
        if i > 0 { assert s[i] == NatToString(-n)[i - 1]; }
      }
    }
  }

  // ---------------------------------------------------------------------
  // Text, password and text area

  /** `v ?? ''`, printed. */
  function StringToString(v: Value): string {
    if IsNullish(v) then "" else Text(v)
  }

  /** `v ?? ''`. */
  function StringToInternal(v: Value): Value {
    if IsNullish(v) then Str("") else v
  }

  /** The configuration the text, password and text-area inputs share: the
      typed text is the value, an absent value reads as `''`, values compare
      with `===`, and the default is `''`. */
  function StringConfig(p: Common): (c: Config)
    ensures c.emptyValue == "" && c.isPartial.None? && c.validator == p.validator
    ensures p.defaultValue.Undefined? ==> c.defaultValue == Str("")
    ensures !p.defaultValue.Undefined? ==> c.defaultValue == p.defaultValue
  {
    FromCommon(p).(
      defaultValue := if p.defaultValue.Undefined? then Str("") else p.defaultValue,
      toString := StringToString, toInternal := StringToInternal)
  }

  /** Parsing then printing gives back the typed text, and printing then
      parsing gives back a stored string. */
  lemma StringRoundTrip(p: Common, t: string)
    ensures StringConfig(p).toString(StringConfig(p).parser(t)) == t
    ensures StringConfig(p).parser(StringConfig(p).toString(Str(t))) == Str(t)
  {
  }

  /** A cleared field compares equal to empty text: no reconciliation. */
  lemma ClearedFieldMatchesEmptyText(p: Common, b: Binding, s: Store, at: Slot)
    requires IsNullish(FieldValue(s, at)) && b.mirror == Str("")
    ensures Reconcile(StringConfig(p), b, s, at) == (b, s)
  {
  }

  /** Mounting over an absent field commits the default, `''` when none was
      given; the element shows it. */
  lemma StringMountSeedsDefault(p: Common, s: Store, at: Slot)
    requires at.formId != "" && at.name != ""
    requires IsNullish(FieldValue(s, at))
    requires p.defaultValue.Undefined? || p.defaultValue.Str?
    ensures var c := StringConfig(p);
      var r := Mount(c, Fresh(c, ""), s, at);
      FieldValue(r.1, at) == c.defaultValue &&
      r.0.display == (if p.defaultValue.Str? then p.defaultValue.s else "")
  {
    var c := StringConfig(p);
    var r1 := Reconcile(c, Fresh(c, ""), s, at);
    assert r1.0.display == "";
  }

  /** A stored string reconciles once and then stays put. */
  lemma StringReconcileSettles(p: Common, b: Binding, s: Store, at: Slot)
    requires at.formId != "" && at.name != ""
    requires FieldValue(s, at).Str? || IsNullish(FieldValue(s, at))
    ensures var c := StringConfig(p);
      var r := Reconcile(c, b, s, at);
      Reconcile(c, r.0, r.1, at) == r
  {
    ReconcileSettles(StringConfig(p), b, s, at);
  }

  // ---------------------------------------------------------------------
  // Colour

  const Black: string := "#000000"

  /** `v ?? '#000000'`. */
  function ColourToInternal(v: Value): Value {
    if IsNullish(v) then Str(Black) else v
  }

  /** The colour input: `'#000000'` is both the empty sentinel and the
      default, an absent value reads as black, the delay defaults to 250 ms,
      and neither a validator nor `validateImmediately` is forwarded. */
  function ColourConfig(p: Common): (c: Config)
    ensures c.emptyValue == Black && c.validator.None? && !c.validateImmediately
    ensures p.inputDelay.None? ==> Wait(c) == 250
    ensures p.defaultValue.Undefined? ==> c.defaultValue == Str(Black)
  {
    FromCommon(p).(
      emptyValue := Black,
      defaultValue := if p.defaultValue.Undefined? then Str(Black) else p.defaultValue,
      toString := StringToString, toInternal := ColourToInternal,
      validator := None, validateImmediately := false,
      inputDelay := p.inputDelay.GetOr(250))
  }

  /** An absent colour is shown as black. */
  lemma AbsentColourShowsBlack(p: Common, v: Value)
    requires IsNullish(v)
    ensures ColourConfig(p).toString(ColourConfig(p).toInternal(v)) == Black
  {
  }

  /** Mounting an untouched colour input over an absent field commits the
      default (black when none was given). */
  lemma ColourMountCommitsDefault(p: Common, s: Store, at: Slot)
    requires at.formId != "" && at.name != ""
    requires IsNullish(FieldValue(s, at))
    requires !IsNullish(ColourConfig(p).defaultValue)
    ensures var c := ColourConfig(p);
      FieldValue(Mount(c, Fresh(c, Black), s, at).1, at) == c.defaultValue
  {
    var c := ColourConfig(p);
    assert Reconcile(c, Fresh(c, Black), s, at).0.display == Black;
  }

  // ---------------------------------------------------------------------
  // Two-part values

  /** The parser the time and week inputs share: the text splits on `sep`,
      and exactly two parts give a record of their two `parseInt`s under
      `first` and `second`; any other text gives null. */
  function PairParser(t: string, sep: string, first: string, second: string): (r: Value)
    requires |sep| > 0 && first != second
    ensures |Split(t, sep)| != 2 <==> r.Null?
    ensures !r.Null? ==>
      Prop(r, first) == ParseNum(Split(t, sep)[0]) && Prop(r, second) == ParseNum(Split(t, sep)[1])
  {
    var parts := Split(t, sep);
    if |parts| != 2 then Null
    else
      var ms := [Member(first, ParseNum(parts[0])), Member(second, ParseNum(parts[1]))];
      assert ms[1..] == [ms[1]] && Lookup(ms[1..], second) == ms[1].val;
      Obj(ms)
  }

  // ---------------------------------------------------------------------
  // Time

  /** `{hour, minute}` as the time input stores it. */
  function TimeOf(hour: int, minute: int): Value {
    Obj([Member("hour", Num(hour)), Member("minute", Num(minute))])
  }

  /** The time text splits on `':'` into hour and minute. */
  function TimeParser(t: string): Value {
    PairParser(t, ":", "hour", "minute")
  }

  /** `''` for a falsy value, otherwise the unpadded `hour:minute`. */
  function TimeToString(v: Value): string {
    if !Truthy(v) then "" else Text(Prop(v, "hour")) + ":" + Text(Prop(v, "minute"))
  }

  /** `v ?? null`. */
  function NullIfAbsent(v: Value): Value {
    if IsNullish(v) then Null else v
  }

  /** Hour and minute compare with `===`; `?.` reads undefined from null. */
  predicate TimeComparisor(a: Value, b: Value) {
    StrictEquals(Prop(a, "hour"), Prop(b, "hour")) && StrictEquals(Prop(a, "minute"), Prop(b, "minute"))
  }

  /** `!v?.hour || !v?.minute`: a missing, NaN or zero hour or minute makes
      the input partial. */
  predicate TimeIsPartialAsWritten(v: Value) {
    !Truthy(Prop(v, "hour")) || !Truthy(Prop(v, "minute"))
  }

  /** The evidently intended test: the input is partial when it did not
      parse into two numbers. */
  predicate TimeIsIncomplete(v: Value) {
    !(Prop(v, "hour").Num? && Prop(v, "minute").Num?)
  }

  function TimeConfigWith(p: Common, isPartial: Value -> bool): Config {
    FromCommon(p).(
      parser := TimeParser, toString := TimeToString, toInternal := NullIfAbsent,
      comparisor := TimeComparisor, isPartial := Some(isPartial))
  }

  /** The time input as written. */
  function TimeConfigAsWritten(p: Common): (c: Config)
    ensures c.isPartial == Some(TimeIsPartialAsWritten) && c.parser == TimeParser
  {
    TimeConfigWith(p, TimeIsPartialAsWritten)
  }

  /** The time input with the intended partial-input test. */
  function TimeConfig(p: Common): (c: Config)
    ensures c.isPartial == Some(TimeIsIncomplete) && c.parser == TimeParser
  {
    TimeConfigWith(p, TimeIsIncomplete)
  }

  /** Printing a time and parsing the text gives the time back. */
  lemma TimeRoundTrip(hour: int, minute: int)
    ensures TimeParser(TimeToString(TimeOf(hour, minute))) == TimeOf(hour, minute)
  {
    var h := IntToString(hour);
    var m := IntToString(minute);
    PairProps("hour", Num(hour), "minute", Num(minute));
    assert TimeToString(TimeOf(hour, minute)) == h + ":" + m;
    IntToStringLacks(hour, ':');
    IntToStringLacks(minute, ':');
    SplitTwo(h, ":", m);
    ParseNumOfIntToString(hour);
    ParseNumOfIntToString(minute);
  }

  /** The intended test accepts every time of day and every parsed pair of
      numbers, and rejects text that did not split in two or whose parts
      are not numbers. */
  lemma TimeIsIncompleteMeans(t: string)
    ensures var parts := Split(t, ":");
      TimeIsIncomplete(TimeParser(t)) <==>
        |parts| != 2 || ParseInt(parts[0]).None? || ParseInt(parts[1]).None?
  {
    var parts := Split(t, ":");
    if |parts| == 2 {
      PairProps("hour", ParseNum(parts[0]), "minute", ParseNum(parts[1]));
    }
  }

  lemma TimeOfIsComplete(hour: int, minute: int)
    ensures !TimeIsIncomplete(TimeOf(hour, minute))
  {
    PairProps("hour", Num(hour), "minute", Num(minute));
  }

  /** As written, every whole hour and every time in the hour after
      midnight is partial. */
  lemma ZeroFieldIsPartialAsWritten(hour: int, minute: int)
    requires hour == 0 || minute == 0
    ensures TimeIsPartialAsWritten(TimeOf(hour, minute))
    ensures !TimeIsIncomplete(TimeOf(hour, minute))
  {
    PairProps("hour", Num(hour), "minute", Num(minute));
  }

  /** The browser's text for ten o'clock parses to hour 10, minute 0. */
  lemma TenOClock()
    ensures TimeParser("10:00") == TimeOf(10, 0)
  {
    assert "10:00" == "10" + ":" + "00";
    SplitTwo("10", ":", "00");
    ParseTen();
    ParseDoubleZero();
  }

  lemma ParseTen()
    ensures ParseNum("10") == Num(10)
  {
    assert NatToString(10) == NatToString(1) + [DigitChar(0)] == "10";
    ParseIntOfNatToString(10);
  }

  lemma ParseDoubleZero()
    ensures ParseNum("00") == Num(0)
  {
    assert TrimStart("00") == "00";
    LeadingDigitsOfDigits("00");
    assert DigitsValue("00") == DigitsValue("0") * 10 + 0;
  }

  /** Choosing 10:00 in the input as written stores null in place of the
      time and leaves the binding's value alone. */
  lemma TenOClockIsLostAsWritten(p: Common, b: Binding, s: Store, at: Slot)
    requires !p.disabled
    ensures var r := OnChange(TimeConfigAsWritten(p), b, s, at, "10:00");
      r.0.mirror == b.mirror && r.1 == UpdateField(s, at.formId, at.name, Null, None, true)
  {
    TenOClock();
    PairProps("hour", Num(10), "minute", Num(0));
    assert TimeIsPartialAsWritten(TimeConfigAsWritten(p).parser("10:00"));
  }

  /** With the intended test, choosing any time takes it as the value. */
  lemma TimeIsTaken(p: Common, b: Binding, s: Store, at: Slot, hour: int, minute: int)
    requires !p.disabled
    ensures var r := OnChange(TimeConfig(p), b, s, at, TimeToString(TimeOf(hour, minute)));
      r.0.mirror == TimeOf(hour, minute)
  {
    var c := TimeConfig(p);
    var text := TimeToString(TimeOf(hour, minute));
    TimeRoundTrip(hour, minute);
    TimeOfIsComplete(hour, minute);
    assert c.parser(text) == TimeOf(hour, minute);
    assert !(c.isPartial.Some? && c.isPartial.value(c.parser(text)));
  }

  // ---------------------------------------------------------------------
  // Week

  /** `{year, week}` as the week input stores it. */
  function WeekOf(year: int, week: int): Value {
    Obj([Member("year", Num(year)), Member("week", Num(week))])
  }

  /** The week text splits on `'-W'` into year and week. */
  function WeekParser(t: string): Value {
    PairParser(t, "-W", "year", "week")
  }

  function WeekToString(v: Value): string {
    if Truthy(v) then Text(Prop(v, "year")) + "-W" + Text(Prop(v, "week")) else ""
  }

  predicate WeekComparisor(a: Value, b: Value) {
    StrictEquals(Prop(a, "year"), Prop(b, "year")) && StrictEquals(Prop(a, "week"), Prop(b, "week"))
  }

  /** `!v?.year || !v?.week`; weeks are numbered from 1. */
  predicate WeekIsPartial(v: Value) {
    !Truthy(Prop(v, "year")) || !Truthy(Prop(v, "week"))
  }

  /** The week input: no validator and no `validateImmediately` reach the
      binding, and the delay defaults to 250 ms. */
  function WeekConfig(p: Common): (c: Config)
    ensures c.validator.None? && !c.validateImmediately && c.emptyValue == ""
    ensures p.inputDelay.None? ==> Wait(c) == 250
  {
    FromCommon(p).(
      parser := WeekParser, toString := WeekToString, toInternal := NullIfAbsent,
      comparisor := WeekComparisor, isPartial := Some(WeekIsPartial),
      validator := None, validateImmediately := false,
      inputDelay := p.inputDelay.GetOr(250))
  }

  /** Printing a week of a non-negative year and parsing the text gives the
      week back. */
  lemma WeekRoundTrip(year: nat, week: nat)
    ensures WeekParser(WeekToString(WeekOf(year, week))) == WeekOf(year, week)
  {
    var y := IntToString(year);
    var w := IntToString(week);
    PairProps("year", Num(year), "week", Num(week));
    assert WeekToString(WeekOf(year, week)) == y + "-W" + w;
    IntToStringLacks(year, '-');
    IntToStringLacks(week, '-');
    SplitTwo(y, "-W", w);
    ParseNumOfIntToString(year);
    ParseNumOfIntToString(week);
  }

  /** A stored week of positive numbers reconciles once and then stays put. */
  lemma WeekReconcileSettles(p: Common, b: Binding, s: Store, at: Slot, year: int, week: int)
    requires at.formId != "" && at.name != ""
    requires FieldValue(s, at) == WeekOf(year, week) || IsNullish(FieldValue(s, at))
    ensures var c := WeekConfig(p);
      var r := Reconcile(c, b, s, at);
      Reconcile(c, r.0, r.1, at) == r
  {
    ReconcileSettles(WeekConfig(p), b, s, at);
  }

  // ---------------------------------------------------------------------
  // Month, date and date-time

  /** A date widget's value: undefined, null, or a Date. Other values would
      make its printer throw. */
  predicate DateValue(v: Value) {
    IsNullish(v) || v.DateObj?
  }

  /** `!v || Number.isNaN(v.valueOf())`. */
  predicate DateIsPartial(v: Value) {
    !Truthy(v) || v == DateObj(InvalidDate)
  }

  /** Absent or invalid dates become null. */
  function DateToInternal(v: Value): (r: Value)
    ensures DateValue(v) ==> (r.Null? <==> DateIsPartial(v))
    ensures DateValue(v) && !DateIsPartial(v) ==> r == v
  {
    if DateIsPartial(v) then Null else v
  }

  /** `new Date(text)` given the date parser, which is not modelled: a Date
      is never null (`Number.isNaN` of a Date object is false), so bad text
      yields an Invalid Date. */
  function DateParser(parse: string -> JsDate, t: string): (r: Value)
    ensures r.DateObj? && (DateIsPartial(r) <==> parse(t).InvalidDate?)
  {
    DateObj(parse(t))
  }

  datatype Getter = FullYear | Month

  /** `v?.getFullYear()` or `v?.getMonth()`: undefined for null or
      undefined, NaN on an Invalid Date. */
  function DateGetter(v: Value, get: Getter): Value {
    match v
    case DateObj(DateAt(y, m, _, _, _, _, _)) => Num(if get == FullYear then y else m)
    case DateObj(InvalidDate) => NaN
    case _ => Undefined
  }

  function PadMonth(month: int): (r: string)
    ensures month < 10 ==> r == "0" + IntToString(month)
    ensures month >= 10 ==> r == IntToString(month)
  {
    PadDate(month)
  }

  /** A month number, 1 to 12, pads to two digits that `parseInt` reads
      back; from ten on the padding is the plain number, whose template
      text is the same whether `padMonth` returned a string or a number. */
  lemma PadMonthRoundTrip(month: int)
    requires 1 <= month <= 12
    ensures |PadMonth(month)| == 2 && AllDigits(PadMonth(month))
    ensures ParseInt(PadMonth(month)) == Some(month)
  {
    PadDateRoundTrip(month);
  }

  /** `year-MM` of a valid date, `''` otherwise. */
  function MonthToString(v: Value): string {
    if DateIsPartial(v) || !v.DateObj? then ""
    else IntToString(v.date.year) + "-" + PadMonth(v.date.month + 1)
  }

  /** Year and month compare with `===`; the day is ignored. */
  predicate MonthComparisor(a: Value, b: Value) {
    StrictEquals(DateGetter(a, FullYear), DateGetter(b, FullYear)) &&
    StrictEquals(DateGetter(a, Month), DateGetter(b, Month))
  }

  function MonthConfig(p: Common, parse: string -> JsDate): (c: Config)
    ensures c.isPartial == Some(DateIsPartial) && c.toInternal == DateToInternal
  {
    FromCommon(p).(
      parser := t => DateParser(parse, t), toString := MonthToString, toInternal := DateToInternal,
      comparisor := MonthComparisor, isPartial := Some(DateIsPartial))
  }

  /** The month comparison holds between two valid dates exactly when their
      year and month agree, between two absent values, and never when one
      side is invalid or only one is absent. */
  lemma MonthComparisorMeans(a: Value, b: Value)
    requires DateValue(a) && DateValue(b)
    ensures a.DateObj? && a.date.DateAt? && b.DateObj? && b.date.DateAt? ==>
      (MonthComparisor(a, b) <==> a.date.year == b.date.year && a.date.month == b.date.month)
    ensures IsNullish(a) && IsNullish(b) ==> MonthComparisor(a, b)
    ensures a == DateObj(InvalidDate) || b == DateObj(InvalidDate) ==> !MonthComparisor(a, b)
    ensures IsNullish(a) != IsNullish(b) ==> !MonthComparisor(a, b)
  {
  }

  /** Values the month comparison cannot tell apart print the same. */
  lemma MonthDisplayAgrees(a: Value, b: Value)
    requires DateValue(a) && DateValue(b) && MonthComparisor(a, b)
    ensures MonthToString(a) == MonthToString(b)
  {
  }

  /** A valid date prints as its year, a dash, and the 1-based month padded
      to two digits. */
  lemma MonthToStringOfDate(d: JsDate)
    requires d.DateAt? && 0 <= d.month < 12
    ensures MonthToString(DateObj(d)) == IntToString(d.year) + "-" + PadDate(d.month + 1)
    ensures |PadDate(d.month + 1)| == 2
  {
    if d.month + 1 >= 10 {
      assert NatToString(d.month + 1) == NatToString((d.month + 1) / 10) + [DigitChar((d.month + 1) % 10)];
    }
  }

  /** A store change reconciles once and then stays put. */
  lemma MonthReconcileSettles(p: Common, parse: string -> JsDate, b: Binding, s: Store, at: Slot)
    requires at.formId != "" && at.name != ""
    requires DateValue(FieldValue(s, at))
    ensures var c := MonthConfig(p, parse);
      var r := Reconcile(c, b, s, at);
      Reconcile(c, r.0, r.1, at) == r
  {
    ReconcileSettles(MonthConfig(p, parse), b, s, at);
  }

  /** `data?.valueOf() === value?.valueOf()`: two absent values, or two
      valid dates with one timestamp. */
  predicate SameTimestamp(a: Value, b: Value) {
    (IsNullish(a) && IsNullish(b)) ||
    (a.DateObj? && b.DateObj? && a.date.DateAt? && a.date == b.date)
  }

  /** `dateFormatter(v, format)`. */
  function DateToString(v: Value, format: string): string {
    if v.DateObj? then DateFormatter(Some(v.date), Some(format)) else ""
  }

  /** The date and date-time inputs, which differ only in the format. */
  function DateConfig(p: Common, parse: string -> JsDate, format: string): (c: Config)
    ensures c.isPartial == Some(DateIsPartial) && c.toInternal == DateToInternal
  {
    FromCommon(p).(
      parser := t => DateParser(parse, t), toString := v => DateToString(v, format),
      toInternal := DateToInternal, comparisor := SameTimestamp, isPartial := Some(DateIsPartial))
  }

  /** The date input prints the ISO calendar date. */
  lemma DateToStringOfDate(d: JsDate)
    requires d.DateAt? && d.year >= 0 && d.month >= 0 && d.day >= 0
    ensures DateToString(DateObj(d), IsoDateFormat) == IsoDate(d)
  {
    FormatIsoDate(d);
  }

  /** The date-time input prints the ISO date, `T`, and the 24-hour time. */
  lemma DateTimeToStringOfDate(d: JsDate)
    requires d.DateAt? && d.year >= 0 && d.month >= 0 && d.day >= 0 && d.hour >= 0 && d.minute >= 0
    ensures DateToString(DateObj(d), IsoDateTimeFormat) ==
      IsoDate(d) + "T" + PadDate(d.hour) + ":" + PadDate(d.minute)
  {
    FormatIsoDateTime(d);
  }

  /** Text that does not parse reaches the store as null, in place, and
      the binding keeps its value. */
  lemma BadDateTextIsPartial(p: Common, parse: string -> JsDate, format: string,
                             b: Binding, s: Store, at: Slot, t: string)
    requires !p.disabled && parse(t).InvalidDate?
    ensures var r := OnChange(DateConfig(p, parse, format), b, s, at, t);
      r.0.mirror == b.mirror && r.1 == UpdateField(s, at.formId, at.name, Null, None, true)
  {
  }

  /** A store change reconciles once and then stays put. */
  lemma DateReconcileSettles(p: Common, parse: string -> JsDate, format: string, b: Binding, s: Store, at: Slot)
    requires at.formId != "" && at.name != ""
    requires DateValue(FieldValue(s, at))
    ensures var c := DateConfig(p, parse, format);
      var r := Reconcile(c, b, s, at);
      Reconcile(c, r.0, r.1, at) == r
  {
    ReconcileSettles(DateConfig(p, parse, format), b, s, at);
  }
}
